=== FILE: README.md ===
# Rule-based SEO scoring, modelled in Dafny

This project models the rule-based scoring layer of the Amplify SEO analyser. Each analyzer is a deterministic function from a parsed page and its address to a result record. The record holds:

- booleans read off tag and attribute presence;
- counts;
- recommendations that fire on fixed thresholds in a fixed order;
- a score that is either a weighted sum of booleans or a clamped subtraction.

The parsed page is an immutable element tree (module `Dom`). Each element has a tag, attributes, its own text and its children. `find`, `find_all` and `get_text` are pure queries over that tree, and every regular expression of the source is an explicit predicate. Recommendation texts, which are fixed Russian sentences, are constructors of one datatype (`Recs`). Exceptions become `Result` failures. The modular analyzers, the data collector, and the synchronous content, technical and mobile analyzers wrap their work in a handler that turns an exception into an error record. The synchronous metadata analyzer (app/services/analyzer.py:529-581) has no such handler. The model keeps the error branch where the modelled code can fail: the technical, keyword and competitive analyzers, and the data collector. The modelled code of the content, metadata and mobile analyzers has no failure path, so their models have no error branch.

Two generations of analyzers are modelled side by side and never merged:

- **Modular analyzers** in `app/services/analyzers/`: meta data (`MetaAnalysis`, `MetaScoring`), content quality (`ContentAnalysis`), technical SEO (`TechnicalAnalysis`), mobile (`MobileAnalysis`), keywords (`KeywordAnalysis`) and the limited competitive analyzer (`CompetitiveAnalysis`).
- **The older synchronous layer** in `app/services/analyzer.py`: its own content, technical, mobile and meta analyzers. Where the two generations share code, one function takes a `Generation` argument (`Generations`). Where the formulas differ, each has its own function. The legacy merge of recommendations and the fallback `legacy_analyze_seo` rules are in `LegacyAnalysis` and `PageRules`.

Around the analyzers sit:

- the request handler rules of `app.py` (`AppRules`), with the PageSpeed result as an input;
- the page-extraction helpers of `app/data_collector.py` (`DataCollector`);
- the text utilities of `app/utils/__init__.py` (`TextUtils`);
- URL validation, normalisation and domain extraction (`UrlValidator`), over a model of `urllib.parse` (`Urls`);
- the content extractor of `app/utils/content_extractor.py` (`ContentExtractor`).

`Counter.most_common` and Python's `round` are modelled once each (`Freq`, `Numeric`). `seqs`, `strings` and `wrappers` hold generic helpers.

Every analyzer is modelled on its own page. The keyword analyzer removes scripts, styles, headers, footers and navigation from the page it is given, and the model applies that removal to a copy, so it does not leak into analyzers that run later on the same object.

## Model

| member | source | states |
|---|---|---|
| AppRules.WithoutScheme | app.py:35-47 | the address left once the scheme is removed never begins or ends with '/' |
| AppRules.ValidateUrl | app.py:29-56 | a failing first parse propagates; an https address is kept, with a verdict that says whether it has a host; any other address is rewritten to `https://` plus its scheme-less remainder, and the verdict is whether the rewritten address has a host |
| AppRules.ValidatedIsHttps | app.py:34-48 | every address the normaliser returns either starts with `https://` or parses with the https scheme |
| AppRules.ValidateUrlIdempotent | app.py:29-56 | normalising an already normalised address (one without surrounding whitespace) gives back the same pair |
| AppRules.AppResultOf | app.py:161-175 | the handler fails exactly when the title has no single string; otherwise the rule recommendations come first and the PageSpeed texts close the list; the title, H1 and description rules fire exactly when their conditions hold |
| AppRules.AnalyzeSeoAsWritten | app.py:115-175 | as written, the handler fails when the facts fail, then (before any PageSpeed check) when the title has no single string, then when PageSpeed data without an error lacks recommendations; on success the missing-description advice appears exactly when the description equals the title sentinel |
| AppRules.AnalyzeSeo | app.py:115-175 | the same order of failures: facts, then the title without a single string, then missing PageSpeed recommendations; on success the missing-description advice appears exactly when the description is the sentinel or shorter than 10 characters, the H1 advice exactly without an H1, the length advice exactly for a title over 60 characters, and a PageSpeed error text is the last recommendation |
| AppRules.AsWrittenDiffersOnlyInDescription | app.py:131-141 | the as-written and corrected handlers fail together and agree on everything except the missing-description advice, and the corrected one gives that advice whenever the as-written one does |
| AppRules.RulesWithoutDescription | app.py:131-141 | with the missing-description advice dropped, the five rules do not depend on the description rule |
| AppRules.EmptyDescriptionUnreported | app.py:121-135 | on an empty page the description is empty, yet as written no missing-description advice is given; the corrected rule gives it |
| PageRules.PageTitle | app.py:119 | a page without `<title>` gets the sentinel title; otherwise the title is the element's single string, absent when it has none |
| PageRules.PageDescription | app.py:120-121 | the description meta tag's `content` wins, even when empty; without it the description is "" with no paragraphs, the first paragraph's stripped text with one, and the first two joined by a space with more |
| PageRules.PageKeywords | app.py:122-123 | the keywords meta tag's `content` when the tag has one; otherwise the sentinel |
| PageRules.HeadingTexts | app.py:125-126 | the i-th text is the stripped text of the i-th heading element of the given tag, one per element |
| PageRules.ImagesWithoutAltCount | app.py:127 | the count is the number of positions of `img` elements whose `alt` is missing or empty: at most the number of images, zero exactly when every image has a non-empty `alt` |
| PageRules.InternalCount | app.py:128 | the count is the number of positions of hrefs that start with '/' |
| PageRules.ExternalCount | app.py:129 | counting fails exactly when `urlparse` rejects an href that does not start with '/'; otherwise it is the number of such hrefs with a host |
| PageRules.LinkCountsDisjoint | app.py:128-129 | no href is counted as both internal and external, so the two counts add up to at most the number of links |
| PageRules.LinkCountsPartition | app.py:128-129 | when counting succeeds, every href is internal, external or neither, so the internal count, the external count and the count of the rest add up to the number of links |
| PageRules.Facts | app.py:117-129 | gathering the facts fails exactly when an href defeats `urlparse`; otherwise the title, description and keywords are those read from the page, the H1 and H2 lists are the heading texts, the image count is the count of images without `alt`, and the internal and external counts are those of the page's hrefs |
| PageRules.HeadRules | app.py:132-137 | the title, description and keywords advice each appear exactly when their condition holds, and nothing else does |
| PageRules.BodyRules | app.py:138-141 | the H1 advice appears exactly without an H1, and the image advice exactly when some image lacks `alt`, carrying that count |
| PageRules.PageRecommendations | app.py:131-141 | `len(title)` raises exactly for a title without a single string; otherwise each of the five rules fires exactly when its condition holds, at most five messages in all |
| PageRules.SentinelTitleShort | app.py:119-133 | a page without a title element never gets the title-length advice |
| PageRules.AsList | app.py:165 | a list of PageSpeed texts is kept as is; a single text becomes a one-element list |
| PageRules.DefaultedPageSpeed | app/services/analyzer.py:1028 | an absent `recommendations` entry adds no PageSpeed advice |
| PageRules.ErrorFirstPageSpeed | app.py:144-147 | an error text is the only PageSpeed advice; without one an absent `recommendations` entry raises; every result is PageSpeed advice |
| MetaAnalysis.ContentOf | app/services/analyzers/meta_analyzer.py:221-222 | a tag's content is present exactly when the tag exists and carries a `content` attribute |
| MetaAnalysis.TitleLengthIssues | app/services/analyzers/meta_analyzer.py:123-129 | at most one length issue: none exactly for 10 to 60 characters, "too short" below 10, "too long" above 60 |
| MetaAnalysis.StuffedWord | app/services/analyzers/meta_analyzer.py:131-143 | a word is reported exactly when the text is stuffed, and it is a word of more than three characters occurring more often than the limit |
| MetaAnalysis.StuffedWordFirst | app/services/analyzers/meta_analyzer.py:136-143 | the reported word is the earliest qualifying one: no long word occurring more often than the limit comes before its first occurrence |
| MetaAnalysis.StuffingIssue | app/services/analyzers/meta_analyzer.py:131-143 | a stuffing issue is raised, at most once, exactly by the modular analyzer on a stuffed text, and names a repeated long word of the text |
| MetaAnalysis.BrandOf | app/services/analyzers/meta_analyzer.py:145-153 | a brand position is found exactly when the title holds one of the six separators; it is "prefix" exactly when the first separator present occurs within the first 20 characters |
| MetaAnalysis.TitleReport | app/services/analyzers/meta_analyzer.py:107-162 | a missing or empty title gives the fixed missing-title record; otherwise the length and stuffing issues in order; the title is optimised exactly without issues; at most two issues (one for the synchronous analyzer) |
| MetaAnalysis.DescriptionText | app/services/analyzers/meta_analyzer.py:166-173 | a non-empty meta description wins; otherwise the first two paragraphs stand in |
| MetaAnalysis.ParagraphsText | app/services/analyzers/meta_analyzer.py:171-173 | no paragraphs give no description; one gives its text; two or more give the first two texts joined by a space |
| MetaAnalysis.DescriptionLengthIssues | app/services/analyzers/meta_analyzer.py:186-192 | at most one length issue: none exactly for 50 to 160 characters, "too short" below 50, "too long" above 160 |
| MetaAnalysis.DescriptionReport | app/services/analyzers/meta_analyzer.py:164-217 | a missing description gives the fixed missing record; otherwise length then stuffing issues, and a call to action exactly when one of the eight verbs occurs; optimised exactly without issues |
| MetaAnalysis.KeywordList | app/services/analyzers/meta_analyzer.py:232 | one keyword per comma-separated piece (one more than the number of commas), each the stripped piece, in order |
| MetaAnalysis.DuplicateOverlaps | app/services/analyzers/meta_analyzer.py:250-255 | a keyword longer than five characters that appears twice is reported as overlapping |
| MetaAnalysis.KeywordIssues | app/services/analyzers/meta_analyzer.py:236-259 | too few below 3, too many above 10, too long when some keyword exceeds 30 characters, and overlap only in the modular analyzer when one keyword of more than 5 characters lies inside another |
| MetaAnalysis.KeywordsReport | app/services/analyzers/meta_analyzer.py:219-267 | missing keywords give the fixed missing record; otherwise the stripped list, its count and its issues; optimised exactly without issues |
| MetaAnalysis.Social | app/services/analyzers/meta_analyzer.py:269-345 | the family is present when any of its tags is and complete when all are; `missing` lists exactly the absent names, in order; the modular analyzer raises the incompleteness issue exactly for a present but incomplete family |
| MetaAnalysis.OpenGraphMissingInOrder | app/services/analyzers/meta_analyzer.py:285-295 | the missing Open Graph names are the absent properties in the order title, description, image, url, type: each name appears exactly when its tag is absent |
| MetaAnalysis.TwitterMissingInOrder | app/services/analyzers/meta_analyzer.py:324-333 | the missing Twitter names are the absent tags in the order card, title, description, image |
| MetaAnalysis.AnalyzeLanguage | app/services/analyzers/meta_analyzer.py:347-361 | `lang` is read from `<html>`; the page has a language exactly when it is non-empty; the settings are inconsistent exactly when both are given and differ |
| MetaAnalysis.HeaderCharset | app/services/analyzers/meta_analyzer.py:373-376 | a charset is read from the header value exactly when the value is non-empty and contains `charset=` |
| MetaAnalysis.HeaderCharsetText | app/services/analyzers/meta_analyzer.py:375-376 | the charset read is the stripped text between the first `charset=` and the next one, or the end |
| MetaAnalysis.AnalyzeCharset | app/services/analyzers/meta_analyzer.py:363-383 | a non-empty `<meta charset>` wins over the header charset; the page has a charset exactly when one of them is non-empty; UTF-8 is recognised in either |
| MetaAnalysis.AnalyzeIcons | app/services/analyzers/meta_analyzer.py:385-402 | a favicon exactly when some `link` has rel `icon` or `shortcut icon`; an Apple icon exactly for rel `apple-touch-icon`; the sizes are the `sizes` values of the icon links that have one, in order; multiple sizes exactly for more than one |
| MetaAnalysis.Assemble | app/services/analyzers/meta_analyzer.py:54-101 | the score and recommendations are those of the field issues and the four families; the score is 100 exactly when the keyword issues are all that is recommended |
| MetaScoring.MetaScore | app/services/analyzers/meta_analyzer.py:78-87 | the weighted score lies in 0..100 in steps of 5; it is 100 exactly when all six checks pass and 0 exactly when none does |
| MetaScoring.LegacyMetaScore | app/services/analyzer.py:565-570 | the subtractive score lies in 0..100 in steps of 20; 100 exactly without title or description issues and with Open Graph tags; at least 40 when each field has at most one issue; 0 exactly for five or more deductions |
| MetaScoring.Suggestions | app/services/analyzers/meta_analyzer.py:66-76 | one suggestion exactly for each absent family, and none when all are present |
| MetaScoring.Recommendations | app/services/analyzers/meta_analyzer.py:54-76 | the field issues come first in order, then the suggestions for absent families and nothing else; the list is just the issues exactly when every family is present |
| MetaScoring.PerfectScoreIff | app/services/analyzers/meta_analyzer.py:54-87 | a score of 100 goes with recommendations that are exactly the keyword issues, and the other way round |
| LegacyAnalysis.MetaReportOf | app/services/analyzer.py:547-581 | the synchronous report keeps its parts; its score lies in 40..100 and is 100 exactly without title or description issues and with Open Graph tags; the field issues lead the recommendations; only Open Graph and Twitter are suggested |
| LegacyAnalysis.LegacyFieldIssues | app/services/analyzer.py:583-704 | the synchronous title, description and keyword checks raise only field issues, at most one each for title and description |
| LegacyAnalysis.MetaAnalyze | app/services/analyzer.py:529-581 | the synchronous metadata report on a page carries the page's title, description and social analyses, scored and advised as above |
| LegacyAnalysis.MetaFromTexts | app/services/analyzer.py:529-581 | the same report built from the title, description and keyword texts |
| LegacyAnalysis.TechnicalRecommendations | app/services/analyzer.py:880-882 | an error record contributes no recommendations; a report contributes its own |
| LegacyAnalysis.Merged | app/services/analyzer.py:869-889 | the merged list is, slice by slice in this order, the metadata, content, technical, mobile and PageSpeed recommendations, and nothing else |
| LegacyAnalysis.MergedTechnical | app/services/analyzer.py:869-889 | a technical error record adds nothing between the content and mobile advice, and a message is merged exactly when one of the five parts carries it |
| LegacyAnalysis.EnhancedResult | app/services/analyzer.py:891-939 | the title, description and keywords come from the metadata report when truthy, otherwise the sentinel title, "" and the sentinel keywords; the title is never empty; the counts are passed through |
| LegacyAnalysis.EnhancedOf | app/services/analyzer.py:896-939 | the enhanced result fails exactly when `urlparse` rejects an href in the external count; otherwise the internal count is that of root-relative hrefs and the external count that of the other hrefs with a host, together at most the number of links |
| LegacyAnalysis.Enhanced | app/services/analyzer.py:842-939 | the enhanced analysis fails exactly for an href `urlparse` rejects; otherwise it carries the four reports, a non-empty title, the merged recommendations with the defaulted PageSpeed texts, the page's H1 and H2 texts, its count of images without `alt` and its internal and external link counts |
| LegacyAnalysis.Fallback | app/services/analyzer.py:985-1058 | the synchronous fallback fails exactly when the facts do or the title has no string; otherwise the title-length, description (sentinel-or-short), keywords, H1 and image-alt advice each appear exactly on their conditions, the page's counts and heading texts are carried, and the PageSpeed texts close the list |
| LegacyAnalysis.FallbackOf | app/services/analyzer.py:1003-1028 | from the page facts: fails exactly without a title string; otherwise the facts are carried, each of the five rules fires exactly on its condition, and the defaulted PageSpeed texts close the list |
| LegacyAnalysis.AnalyzeSeoWith | app/services/analyzer.py:841-945 | a successful enhanced analysis is the answer; a failing one hands over to the fallback |
| LegacyAnalysis.FallbackNeverRescues | app/services/analyzer.py:941-945 | the fallback never rescues: the answer is always the enhanced analysis, raising or not |
| TechnicalAnalysis.Canonical | app/services/analyzers/technical_analyzer.py:119-137 | a canonical link exists exactly when the page has one, its URL is then present, and the page is self-canonical exactly when that URL equals the page URL |
| TechnicalAnalysis.SelfCanonicalIff | app/services/analyzers/technical_analyzer.py:121-131 | self-canonical exactly when the first canonical link's `href` (default "") equals the page URL |
| TechnicalAnalysis.Directives | app/services/analyzers/technical_analyzer.py:149-150 | one directive per comma-separated piece, at least one, each the stripped piece |
| TechnicalAnalysis.DirectivesClean | app/services/analyzers/technical_analyzer.py:150 | no directive contains a comma or begins or ends with whitespace |
| TechnicalAnalysis.Robots | app/services/analyzers/technical_analyzer.py:139-157 | the directives and the noindex/nofollow flags exist exactly when the robots tag does; noindex (nofollow) holds exactly when that word is a directive |
| TechnicalAnalysis.DirectiveIff | app/services/analyzers/technical_analyzer.py:150-156 | a word is a directive exactly when some comma-separated piece strips to it |
| TechnicalAnalysis.UrlIssues | app/services/analyzers/technical_analyzer.py:159-183 | each URL issue is reported exactly when its condition holds: an uppercase letter, a character outside `[a-zA-Z0-9/-]`, `--`, more than 100 characters, and (modular only) a query |
| TechnicalAnalysis.UrlIssuesGenerations | app/services/analyzers/technical_analyzer.py:180-182 | the modular issues are the synchronous ones plus the query issue when there is a query |
| TechnicalAnalysis.PlainPathIsClean | app/services/analyzer.py:311-325 | a short path of lower-case letters, digits, '/' and single '-' has no issue |
| TechnicalAnalysis.AnalyzeUrl | app/services/analyzers/technical_analyzer.py:159-194 | the URL is optimised exactly without issues; only the modular report carries the query |
| TechnicalAnalysis.Hreflang | app/services/analyzers/technical_analyzer.py:196-222 | the modular check raises exactly when hreflang links exist and the page has no `<html>`; otherwise one non-empty language per hreflang link |
| TechnicalAnalysis.SelfReferenceIff | app/services/analyzers/technical_analyzer.py:212-215 | the missing self-reference issue is raised exactly when there are hreflang links, the page `lang` is non-empty and it is not among the languages |
| TechnicalAnalysis.LegacyHreflangSucceeds | app/services/analyzer.py:333-350 | the synchronous hreflang check never raises and reports no issue |
| TechnicalAnalysis.FirstTypeFrom | app/services/analyzers/technical_analyzer.py:238-240 | a type is found exactly when some position from here on matches `"@type" : "…"`, and it is a non-empty run without quotes |
| TechnicalAnalysis.JsonLdType | app/services/analyzers/technical_analyzer.py:238-240 | the JSON-LD type is found exactly when the script text matches the pattern somewhere, and is a non-empty run without quotes |
| TechnicalAnalysis.JsonLdTypeLeading | app/services/analyzers/technical_analyzer.py:238-240 | a script text that starts with `"@type":"t"` for a quote-free non-empty t gives the type t, whatever follows |
| TechnicalAnalysis.MicrodataType | app/services/analyzers/technical_analyzer.py:242-247 | a microdata type is found exactly when `itemtype` contains `schema.org/` and what follows its first occurrence strips to a non-empty text, which is then the type |
| TechnicalAnalysis.Schema | app/services/analyzers/technical_analyzer.py:224-254 | schema markup exists exactly when some JSON-LD script or microdata element does; the counts are theirs; the detected types are non-empty, at most one per element, and none in the synchronous analyzer |
| TechnicalAnalysis.TypesNeedMarkup | app/services/analyzer.py:352-364 | detected types imply markup, and both generations agree on whether there is markup |
| TechnicalAnalysis.HasSitemapLink | app/services/analyzers/technical_analyzer.py:256-263 | a sitemap link exists exactly when some anchor's `href` contains `sitemap.xml` |
| TechnicalAnalysis.ScriptScore | app/services/analyzers/technical_analyzer.py:282-283 | the script score lies in 0..100; it is 100 exactly when the optimised count reaches the script count (at least 1), and 0 exactly without optimised scripts |
| TechnicalAnalysis.OptimizationScore | app/services/analyzers/technical_analyzer.py:285-289 | the optimisation score lies in 0..100, is 100 with hints, lazy loading and a full script score, at least 40 with hints and at most 40 without hints or lazy loading |
| TechnicalAnalysis.Loading | app/services/analyzers/technical_analyzer.py:265-305 | the report is built from the page's preload, prefetch and dns-prefetch links, its scripts with `src` and its `loading="lazy"` elements: the hint counts and the lazy count are their numbers, async and defer count the scripts with each attribute, both scores lie in 0..100, and hints guarantee at least 40 |
| TechnicalAnalysis.LoadingOf | app/services/analyzers/technical_analyzer.py:280-305 | hints exist exactly when some hint link does, lazy loading exactly with a lazy element; the overall score is the rounded sum of 40 for hints, 0.4 times the script share and 20 for lazy loading |
| TechnicalAnalysis.ScriptInfoOf | app/services/analyzers/technical_analyzer.py:273-283 | the total counts the scripts, async and defer the scripts with each attribute (a script with both is optimised twice), and the score is the rounded capped share of optimised scripts |
| TechnicalAnalysis.RoundedScriptScore | app/services/analyzers/technical_analyzer.py:283-300 | the rounded script share lies in 0..100, is 100 when every script is optimised and 0 when none is |
| TechnicalAnalysis.LoadingAllOptimized | app/services/analyzers/technical_analyzer.py:273-283 | when every external script is async or deferred, the script score is 100 |
| TechnicalAnalysis.LoadingNoneOptimized | app/services/analyzers/technical_analyzer.py:273-283 | when no external script is async or deferred, the script score is 0 |
| TechnicalAnalysis.Classify | app/services/analyzers/technical_analyzer.py:331-348 | fragment and `javascript:` links are skipped; classification fails exactly when an absolute link's host does not parse or `urljoin` raises on a relative href; a link is external exactly when it is absolute with another host, and internal exactly otherwise, with the joined address as target |
| TechnicalAnalysis.RelativeHrefRaises | app/services/analyzers/technical_analyzer.py:346-348 | a relative href with an unbalanced bracket in its host part, such as `ftp://[x`, makes classification fail |
| TechnicalAnalysis.ClassifyAll | app/services/analyzers/technical_analyzer.py:325-348 | classification fails exactly when some link's does; otherwise every non-skipped link lands in one of the two lists, and the external ones are absolute hrefs of the page |
| TechnicalAnalysis.Orphans | app/services/analyzers/technical_analyzer.py:351-359 | a heading is orphaned exactly when no link's text contains its text |
| TechnicalAnalysis.LinkScore | app/services/analyzers/technical_analyzer.py:362-370 | the link score lies in 0..100 in steps of 20; it is 100 exactly with three unique internal links, an external link and no orphan; it is at least 60 exactly with three unique internal links |
| TechnicalAnalysis.DistinctCount | app/services/analyzers/technical_analyzer.py:362 | the number of distinct links, `len(set(...))`: at most the number of links and at least one when there are links |
| TechnicalAnalysis.LinkStats | app/services/analyzers/technical_analyzer.py:362-383 | the counts are the list lengths; unique internal links are the distinct internal links; sufficiency means three of them; the score is 100 exactly with three distinct internal links, an external link and no orphan |
| TechnicalAnalysis.InternalLinks | app/services/analyzers/technical_analyzer.py:319-383 | fails exactly when some href fails to classify; otherwise the internal and external counts are the numbers of hrefs classified each way, unique internal links are the distinct joined internal targets, and the orphans are those of the h2 and h3 headings |
| TechnicalAnalysis.LinksPartition | app/services/analyzers/technical_analyzer.py:328-348 | internal and external links together are exactly the non-skipped anchors |
| TechnicalAnalysis.TechnicalScore | app/services/analyzers/technical_analyzer.py:90-99 | the weighted score lies in 0..100 for sub-scores in range; it is 100 when everything passes and 0 when nothing does |
| TechnicalAnalysis.TechnicalScoreMonotone | app/services/analyzers/technical_analyzer.py:90-99 | passing more checks or raising a sub-score never lowers the score |
| TechnicalAnalysis.LegacyTechnicalScore | app/services/analyzer.py:258 | with at most four recommendations the score lies in 0..100, and it is 100 exactly without recommendations |
| TechnicalAnalysis.BaseRecommendations | app/services/analyzers/technical_analyzer.py:66-78 | canonical, robots, URL and schema advice each appear exactly when their check fails, and nothing else does |
| TechnicalAnalysis.ExtraRecommendations | app/services/analyzers/technical_analyzer.py:80-87 | resource-hint, HTTPS and heading-link advice each appear exactly when their check fails |
| TechnicalAnalysis.ExtrasAreNew | app/services/analyzers/technical_analyzer.py:80-87 | the modular additions are only the three new messages |
| TechnicalAnalysis.Assemble | app/services/analyzers/technical_analyzer.py:66-113 | the score lies in 0..100; the four shared messages lead the list; the synchronous report is scored 100 exactly when nothing is recommended |
| TechnicalAnalysis.AssembleHttps | app/services/analyzers/technical_analyzer.py:83-84 | the HTTPS advice appears exactly in a modular report for a non-https page |
| TechnicalAnalysis.AnalyzeFailsIff | app/services/analyzers/technical_analyzer.py:32-117 | the analysis returns its error record exactly when the URL does not parse, the hreflang check raises, or (modular) a link's host does not parse |
| TechnicalAnalysis.AnalyzeScoreBounds | app/services/analyzers/technical_analyzer.py:90-111 | every report's score lies in 0..100, and a synchronous report scores 100 exactly when it recommends nothing |
| TechnicalAnalysis.AnalyzeParts | app/services/analyzers/technical_analyzer.py:32-113 | a successful analysis is the report assembled from the page's canonical, robots, URL, hreflang, schema and sitemap checks, plus loading, security and links for the modular one |
| TechnicalAnalysis.HttpsRecommendationIff | app/services/analyzers/technical_analyzer.py:307-317 | the HTTPS advice appears exactly when the modular analyzer sees a scheme other than https |
| TechnicalAnalysis.LegacyRecommendationsPrefix | app/services/analyzer.py:237-249 | for a URL without a query, the synchronous recommendations are a prefix of the modular ones |
| KeywordAnalysis.ListedKeywords | app/services/analyzers/keyword_analyzer.py:91-93 | every listed keyword is non-empty, stripped, lower-case and free of commas |
| KeywordAnalysis.ListedKeywordsOfJoin | app/services/analyzers/keyword_analyzer.py:91-93 | listing the comma-join of clean keywords gives the same keywords back |
| KeywordAnalysis.ListedKeywordsIdempotent | app/services/analyzers/keyword_analyzer.py:91-93 | listing is idempotent: joining the list with commas and listing again changes nothing |
| KeywordAnalysis.DescriptionWords | app/services/analyzers/keyword_analyzer.py:96-100 | each word token of the lower-cased description occurs in the result as often as in the tokens when it is longer than three characters and not a stop word, and never otherwise |
| KeywordAnalysis.AppendWordsSpec | app/services/analyzers/keyword_analyzer.py:103-105 | the listed keywords stay a prefix; each added word comes from the description, is not contained in any earlier keyword, and every description word ends up contained in some keyword |
| KeywordAnalysis.AppendWordsSnoc | app/services/analyzers/keyword_analyzer.py:103-105 | handling one more description word appends it exactly when it is neither a collected keyword nor contained in one, and otherwise leaves the list alone |
| KeywordAnalysis.AppendWordsLoop | app/services/analyzers/keyword_analyzer.py:103-105 | the append agrees with the source's loop run over the description words from first to last |
| KeywordAnalysis.LongerWordAppended | app/services/analyzers/keyword_analyzer.py:103-105 | a description word that contains an earlier one is still appended: with nothing listed, "abcd" then "abcde" gives both |
| KeywordAnalysis.ExtractMetaKeywords | app/services/analyzers/keyword_analyzer.py:80-111 | the page has meta keywords exactly when a keywords meta tag exists; the count is the list length; the list is the listed keywords followed by the description words not already covered, and it is exactly what the source's loop builds from the listed keywords and the description words in order |
| KeywordAnalysis.NothingListed | app/services/analyzers/keyword_analyzer.py:91-100 | empty keywords and description contents give no keywords at all |
| KeywordAnalysis.Stripped | app/services/analyzers/keyword_analyzer.py:116-117 | no script, style, noscript, iframe, header, footer or nav element is left; every other child is kept in order with its tag and attributes, cleaned the same way; a page without those elements is unchanged |
| KeywordAnalysis.PageText | app/services/analyzers/keyword_analyzer.py:113-125 | the page text has single spaces as its only whitespace, and has the same words (and the same non-space characters) as the stripped page's `get_text(" ", strip=True)` |
| KeywordAnalysis.DetectSpec | app/services/analyzers/keyword_analyzer.py:127-151 | every detected keyword is a counted token longer than three characters and not a stop word; its count is its number of occurrences and its density lies in 0..100 |
| KeywordAnalysis.DetectOrder | app/services/analyzers/keyword_analyzer.py:139-146 | detected keywords are distinct and ordered by count, ties broken by first occurrence, as `Counter.most_common` orders them |
| KeywordAnalysis.DetectRanked | app/services/analyzers/keyword_analyzer.py:142 | a token left out is outnumbered by every detected keyword, and with at most ten distinct tokens none is left out |
| KeywordAnalysis.DetectDensityOrdered | app/services/analyzers/keyword_analyzer.py:146-151 | densities never increase along the detected list |
| KeywordAnalysis.Primary | app/services/analyzers/keyword_analyzer.py:161 | the primary keywords are the first n detected keywords (all of them when there are fewer), in order |
| KeywordAnalysis.InZone | app/services/analyzers/keyword_analyzer.py:167-189 | a primary keyword is found in a zone exactly when the zone text contains it |
| KeywordAnalysis.InSomeZone | app/services/analyzers/keyword_analyzer.py:177-194 | a primary keyword is found in the H2s or alt texts exactly when one of them contains it |
| KeywordAnalysis.PlacementScore | app/services/analyzers/keyword_analyzer.py:197-215 | the rounded weighted placement score lies in 0..100 and is 0 without primary keywords |
| KeywordAnalysis.PlacementFull | app/services/analyzers/keyword_analyzer.py:197-215 | the score is 100 exactly when every primary keyword is found in every zone |
| KeywordAnalysis.PlacementEmpty | app/services/analyzers/keyword_analyzer.py:197-215 | the score is 0 exactly when no primary keyword is found in any zone |
| KeywordAnalysis.AnalyzePlacement | app/services/analyzers/keyword_analyzer.py:158-243 | each zone lists exactly the primary keywords its text contains (title, first H1, any H2, `og:url`, first paragraph, any alt text); the score lies in 0..100 and is 0 without keywords |
| KeywordAnalysis.PlacementFullIff | app/services/analyzers/keyword_analyzer.py:197-242 | the page's placement score is 100 exactly when there are keywords and every zone holds all primary ones |
| KeywordAnalysis.PlacementEmptyIff | app/services/analyzers/keyword_analyzer.py:197-242 | with keywords detected, the placement score is 0 exactly when every zone is empty |
| KeywordAnalysis.Chunks | app/services/analyzers/keyword_analyzer.py:258-262 | the chunks concatenate back to the text, all have the chunk size except possibly the last, none is empty, and there are none for empty text |
| KeywordAnalysis.Sections | app/services/analyzers/keyword_analyzer.py:254-262 | the text splits on ". " when that gives at least three sections, otherwise into chunks of a third of its length; empty text has no sections |
| KeywordAnalysis.SectionsCoverText | app/services/analyzers/keyword_analyzer.py:254-262 | the sections put back together (joined by ". ", or concatenated for chunks) give the text |
| KeywordAnalysis.SectionCountsJoin | app/services/analyzers/keyword_analyzer.py:266-270 | the per-section counts of pieces joined by ". " add up to the whole-word occurrences of the keyword in the joined text |
| KeywordAnalysis.SectionCountsTotal | app/services/analyzers/keyword_analyzer.py:253-270 | when the text splits into at least three ". " sections, the per-section counts add up to the keyword's whole-word occurrences in the text |
| KeywordAnalysis.KeywordSpread | app/services/analyzers/keyword_analyzer.py:266-278 | `max` of no counts raises, exactly when there are no sections; the total is the sum of the counts, positive exactly when some section mentions the keyword; well distributed exactly when no section has more than two and the total is at least two |
| KeywordAnalysis.Spreads | app/services/analyzers/keyword_analyzer.py:265-278 | the distribution raises exactly when there are keywords and no sections; otherwise one spread per keyword |
| KeywordAnalysis.Stuffed | app/services/analyzers/keyword_analyzer.py:281-286 | a keyword is flagged exactly when its density exceeds 5 |
| KeywordAnalysis.AnalyzeDensity | app/services/analyzers/keyword_analyzer.py:245-293 | the density analysis raises exactly for keywords over empty text; otherwise one distribution per keyword, each the spread of that keyword over the text's sections, the flagged keywords as potential stuffing, stuffing exactly when one is flagged |
| KeywordAnalysis.DensityOfOwnText | app/services/analyzers/keyword_analyzer.py:39-48 | keywords detected in a text never make the density analysis of that text raise |
| KeywordAnalysis.Window | app/services/analyzers/keyword_analyzer.py:322-324 | the context window of a word holds exactly the words of the paragraph at most three positions away from it, at most seven in all |
| KeywordAnalysis.ContextWords | app/services/analyzers/keyword_analyzer.py:315-328 | a term is a context word exactly when, in some paragraph, it is the lower-cased form of a word longer than three characters, other than the keyword, at most three positions from an occurrence of the keyword |
| KeywordAnalysis.TermsFrom | app/services/analyzers/keyword_analyzer.py:316-327 | a term is collected from position i on exactly when it is near an occurrence of the keyword at or after i |
| KeywordAnalysis.WindowTerms | app/services/analyzers/keyword_analyzer.py:320-327 | the terms of one position are those near it, and only when the word there is the keyword |
| KeywordAnalysis.FirstFive | app/services/analyzers/keyword_analyzer.py:330 | five distinct context words, or all of them when there are fewer; empty exactly for an empty context |
| KeywordAnalysis.RelatedTerms | app/services/analyzers/keyword_analyzer.py:306-330 | five distinct related terms, or as many as there are distinct context words when fewer; none exactly when no paragraph mentioning the keyword has a context word; all of them when there are at most five; each a context word of a paragraph mentioning the keyword |
| KeywordAnalysis.Semantic | app/services/analyzers/keyword_analyzer.py:295-334 | one entry for each of the first three detected keywords (all when there are fewer), in order, with that keyword's related terms |
| KeywordAnalysis.PlacementIssues | app/services/analyzers/keyword_analyzer.py:341-354 | the mismatch, no-title and no-H1 issues each appear exactly when their condition holds |
| KeywordAnalysis.OveruseIssues | app/services/analyzers/keyword_analyzer.py:357-367 | the stuffing issue (naming the flagged keywords) and the cannibalisation issue each appear exactly when their condition holds |
| KeywordAnalysis.Issues | app/services/analyzers/keyword_analyzer.py:336-369 | at most five issues: meta keywords sharing nothing with the top five, no keyword in the title, none in the H1, stuffing, and two overlapping dense top keywords, each exactly when it holds |
| KeywordAnalysis.IssueAdvice | app/services/analyzers/keyword_analyzer.py:376-390 | at most one piece of advice per issue, and exactly the advice of the issues |
| KeywordAnalysis.AdviceAnswers | app/services/analyzers/keyword_analyzer.py:376-390 | each piece of advice answers exactly its own issue, and no issue yields the page-level advice |
| KeywordAnalysis.IssueAdviceAnswers | app/services/analyzers/keyword_analyzer.py:376-390 | each piece of issue advice is given exactly when its issue is present |
| KeywordAnalysis.PageAdvice | app/services/analyzers/keyword_analyzer.py:393-403 | the placement, content, meta tag and alt advice each appear exactly when their condition holds, and nothing else does |
| KeywordAnalysis.KeywordRecommendations | app/services/analyzers/keyword_analyzer.py:371-405 | each recommendation appears exactly when its issue or condition does: weak placement below 50, fewer than 300 words, no meta keywords, no keyword in alt texts |
| KeywordAnalysis.KeywordScore | app/services/analyzers/keyword_analyzer.py:407-430 | the score lies in 0..100; it is 100 exactly with meta keywords, placement of at least 70, no stuffing and no issue; with at most five issues it is at least 35 |
| KeywordAnalysis.Assemble | app/services/analyzers/keyword_analyzer.py:54-74 | the report's issues and recommendations are those of its parts; the score lies in 35..100 and is 100 exactly without issues, with meta keywords and with placement of at least 70 |
| KeywordAnalysis.Analyze | app/services/analyzers/keyword_analyzer.py:20-78 | a report's score lies in 35..100 and is 100 exactly without issues, with meta keywords and with placement of at least 70 |
| KeywordAnalysis.AnalyzeFields | app/services/analyzers/keyword_analyzer.py:20-78 | the analysis never fails; the meta keywords, detected keywords, placement, related terms and density are those of the page and its stripped text |
| KeywordAnalysis.AnalyzeSucceeds | app/services/analyzers/keyword_analyzer.py:32-78 | the keyword analysis never returns its error record |
| ContentAnalysis.MainContent | app/services/analyzers/content_analyzer.py:93-111 | the main area is the first present candidate (`main`, id `content`, id `main-content`, class `content`, class `main-content`, `article`), otherwise the body, otherwise the whole page |
| ContentAnalysis.ContentText | app/services/analyzers/content_analyzer.py:113-121 | the content text has single spaces as its only whitespace and the same words as the main content's `get_text(" ", strip=True)` |
| ContentAnalysis.SentenceCount | app/services/analyzers/content_analyzer.py:41 | one more than the number of runs of `.`, `!` and `?`: the number of pieces the text splits into |
| ContentAnalysis.SentenceCountOne | app/services/analyzers/content_analyzer.py:41 | exactly one sentence exactly when the text has no '.', '!' or '?' |
| ContentAnalysis.AverageSentenceLength | app/services/analyzers/content_analyzer.py:42-66 | the average is non-negative, and it exceeds 25 exactly when the word count exceeds 25 times the sentence count (at least 1) |
| ContentAnalysis.DropSuffix | app/services/analyzers/content_analyzer.py:147-149 | a word ending in the suffix loses exactly that suffix; any other word is kept |
| ContentAnalysis.Syllables | app/services/analyzers/content_analyzer.py:143-162 | the syllable count is the number of vowel groups in the stemmed word, and at least 1 |
| ContentAnalysis.GroupsAreRuns | app/services/analyzers/content_analyzer.py:152-160 | counting vowels that follow a non-vowel gives exactly the number of maximal vowel runs |
| ContentAnalysis.CountSyllables | app/services/analyzers/content_analyzer.py:143-162 | the character loop of the source computes the syllable count |
| ContentAnalysis.ComplexCount | app/services/analyzers/content_analyzer.py:130-134 | the complex words are among the words |
| ContentAnalysis.Readability | app/services/analyzers/content_analyzer.py:123-141 | readability lies in 0..100; 0 for no words or all words complex; 100 when no word is complex |
| ContentAnalysis.ReadabilityHardIff | app/services/analyzers/content_analyzer.py:71-72 | the text is judged hard to read exactly when it has no words or the share of complex words rounds readability below 50 |
| ContentAnalysis.DensityWords | app/services/analyzers/content_analyzer.py:166-174 | each word token of the lower-cased text occurs in the result as often as in the tokens when it is longer than three characters and not a stop word, and never otherwise |
| ContentAnalysis.KeywordDensity | app/services/analyzers/content_analyzer.py:164-185 | ten distinct counted words, or all when there are fewer, each with its count as a percentage of all counted words, rounded to tenths |
| ContentAnalysis.DensityKeys | app/services/analyzers/content_analyzer.py:178-183 | the listed words are the ten most common counted words in `Counter.most_common` order |
| ContentAnalysis.DensityTop | app/services/analyzers/content_analyzer.py:178-183 | a counted word left out ranks after every listed one: fewer occurrences, or as many and first seen later |
| ContentAnalysis.DensityOrdered | app/services/analyzers/content_analyzer.py:182-183 | densities never increase along the list |
| ContentAnalysis.DensityLowerCase | app/services/analyzers/content_analyzer.py:166 | every listed word is lower-case |
| ContentAnalysis.StructureScore | app/services/analyzers/content_analyzer.py:187-204 | the structure score lies in 0..1; it is 1 exactly with lists and at least one heading per four text blocks; it is below 0.7 exactly when the heading or list part falls short as the weights imply |
| ContentAnalysis.LongParagraphTexts | app/services/analyzers/content_analyzer.py:209 | each paragraph text longer than 20 characters is listed as often as it occurs among the paragraphs, and no other text is |
| ContentAnalysis.ParagraphTexts | app/services/analyzers/content_analyzer.py:209 | the i-th text is the stripped text of the i-th paragraph, one per paragraph |
| ContentAnalysis.LongTexts | app/services/analyzers/content_analyzer.py:209 | keeps each text longer than 20 characters as often as it occurs, and drops every other one |
| ContentAnalysis.Repeated | app/services/analyzers/content_analyzer.py:212-215 | exactly the texts occurring more than once are reported, each once and with its count |
| ContentAnalysis.Duplicates | app/services/analyzers/content_analyzer.py:206-221 | duplicates exist exactly when the count is positive; the count is the number of reported texts; each reported text is longer than 20 characters with its number of occurrences among the paragraphs, above one; every such text is reported, once |
| ContentAnalysis.DuplicatesOf | app/services/analyzers/content_analyzer.py:206-221 | over any list of texts: the reported entries are exactly the distinct texts longer than 20 characters that occur more than once, each with its count |
| ContentAnalysis.DuplicatesIff | app/services/analyzers/content_analyzer.py:206-221 | the page has duplicates exactly when two paragraphs at different positions have the same text longer than 20 characters |
| ContentAnalysis.DuplicatesOfIff | app/services/analyzers/content_analyzer.py:206-221 | over any list of texts: duplicates are found exactly when two positions hold the same text longer than 20 characters |
| ContentAnalysis.ContentRecommendations | app/services/analyzers/content_analyzer.py:60-75 | each advice appears exactly when its condition holds: under 300 words, average sentence over 25 words, structure below 0.7, readability below 50, duplicated paragraphs |
| ContentAnalysis.ContentRecommendationsRanked | app/services/analyzers/content_analyzer.py:60-75 | the advice comes in the fixed order of the checks |
| ContentAnalysis.Analyze | app/services/analyzers/content_analyzer.py:20-91 | for both generations (the synchronous analyzer at app/services/analyzer.py:44-92 differs only in its stop words, the thin-content flag and the duplicate check): at least one sentence, readability in 0..100, structure in 0..1, at most ten densities; the thin-content flag only in the modular analyzer, and each advice exactly on its condition |
| ContentAnalysis.AnalyzeFields | app/services/analyzers/content_analyzer.py:20-91 | the word count is that of the main content's text, the sentence count one more than its terminator runs, the readability and densities those of the content text, and the modular analyzer reports the page's duplicates |
| MobileAnalysis.Viewport | app/services/analyzers/mobile_analyzer.py:98-124 | the viewport content exists exactly with the tag; responsive exactly when the content has `width=device-width` and `initial-scale=1`; the issue list is empty exactly when responsive; zooming is prevented exactly for `user-scalable=no` or `maximum-scale=1` |
| MobileAnalysis.LegacyViewport | app/services/analyzer.py:433-455 | the synchronous viewport check agrees on presence and responsiveness and reports neither zooming nor issues |
| MobileAnalysis.FirstPx | app/services/analyzers/mobile_analyzer.py:143-144 | a pixel value is found exactly when the pattern matches at some position from here on, and it is the value matched there |
| MobileAnalysis.PxNeedsKey | app/services/analyzers/mobile_analyzer.py:143-144 | a pixel value is only found in a style that contains the key |
| MobileAnalysis.PxRoundTrip | app/services/analyzers/mobile_analyzer.py:143-144 | the key, a space, the decimal digits of n and `px` read back as n |
| MobileAnalysis.Adequate | app/services/analyzers/mobile_analyzer.py:153 | sizing is adequate exactly with no small targets or fewer than one in ten |
| MobileAnalysis.TouchTargets | app/services/analyzers/mobile_analyzer.py:126-154 | the total counts links, buttons and clickable inputs; the small count is the number of those targets with a width or height under 44px, none exactly when no target is small; adequate exactly under the one-in-ten rule |
| MobileAnalysis.LegacyTouchTargets | app/services/analyzer.py:457-482 | the synchronous check counts the same targets, the small count is the number of targets with a width under 44px, and sizing is adequate exactly without small targets |
| MobileAnalysis.LegacyFindsFewerSmallTargets | app/services/analyzer.py:471-476 | the synchronous check, which ignores heights, never finds more small targets than the modular one |
| MobileAnalysis.ClassCount | app/services/analyzers/mobile_analyzer.py:172-174 | the small-class count is the sum, over the class patterns, of the number of elements each pattern matches, so an element matching two patterns counts twice; it is positive exactly when some pattern matches an element |
| MobileAnalysis.Fonts | app/services/analyzers/mobile_analyzer.py:156-180 | font issues exactly when an inline font is smaller than 12px or a small-text class matches; the small inline count is the number of styled elements whose font size is under 12px |
| MobileAnalysis.LegacyFonts | app/services/analyzer.py:484-507 | the synchronous check counts the same inline fonts; its small-class count is the number of elements with one of the four classes, each counted once, and is zero exactly when no element has one |
| MobileAnalysis.MobileElements | app/services/analyzers/mobile_analyzer.py:182-207 | each feature is found exactly when its tag exists; the score is 25 per feature, 100 exactly with all four and 0 exactly with none |
| MobileAnalysis.ElementsScore | app/services/analyzers/mobile_analyzer.py:201-206 | the score is a multiple of 25 up to 100, 100 exactly with all four features and 0 exactly with none |
| MobileAnalysis.LegacyMobileElements | app/services/analyzer.py:509-520 | the synchronous check agrees with the modular one on theme colour and Apple icon |
| MobileAnalysis.ImagesAreFound | app/services/analyzers/mobile_analyzer.py:212 | the images examined are exactly the page's `img` elements, in order |
| MobileAnalysis.RoundedShare | app/services/analyzers/mobile_analyzer.py:233 | ten times the share is the half-even rounding of the part times 1000 over the whole (the whole counted as at least 1); it lies in 0..100, is 0 for no part and 100 for the whole |
| MobileAnalysis.ResponsiveImages | app/services/analyzers/mobile_analyzer.py:209-234 | the responsive count is the number of images with `srcset`, `sizes` or a `picture` parent, and the percentage is its rounded share of the images; the page has responsive images exactly with one of them or a responsive background style |
| MobileAnalysis.MediaQueries | app/services/analyzers/mobile_analyzer.py:241-246 | media queries are found exactly when some style text holds `@media`, whitespace and a query |
| MobileAnalysis.MediaCountPieces | app/services/analyzers/mobile_analyzer.py:245 | the media queries of one style text are counted once per `{`-piece that holds `@media`, whitespace and a query, matching `re.findall`'s non-overlapping matches |
| MobileAnalysis.MediaCountPositive | app/services/analyzers/mobile_analyzer.py:245 | some media query is found from a position on exactly when `@media`, whitespace and a non-`{` character occur there |
| MobileAnalysis.MediaQueriesCons | app/services/analyzers/mobile_analyzer.py:242-246 | the total over style texts is the first text's count plus the rest's |
| MobileAnalysis.Frameworks | app/services/analyzers/mobile_analyzer.py:249-262 | each framework is listed, once, exactly when its class pattern matches |
| MobileAnalysis.ResponsiveCss | app/services/analyzers/mobile_analyzer.py:236-263 | the media-query count is the total over the page's style texts, positive exactly when a style text holds one; the page is responsive exactly with media queries or a framework; each framework is listed exactly when the page uses it, and once |
| MobileAnalysis.LayoutAdvice | app/services/analyzers/mobile_analyzer.py:55-62 | viewport, responsive viewport and touch-target advice each appear exactly when their check fails; a missing viewport gives the first two in order |
| MobileAnalysis.StyleAdvice | app/services/analyzers/mobile_analyzer.py:64-71 | font, responsive-image (only with images) and media-query advice each appear exactly when their check fails |
| MobileAnalysis.MobileRecommendations | app/services/analyzers/mobile_analyzer.py:53-71 | each of the six pieces of advice appears exactly when its check fails |
| MobileAnalysis.MobileScore | app/services/analyzers/mobile_analyzer.py:74-81 | the weighted score is at most 100, 100 exactly when all five checks pass and 0 exactly when none does |
| MobileAnalysis.Analyze | app/services/analyzers/mobile_analyzer.py:19-96 | the score is at most 100; there is no advice exactly when the score is 100, or 85 on a page with no images and no responsive background |
| MobileAnalysis.AnalyzeFields | app/services/analyzers/mobile_analyzer.py:19-96 | each part of the report is that part's analysis of the page, and the score is 100 exactly when the viewport is responsive, touch targets are adequate, fonts raise no issue, images are responsive and media queries exist |
| MobileAnalysis.MissingViewportRecommendations | app/services/analyzers/mobile_analyzer.py:55-59 | a page without a viewport tag is first advised to add one, then to make it responsive |
| MobileAnalysis.ResponsiveImagesAdviceNeedsImages | app/services/analyzers/mobile_analyzer.py:67-68 | responsive-image advice is only given to pages with images |
| MobileAnalysis.LegacyMobileRecommendations | app/services/analyzer.py:400-409 | viewport, touch-target and font advice each appear exactly when their check fails |
| MobileAnalysis.LegacyMobileScore | app/services/analyzer.py:412-418 | the subtractive score lies in 0..100, 100 exactly when all three checks pass, 0 exactly when all fail |
| MobileAnalysis.LegacyAnalyze | app/services/analyzer.py:384-431 | the synchronous score lies in 0..100 and is 100 exactly without advice |
| MobileAnalysis.LegacyScoreDeductions | app/services/analyzer.py:412-418 | the score is 100 less 40 for viewport advice, 30 for touch-target advice and 30 for font advice |
| CompetitiveAnalysis.ContentScore | app/services/analyzers/competitive_analyzer.py:121 | the content score lies in 0..100: one point per 50 words up to 5000 words, and 100 from there on |
| CompetitiveAnalysis.MetricsAsWritten | app/services/analyzers/competitive_analyzer.py:76-122 | the metrics as written fail, on the unbound `url`, exactly when some link is absolute; otherwise no outbound link is counted |
| CompetitiveAnalysis.OutboundCount | app/services/analyzers/competitive_analyzer.py:101-106 | the count is the number of hrefs that are absolute and do not mention the domain; so it is at most the number of links, and positive exactly when such an href exists |
| CompetitiveAnalysis.Metrics | app/services/analyzers/competitive_analyzer.py:76-122 | with the page's domain in place of the unbound name: outbound links are counted exactly as above; the h1, h2, h3, list-item, image and table counts are the numbers of those tags, the video count that of `video` and `iframe` tags; the heading total is h1 + h2 + h3; the word count is the number of word tokens of the stripped text; the content score is `ContentScore` of it |
| CompetitiveAnalysis.MetricsWith | app/services/analyzers/competitive_analyzer.py:79-121 | whatever the outbound count, each tag count is the number of those tags, the heading total is their sum, and the word count and content score are those of the stripped text |
| CompetitiveAnalysis.AsWrittenAgrees | app/services/analyzers/competitive_analyzer.py:101-106 | on a page without absolute links the metrics as written and the corrected metrics agree |
| CompetitiveAnalysis.AbsoluteLinkFails | app/services/analyzers/competitive_analyzer.py:105 | a page with one absolute link to another site makes the metrics as written fail, while the corrected metrics count one outbound link |
| CompetitiveAnalysis.TitleString | app/services/analyzers/competitive_analyzer.py:129 | a page without a title gives ""; a title without a single string fails; otherwise the result is the title's single string |
| CompetitiveAnalysis.Phrases | app/services/analyzers/competitive_analyzer.py:141-149 | fewer than two words give no phrases |
| CompetitiveAnalysis.PhrasesSound | app/services/analyzers/competitive_analyzer.py:141-149 | every phrase is the two- or three-word phrase starting at a candidate word |
| CompetitiveAnalysis.PhrasesComplete | app/services/analyzers/competitive_analyzer.py:141-149 | every candidate word before the last gives its two-word phrase, and its three-word phrase when a third word follows |
| CompetitiveAnalysis.PotentialKeywordsOf | app/services/analyzers/competitive_analyzer.py:124-154 | fails exactly without a title string; otherwise the single words are the first ten candidate words of the title and headings, in order (all of them, with their multiplicities, when there are at most ten), and the phrases are the first five phrases |
| CompetitiveAnalysis.PotentialPhraseStarts | app/services/analyzers/competitive_analyzer.py:140-153 | every reported phrase starts at a candidate word of the title and headings |
| CompetitiveAnalysis.Recommendations | app/services/analyzers/competitive_analyzer.py:156-173 | one to four entries ending with the API note, which appears nowhere else; the content, heading and image advice appear exactly under 500 words, under 3 headings and under 2 images, in that order |
| CompetitiveAnalysis.Finish | app/services/analyzers/competitive_analyzer.py:44-74 | the record is always limited and requires the API; it completes exactly when keyword extraction succeeds, carrying the domain, the metrics, the extracted keywords and the metrics' recommendations; otherwise it carries the extraction's error |
| CompetitiveAnalysis.AnalyzeAsWritten | app/services/analyzers/competitive_analyzer.py:21-74 | the record is always limited and requires the API; a page with an absolute link and a parsable URL gives the error record |
| CompetitiveAnalysis.Analyze | app/services/analyzers/competitive_analyzer.py:21-74 | the record is always limited and requires the API; it completes exactly when the URL parses and the title string is available, with the URL's host as domain, the corrected metrics and their recommendations |
| CompetitiveAnalysis.AnalyzeAgrees | app/services/analyzers/competitive_analyzer.py:101-106 | on a page without absolute links the analysis as written and the corrected one agree |
| DataCollector.LastWinsIff | app/data_collector.py:79-83 | a key is recorded exactly when some element gives it, and its value is that of the last such element |
| DataCollector.LastRecorded | app/data_collector.py:79-83 | the key of any element is recorded, with that element's value when no later element repeats the key |
| DataCollector.ExtractHead | app/data_collector.py:67-102 | a page without a head gives the error record; otherwise the title is the `<title>`'s `.string` (none without one), the scripts are the `src` values in order, and the meta and link tags map each key to the content of the last tag giving it |
| DataCollector.HeadOf | app/data_collector.py:75-102 | the head record: the title's `.string`, every script `src` in order, and each meta or link key present exactly when some tag gives it, with the last tag's value |
| DataCollector.LinkTagsRecorded | app/data_collector.py:86-90 | a link key is recorded exactly when some link gives it, and maps to the `href` of the last such link |
| DataCollector.MetaTagRecorded | app/data_collector.py:79-83 | a meta tag's key is recorded, with its content unless a later tag repeats the key, and the key is the `name` whenever `name` is non-empty |
| DataCollector.MainArea | app/data_collector.py:133-152 | the main area is the first present of main, article, #content, #main-content, .content, .main-content; without any it is the body |
| DataCollector.FirstFound | app/data_collector.py:143-152 | the first present candidate is chosen, otherwise the fallback; nothing is found exactly when no candidate and no fallback exists |
| DataCollector.HeadingsFrom | app/data_collector.py:157-163 | heading levels lie in the range searched and never decrease along the list |
| DataCollector.HeadingsCount | app/data_collector.py:157-163 | the headings number the sum of the h1..h6 counts |
| DataCollector.HeadingTagName | app/data_collector.py:159 | the tag searched for level n is `h` followed by the digit n |
| DataCollector.HeadingsOfLevel | app/data_collector.py:157-163 | the headings of one level are, in order, one per element of that level's tag, carrying the level and the element's stripped text |
| DataCollector.ExtractMainContent | app/data_collector.py:131-187 | the error record exactly when there is no main area; otherwise the area's stripped text and its word count, its headings level by level, the stripped text of each `p` in order, and one list record per `ul`/`ol` in order |
| DataCollector.MainDataOf | app/data_collector.py:154-183 | the data of a main area: its stripped text and word count, its headings level by level, each `p`'s stripped text and each `ul`/`ol`'s list record, in order |
| DataCollector.ListOf | app/data_collector.py:170-175 | a list record carries the list's tag name and, in order, the stripped text of each `li` below it |
| DataCollector.NoAreaIff | app/data_collector.py:143-187 | the error record is returned exactly when all six candidates and the body are missing |
| DataCollector.CategoryOf | app/data_collector.py:228-236 | a link is exactly one of internal (same host), social, resource or external, in that priority order |
| DataCollector.MapAll | app/data_collector.py:203-236 | the loop fails exactly when some link fails, and otherwise gives one result per link |
| DataCollector.LinkOf | app/data_collector.py:210-236 | a link fails exactly when `urljoin` raises on a relative href or its full URL does not parse; otherwise it records the full URL, its stripped text, its host and its category |
| DataCollector.CategoriesPartition | app/data_collector.py:228-236 | the four categories together hold every classified link exactly once |
| DataCollector.ExtractLinks | app/data_collector.py:189-244 | fails exactly when the base URL does not parse or some collected link fails; otherwise each of the four lists is the classified links of its category, in order, and the total is their sum, the number of links not skipped |
| DataCollector.Classified | app/data_collector.py:203-236 | classification fails exactly when some collected link fails; otherwise it holds one classified link per collected link, in order |
| DataCollector.InCategory | app/data_collector.py:228-236 | a link is in a category's list exactly when it was classified in that category |
| DataCollector.CollectedLinkReported | app/data_collector.py:203-236 | every collected link is reported in the list of its own category |
| DataCollector.SkippedNotReported | app/data_collector.py:206-208 | a fragment or `javascript:` link makes the categories hold fewer links than the page has |
| DataCollector.ExtractImages | app/data_collector.py:246-268 | the image count is the number of `img` elements; with-alt, without-alt and responsive are the numbers of images with a non-empty `alt`, without one, and with `srcset` or a `picture` parent |
| DataCollector.WithoutAltAgrees | app/data_collector.py:267 | the collector's count of images without alt is the count the page rules report at app.py:127 |
| Urls.Parse | app/utils/url_validator.py:43 | a parsed address has a lower-case scheme, a network location free of `/`, `?` and `#` with balanced brackets, and a query free of `#`; unbalanced brackets fail as `urlparse` raises |
| Urls.SplitNetloc | app/utils/url_validator.py:86-87 | after `//` the network location runs to the first `/`, `?` or `#`; the split fails exactly when that location has unbalanced brackets |
| Urls.Unparse | app/utils/url_validator.py:131-138 | an address with a scheme is written starting with the scheme and `:` |
| Urls.ParseUnparse | app/utils/url_validator.py:105-138 | parsing the written form of a well-formed address gives that address back |
| Urls.HttpsPrefixScheme | app/utils/url_validator.py:38-43 | an address written after `https://` parses with the https scheme |
| Urls.UrlJoin | app/data_collector.py:214 | `urljoin` fails exactly when both arguments are non-empty and one of them does not parse, raising the bracket error; an empty base gives the href and an empty href gives the base |
| Urls.UnbalancedRejected | app/utils/url_validator.py:43 | an address whose host part holds `[` without `]` does not parse |
| UrlValidator.WithScheme | app/utils/url_validator.py:38-39 | the result always starts with `http://` or `https://`; it is the input exactly when the input already does, and `https://` plus the input otherwise |
| UrlValidator.HostOf | app/utils/url_validator.py:54 | the host is the part of the network location before its first `:`, all of it when there is none |
| UrlValidator.LabelMatchesIff | app/utils/url_validator.py:79-82 | a label matches exactly when it has 1 to 63 letters, digits or hyphens and neither starts nor ends with a hyphen |
| UrlValidator.IsValidUrl | app/utils/url_validator.py:27-87 | a valid address always parses; a parse failure gives false instead of raising |
| UrlValidator.IsValidUrlRules | app/utils/url_validator.py:63-84 | a valid address whose host is not an IPv4 literal has at least two labels, a top-level domain of at least two characters, a common top-level domain when there are only two labels, and well-formed labels |
| UrlValidator.IsValidUrlIPv4 | app/utils/url_validator.py:45-61 | a valid address has an http or https scheme and a network location; with those, an IPv4 host is always valid |
| UrlValidator.IsValidUrlIff | app/utils/url_validator.py:27-87 | for a host of letters, digits, hyphens and dots, `https://host` is valid exactly when the host is an IPv4 literal or meets the label and top-level-domain rules |
| UrlValidator.NormalizeParts | app/utils/url_validator.py:107-128 | the normalised parts have the https scheme and no fragment, keep parameters and query, drop the leading `www.` exactly when the network location starts with it and keep it unchanged otherwise, map path `/` to empty, drop the trailing `/` of any other path that ends in one and keep every other path unchanged |
| UrlValidator.NormalizeUrl | app/utils/url_validator.py:89-144 | a parse failure gives the scheme-prefixed input back; otherwise the result starts with `https://` |
| UrlValidator.NormalizeUrlReadsBack | app/utils/url_validator.py:89-144 | when the normalised parts are well formed, the normalised address parses back to exactly those parts |
| UrlValidator.ExtractDomain | app/utils/url_validator.py:146-179 | a parse failure gives the scheme-prefixed input back; otherwise the domain holds no `:`, and a location without port or `www.` is its own domain |
| UrlValidator.DomainOf | app/utils/url_validator.py:165-175 | the domain holds no `:`, and a location without port or `www.` is its own domain |
| UrlValidator.DomainOfForms | app/utils/url_validator.py:165-175 | a bare host, the host after `www.`, and either with a port all give the bare host |
| UrlValidator.ExtractDomainReadsNetloc | app/utils/url_validator.py:146-175 | the domain of a well-formed address is the domain of its network location |
| UrlValidator.ExtractDomainOfWellFormed | app/utils/url_validator.py:146-175 | the domain of the written form of a well-formed address without port or `www.` is its network location |
| UrlValidator.UnparseIsWeb | app/utils/url_validator.py:100-101 | the written form of a well-formed address already has a web scheme, so no prefix is added again |
| TextUtils.CleanText | app/utils/__init__.py:19-39 | empty input gives ""; the result has no whitespace at either end, spaces as its only whitespace, and no two whitespace characters in a row; it splits into the same words as the text with its tags replaced by spaces |
| Strings.WordsStrip | app/utils/__init__.py:39 | stripping the ends of a string does not change the words it splits into |
| TextUtils.CleanTextKeepsContent | app/utils/__init__.py:33-39 | cleaning keeps every non-space character of the text with its tags replaced, in order |
| TextUtils.CleanTextIdempotent | app/utils/__init__.py:19-39 | cleaning text without tags a second time changes nothing |
| TextUtils.CleanedShape | app/utils/__init__.py:36-39 | collapsing and stripping gives single-spaced text with the same non-space characters |
| TextUtils.ValidateUrl | app/utils/__init__.py:41-61 | the only failure is the parse failure; a scheme-less input gives an https address |
| TextUtils.ValidateUrlPrefix | app/utils/__init__.py:52-56 | an input with a web scheme is parsed as it is, any other one with `https://` in front |
| TextUtils.ValidateUrlIdempotent | app/utils/__init__.py:41-61 | validating a validated address changes nothing when its parts are well formed |
| TextUtils.TruncateText | app/utils/__init__.py:63-85 | empty text gives ""; text within the limit is returned unchanged; longer text gives the prefix with the whitespace at either end removed (a contiguous piece of the prefix with only whitespace around it, and no whitespace at its own ends), at most the limit plus three characters long, ending with the ellipsis when asked and keeping the prefix's non-space characters |
| TextUtils.StripPiece | app/utils/__init__.py:81 | `strip()` leaves a contiguous piece of its input with only whitespace cut off around it and none at its own ends |
| TextUtils.TruncateKeepsInnerSpace | app/utils/__init__.py:78-85 | when the cut prefix neither starts nor ends with whitespace, the truncated text is that prefix whole, inner whitespace included, followed by the ellipsis when asked |
| TextUtils.TruncateIdempotent | app/utils/__init__.py:63-85 | truncating without ellipsis a second time changes nothing |
| TextUtils.Candidates | app/utils/__init__.py:118-125 | each word of the lower-cased cleaned text occurs among the candidates as often as in the text when it is long enough and not a stop word, and never otherwise |
| TextUtils.TopRanked | app/utils/__init__.py:128-136 | the requested number of distinct words, or all when there are fewer, taken from the input and ordered by count, ties in first-occurrence order |
| TextUtils.ExtractKeywords | app/utils/__init__.py:87-138 | empty text gives no keywords; otherwise the requested number of distinct candidate words, or all when there are fewer, ordered by non-increasing frequency with ties in first-occurrence order |
| TextUtils.ExtractKeywordsTop | app/utils/__init__.py:128-136 | every reported keyword ranks before every unreported candidate, and all candidates are reported when the limit allows |
| TextUtils.SortPairs | app/utils/__init__.py:317 | sorting keeps the parameter pairs |
| TextUtils.SortPairsSorted | app/utils/__init__.py:317 | pairs with distinct keys come out in key order |
| TextUtils.SortedUnique | app/utils/__init__.py:317 | two key-ordered arrangements of the same pairs are equal |
| TextUtils.CacheKey | app/utils/__init__.py:298-320 | the key fails exactly when validating the lower-cased address fails; no parameters give `url:` and the address; otherwise `|params:` and the pairs in key order follow |
| TextUtils.CacheKeyOrderFree | app/utils/__init__.py:316-317 | the key does not depend on the order in which the parameters were given |
| ContentExtractor.SqueezeKeepsContent | app/utils/content_extractor.py:83 | squeezing newline runs only drops whitespace |
| ContentExtractor.CleanLines | app/utils/content_extractor.py:72-94 | the cleaned text is one line: no newline, no whitespace at either end, no two whitespace characters in a row, and empty exactly for whitespace-only input; it splits into the same words as the text |
| ContentExtractor.WordsSqueeze | app/utils/content_extractor.py:83 | squeezing newline runs does not change the words the text splits into |
| ContentExtractor.LinesKeepWords | app/utils/content_extractor.py:82-94 | squeezing newlines, collapsing whitespace and joining the stripped non-empty lines keeps the words of the text |
| ContentExtractor.CleanLinesKeepsContent | app/utils/content_extractor.py:72-94 | cleaning keeps every non-space character of the text, in order |
| ContentExtractor.OneLine | app/utils/content_extractor.py:89-94 | text without a newline splits into one line, and the join gives it stripped |
| ContentExtractor.Title | app/utils/content_extractor.py:96-99 | the text of the first title, or "" without one |
| ContentExtractor.TitleAgrees | app/utils/content_extractor.py:96-99 | without a title element the extractor has "" where the page analysis has its sentinel; otherwise the extractor's title equals the title string whenever that string is shown by `get_text` |
| ContentExtractor.MetaDescription | app/utils/content_extractor.py:101-104 | the content of the description meta tag, or "" when the tag or its content is missing |
| ContentExtractor.MetaDescriptionAgrees | app/utils/content_extractor.py:101-104 | a non-empty extracted description is the page analysis's description; an empty one on a page without paragraphs matches an empty page description |
| ContentExtractor.Extract | app/utils/content_extractor.py:24-70 | the record always carries the address; a failed fetch gives status "error", empty content and the message; otherwise status "success" with one-line content, empty exactly when the page text is whitespace |
| ContentExtractor.ExtractReadsReducedPage | app/utils/content_extractor.py:41-53 | title and description are read after navigation, header, footer, script and style are removed, and the content keeps the page text's non-space characters |
| Freq.CountTwice | app/services/analyzers/content_analyzer.py:212-215 | a text is counted more than once exactly when it occurs at two positions |
| Freq.Distinct | app/services/analyzers/keyword_analyzer.py:139 | the distinct words are exactly the words, each once |
| Freq.SortByFreq | app/services/analyzers/keyword_analyzer.py:142 | sorting by count keeps the words |
| Freq.SortByFreqSorted | app/services/analyzers/keyword_analyzer.py:142 | distinct words come out ordered by count, ties in first-occurrence order |
| Freq.MostCommonSpec | app/services/analyzers/keyword_analyzer.py:139-142 | `most_common(k)` gives min(k, distinct words) entries, each a word with its count, ordered by count with ties in first-occurrence order, and ranking before every word left out |
| Freq.MostCommonComplete | app/services/analyzers/keyword_analyzer.py:142 | when k covers all distinct words, every word is reported |
| Numeric.RoundHalfEven | app/services/analyzers/content_analyzer.py:141 | the result is within one half of the value, and even at an exact half |
| Numeric.RoundHalfEvenUnique | app/services/analyzers/content_analyzer.py:141 | only one integer is the half-even rounding of a value |
| Numeric.RoundHalfEvenMonotone | app/services/analyzers/technical_analyzer.py:111 | rounding never reverses an order |
| Numeric.RoundTenths | app/services/analyzers/content_analyzer.py:183 | ten times the result is the half-even rounding of ten times the value, so it moves by at most 0.05 |
| Numeric.RoundHundredths | app/services/analyzers/content_analyzer.py:83 | a hundred times the result is the half-even rounding of a hundred times the value, so it moves by at most 0.005 |
| Numeric.Percent | app/services/analyzers/mobile_analyzer.py:233 | the share times the whole is the part times 100; it lies in 0..100 for a part within the whole, is 0 for no part and 100 for the whole |

## Notes on the code

- The keyword analyzer removes elements from the page it is given (app/services/analyzers/keyword_analyzer.py:116-117). The model applies the removal to a copy, so each analyzer sees the page as given.
- The request handler of `app.py` has no rule for a too-short title (app.py:132-133). Its description rule compares the description with the title sentinel, so it never fires on an empty description (see Findings).
- No code combines the analyzers' scores into one overall score, and none is modelled.

## Left out

- Network and I/O: fetching pages, the PageSpeed Insights and SemRush clients, `get_pagespeed_insights_sync` and its event-loop handling, `check_url_accessibility` and `get_url_info` (DNS). The fetched page and the PageSpeed result are parameters, and an exception raised by a fetch is a failure value.
- HTML parsing: the model starts from the parsed tree. `get_text` skips the contents of `script`, `style` and `template`. BeautifulSoup also leaves out the `rt` and `rp` ruby annotations in some configurations; that is not modelled.
- Regular expressions are written as predicates. `\w` and `\b` are read as runs of ASCII letters, digits, `_` and basic Cyrillic letters. `lower()` and `isspace()` cover the same alphabet and Python's whitespace set, not all of Unicode.
- `urljoin`: `Urls.UrlJoin` models its empty-argument cases and the `ValueError` it raises when either address fails to parse. The resolution of a relative reference against a base (section 5.2 of RFC 3986) is an abstract function parameter of `DataCollector.ExtractLinks` and `TechnicalAnalysis.Classify`. `urlparse` is modelled as `urllib.parse` splits (scheme, network location, path, parameters, query, fragment), without its cache, its handling of bytes, or its port validation.
- Floating point: scores and densities are exact reals. Python's `round` is modelled as half-even rounding of the exact value, so a result that float representation error would change is not modelled.
- Caching: the TTL cache of `app.py` and `app/utils/cache_manager.py`. Logging, `print` output and the prompt string built in `analyze_seo` are not modelled.
- The order of related terms in the keyword analyzer comes from iterating a Python set and depends on the hash seed. The model keeps the first five in first-occurrence order, and its contracts state only membership and the bound of five.
- `debug_bert_service`, `format_duration` and `safe_json_serialize` (app/utils/__init__.py) are formatting and debugging helpers outside the scoring rules.
- The asynchronous `legacy_analyze_seo` (app/services/analyzer.py:743-826) is rebound by the synchronous definition at line 985 before any call can reach it. Only the synchronous one is modelled.
- `collect_comprehensive_data` and `_analyze_page_structure` (app/data_collector.py:17-65, 104-129) only assemble dictionaries and element counts. `_extract_mobile_data` and the `svg` count of `_extract_images` are not modelled.
- `ContentExtractor` does not model the request headers or the timeout of `extract_from_url`: the fetch is a parameter.
- Urls.Parse: fails exactly on unbalanced brackets in the network location. `urlsplit` also raises `ValueError` for a non-ASCII network location whose NFKC normal form gains one of `/?#@:` (a full-width `＠`, say) and for a bracketed host that is not a valid IPv6 or IPvFuture address; Unicode normalisation and address validation are not modelled. The "fails exactly when" contracts built on it (`PageRules.ExternalCount`, `PageRules.Facts`, `LegacyAnalysis.EnhancedOf`, `TechnicalAnalysis.Classify`, `TechnicalAnalysis.ClassifyAll`, `TechnicalAnalysis.InternalLinks`, `TechnicalAnalysis.AnalyzeFailsIff`, `Urls.UrlJoin`, `DataCollector.LinkOf`, `DataCollector.ExtractLinks`) hold for addresses outside those two cases.
- ContentExtractor.SqueezeNewlines: carries no contract of its own. The lemma `ContentExtractor.SqueezeKeepsContent` states what it keeps.
- UrlValidator.IsValidUrl: its own contract says only that a valid address parses. The full acceptance rule is proved, by `UrlValidator.IsValidUrlIff`, for hosts made of letters, digits, hyphens and dots. Hosts with ports, user information or other characters are covered only by the one-way rules of `IsValidUrlRules` and `IsValidUrlIPv4`.
- UrlValidator.IsIPv4: stands for `ipaddress.ip_address`. The host is cut at the first `:` first, so an IPv6 literal can never reach it.
- TextUtils.CacheKey: requires distinct keys, as a dictionary has. `None` and an empty dictionary are both the empty sequence, as `if not params` treats them alike.
- TextUtils.ValidateUrlIdempotent: proved for addresses whose parsed parts are well formed (an http or https scheme, a non-empty network location, a path that is empty or starts with `/`, and no part holding a separator that would split it differently). Unusual addresses whose written form parses differently are not covered.
- UrlValidator.NormalizeUrlReadsBack: requires the normalised parts to be well formed, for the same reason.
- KeywordAnalysis.SectionCountsTotal: states the total only for text with at least three ". " sections. Shorter text is cut into fixed-size chunks, and a keyword that straddles a chunk boundary is counted in neither chunk, so no total holds there.
- KeywordAnalysis.RelatedTerms: states membership, the number of terms and when there are none, but not which five terms are chosen from more than five or their order. The source takes them from a set, whose order depends on the hash seed; the model takes them in order of first occurrence.

## Findings

| source | as written | input that shows it | evidently intended | confidence | as-written member | corrected member |
|---|---|---|---|---|---|---|
| app.py:134-135 | the missing-description advice fires only when the description equals the title sentinel "Заголовок не найден", so an empty or short description is never reported; only a description that is literally that sentence is | a page without a description meta tag and without paragraphs: the description is "", and no advice is given | advise adding a description when it is missing or shorter than 10 characters, as `legacy_analyze_seo` does at app/services/analyzer.py:1017-1018 | not executed | AppRules.EmptyDescriptionUnreported | AppRules.AnalyzeSeo |
| app/services/analyzers/competitive_analyzer.py:105 | `_analyze_content_metrics` reads `url`, a name not bound in that method, so any link starting with `http://` or `https://` raises and `analyze` returns the error record | a page with one link to `https://example.org/` | compare each absolute link against the page's own domain, as `analyze` computes it at line 38 | not executed | CompetitiveAnalysis.AbsoluteLinkFails | CompetitiveAnalysis.Analyze |

=== FILE: app_rules.dfy ===
/** The request handler of `app.py`: the `validate_url` normaliser and the
    rule-based part of its `analyze_seo`, with the PageSpeed result as an
    input. */
module AppRules {
  import opened Wrappers
  import opened Seqs
  import opened Strings
  import opened Dom
  import opened Recs
  import opened PageRules
  import opened Urls

  /* ---------------------------------------------------------- validate_url */

  /** The `(is_valid, url)` pair `validate_url` returns. */
  datatype Validated = Validated(isValid: bool, url: string)

  /** The address without its scheme: every `http://` and then every
      `https://` removed for a missing or http scheme, every `<scheme>://`
      otherwise, then `/` stripped from both ends. */
  function WithoutScheme(url: string, scheme: string): (r: string)
    ensures r == [] || (r[0] != '/' && r[|r| - 1] != '/')
  {
    var rest :=
      if scheme == "" || scheme == "http" then ReplaceAll(ReplaceAll(url, "http://", ""), "https://", "")
      else ReplaceAll(url, scheme + "://", "");
    StripChar(rest, '/')
  }

  /** `validate_url(url)`: an https address is kept as given; any other is
      rewritten to `https://` and its scheme-less remainder. The verdict is
      whether the final parse has a scheme and a network location;
      `urlparse` raising propagates. */
  function ValidateUrl(url: string): (r: Result<Validated, Fault>)
    ensures Parse(Strip(url)).Failure? ==> r == Failure(Parse(Strip(url)).error)
    ensures Parse(Strip(url)).Success? && Parse(Strip(url)).value.scheme == "https" ==>
      r == Success(Validated(Parse(Strip(url)).value.netloc != "", url))
    ensures Parse(Strip(url)).Success? && Parse(Strip(url)).value.scheme != "https" ==>
      var rewritten := "https://" + WithoutScheme(url, Parse(Strip(url)).value.scheme);
      && (r.Failure? <==> Parse(rewritten).Failure?)
      && (r.Success? ==> r.value.url == rewritten && (r.value.isValid <==> Parse(rewritten).value.netloc != ""))
  {
    var first :- Parse(Strip(url));
    if first.scheme == "https" then
      Success(Validated(first.scheme != "" && first.netloc != "", url))
    else
      var rewritten := "https://" + WithoutScheme(url, first.scheme);
      var parsed :- Parse(rewritten);
      HttpsPrefixScheme(WithoutScheme(url, first.scheme));
      Success(Validated(parsed.scheme != "" && parsed.netloc != "", rewritten))
  }

  /** Every address `validate_url` produces reads back as an https one:
      either it was kept because it parses with that scheme, or it was
      rewritten to begin with `https://`. */
  lemma ValidatedIsHttps(url: string)
    requires ValidateUrl(url).Success?
    ensures var u := ValidateUrl(url).value.url;
      StartsWith(u, "https://") || (Parse(Strip(u)).Success? && Parse(Strip(u)).value.scheme == "https")
  {
  }

  /** Feeding the result back in changes nothing (for a result without
      surrounding whitespace): a rewritten address now has the https
      scheme, so it is kept with the same verdict. */
  lemma ValidateUrlIdempotent(url: string)
    requires ValidateUrl(url).Success?
    requires Strip(ValidateUrl(url).value.url) == ValidateUrl(url).value.url
    ensures ValidateUrl(ValidateUrl(url).value.url) == ValidateUrl(url)
  {
    var v := ValidateUrl(url).value;
    var first := Parse(Strip(url)).value;
    if first.scheme != "https" {
      HttpsPrefixScheme(WithoutScheme(url, first.scheme));
    }
  }

  /* ----------------------------------------------------------- analyze_seo */

  /** The `description`, `keywords`, `recommendations` and metrics of the
      handler's result. */
  datatype AppResult = AppResult(
    description: string,
    keywords: string,
    recommendations: seq<Msg>,
    title: string,
    h1Tags: seq<string>,
    h2Tags: seq<string>,
    imgWithoutAlt: nat,
    internalLinks: nat,
    externalLinks: nat)

  /** The description rule as `app.py` writes it: the description is
      compared with the title sentinel. */
  predicate DescriptionIsTitleSentinel(description: string) {
    description == TitleNotFound
  }

  /** The handler's result for given page facts, description rule and
      PageSpeed recommendations: the rule-based recommendations first, then
      the PageSpeed ones. */
  function AppResultOf(f: PageFacts, descriptionMissing: bool, pagespeed: seq<Msg>): (r: Result<AppResult, Fault>)
    requires forall m :: m in pagespeed ==> m.PageSpeed?
    ensures r.Failure? <==> f.title.None?
    ensures r.Success? ==> r.value.recommendations == PageRecommendations(f, descriptionMissing).value + pagespeed
    ensures r.Success? ==> (DescriptionMissing in r.value.recommendations <==> descriptionMissing)
    ensures r.Success? ==> r.value.title == f.title.value && r.value.description == f.description
    ensures r.Success? ==> (TitleTooLong in r.value.recommendations <==> |f.title.value| > 60)
    ensures r.Success? ==> (AddH1 in r.value.recommendations <==> f.h1Tags == [])
    ensures r.Success? ==> r.value.recommendations[|r.value.recommendations| - |pagespeed|..] == pagespeed
  {
    var recs :- PageRecommendations(f, descriptionMissing);
    assert (recs + pagespeed)[|recs|..] == pagespeed;
    Success(AppResult(f.description, f.keywords, recs + pagespeed, f.title.value,
      f.h1Tags, f.h2Tags, f.imgWithoutAlt, f.internalLinks, f.externalLinks))
  }

  /** The handler's steps once the page facts are known: the five rules
      (which fail on a missing title before PageSpeed is consulted), then
      the PageSpeed error text or recommendations. */
  function FactsResult(f: PageFacts, descriptionMissing: bool, pagespeed: PageSpeedData): (r: Result<AppResult, Fault>)
    ensures r.Failure? <==> f.title.None? || ErrorFirstPageSpeed(pagespeed).Failure?
    ensures f.title.None? ==> r == Failure(NoneTitleString)
    ensures f.title.Some? && ErrorFirstPageSpeed(pagespeed).Failure? ==> r == Failure(MissingRecommendations)
    ensures r.Success? ==> r.value.title == f.title.value && r.value.description == f.description
    ensures r.Success? ==> (DescriptionMissing in r.value.recommendations <==> descriptionMissing)
    ensures r.Success? ==> (AddH1 in r.value.recommendations <==> f.h1Tags == [])
    ensures r.Success? ==> (TitleTooLong in r.value.recommendations <==> |r.value.title| > 60)
    ensures r.Success? && pagespeed.error.Some? ==>
      |r.value.recommendations| >= 1 && r.value.recommendations[|r.value.recommendations| - 1] == PageSpeed(pagespeed.error.value)
  {
    if f.title.None? then Failure(NoneTitleString)
    else
      match ErrorFirstPageSpeed(pagespeed)
      case Failure(e) => Failure(e)
      case Success(ps) => AppResultOf(f, descriptionMissing, ps)
  }

  /** `analyze_seo` as written: the page facts, the five rules with the
      description compared with the title sentinel (where `len(title)` of a
      title without a single string raises before PageSpeed is consulted),
      then the PageSpeed error text or recommendations. */
  function AnalyzeSeoAsWritten(soup: Node, pagespeed: PageSpeedData): (r: Result<AppResult, Fault>)
    ensures r.Failure? <==> Facts(soup).Failure? || PageTitle(soup).None? || ErrorFirstPageSpeed(pagespeed).Failure?
    ensures Facts(soup).Success? && PageTitle(soup).None? ==> r == Failure(NoneTitleString)
    ensures Facts(soup).Success? && PageTitle(soup).Some? && ErrorFirstPageSpeed(pagespeed).Failure? ==>
      r == Failure(MissingRecommendations)
    ensures r.Success? ==> (DescriptionMissing in r.value.recommendations <==> r.value.description == TitleNotFound)
  {
    var f :- Facts(soup);
    FactsResult(f, DescriptionIsTitleSentinel(f.description), pagespeed)
  }

  /** `analyze_seo` with the evidently intended description rule, the one
      the synchronous `legacy_analyze_seo` applies to the same facts. */
  function AnalyzeSeo(soup: Node, pagespeed: PageSpeedData): (r: Result<AppResult, Fault>)
    ensures r.Failure? <==> Facts(soup).Failure? || PageTitle(soup).None? || ErrorFirstPageSpeed(pagespeed).Failure?
    ensures r.Success? ==> (DescriptionMissing in r.value.recommendations <==> DescriptionMissingRule(r.value.description))
    ensures r.Success? ==> (AddH1 in r.value.recommendations <==> FindAllTag(soup, "h1") == [])
    ensures r.Success? ==> (TitleTooLong in r.value.recommendations <==> |r.value.title| > 60)
    ensures r.Success? && pagespeed.error.Some? ==>
      |r.value.recommendations| >= 1 && r.value.recommendations[|r.value.recommendations| - 1] == PageSpeed(pagespeed.error.value)
    ensures Facts(soup).Success? && PageTitle(soup).None? ==> r == Failure(NoneTitleString)
    ensures Facts(soup).Success? && PageTitle(soup).Some? && ErrorFirstPageSpeed(pagespeed).Failure? ==>
      r == Failure(MissingRecommendations)
  {
    var f :- Facts(soup);
    FactsResult(f, DescriptionMissingRule(f.description), pagespeed)
  }

  /** The two versions differ in the description rule alone; a description
      equal to the sentinel is missing under both. */
  lemma AsWrittenDiffersOnlyInDescription(soup: Node, pagespeed: PageSpeedData)
    ensures AnalyzeSeoAsWritten(soup, pagespeed).Failure? <==> AnalyzeSeo(soup, pagespeed).Failure?
    ensures AnalyzeSeo(soup, pagespeed).Success? ==>
      var a := AnalyzeSeoAsWritten(soup, pagespeed).value;
      var c := AnalyzeSeo(soup, pagespeed).value;
      && a.title == c.title && a.description == c.description && a.keywords == c.keywords
      && Filter(a.recommendations, NotDescriptionMissing) == Filter(c.recommendations, NotDescriptionMissing)
      && (DescriptionMissing in a.recommendations ==> DescriptionMissing in c.recommendations)
  {
    if AnalyzeSeo(soup, pagespeed).Success? {
      var f := Facts(soup).value;
      var ps := ErrorFirstPageSpeed(pagespeed).value;
      RulesWithoutDescription(f, DescriptionIsTitleSentinel(f.description), DescriptionMissingRule(f.description));
      FilterAppend(PageRecommendations(f, DescriptionIsTitleSentinel(f.description)).value, ps, NotDescriptionMissing);
      FilterAppend(PageRecommendations(f, DescriptionMissingRule(f.description)).value, ps, NotDescriptionMissing);
    }
  }

  predicate NotDescriptionMissing(m: Msg) {
    m != DescriptionMissing
  }

  /** Dropping the description recommendation, the five rules do not depend
      on the description rule. */
  lemma RulesWithoutDescription(f: PageFacts, d1: bool, d2: bool)
    requires f.title.Some?
    ensures Filter(PageRecommendations(f, d1).value, NotDescriptionMissing)
         == Filter(PageRecommendations(f, d2).value, NotDescriptionMissing)
  {
    var long := |f.title.value| > 60;
    var k := f.keywords == KeywordsNotFound;
    var body := BodyRules(f.h1Tags == [], f.imgWithoutAlt);
    FilterAppend(HeadRules(long, d1, k), body, NotDescriptionMissing);
    FilterAppend(HeadRules(long, d2, k), body, NotDescriptionMissing);
    HeadRulesWithoutDescription(long, d1, k);
    HeadRulesWithoutDescription(long, d2, k);
  }

  lemma HeadRulesWithoutDescription(long: bool, d: bool, k: bool)
    ensures Filter(HeadRules(long, d, k), NotDescriptionMissing) == Filter(HeadRules(long, false, k), NotDescriptionMissing)
  {
    var a := if long then [TitleTooLong] else [];
    var c := if k then [AddMetaKeywords] else [];
    assert HeadRules(long, false, k) == a + c;
    if d {
      assert HeadRules(long, d, k) == a + [DescriptionMissing] + c;
      DropMissing(a, c);
    }
  }

  /** Filtering out the missing-description message forgets where it was. */
  lemma DropMissing(a: seq<Msg>, c: seq<Msg>)
    ensures Filter(a + [DescriptionMissing] + c, NotDescriptionMissing) == Filter(a + c, NotDescriptionMissing)
  {
    FilterAppend(a + [DescriptionMissing], c, NotDescriptionMissing);
    FilterAppend(a, [DescriptionMissing], NotDescriptionMissing);
    FilterAppend(a, c, NotDescriptionMissing);
    assert Filter([DescriptionMissing], NotDescriptionMissing) == [];
  }

  /* ------------------------------------------------------- counterexample */

  /** An empty document: no title, no description tag, no paragraphs. */
  function EmptyPage(): Node {
    Document([])
  }

  /** On the empty page the description is empty, yet the code as written
      gives no missing-description recommendation; the corrected rule
      gives one. */
  lemma EmptyDescriptionUnreported()
    ensures AnalyzeSeoAsWritten(EmptyPage(), PageSpeedData(None, Some(Listed([])))).Success?
    ensures AnalyzeSeoAsWritten(EmptyPage(), PageSpeedData(None, Some(Listed([])))).value.description == ""
    ensures DescriptionMissing !in AnalyzeSeoAsWritten(EmptyPage(), PageSpeedData(None, Some(Listed([])))).value.recommendations
    ensures DescriptionMissing in AnalyzeSeo(EmptyPage(), PageSpeedData(None, Some(Listed([])))).value.recommendations
  {
    var soup := EmptyPage();
    assert Below(soup) == [];
    assert Hrefs(soup) == [];
    assert FindAllTag(soup, "p") == [];
    assert FindTag(soup, "title").None?;
    assert MetaAnalysis.FindMeta(soup, "name", "description").None?;
    assert PageDescription(soup) == "";
  }
}

=== FILE: collector.dfy ===
/** The page-extraction helpers of `app/data_collector.py`: the head data,
    the main content area, the categorised links and the image counts.
    Two of them answer with an error record instead of raising; `urlparse`
    failures propagate as faults. */
module DataCollector {
  import opened Wrappers
  import opened Seqs
  import opened Strings
  import opened Dom
  import opened Urls
  import M = MetaAnalysis
  import PageRules

  /** A helper's answer: the extracted data, or the `{'error': ...}` record. */
  datatype Extracted<T> = Extracted(value: T) | ErrorRecord(message: string)

  const NoHeadMessage: string := "No head section found"
  const NoMainContentMessage: string := "No main content area identified"

  /* ------------------------------------------------------------- head */

  /** A mapping filled in list order: every element with a key writes its
      value under that key, overwriting what an earlier one wrote. */
  function LastWins<T>(xs: seq<T>, key: T -> Option<string>, val: T -> Option<string>): map<string, Option<string>>
    decreases |xs|
  {
    if xs == [] then map[]
    else
      var m := LastWins(xs[..|xs| - 1], key, val);
      var x := xs[|xs| - 1];
      if key(x).Some? then m[key(x).value := val(x)] else m
  }

  /** The keys are exactly the keys of the elements, and each holds the
      value of the last element with that key. */
  lemma {:induction false} LastWinsIff<T>(xs: seq<T>, key: T -> Option<string>, val: T -> Option<string>, k: string)
    ensures k in LastWins(xs, key, val) <==> exists i :: 0 <= i < |xs| && key(xs[i]) == Some(k)
    ensures k in LastWins(xs, key, val) ==>
      exists i :: 0 <= i < |xs| && key(xs[i]) == Some(k) && LastWins(xs, key, val)[k] == val(xs[i])
        && forall j :: i < j < |xs| ==> key(xs[j]) != Some(k)
    decreases |xs|
  {
    if xs != [] {
      var init := xs[..|xs| - 1];
      var n := |xs| - 1;
      LastWinsIff(init, key, val, k);
      assert forall i :: 0 <= i < n ==> init[i] == xs[i];
      if key(xs[n]) != Some(k) && k in LastWins(xs, key, val) {
        var i :| 0 <= i < n && key(init[i]) == Some(k) && LastWins(init, key, val)[k] == val(init[i])
          && forall j :: i < j < n ==> key(init[j]) != Some(k);
        assert key(xs[i]) == Some(k) && forall j :: i < j < |xs| ==> key(xs[j]) != Some(k);
      }
      if key(xs[n]) == Some(k) {
        assert LastWins(xs, key, val)[k] == val(xs[n]);
      }
    }
  }

  /** The key of a meta tag: its non-empty `name`, else its non-empty
      `property`. */
  function MetaKey(meta: Node): Option<string> {
    if M.Truthy(Attr(meta, "name")) then Attr(meta, "name")
    else if M.Truthy(Attr(meta, "property")) then Attr(meta, "property")
    else None
  }

  function MetaContent(meta: Node): Option<string> {
    Attr(meta, "content")
  }

  /** The key of a link tag: its `rel` tokens joined by one space, when it
      has any. */
  function LinkKey(link: Node): Option<string> {
    if AttrTokens(link, "rel") != [] then Some(Join(AttrTokens(link, "rel"), " ")) else None
  }

  function LinkHref(link: Node): Option<string> {
    Attr(link, "href")
  }

  predicate IsScriptWithSrc(x: Node) {
    HasTag(x, "script") && HasAttr(x, "src")
  }

  function ScriptSrc(x: Node): string {
    Attr(x, "src").GetOr("")
  }

  datatype HeadData = HeadData(
    title: Option<string>,
    metaTags: map<string, Option<string>>,
    linkTags: map<string, Option<string>>,
    scripts: seq<string>)

  /** `_extract_head_data`: the error record without a `<head>`; otherwise
      the head's title string, its meta and link tags keyed as above, and
      the sources of its scripts in order. */
  function ExtractHead(soup: Node): (r: Extracted<HeadData>)
    ensures r.ErrorRecord? <==> FindTag(soup, "head").None?
    ensures r.ErrorRecord? ==> r.message == NoHeadMessage
    ensures r.Extracted? ==> var head := FindTag(soup, "head").value;
      && (FindTag(head, "title").None? ==> r.value.title.None?)
      && |r.value.scripts| == |FindAll(head, IsScriptWithSrc)|
      && (forall k :: k in r.value.metaTags <==>
            exists i :: 0 <= i < |FindAllTag(head, "meta")| && MetaKey(FindAllTag(head, "meta")[i]) == Some(k))
    ensures r.Extracted? ==>
      r.value.metaTags == LastWins(FindAllTag(FindTag(soup, "head").value, "meta"), MetaKey, MetaContent)
    ensures r.Extracted? ==> var head := FindTag(soup, "head").value;
      FindTag(head, "title").Some? ==> r.value.title == TagString(FindTag(head, "title").value)
    ensures r.Extracted? ==> var scripts := FindAll(FindTag(soup, "head").value, IsScriptWithSrc);
      forall i :: 0 <= i < |scripts| ==> Attr(scripts[i], "src") == Some(r.value.scripts[i])
    ensures r.Extracted? ==> var links := FindAllTag(FindTag(soup, "head").value, "link");
      r.value.linkTags == LastWins(links, LinkKey, LinkHref)
    ensures r.Extracted? ==> r.value == HeadOf(FindTag(soup, "head").value)
  {
    match FindTag(soup, "head")
    case None => ErrorRecord(NoHeadMessage)
    case Some(head) => Extracted(HeadOf(head))
  }

  /** The record built from a `<head>`. */
  function HeadOf(head: Node): (h: HeadData)
    ensures FindTag(head, "title").None? ==> h.title.None?
    ensures FindTag(head, "title").Some? ==> h.title == TagString(FindTag(head, "title").value)
    ensures var scripts := FindAll(head, IsScriptWithSrc);
      |h.scripts| == |scripts| && forall i :: 0 <= i < |scripts| ==> Attr(scripts[i], "src") == Some(h.scripts[i])
    ensures h.metaTags == LastWins(FindAllTag(head, "meta"), MetaKey, MetaContent)
    ensures forall k :: k in h.metaTags <==>
      exists i :: 0 <= i < |FindAllTag(head, "meta")| && MetaKey(FindAllTag(head, "meta")[i]) == Some(k)
    ensures h.linkTags == LastWins(FindAllTag(head, "link"), LinkKey, LinkHref)
  {
    var metas := FindAllTag(head, "meta");
    var title := match FindTag(head, "title") case None => None case Some(t) => TagString(t);
    var metaTags := LastWins(metas, MetaKey, MetaContent);
    assert forall k :: k in metaTags <==> exists i :: 0 <= i < |metas| && MetaKey(metas[i]) == Some(k) by {
      forall k | true
        ensures k in metaTags <==> exists i :: 0 <= i < |metas| && MetaKey(metas[i]) == Some(k)
      {
        LastWinsIff(metas, MetaKey, MetaContent, k);
      }
    }
    var linkTags := LastWins(FindAllTag(head, "link"), LinkKey, LinkHref);
    var scripts := FindAll(head, IsScriptWithSrc);
    assert forall i :: 0 <= i < |scripts| ==> IsScriptWithSrc(scripts[i]);
    HeadData(title, metaTags, linkTags, Map(scripts, ScriptSrc))
  }

  /** The link tags are keyed by exactly the `rel` values of the head's
      links, each holding the `href` of the last link with that key. */
  lemma LinkTagsRecorded(soup: Node, k: string)
    requires ExtractHead(soup).Extracted?
    ensures var links := FindAllTag(FindTag(soup, "head").value, "link");
      && (k in ExtractHead(soup).value.linkTags <==> exists i :: 0 <= i < |links| && LinkKey(links[i]) == Some(k))
      && (forall i :: 0 <= i < |links| && LinkKey(links[i]) == Some(k) && (forall j :: i < j < |links| ==> LinkKey(links[j]) != Some(k)) ==>
            ExtractHead(soup).value.linkTags[k] == LinkHref(links[i]))
  {
    var links := FindAllTag(FindTag(soup, "head").value, "link");
    LastWinsIff(links, LinkKey, LinkHref, k);
    forall i | 0 <= i < |links| && LinkKey(links[i]) == Some(k) && (forall j :: i < j < |links| ==> LinkKey(links[j]) != Some(k))
      ensures ExtractHead(soup).value.linkTags[k] == LinkHref(links[i])
    {
      LastRecorded(links, LinkKey, LinkHref, i);
    }
  }

  /** A meta tag's content ends up under its key unless a later meta tag
      has the same key, and a tag with both a `name` and a `property` is
      filed under its name. */
  lemma MetaTagRecorded(soup: Node, i: nat)
    requires ExtractHead(soup).Extracted?
    requires var metas := FindAllTag(FindTag(soup, "head").value, "meta");
      i < |metas| && MetaKey(metas[i]).Some?
    ensures var metas := FindAllTag(FindTag(soup, "head").value, "meta");
      var k := MetaKey(metas[i]).value;
      && k in ExtractHead(soup).value.metaTags
      && ((forall j :: i < j < |metas| ==> MetaKey(metas[j]) != Some(k)) ==>
            ExtractHead(soup).value.metaTags[k] == MetaContent(metas[i]))
      && (M.Truthy(Attr(metas[i], "name")) ==> k == Attr(metas[i], "name").value)
  {
    var metas := FindAllTag(FindTag(soup, "head").value, "meta");
    LastRecorded(metas, MetaKey, MetaContent, i);
  }

  /** An element with a key is recorded, with its own value when no later
      element has the same key. */
  lemma LastRecorded<T>(xs: seq<T>, key: T -> Option<string>, val: T -> Option<string>, i: nat)
    requires i < |xs| && key(xs[i]).Some?
    ensures var k := key(xs[i]).value;
      && k in LastWins(xs, key, val)
      && ((forall j :: i < j < |xs| ==> key(xs[j]) != Some(k)) ==> LastWins(xs, key, val)[k] == val(xs[i]))
  {
    LastWinsIff(xs, key, val, key(xs[i]).value);
  }

  /* ------------------------------------------------------ main content */

  /** The containers tried in order: `main`, `article`, `#content`,
      `#main-content`, `.content`, `.main-content`. */
  function MainCandidates(soup: Node): (r: seq<Option<Node>>)
    ensures |r| == 6
  {
    [FindTag(soup, "main"),
     FindTag(soup, "article"),
     Find(soup, (x: Node) => AttrIs(x, "id", "content")),
     Find(soup, (x: Node) => AttrIs(x, "id", "main-content")),
     Find(soup, (x: Node) => AttrIs(x, "class", "content")),
     Find(soup, (x: Node) => AttrIs(x, "class", "main-content"))]
  }

  /** The main content area: the first container found, else `body`. */
  function MainArea(soup: Node): (r: Option<Node>)
    ensures var cs := MainCandidates(soup);
      (exists i :: 0 <= i < |cs| && cs[i].Some?) ==>
        exists i :: 0 <= i < |cs| && cs[i] == r && r.Some? && forall j :: 0 <= j < i ==> cs[j].None?
    ensures (forall i :: 0 <= i < |MainCandidates(soup)| ==> MainCandidates(soup)[i].None?) ==>
      r == FindTag(soup, "body")
  {
    FirstFound(MainCandidates(soup), FindTag(soup, "body"))
  }

  /** The first present option, else the fallback. */
  function FirstFound(cs: seq<Option<Node>>, fallback: Option<Node>): (r: Option<Node>)
    ensures (exists i :: 0 <= i < |cs| && cs[i].Some?) ==>
      exists i :: 0 <= i < |cs| && cs[i] == r && r.Some? && forall j :: 0 <= j < i ==> cs[j].None?
    ensures (forall i :: 0 <= i < |cs| ==> cs[i].None?) ==> r == fallback
    ensures r.None? <==> (forall i :: 0 <= i < |cs| ==> cs[i].None?) && fallback.None?
  {
    match FirstWhere(cs, (o: Option<Node>) => o.Some?)
    case Some(o) => o
    case None => fallback
  }

  datatype Heading = Heading(level: nat, text: string)
  datatype ListData = ListData(kind: string, items: seq<string>)
  datatype MainData = MainData(
    text: string,
    wordCount: nat,
    headings: seq<Heading>,
    paragraphs: seq<string>,
    lists: seq<ListData>)

  const HeadingTags: seq<string> := ["h1", "h2", "h3", "h4", "h5", "h6"]

  /** `get_text(strip=True)`. */
  function StrippedText(n: Node): string {
    GetText(n, "", true)
  }

  /** The headings of levels `level` to 6, level by level, each level in
      document order. */
  function HeadingsFrom(main: Node, level: nat): (r: seq<Heading>)
    requires 1 <= level
    ensures forall i :: 0 <= i < |r| ==> level <= r[i].level <= 6
    ensures forall i, j :: 0 <= i < j < |r| ==> r[i].level <= r[j].level
    decreases 7 - level
  {
    if level > 6 then []
    else
      var here := LevelOf(FindAllTag(main, HeadingTags[level - 1]), level);
      var rest := HeadingsFrom(main, level + 1);
      LevelsOrdered(here, rest, level);
      here + rest
  }

  /** The headings of one level, in document order. */
  function LevelOf(nodes: seq<Node>, level: nat): (r: seq<Heading>)
    ensures |r| == |nodes|
    ensures forall i :: 0 <= i < |r| ==> r[i] == Heading(level, StrippedText(nodes[i]))
  {
    Map(nodes, (h: Node) => Heading(level, StrippedText(h)))
  }

  function AtLevel(level: nat): Heading -> bool {
    (h: Heading) => h.level == level
  }

  /** The tag searched for level `level` is `h` followed by its digit. */
  lemma HeadingTagName(level: nat)
    requires 1 <= level <= 6
    ensures HeadingTags[level - 1] == ['h', ('0' as int + level) as char]
  {
  }

  /** The headings of one level are exactly the texts of that level's tags,
      in document order, however the other levels are filled. */
  lemma {:induction false} HeadingsOfLevel(main: Node, from: nat, level: nat)
    requires 1 <= from <= level <= 6
    ensures Filter(HeadingsFrom(main, from), AtLevel(level)) == LevelOf(FindAllTag(main, HeadingTags[level - 1]), level)
    decreases level - from
  {
    if from == level {
      HeadingsLevelHere(main, level);
    } else {
      HeadingsLevelSkip(main, from, level);
      HeadingsOfLevel(main, from + 1, level);
    }
  }

  lemma HeadingsLevelHere(main: Node, level: nat)
    requires 1 <= level <= 6
    ensures Filter(HeadingsFrom(main, level), AtLevel(level)) == LevelOf(FindAllTag(main, HeadingTags[level - 1]), level)
  {
    var here := LevelOf(FindAllTag(main, HeadingTags[level - 1]), level);
    var rest := HeadingsFrom(main, level + 1);
    var p := AtLevel(level);
    assert HeadingsFrom(main, level) == here + rest;
    assert forall i :: 0 <= i < |here| ==> p(here[i]);
    assert forall i :: 0 <= i < |rest| ==> !p(rest[i]);
    FilterFrontOnly(here, rest, p);
  }

  lemma HeadingsLevelSkip(main: Node, from: nat, level: nat)
    requires 1 <= from < level <= 6
    ensures Filter(HeadingsFrom(main, from), AtLevel(level)) == Filter(HeadingsFrom(main, from + 1), AtLevel(level))
  {
    var here := LevelOf(FindAllTag(main, HeadingTags[from - 1]), from);
    var p := AtLevel(level);
    assert HeadingsFrom(main, from) == here + HeadingsFrom(main, from + 1);
    assert forall i :: 0 <= i < |here| ==> !p(here[i]);
    FilterSkipNone(here, HeadingsFrom(main, from + 1), p);
  }

  /** One level's headings before the ordered deeper ones stay ordered. */
  lemma LevelsOrdered(here: seq<Heading>, rest: seq<Heading>, level: nat)
    requires forall i :: 0 <= i < |here| ==> here[i].level == level
    requires forall i :: 0 <= i < |rest| ==> level + 1 <= rest[i].level <= 6
    requires forall i, j :: 0 <= i < j < |rest| ==> rest[i].level <= rest[j].level
    requires level <= 6
    ensures forall i :: 0 <= i < |here + rest| ==> level <= (here + rest)[i].level <= 6
    ensures forall i, j :: 0 <= i < j < |here + rest| ==> (here + rest)[i].level <= (here + rest)[j].level
  {
  }

  /** The number of headings is the sum of the per-level counts. */
  lemma {:induction false} HeadingsCount(main: Node, level: nat)
    requires 1 <= level <= 7
    ensures |HeadingsFrom(main, level)| == Sum(Map(HeadingTags[level - 1..], (t: string) => |FindAllTag(main, t)|))
    decreases 7 - level
  {
    var f := (t: string) => |FindAllTag(main, t)|;
    var ts := HeadingTags[level - 1..];
    if level <= 6 {
      assert ts == [ts[0]] + ts[1..];
      assert Map(ts, f) == [f(ts[0])] + Map(ts[1..], f);
      HeadingsCount(main, level + 1);
      assert ts[1..] == HeadingTags[level..];
    } else {
      assert ts == [];
    }
  }

  /** A list's tag name and the stripped texts of its items. */
  function ListOf(l: Node): (r: ListData)
    ensures r.kind == if l.Element? then l.tag else ""
    ensures |r.items| == |FindAllTag(l, "li")|
    ensures forall i :: 0 <= i < |r.items| ==> r.items[i] == StrippedText(FindAllTag(l, "li")[i])
  {
    ListData(if l.Element? then l.tag else "", Map(FindAllTag(l, "li"), StrippedText))
  }

  /** What is extracted from the main area: its stripped text and word
      count, its headings level by level, the stripped text of each
      paragraph and each list, in document order. */
  function MainDataOf(main: Node): (r: MainData)
    ensures r.text == StrippedText(main) && r.wordCount == |Words(r.text)|
    ensures r.headings == HeadingsFrom(main, 1)
    ensures |r.paragraphs| == |FindAllTag(main, "p")|
    ensures forall i :: 0 <= i < |r.paragraphs| ==> r.paragraphs[i] == StrippedText(FindAllTag(main, "p")[i])
    ensures |r.lists| == |FindAllTags(main, ["ul", "ol"])|
    ensures forall i :: 0 <= i < |r.lists| ==> r.lists[i] == ListOf(FindAllTags(main, ["ul", "ol"])[i])
  {
    var text := StrippedText(main);
    MainData(text, |Words(text)|, HeadingsFrom(main, 1),
      Map(FindAllTag(main, "p"), StrippedText), Map(FindAllTags(main, ["ul", "ol"]), ListOf))
  }

  /** `_extract_main_content`: the error record when there is neither a
      container nor a body; otherwise the data of the area found. */
  function ExtractMainContent(soup: Node): (r: Extracted<MainData>)
    ensures r.ErrorRecord? <==> MainArea(soup).None?
    ensures r.ErrorRecord? ==> r.message == NoMainContentMessage
    ensures r.Extracted? ==> r.value == MainDataOf(MainArea(soup).value)
    ensures r.Extracted? ==> var main := MainArea(soup).value;
      && r.value.text == StrippedText(main)
      && |r.value.paragraphs| == |FindAllTag(main, "p")|
      && (forall i :: 0 <= i < |r.value.paragraphs| ==> r.value.paragraphs[i] == StrippedText(FindAllTag(main, "p")[i]))
      && |r.value.lists| == |FindAllTags(main, ["ul", "ol"])|
      && (forall i, j :: 0 <= i < j < |r.value.headings| ==> r.value.headings[i].level <= r.value.headings[j].level)
  {
    match MainArea(soup)
    case None => ErrorRecord(NoMainContentMessage)
    case Some(main) => Extracted(MainDataOf(main))
  }

  /** A page without a body and without any container gets the error
      record; a body alone is enough. */
  lemma NoAreaIff(soup: Node)
    ensures ExtractMainContent(soup).ErrorRecord? <==>
      (forall i :: 0 <= i < 6 ==> MainCandidates(soup)[i].None?) && FindTag(soup, "body").None?
  {
    assert MainArea(soup) == FirstFound(MainCandidates(soup), FindTag(soup, "body"));
  }

  /* ------------------------------------------------------------ links */

  datatype Category = Internal | Social | Resource | External

  datatype LinkData = LinkData(url: string, text: string, domain: string)

  datatype LinkReport = LinkReport(
    internal: seq<LinkData>,
    external: seq<LinkData>,
    social: seq<LinkData>,
    resources: seq<LinkData>,
    totalCount: nat)

  const SocialDomains: seq<string> :=
    ["facebook.com", "twitter.com", "instagram.com", "linkedin.com", "youtube.com", "pinterest.com"]

  const ResourceExtensions: seq<string> :=
    [".pdf", ".doc", ".docx", ".xls", ".xlsx", ".ppt", ".pptx", ".zip", ".rar"]

  /** Fragment and `javascript:` links are not collected. */
  predicate Skipped(href: string) {
    StartsWith(href, "#") || StartsWith(href, "javascript:")
  }

  predicate IsCollected(link: Node) {
    !Skipped(Href(link))
  }

  predicate IsSocial(netloc: string) {
    exists i :: 0 <= i < |SocialDomains| && Contains(netloc, SocialDomains[i])
  }

  predicate IsResource(path: string) {
    exists i :: 0 <= i < |ResourceExtensions| && EndsWith(path, ResourceExtensions[i])
  }

  predicate AbsoluteLink(href: string) {
    StartsWith(href, "http://") || StartsWith(href, "https://")
  }

  /** The absolute address of an href: a root-relative one is put on the
      base's scheme and host, an http(s) one is kept, and any other is
      joined to the base with `urljoin`, which raises on an href `urlparse`
      rejects (`join` is its resolution step). */
  function FullUrl(href: string, base: Url, baseUrl: string, join: (string, string) -> string): Result<string, Fault> {
    if StartsWith(href, "/") then Success(base.scheme + "://" + base.netloc + href)
    else if !AbsoluteLink(href) then UrlJoin(baseUrl, href, join)
    else Success(href)
  }

  /** The categories, in priority order: same host, social host,
      document path, anything else. */
  function CategoryOf(u: Url, baseDomain: string): (c: Category)
    ensures c == Internal <==> u.netloc == baseDomain
    ensures c == Social <==> u.netloc != baseDomain && IsSocial(u.netloc)
    ensures c == Resource <==> u.netloc != baseDomain && !IsSocial(u.netloc) && IsResource(u.path)
    ensures c == External <==> u.netloc != baseDomain && !IsSocial(u.netloc) && !IsResource(u.path)
  {
    if u.netloc == baseDomain then Internal
    else if IsSocial(u.netloc) then Social
    else if IsResource(u.path) then Resource
    else External
  }

  /** `f` applied to every element in order, stopping at the first
      failure. */
  function MapAll<T, U>(xs: seq<T>, f: T -> Result<U, Fault>): (r: Result<seq<U>, Fault>)
    ensures r.Failure? <==> exists i :: 0 <= i < |xs| && f(xs[i]).Failure?
    ensures r.Success? ==> |r.value| == |xs| && forall i :: 0 <= i < |xs| ==> f(xs[i]) == Success(r.value[i])
  {
    if xs == [] then Success([])
    else
      var y :- f(xs[0]);
      var rest :- MapAll(xs[1..], f);
      assert forall i :: 1 <= i < |xs| ==> xs[i] == xs[1..][i - 1];
      Success([y] + rest)
  }

  /** One collected link: its absolute address, text and host, and its
      category. `urljoin` may raise on a relative href, and `urlparse` may
      reject the address. */
  function LinkOf(link: Node, base: Url, baseUrl: string, join: (string, string) -> string): (r: Result<(LinkData, Category), Fault>)
    ensures var href := Href(link);
      (!StartsWith(href, "/") && !AbsoluteLink(href) && baseUrl != "" && href != ""
       && (Parse(baseUrl).Failure? || Parse(href).Failure?)) ==> r.Failure?
    ensures var full := FullUrl(Href(link), base, baseUrl, join);
      && (r.Failure? <==> full.Failure? || Parse(full.value).Failure?)
      && (r.Success? ==> r.value == (LinkData(full.value, StrippedText(link), Parse(full.value).value.netloc),
                                     CategoryOf(Parse(full.value).value, base.netloc)))
  {
    match FullUrl(Href(link), base, baseUrl, join)
    case Failure(e) => Failure(e)
    case Success(full) =>
      match Parse(full)
      case Failure(e) => Failure(e)
      case Success(u) => Success((LinkData(full, StrippedText(link), u.netloc), CategoryOf(u, base.netloc)))
  }

  /** The links of category `c`, in order. */
  function InCategory(cl: seq<(LinkData, Category)>, c: Category): (r: seq<LinkData>)
    ensures |r| == |Filter(cl, (p: (LinkData, Category)) => p.1 == c)|
    ensures forall d :: d in r <==> (d, c) in cl
  {
    var kept := Filter(cl, (p: (LinkData, Category)) => p.1 == c);
    MapImage(kept, (p: (LinkData, Category)) => p.0);
    assert forall i :: 0 <= i < |kept| ==> kept[i] in kept;
    assert forall d :: (d, c) in cl ==> (d, c) in kept;
    Map(kept, (p: (LinkData, Category)) => p.0)
  }

  /** The four categories split the classified links between them. */
  lemma {:induction false} CategoriesPartition(cl: seq<(LinkData, Category)>)
    ensures |InCategory(cl, Internal)| + |InCategory(cl, External)| + |InCategory(cl, Social)|
      + |InCategory(cl, Resource)| == |cl|
  {
    if cl != [] {
      CategoriesPartition(cl[1..]);
    }
  }

  /** The anchors with an href that are not skipped, in document order. */
  function Collected(soup: Node): seq<Node> {
    Filter(FindAll(soup, IsHrefLink), IsCollected)
  }

  /** Every collected link with its category, in order, or the failure of
      the first one that raises. */
  function Classified(soup: Node, base: Url, baseUrl: string, join: (string, string) -> string)
    : (r: Result<seq<(LinkData, Category)>, Fault>)
    ensures r.Failure? <==> exists i :: 0 <= i < |Collected(soup)| && LinkOf(Collected(soup)[i], base, baseUrl, join).Failure?
    ensures r.Success? ==> (|r.value| == |Collected(soup)|
      && forall i :: 0 <= i < |r.value| ==> LinkOf(Collected(soup)[i], base, baseUrl, join) == Success(r.value[i]))
  {
    MapAll(Collected(soup), (l: Node) => LinkOf(l, base, baseUrl, join))
  }

  /** `_extract_links`: the page's anchors with an href, fragment and
      `javascript:` ones skipped, each reported in its category. */
  function ExtractLinks(soup: Node, baseUrl: string, join: (string, string) -> string): (r: Result<LinkReport, Fault>)
    ensures r.Failure? <==> Parse(baseUrl).Failure? || Classified(soup, Parse(baseUrl).value, baseUrl, join).Failure?
    ensures r.Success? ==> var cl := Classified(soup, Parse(baseUrl).value, baseUrl, join).value;
      && r.value.internal == InCategory(cl, Internal) && r.value.external == InCategory(cl, External)
      && r.value.social == InCategory(cl, Social) && r.value.resources == InCategory(cl, Resource)
    ensures r.Success? ==>
      r.value.totalCount == |r.value.internal| + |r.value.external| + |r.value.social| + |r.value.resources|
    ensures r.Success? ==> r.value.totalCount == |Collected(soup)|
  {
    match Parse(baseUrl)
    case Failure(e) => Failure(e)
    case Success(base) =>
      match Classified(soup, base, baseUrl, join)
      case Failure(e) => Failure(e)
      case Success(cl) =>
        CategoriesPartition(cl);
        var internal := InCategory(cl, Internal);
        var external := InCategory(cl, External);
        var social := InCategory(cl, Social);
        var resources := InCategory(cl, Resource);
        Success(LinkReport(internal, external, social, resources, |internal| + |external| + |social| + |resources|))
  }

  /** Every collected link is reported, in the list of the category its
      address falls in. */
  lemma CollectedLinkReported(soup: Node, baseUrl: string, join: (string, string) -> string, i: nat)
    requires ExtractLinks(soup, baseUrl, join).Success? && i < |Collected(soup)|
    ensures var base := Parse(baseUrl).value;
      var link := LinkOf(Collected(soup)[i], base, baseUrl, join).value;
      var report := ExtractLinks(soup, baseUrl, join).value;
      && (link.1 == Internal ==> link.0 in report.internal)
      && (link.1 == Social ==> link.0 in report.social)
      && (link.1 == Resource ==> link.0 in report.resources)
      && (link.1 == External ==> link.0 in report.external)
  {
    var cl := Classified(soup, Parse(baseUrl).value, baseUrl, join).value;
    assert cl[i] in cl;
  }

  /** A skipped link is in no category: every reported link comes from a
      collected anchor. */
  lemma SkippedNotReported(soup: Node, baseUrl: string, join: (string, string) -> string, link: Node)
    requires ExtractLinks(soup, baseUrl, join).Success?
    requires link in FindAll(soup, IsHrefLink) && Skipped(Href(link))
    ensures |ExtractLinks(soup, baseUrl, join).value.internal| + |ExtractLinks(soup, baseUrl, join).value.external|
      + |ExtractLinks(soup, baseUrl, join).value.social| + |ExtractLinks(soup, baseUrl, join).value.resources|
      < |FindAll(soup, IsHrefLink)|
  {
    var links := FindAll(soup, IsHrefLink);
    var skipped := (x: Node) => !IsCollected(x);
    FilterSplit(links, IsCollected, skipped);
    assert link in Filter(links, skipped);
  }

  /* ----------------------------------------------------------- images */

  datatype ImageReport = ImageReport(count: nat, withAlt: nat, withoutAlt: nat, responsive: nat)

  predicate IsImagePair(p: (Node, string)) {
    HasTag(p.0, "img")
  }

  /** Every image with the name of its parent, in document order. */
  function ImagePairs(soup: Node): seq<(Node, string)> {
    Filter(Below(soup), IsImagePair)
  }

  /** `bool(img.get('alt'))`. */
  predicate HasAltText(p: (Node, string)) {
    M.Truthy(Attr(p.0, "alt"))
  }

  predicate LacksAltText(p: (Node, string)) {
    !HasAltText(p)
  }

  /** `bool(img.get('srcset') or img.parent.name == 'picture')`. */
  predicate IsResponsiveImage(p: (Node, string)) {
    M.Truthy(Attr(p.0, "srcset")) || p.1 == "picture"
  }

  /** `_extract_images`' counts (the `svg` count is not modelled): the
      images, those with and without a non-empty alt, and the
      responsive ones. */
  function ExtractImages(soup: Node): (r: ImageReport)
    ensures r.count == |FindAllTag(soup, "img")|
    ensures r.withAlt == |Positions(ImagePairs(soup), HasAltText)|
    ensures r.withoutAlt == |Positions(ImagePairs(soup), LacksAltText)|
    ensures r.responsive == |Positions(ImagePairs(soup), IsResponsiveImage)|
    ensures r.withAlt + r.withoutAlt == r.count
    ensures r.responsive <= r.count
  {
    var imgs := ImagePairs(soup);
    FilterSplit(imgs, HasAltText, LacksAltText);
    FilterCard(imgs, HasAltText);
    FilterCard(imgs, LacksAltText);
    FilterMap(Below(soup), (p: (Node, string)) => p.0, (x: Node) => HasTag(x, "img"), IsImagePair);
    ImageReport(|imgs|, |Filter(imgs, HasAltText)|, |Filter(imgs, LacksAltText)|, CountWhere(imgs, IsResponsiveImage))
  }

  /** The images the collector counts without alt are the ones the page
      rules report. */
  lemma WithoutAltAgrees(soup: Node)
    ensures ExtractImages(soup).withoutAlt == PageRules.ImagesWithoutAltCount(soup)
  {
    var fst := (p: (Node, string)) => p.0;
    FilterMap(Below(soup), fst, (x: Node) => HasTag(x, "img"), IsImagePair);
    assert Map(ImagePairs(soup), fst) == FindAllTag(soup, "img");
    PositionsMap(ImagePairs(soup), fst, PageRules.LacksAlt, LacksAltText);
  }
}

=== FILE: competitive.dfy ===
/** The limited competitive analyzer
    (`app/services/analyzers/competitive_analyzer.py`): content metrics of
    the page, candidate keywords from its title and headings, and fixed
    recommendations. Without external API data its results are marked as
    limited. */
module CompetitiveAnalysis {
  import opened Wrappers
  import opened Seqs
  import opened Strings
  import opened Dom
  import opened Recs
  import Urls

  /* ---------------------------------------------------- content metrics */

  datatype Headings = Headings(h1: nat, h2: nat, h3: nat, total: nat)

  datatype ContentMetrics = ContentMetrics(
    wordCount: nat,
    headings: Headings,
    listItems: nat,
    images: nat,
    tables: nat,
    videos: nat,
    outboundLinks: nat,
    contentScore: real)

  /** `href.startswith(('http://', 'https://'))`. */
  predicate IsAbsolute(href: string) {
    StartsWith(href, "http://") || StartsWith(href, "https://")
  }

  /** An absolute link whose text does not mention the page's domain. */
  predicate IsOutbound(domain: string, href: string) {
    IsAbsolute(href) && !Contains(href, domain)
  }

  /** `min(100, word_count / 50)`. */
  function ContentScore(wordCount: nat): (r: real)
    ensures 0.0 <= r <= 100.0
    ensures wordCount <= 5000 ==> r * 50.0 == wordCount as real
    ensures wordCount >= 5000 ==> r == 100.0
  {
    var q := wordCount as real / 50.0;
    if q < 100.0 then q else 100.0
  }

  /** The metrics with a given outbound-link count. */
  function MetricsWith(soup: Node, outbound: nat): (r: ContentMetrics)
    ensures r.headings.total == r.headings.h1 + r.headings.h2 + r.headings.h3
    ensures r.wordCount == |WordTokens(GetText(soup, "", true))|
    ensures r.outboundLinks == outbound
    ensures r.headings.h1 == |FindAllTag(soup, "h1")| && r.headings.h2 == |FindAllTag(soup, "h2")|
      && r.headings.h3 == |FindAllTag(soup, "h3")|
    ensures r.listItems == |FindAllTag(soup, "li")| && r.images == |FindAllTag(soup, "img")|
      && r.tables == |FindAllTag(soup, "table")| && r.videos == |FindAllTags(soup, ["video", "iframe"])|
    ensures r.contentScore == ContentScore(r.wordCount) && 0.0 <= r.contentScore <= 100.0
  {
    var h1 := |FindAllTag(soup, "h1")|;
    var h2 := |FindAllTag(soup, "h2")|;
    var h3 := |FindAllTag(soup, "h3")|;
    var words := |WordTokens(GetText(soup, "", true))|;
    ContentMetrics(
      words, Headings(h1, h2, h3, h1 + h2 + h3), |FindAllTag(soup, "li")|, |FindAllTag(soup, "img")|,
      |FindAllTag(soup, "table")|, |FindAllTags(soup, ["video", "iframe"])|, outbound, ContentScore(words))
  }

  /** `_analyze_content_metrics` as written: the loop over links evaluates
      `urlparse(url)` for the first absolute link, and `url` is not bound in
      the method, so any absolute link raises. Without one the outbound
      count stays 0. */
  function MetricsAsWritten(soup: Node): (r: Result<ContentMetrics, Fault>)
    ensures r.Failure? <==> exists h :: h in Hrefs(soup) && IsAbsolute(h)
    ensures r.Failure? ==> r.error == UnboundUrlName
    ensures r.Success? ==> r.value.outboundLinks == 0
  {
    if exists h :: h in Hrefs(soup) && IsAbsolute(h) then Failure(UnboundUrlName)
    else Success(MetricsWith(soup, 0))
  }

  /** The number of outbound links among `hrefs`. */
  function OutboundCount(hrefs: seq<string>, domain: string): (n: nat)
    ensures n == |Positions(hrefs, (h: string) => IsOutbound(domain, h))|
    ensures n <= |hrefs|
    ensures n > 0 <==> exists h :: h in hrefs && IsOutbound(domain, h)
  {
    CountWhere(hrefs, (h: string) => IsOutbound(domain, h))
  }

  /** `_analyze_content_metrics` with the page's own domain in place of the
      unbound name: an outbound link is an absolute link that does not
      mention the domain. */
  function Metrics(soup: Node, domain: string): (r: ContentMetrics)
    ensures r.outboundLinks == |Positions(Hrefs(soup), (h: string) => IsOutbound(domain, h))|
    ensures r.outboundLinks <= |FindAll(soup, IsHrefLink)|
    ensures r.outboundLinks > 0 <==> exists h :: h in Hrefs(soup) && IsOutbound(domain, h)
    ensures r.headings.total == r.headings.h1 + r.headings.h2 + r.headings.h3
    ensures r.headings.h1 == |FindAllTag(soup, "h1")| && r.headings.h2 == |FindAllTag(soup, "h2")|
      && r.headings.h3 == |FindAllTag(soup, "h3")|
    ensures r.listItems == |FindAllTag(soup, "li")| && r.images == |FindAllTag(soup, "img")|
      && r.tables == |FindAllTag(soup, "table")| && r.videos == |FindAllTags(soup, ["video", "iframe"])|
    ensures r.wordCount == |WordTokens(GetText(soup, "", true))|
    ensures r.contentScore == ContentScore(r.wordCount) && 0.0 <= r.contentScore <= 100.0
  {
    MetricsWith(soup, OutboundCount(Hrefs(soup), domain))
  }

  /** Where the unbound name is never reached, the code as written agrees
      with the corrected metrics for every domain. */
  lemma AsWrittenAgrees(soup: Node, domain: string)
    requires forall h :: h in Hrefs(soup) ==> !IsAbsolute(h)
    ensures MetricsAsWritten(soup) == Success(Metrics(soup, domain))
  {
    assert OutboundCount(Hrefs(soup), domain) == 0;
  }

  /** A page whose single link is absolute. */
  function OneAbsoluteLink(): Node {
    Document([Element("a", map["href" := "https://example.org/"], [Text("example")])])
  }

  lemma OneAbsoluteLinkHrefs()
    ensures Hrefs(OneAbsoluteLink()) == ["https://example.org/"]
  {
    var a := Element("a", map["href" := "https://example.org/"], [Text("example")]);
    var soup := OneAbsoluteLink();
    assert BelowAll([Text("example")], "a") == [];
    assert Below(soup) == [(a, DocumentTag)];
    assert FindAll(soup, IsHrefLink) == [a];
  }

  /** The counterexample: one absolute link makes the code as written fail,
      while the corrected metrics count it as outbound for a domain that it
      does not mention. */
  lemma AbsoluteLinkFails()
    ensures MetricsAsWritten(OneAbsoluteLink()).Failure?
    ensures Metrics(OneAbsoluteLink(), "www.another-site.example").outboundLinks == 1
  {
    var h := "https://example.org/";
    OneAbsoluteLinkHrefs();
    assert IsAbsolute(h) by {
      assert h[..|"https://"|] == "https://";
    }
    assert !Contains(h, "www.another-site.example") by {
      ContainsIff(h, "www.another-site.example");
    }
    assert OutboundCount([h], "www.another-site.example") == 1 by {
      var p := (x: string) => IsOutbound("www.another-site.example", x);
      assert Filter([h], p) == [h];
    }
  }

  /* -------------------------------------------------- potential keywords */

  datatype PotentialKeywords = PotentialKeywords(singleWords: seq<string>, phrases: seq<string>)

  const StopWords: seq<string> := ["и", "в", "на", "с", "по", "к", "у", "о", "от", "для", "из"]

  /** A word that may start a keyword: not a stop word and longer than three
      characters. */
  predicate Candidate(w: string) {
    w !in StopWords && |w| > 3
  }

  /** `soup.title.string if soup.title else ""`: a page without a title gives
      the empty string; a title without a single string gives None, which
      fails when it is concatenated. */
  function TitleString(soup: Node): (r: Result<string, Fault>)
    ensures r.Failure? <==> FindTag(soup, "title").Some? && TagString(FindTag(soup, "title").value).None?
    ensures r.Failure? ==> r.error == NoneTitleString
    ensures FindTag(soup, "title").None? ==> r == Success("")
    ensures FindTag(soup, "title").Some? && TagString(FindTag(soup, "title").value).Some? ==>
      r == Success(TagString(FindTag(soup, "title").value).value)
  {
    match FindTag(soup, "title")
    case None => Success("")
    case Some(t) =>
      match TagString(t)
      case None => Failure(NoneTitleString)
      case Some(s) => Success(s)
  }

  /** The lower-cased words of the title and of the stripped h1-h3 texts. */
  function HeadingWords(title: string, soup: Node): seq<string> {
    var headings := Map(FindAllTags(soup, ["h1", "h2", "h3"]), (h: Node) => GetText(h, "", true));
    WordTokens(Lower(title + " " + Join(headings, " ")))
  }

  /** The phrase of two words starting at `i`. */
  function Pair(ws: seq<string>, i: nat): string
    requires i + 1 < |ws|
  {
    ws[i] + " " + ws[i + 1]
  }

  /** The phrase of three words starting at `i`. */
  function Triple(ws: seq<string>, i: nat): string
    requires i + 2 < |ws|
  {
    ws[i] + " " + ws[i + 1] + " " + ws[i + 2]
  }

  /** The phrase loop: for every position but the last whose word is a
      candidate, the two-word phrase and, when a third word follows, the
      three-word phrase. */
  function Phrases(ws: seq<string>): (r: seq<string>)
    ensures |ws| < 2 ==> r == []
  {
    if |ws| < 2 then []
    else
      (if Candidate(ws[0]) then [Pair(ws, 0)] + (if |ws| > 2 then [Triple(ws, 0)] else []) else [])
      + Phrases(ws[1..])
  }

  /** The phrases starting at position `i`. */
  predicate PhraseAt(ws: seq<string>, i: nat, p: string) {
    i + 1 < |ws| && Candidate(ws[i]) && (p == Pair(ws, i) || (i + 2 < |ws| && p == Triple(ws, i)))
  }

  /** Every phrase starts at a candidate word. */
  lemma {:induction false} PhrasesSound(ws: seq<string>, p: string)
    requires p in Phrases(ws)
    ensures exists i: nat :: PhraseAt(ws, i, p)
    decreases |ws|
  {
    var head := if Candidate(ws[0]) then [Pair(ws, 0)] + (if |ws| > 2 then [Triple(ws, 0)] else []) else [];
    assert Phrases(ws) == head + Phrases(ws[1..]);
    if p in head {
      assert PhraseAt(ws, 0, p);
    } else {
      PhrasesSound(ws[1..], p);
      var i: nat :| PhraseAt(ws[1..], i, p);
      assert PhraseAt(ws, i + 1, p);
    }
  }

  /** Every candidate position contributes its phrases. */
  lemma {:induction false} PhrasesComplete(ws: seq<string>, i: nat)
    requires i + 1 < |ws| && Candidate(ws[i])
    ensures Pair(ws, i) in Phrases(ws)
    ensures i + 2 < |ws| ==> Triple(ws, i) in Phrases(ws)
    decreases i
  {
    var head := if Candidate(ws[0]) then [Pair(ws, 0)] + (if |ws| > 2 then [Triple(ws, 0)] else []) else [];
    assert Phrases(ws) == head + Phrases(ws[1..]);
    if i > 0 {
      PhrasesComplete(ws[1..], i - 1);
      assert Pair(ws[1..], i - 1) == Pair(ws, i);
      if i + 2 < |ws| {
        assert Triple(ws[1..], i - 1) == Triple(ws, i);
      }
    }
  }

  /** `_extract_potential_keywords`: at most ten candidate words and five
      phrases, in text order. */
  function PotentialKeywordsOf(soup: Node): (r: Result<PotentialKeywords, Fault>)
    ensures r.Failure? <==> TitleString(soup).Failure?
    ensures r.Success? ==> |r.value.singleWords| <= 10 && |r.value.phrases| <= 5
    ensures r.Success? ==> forall w :: w in r.value.singleWords ==>
      Candidate(w) && w in HeadingWords(TitleString(soup).value, soup)
    ensures r.Success? ==> forall p :: p in r.value.phrases ==> p in Phrases(HeadingWords(TitleString(soup).value, soup))
    ensures r.Success? ==> var words := HeadingWords(TitleString(soup).value, soup);
      && |r.value.singleWords| == (if |Filter(words, Candidate)| < 10 then |Filter(words, Candidate)| else 10)
      && |r.value.phrases| == (if |Phrases(words)| < 5 then |Phrases(words)| else 5)
      && r.value.singleWords <= Filter(words, Candidate)
      && r.value.phrases <= Phrases(words)
    ensures r.Success? ==> var words := HeadingWords(TitleString(soup).value, soup);
      (|Filter(words, Candidate)| <= 10 ==>
        forall w :: multiset(r.value.singleWords)[w] == (if Candidate(w) then multiset(words)[w] else 0))
    ensures r.Success? ==> var words := HeadingWords(TitleString(soup).value, soup);
      FirstWhere(words, Candidate).Some? ==> r.value.singleWords[0] == FirstWhere(words, Candidate).value
  {
    var title :- TitleString(soup);
    var words := HeadingWords(title, soup);
    var single := Take(Filter(words, Candidate), 10);
    var phrases := Take(Phrases(words), 5);
    assert forall w :: w in single ==> w in Filter(words, Candidate);
    FilterMultiset(words, Candidate);
    FirstWhereFilter(words, Candidate);
    Success(PotentialKeywords(single, phrases))
  }

  /** Each listed phrase starts at a candidate word of the title and
      headings. */
  lemma PotentialPhraseStarts(soup: Node, p: string)
    requires PotentialKeywordsOf(soup).Success?
    requires p in PotentialKeywordsOf(soup).value.phrases
    ensures exists i: nat :: PhraseAt(HeadingWords(TitleString(soup).value, soup), i, p)
  {
    PhrasesSound(HeadingWords(TitleString(soup).value, soup), p);
  }

  /* ------------------------------------------------------ recommendations */

  /** `_generate_recommendations`: the three content advices in order, then
      always the API-integration note. */
  function Recommendations(m: ContentMetrics): (r: seq<Msg>)
    ensures 1 <= |r| <= 4 && r[|r| - 1] == ApiIntegrationNote
    ensures ExpandContent in r <==> m.wordCount < 500
    ensures AddHeadings in r <==> m.headings.total < 3
    ensures AddImages in r <==> m.images < 2
    ensures forall i :: 0 <= i < |r| - 1 ==> r[i] != ApiIntegrationNote
    ensures m.wordCount < 500 ==> r[0] == ExpandContent
    ensures m.images < 2 ==> r[|r| - 2] == AddImages
  {
    (if m.wordCount < 500 then [ExpandContent] else [])
    + (if m.headings.total < 3 then [AddHeadings] else [])
    + (if m.images < 2 then [AddImages] else [])
    + [ApiIntegrationNote]
  }

  /* ------------------------------------------------------------ analyze */

  /** The analyzer's record: the full result or the error record. Both are
      marked as limited and as needing API access. */
  datatype Outcome =
    | Completed(domain: string, metrics: ContentMetrics, keywords: PotentialKeywords, isLimited: bool,
        recommendations: seq<Msg>, requiresApi: bool)
    | Failed(error: Fault, isLimited: bool, requiresApi: bool)

  function Finish(domain: string, metrics: ContentMetrics, keywords: Result<PotentialKeywords, Fault>): (r: Outcome)
    ensures r.isLimited && r.requiresApi
    ensures r.Completed? <==> keywords.Success?
    ensures r.Completed? ==> r.metrics == metrics && r.recommendations == Recommendations(metrics)
    ensures r.Completed? ==> r.domain == domain
    ensures keywords.Success? ==> r.keywords == keywords.value
    ensures keywords.Failure? ==> r.error == keywords.error
  {
    match keywords
    case Failure(e) => Failed(e, true, true)
    case Success(k) => Completed(domain, metrics, k, true, Recommendations(metrics), true)
  }

  /** `CompetitiveAnalyzer.analyze` as written: its metrics step fails on
      any absolute link. */
  function AnalyzeAsWritten(url: string, soup: Node): (r: Outcome)
    ensures r.isLimited && r.requiresApi
    ensures Urls.Netloc(url).Success? && (exists h :: h in Hrefs(soup) && IsAbsolute(h)) ==> r == Failed(UnboundUrlName, true, true)
  {
    match Urls.Netloc(url)
    case Failure(e) => Failed(e, true, true)
    case Success(domain) =>
      match MetricsAsWritten(soup)
      case Failure(e) => Failed(e, true, true)
      case Success(m) => Finish(domain, m, PotentialKeywordsOf(soup))
  }

  /** `CompetitiveAnalyzer.analyze` with outbound links counted against the
      page's domain. It fails only on an unparsable URL or a title without a
      single string. */
  function Analyze(url: string, soup: Node): (r: Outcome)
    ensures r.isLimited && r.requiresApi
    ensures r.Completed? <==> Urls.Netloc(url).Success? && TitleString(soup).Success?
    ensures r.Completed? ==> r.domain == Urls.Netloc(url).value && r.metrics == Metrics(soup, r.domain)
    ensures r.Completed? ==> r.recommendations == Recommendations(r.metrics)
  {
    match Urls.Netloc(url)
    case Failure(e) => Failed(e, true, true)
    case Success(domain) => Finish(domain, Metrics(soup, domain), PotentialKeywordsOf(soup))
  }

  /** Where no absolute link is present, the code as written and the
      corrected analyzer give the same record. */
  lemma AnalyzeAgrees(url: string, soup: Node)
    requires forall h :: h in Hrefs(soup) ==> !IsAbsolute(h)
    ensures AnalyzeAsWritten(url, soup) == Analyze(url, soup)
  {
    if Urls.Netloc(url).Success? {
      AsWrittenAgrees(soup, Urls.Netloc(url).value);
    }
  }
}

=== FILE: content.dfy ===
/** The content quality analyzer: the main content area and its text,
    word and sentence counts, a syllable-based readability score, keyword
    density, a structure score, duplicate paragraphs and the
    recommendations drawn from them.

    Both generations share the procedure; the synchronous one uses a
    shorter stop list and neither reports nor recommends on duplicate
    paragraphs. */
module ContentAnalysis {
  import opened Wrappers
  import opened Seqs
  import opened Strings
  import opened Numeric
  import opened Freq
  import opened Dom
  import opened Recs
  import opened Generations

  /* --------------------------------------------------------- main content */

  /** The containers tried in order: `main`, `#content`, `#main-content`,
      `.content`, `.main-content`, `article`. */
  function MainCandidates(soup: Node): (r: seq<Option<Node>>)
    ensures |r| == 6
  {
    [FindTag(soup, "main"),
     Find(soup, (x: Node) => AttrIs(x, "id", "content")),
     Find(soup, (x: Node) => AttrIs(x, "id", "main-content")),
     Find(soup, (x: Node) => AttrIs(x, "class", "content")),
     Find(soup, (x: Node) => AttrIs(x, "class", "main-content")),
     FindTag(soup, "article")]
  }

  /** The main content: the first container found (a found tag is always
      truthy), else `body`, else the whole document. */
  function MainContent(soup: Node): (r: Node)
    ensures var cs := MainCandidates(soup);
      (exists i :: 0 <= i < |cs| && cs[i].Some?) ==>
        exists i :: 0 <= i < |cs| && cs[i] == Some(r) && forall j :: 0 <= j < i ==> cs[j].None?
    ensures var cs := MainCandidates(soup);
      (forall i :: 0 <= i < |cs| ==> cs[i].None?) ==>
        r == (match FindTag(soup, "body") case Some(b) => b case None => soup)
  {
    var cs := MainCandidates(soup);
    match FirstWhere(cs, (o: Option<Node>) => o.Some?)
    case Some(o) => o.value
    case None => match FindTag(soup, "body") case Some(b) => b case None => soup
  }

  /** `_get_text_content`: the space-separated stripped strings with every
      whitespace run collapsed to one space. */
  function ContentText(main: Node): (r: string)
    ensures forall i :: 0 <= i < |r| && IsSpace(r[i]) ==> r[i] == ' '
    ensures forall i :: 0 <= i < |r| - 1 ==> !(r[i] == ' ' && r[i + 1] == ' ')
    ensures Words(r) == Words(GetText(main, " ", true))
  {
    WordsCollapse(GetText(main, " ", true));
    CollapseSpaces(GetText(main, " ", true))
  }

  /* ------------------------------------------------------------ counts */

  predicate IsTerminator(c: char) {
    c == '.' || c == '!' || c == '?'
  }

  /** `len(re.split(r'[.!?]+', text))`: one piece more than there are
      maximal runs of terminators. */
  function SentenceCount(text: string): (r: nat)
    ensures r >= 1
    ensures r == RunStarts(text, IsTerminator, false) + 1
  {
    RunsCount(text, IsTerminator);
    |Runs(text, IsTerminator)| + 1
  }

  /** A text counts as one sentence exactly when it has no terminator. */
  lemma SentenceCountOne(text: string)
    ensures SentenceCount(text) == 1 <==> forall i :: 0 <= i < |text| ==> !IsTerminator(text[i])
  {
    RunsEmptyIff(text, IsTerminator);
  }

  /** `word_count / max(1, sentence_count)`. */
  function AverageSentenceLength(wordCount: nat, sentenceCount: nat): (r: real)
    ensures r >= 0.0
    ensures r > 25.0 <==> wordCount > 25 * MaxNat(1, sentenceCount)
  {
    DivCompare(wordCount as real, MaxNat(1, sentenceCount) as real, 25.0);
    DivCompare(wordCount as real, MaxNat(1, sentenceCount) as real, 0.0);
    wordCount as real / MaxNat(1, sentenceCount) as real
  }

  /* --------------------------------------------------------- syllables */

  predicate IsVowel(c: char) {
    c in "aeiouy"
  }

  /** `re.sub(suffix + '$', '', w)` for a word without line breaks. */
  function DropSuffix(w: string, suffix: string): (r: string)
    ensures EndsWith(w, suffix) ==> r + suffix == w
    ensures !EndsWith(w, suffix) ==> r == w
  {
    if EndsWith(w, suffix) then w[..|w| - |suffix|] else w
  }

  /** The lower-cased word with a final `e`, then a final `es`, then a
      final `ed` removed, each only if present at that point. */
  function SyllableStem(word: string): string {
    DropSuffix(DropSuffix(DropSuffix(Lower(word), "e"), "es"), "ed")
  }

  /** The counting loop: one for every vowel that follows a non-vowel (or
      the start, when `prev` is false). */
  function VowelGroups(s: string, prev: bool): nat {
    if s == [] then 0
    else (if IsVowel(s[0]) && !prev then 1 else 0) + VowelGroups(s[1..], IsVowel(s[0]))
  }

  /** `_count_syllables(word)`: the number of maximal vowel groups of the
      stem, at least one. */
  function Syllables(word: string): (r: nat)
    ensures r >= 1
    ensures r == MaxNat(1, |Runs(SyllableStem(word), IsVowel)|)
  {
    GroupsAreRuns(SyllableStem(word));
    MaxNat(1, VowelGroups(SyllableStem(word), false))
  }

  /** Resuming the loop inside a vowel group skips to the end of the
      group. */
  lemma {:induction false} GroupsSkipRun(s: string, k: nat)
    requires 1 <= k <= SpanLen(s, IsVowel)
    ensures VowelGroups(s[k..], true) == VowelGroups(s[SpanLen(s, IsVowel)..], false)
    decreases SpanLen(s, IsVowel) - k
  {
    var n := SpanLen(s, IsVowel);
    if k < n {
      assert s[k..][1..] == s[k + 1..];
      GroupsSkipRun(s, k + 1);
    } else if n < |s| {
      assert s[n..][1..] == s[n + 1..];
    }
  }

  /** The loop counts exactly the maximal vowel runs. */
  lemma {:induction false} GroupsAreRuns(s: string)
    ensures VowelGroups(s, false) == |Runs(s, IsVowel)|
    decreases |s|
  {
    if s != [] {
      if !IsVowel(s[0]) {
        GroupsAreRuns(s[1..]);
      } else {
        var n := SpanLen(s, IsVowel);
        GroupsSkipRun(s, 1);
        GroupsAreRuns(s[n..]);
      }
    }
  }

  /** The syllable count as the source computes it, one character at a
      time with the previous character's vowel flag. */
  method CountSyllables(word: string) returns (n: nat)
    ensures n == Syllables(word)
  {
    var w := SyllableStem(word);
    var count := 0;
    var prev := false;
    var i := 0;
    while i < |w|
      invariant 0 <= i <= |w|
      invariant prev == (i > 0 && IsVowel(w[i - 1]))
      invariant count + VowelGroups(w[i..], prev) == VowelGroups(w, false)
    {
      var isVowel := IsVowel(w[i]);
      if isVowel && !prev {
        count := count + 1;
      }
      assert w[i..][1..] == w[i + 1..];
      prev := isVowel;
      i := i + 1;
    }
    n := if count >= 1 then count else 1;
  }

  /* ------------------------------------------------------- readability */

  predicate IsComplex(word: string) {
    Syllables(word) >= 3
  }

  function ComplexCount(text: string): (r: nat)
    ensures r <= |Words(text)|
  {
    |Filter(Words(text), IsComplex)|
  }

  /** `_calculate_readability_score`: 0 for a text without words, else
      the rounded share of words with fewer than three syllables, in
      percent. */
  function Readability(text: string): (r: int)
    ensures 0 <= r <= 100
    ensures Words(text) == [] ==> r == 0
    ensures Words(text) != [] && ComplexCount(text) == 0 ==> r == 100
    ensures Words(text) != [] && ComplexCount(text) == |Words(text)| ==> r == 0
  {
    var n := |Words(text)|;
    if n == 0 then 0
    else
      var x := 100.0 - Percent(ComplexCount(text), n);
      RoundHalfEvenBetween(x, 0, 100);
      RoundHalfEvenUnique(100.0, 100);
      RoundHalfEvenUnique(0.0, 0);
      RoundHalfEven(x)
  }

  /** The text reads as hard (score below 50) exactly when more than 50.5%
      of its words are complex; a text without words always does. */
  lemma ReadabilityHardIff(text: string)
    ensures Words(text) != [] ==>
      (Readability(text) < 50 <==> 200 * ComplexCount(text) > 101 * |Words(text)|)
    ensures Words(text) == [] ==> Readability(text) < 50
  {
    var n := |Words(text)|;
    if n > 0 {
      var c := ComplexCount(text);
      RoundBelowEven(100.0 - Percent(c, n), 50);
      DivCompare(c as real, n as real, 0.505);
    }
  }

  /* ----------------------------------------------------------- density */

  /** The stop list of the modular analyzer. */
  const ModularStopWords: set<string> := {
    "и", "в", "на", "с", "по", "к", "у", "о", "от", "для", "из", "за", "то",
    "что", "как", "это", "этот", "или", "но", "а", "же", "если", "так", "вот",
    "только", "еще", "уже", "даже", "ну", "вдруг", "ли", "ведь", "тоже", "при"}

  /** The stop list of the synchronous analyzer. */
  const LegacyStopWords: set<string> := {
    "и", "в", "на", "с", "по", "к", "у", "о", "от", "для", "из", "за", "то",
    "что", "как", "это", "этот", "или"}

  function StopWords(gen: Generation): set<string> {
    if gen == Modular then ModularStopWords else LegacyStopWords
  }

  /** The tokens counted for density: word tokens of the lower-cased text,
      longer than three characters and not stop words. */
  function DensityWords(text: string, stop: set<string>): (r: seq<string>)
    ensures forall w :: w in r ==> w in WordTokens(Lower(text)) && w !in stop && |w| > 3
    ensures forall w :: Count(r, w) == (if w !in stop && |w| > 3 then Count(WordTokens(Lower(text)), w) else 0)
  {
    FilterMultiset(WordTokens(Lower(text)), (w: string) => w !in stop && |w| > 3);
    Filter(WordTokens(Lower(text)), (w: string) => w !in stop && |w| > 3)
  }

  /** `_analyze_keyword_density`: the ten most frequent counted tokens,
      most frequent first, each with its share of all counted tokens in
      percent rounded to one decimal. */
  function KeywordDensity(text: string, stop: set<string>): (r: seq<(string, real)>)
    ensures |r| <= 10
    ensures forall i :: 0 <= i < |r| ==>
      r[i].0 in WordTokens(Lower(text)) && r[i].0 !in stop && |r[i].0| > 3 && 0.0 <= r[i].1 <= 100.0
    ensures forall i, j :: 0 <= i < j < |r| ==> r[i].0 != r[j].0
    ensures var ws := DensityWords(text, stop);
      |r| == (if |Distinct(ws)| < 10 then |Distinct(ws)| else 10)
    ensures var ws := DensityWords(text, stop);
      forall i :: 0 <= i < |r| ==> r[i].1 == RoundTenths(Percent(Count(ws, r[i].0), MaxNat(1, |ws|)))
  {
    if WordTokens(Lower(text)) == [] then
      assert DensityWords(text, stop) == [];
      []
    else
      DensityOf(DensityWords(text, stop))
  }

  /** The densities of a list of counted tokens: `most_common(10)`, each
      count as a share of all tokens. */
  function DensityOf(ws: seq<string>): (r: seq<(string, real)>)
    ensures |r| == (if |Distinct(ws)| < 10 then |Distinct(ws)| else 10)
    ensures forall i :: 0 <= i < |r| ==> r[i].0 in ws && 0.0 <= r[i].1 <= 100.0
    ensures forall i, j :: 0 <= i < j < |r| ==> r[i].0 != r[j].0
    ensures forall i :: 0 <= i < |r| ==> r[i].1 == RoundTenths(Percent(Count(ws, r[i].0), MaxNat(1, |ws|)))
  {
    MostCommonShape(ws, 10);
    var top := MostCommon(ws, 10);
    var r := DensityEntries(ws, top);
    assert forall i :: 0 <= i < |r| ==> r[i].0 == top[i].0;
    r
  }

  /** The density entry of each counted token, given its count. */
  function DensityEntries(ws: seq<string>, top: seq<(string, nat)>): (r: seq<(string, real)>)
    requires forall i :: 0 <= i < |top| ==> top[i].0 in ws && top[i].1 == Count(ws, top[i].0)
    ensures |r| == |top|
    ensures forall i :: 0 <= i < |r| ==> r[i].0 == top[i].0 && 0.0 <= r[i].1 <= 100.0
    ensures forall i :: 0 <= i < |r| ==> r[i].1 == RoundTenths(Percent(top[i].1, MaxNat(1, |ws|)))
  {
    if top == [] then []
    else
      CountBound(ws, top[0].0);
      var p := Percent(top[0].1, MaxNat(1, |ws|));
      RoundTenthsBetween(p);
      [(top[0].0, RoundTenths(p))] + DensityEntries(ws, top[1..])
  }

  /** The listed tokens are `most_common(10)`'s keys, in its order. */
  lemma DensityKeys(text: string, stop: set<string>)
    ensures var r := KeywordDensity(text, stop);
      var keys := MostCommonKeys(DensityWords(text, stop), 10);
      |r| == |keys| && forall i :: 0 <= i < |r| ==> r[i].0 == keys[i]
  {
    var ws := DensityWords(text, stop);
    if WordTokens(Lower(text)) == [] {
      assert ws == [];
    } else {
      DensityOfKeys(ws);
    }
  }

  lemma DensityOfKeys(ws: seq<string>)
    ensures var r := DensityOf(ws);
      |r| == |MostCommonKeys(ws, 10)| && forall i :: 0 <= i < |r| ==> r[i].0 == MostCommonKeys(ws, 10)[i]
  {
    MostCommonShape(ws, 10);
    var top := MostCommon(ws, 10);
    assert DensityOf(ws) == DensityEntries(ws, top);
  }

  /** The listed tokens are the most frequent ones: every counted token
      left out ranks after every listed one. */
  lemma DensityTop(text: string, stop: set<string>)
    ensures var r := KeywordDensity(text, stop);
      var ws := DensityWords(text, stop);
      forall i, y :: 0 <= i < |r| && y in ws && (forall j :: 0 <= j < |r| ==> r[j].0 != y) ==> Before(ws, r[i].0, y)
  {
    var ws := DensityWords(text, stop);
    if WordTokens(Lower(text)) != [] {
      DensityOfTop(ws);
    }
  }

  lemma DensityOfTop(ws: seq<string>)
    ensures var r := DensityOf(ws);
      forall i, y :: 0 <= i < |r| && y in ws && (forall j :: 0 <= j < |r| ==> r[j].0 != y) ==> Before(ws, r[i].0, y)
  {
    var r := DensityOf(ws);
    var keys := MostCommonKeys(ws, 10);
    DensityOfKeys(ws);
    forall i, y | 0 <= i < |r| && y in ws && (forall j :: 0 <= j < |r| ==> r[j].0 != y)
      ensures Before(ws, r[i].0, y)
    {
      assert forall j :: 0 <= j < |keys| ==> keys[j] != y;
      MostCommonLeftOut(ws, 10, y);
    }
  }

  /** The density list is ordered from the densest token down. */
  lemma DensityOrdered(text: string, stop: set<string>)
    ensures var r := KeywordDensity(text, stop);
      forall i, j :: 0 <= i < j < |r| ==> r[i].1 >= r[j].1
  {
    var r := KeywordDensity(text, stop);
    if WordTokens(Lower(text)) == [] {
      assert r == [];
    } else {
      var ws := DensityWords(text, stop);
      var top := MostCommon(ws, 10);
      assert r == DensityEntries(ws, top);
      MostCommonSpec(ws, 10);
      EntriesOrdered(ws, top);
    }
  }

  /** Entries of counts in non-increasing order have non-increasing
      densities. */
  lemma EntriesOrdered(ws: seq<string>, top: seq<(string, nat)>)
    requires forall i :: 0 <= i < |top| ==> top[i].0 in ws && top[i].1 == Count(ws, top[i].0)
    requires forall i, j :: 0 <= i < j < |top| ==> Before(ws, top[i].0, top[j].0)
    ensures var r := DensityEntries(ws, top);
      forall i, j :: 0 <= i < j < |r| ==> r[i].1 >= r[j].1
  {
    var r := DensityEntries(ws, top);
    var whole := MaxNat(1, |ws|);
    forall i, j | 0 <= i < j < |r|
      ensures r[i].1 >= r[j].1
    {
      assert top[i].1 >= top[j].1;
      PercentMonotone(top[j].1, top[i].1, whole);
      RoundTenthsMonotone(Percent(top[j].1, whole), Percent(top[i].1, whole));
    }
  }

  /** Every density key is written in lower case. */
  lemma DensityLowerCase(text: string, stop: set<string>)
    ensures var r := KeywordDensity(text, stop);
      forall i, k :: 0 <= i < |r| && 0 <= k < |r[i].0| ==> !IsUpper(r[i].0[k])
  {
    RunsChars(Lower(text), IsWordChar);
    var r := KeywordDensity(text, stop);
    forall i, k | 0 <= i < |r| && 0 <= k < |r[i].0|
      ensures !IsUpper(r[i].0[k])
    {
      assert r[i].0[k] in r[i].0;
    }
  }

  /* --------------------------------------------------------- structure */

  const HeadingTags: seq<string> := ["h1", "h2", "h3", "h4", "h5", "h6"]

  /** `0.7 * min(1, headings / ((paragraphs + 1) / 4)) + 0.3 * [lists > 0]`. */
  function StructureScore(paragraphs: nat, headings: nat, lists: nat): (s: real)
    ensures 0.0 <= s <= 1.0
    ensures s == 1.0 <==> lists > 0 && 4 * headings >= paragraphs + 1
    ensures s < 0.7 <==> (lists == 0 && 4 * headings < paragraphs + 1) || (lists > 0 && 7 * headings < paragraphs + 1)
  {
    var blocks := (paragraphs + 1) as real;
    var ratio := headings as real / (blocks / 4.0);
    DivCompare(headings as real, blocks / 4.0, 1.0);
    DivCompare(headings as real, blocks / 4.0, 4.0 / 7.0);
    DivCompare(headings as real, blocks / 4.0, 0.0);
    0.7 * MinReal(1.0, ratio) + (if lists > 0 then 0.3 else 0.0)
  }

  /** `_assess_content_structure` over the whole document. */
  function Structure(soup: Node): (s: real)
    ensures 0.0 <= s <= 1.0
  {
    StructureScore(|FindAllTag(soup, "p")|, |FindAllTags(soup, HeadingTags)|, |FindAllTags(soup, ["ul", "ol"])|)
  }

  /* -------------------------------------------------------- duplicates */

  datatype DuplicateInfo = DuplicateInfo(hasDuplicates: bool, duplicateCount: nat, duplicates: seq<(string, nat)>)

  /** `[p.get_text(strip=True) for p in soup.find_all('p')]`. */
  function ParagraphTexts(soup: Node): (r: seq<string>)
    ensures |r| == |FindAllTag(soup, "p")|
    ensures forall i :: 0 <= i < |r| ==> r[i] == GetText(FindAllTag(soup, "p")[i], "", true)
  {
    Map(FindAllTag(soup, "p"), (p: Node) => GetText(p, "", true))
  }

  /** The texts longer than 20 characters, each as often as it occurs. */
  function LongTexts(pt: seq<string>): (r: seq<string>)
    ensures forall t :: Count(r, t) == if |t| > 20 then Count(pt, t) else 0
    ensures forall t :: t in r <==> t in pt && |t| > 20
  {
    FilterMultiset(pt, (t: string) => |t| > 20);
    Filter(pt, (t: string) => |t| > 20)
  }

  /** The stripped texts of the paragraphs longer than 20 characters: each
      such text as often as paragraphs carry it, and no other text. */
  function LongParagraphTexts(soup: Node): (r: seq<string>)
    ensures forall t :: Count(r, t) == if |t| > 20 then Count(ParagraphTexts(soup), t) else 0
    ensures var ps := FindAllTag(soup, "p");
      forall t :: t in r <==> |t| > 20 && exists i :: 0 <= i < |ps| && GetText(ps[i], "", true) == t
  {
    var pt := ParagraphTexts(soup);
    assert forall t :: t in pt <==> exists i :: 0 <= i < |pt| && pt[i] == t;
    LongTexts(pt)
  }

  /** The texts that occur more than once, each with its count, in the
      order of first occurrence. */
  function Repeated(texts: seq<string>): (r: seq<(string, nat)>)
    ensures forall i :: 0 <= i < |r| ==> r[i].0 in texts && r[i].1 == Count(texts, r[i].0) && r[i].1 > 1
    ensures forall t :: t in texts && Count(texts, t) > 1 ==> exists i :: 0 <= i < |r| && r[i].0 == t
    ensures forall i, j :: 0 <= i < j < |r| ==> r[i].0 != r[j].0
  {
    var d := Distinct(texts);
    var keys := Filter(d, (t: string) => Count(texts, t) > 1);
    FilterNoDuplicates(d, (t: string) => Count(texts, t) > 1);
    assert forall t :: t in texts ==> t in d;
    assert forall t :: t in keys ==> t in texts && Count(texts, t) > 1;
    Map(keys, (t: string) => (t, Count(texts, t)))
  }

  /** The duplicate report over the stripped texts `pt` of the paragraphs:
      every text longer than 20 characters that occurs more than once is
      reported once, with its number of occurrences, and nothing else is. */
  function DuplicatesOf(pt: seq<string>): (r: DuplicateInfo)
    ensures r.hasDuplicates <==> r.duplicateCount > 0
    ensures r.duplicateCount == |r.duplicates|
    ensures forall i :: 0 <= i < |r.duplicates| ==>
      |r.duplicates[i].0| > 20 && r.duplicates[i].1 == Count(pt, r.duplicates[i].0) && r.duplicates[i].1 > 1
    ensures forall t :: |t| > 20 && Count(pt, t) > 1 ==> exists i :: 0 <= i < |r.duplicates| && r.duplicates[i].0 == t
    ensures forall i, j :: 0 <= i < j < |r.duplicates| ==> r.duplicates[i].0 != r.duplicates[j].0
  {
    var reps := Repeated(LongTexts(pt));
    DuplicateInfo(|reps| > 0, |reps|, reps)
  }

  /** `_check_duplicate_paragraphs`. */
  function Duplicates(soup: Node): (r: DuplicateInfo)
    ensures r.hasDuplicates <==> r.duplicateCount > 0
    ensures r.duplicateCount == |r.duplicates|
    ensures forall i :: 0 <= i < |r.duplicates| ==>
      |r.duplicates[i].0| > 20 && r.duplicates[i].1 == Count(ParagraphTexts(soup), r.duplicates[i].0) && r.duplicates[i].1 > 1
    ensures forall t :: |t| > 20 && Count(ParagraphTexts(soup), t) > 1 ==>
      exists i :: 0 <= i < |r.duplicates| && r.duplicates[i].0 == t
    ensures forall i, j :: 0 <= i < j < |r.duplicates| ==> r.duplicates[i].0 != r.duplicates[j].0
  {
    DuplicatesOf(ParagraphTexts(soup))
  }

  /** Duplicates are reported exactly when two different entries carry the
      same text longer than 20 characters. */
  lemma DuplicatesOfIff(pt: seq<string>)
    ensures DuplicatesOf(pt).hasDuplicates <==> exists i, j :: 0 <= i < j < |pt| && pt[i] == pt[j] && |pt[i]| > 20
  {
    var d := DuplicatesOf(pt);
    if d.hasDuplicates {
      var t := d.duplicates[0].0;
      CountTwice(pt, t);
      var i, j :| 0 <= i < j < |pt| && pt[i] == t && pt[j] == t;
    }
    if exists i, j :: 0 <= i < j < |pt| && pt[i] == pt[j] && |pt[i]| > 20 {
      var i, j :| 0 <= i < j < |pt| && pt[i] == pt[j] && |pt[i]| > 20;
      CountTwice(pt, pt[i]);
    }
  }

  /** Duplicates are reported exactly when two different paragraphs carry
      the same stripped text longer than 20 characters. */
  lemma DuplicatesIff(soup: Node)
    ensures var pt := ParagraphTexts(soup);
      Duplicates(soup).hasDuplicates <==> exists i, j :: 0 <= i < j < |pt| && pt[i] == pt[j] && |pt[i]| > 20
  {
    DuplicatesOfIff(ParagraphTexts(soup));
  }

  /* --------------------------------------------------- recommendations */

  /** The position of a content recommendation in the fixed order. */
  function ContentRank(m: Msg): nat {
    match m
    case ThinContent => 0
    case LongSentences => 1
    case ImproveStructure => 2
    case HardToRead => 3
    case _ => 4
  }

  /** Content recommendations listed in strictly increasing rank. */
  predicate Ranked(r: seq<Msg>) {
    forall i, j :: 0 <= i < j < |r| ==> ContentRank(r[i]) < ContentRank(r[j])
  }

  /** One recommendation per triggered condition, in the order thin
      content, long sentences, weak structure, hard text, duplicates. */
  function ContentRecommendations(wordCount: nat, avg: real, structure: real, readability: int, duplicates: bool): (r: seq<Msg>)
    ensures ThinContent in r <==> wordCount < 300
    ensures LongSentences in r <==> avg > 25.0
    ensures ImproveStructure in r <==> structure < 0.7
    ensures HardToRead in r <==> readability < 50
    ensures DuplicateParagraphs in r <==> duplicates
  {
    (if wordCount < 300 then [ThinContent] else [])
    + (if avg > 25.0 then [LongSentences] else [])
    + (if structure < 0.7 then [ImproveStructure] else [])
    + (if readability < 50 then [HardToRead] else [])
    + (if duplicates then [DuplicateParagraphs] else [])
  }

  /** The recommendations come in the fixed order: each one's rank is
      below the rank of every later one. */
  lemma ContentRecommendationsRanked(wordCount: nat, avg: real, structure: real, readability: int, duplicates: bool)
    ensures Ranked(ContentRecommendations(wordCount, avg, structure, readability, duplicates))
  {
    RankedFive(if wordCount < 300 then [ThinContent] else [],
      if avg > 25.0 then [LongSentences] else [],
      if structure < 0.7 then [ImproveStructure] else [],
      if readability < 50 then [HardToRead] else [],
      if duplicates then [DuplicateParagraphs] else []);
  }

  /** At most one message of each rank 0 to 4, in rank order, is ranked. */
  lemma RankedFive(thin: seq<Msg>, long: seq<Msg>, weak: seq<Msg>, hard: seq<Msg>, dup: seq<Msg>)
    requires |thin| <= 1 && |long| <= 1 && |weak| <= 1 && |hard| <= 1 && |dup| <= 1
    requires forall i :: 0 <= i < |thin| ==> ContentRank(thin[i]) == 0
    requires forall i :: 0 <= i < |long| ==> ContentRank(long[i]) == 1
    requires forall i :: 0 <= i < |weak| ==> ContentRank(weak[i]) == 2
    requires forall i :: 0 <= i < |hard| ==> ContentRank(hard[i]) == 3
    requires forall i :: 0 <= i < |dup| ==> ContentRank(dup[i]) == 4
    ensures Ranked(thin + long + weak + hard + dup)
  {
    var r1 := thin + long;
    RankedAppend(thin, long, 1);
    RankedBelow(thin, long, 2);
    var r2 := r1 + weak;
    RankedAppend(r1, weak, 2);
    RankedBelow(r1, weak, 3);
    var r3 := r2 + hard;
    RankedAppend(r2, hard, 3);
    RankedBelow(r2, hard, 4);
    RankedAppend(r3, dup, 4);
  }

  /** Every rank of a concatenation stays below `k` when each part's does. */
  lemma RankedBelow(a: seq<Msg>, b: seq<Msg>, k: nat)
    requires forall i :: 0 <= i < |a| ==> ContentRank(a[i]) < k
    requires forall i :: 0 <= i < |b| ==> ContentRank(b[i]) < k
    ensures forall i :: 0 <= i < |a + b| ==> ContentRank((a + b)[i]) < k
  {
  }

  /** Two ranked lists, every rank of the first below `k` and every rank of
      the second at least `k`, concatenate to a ranked list. */
  lemma RankedAppend(a: seq<Msg>, b: seq<Msg>, k: nat)
    requires Ranked(a) && Ranked(b)
    requires forall i :: 0 <= i < |a| ==> ContentRank(a[i]) < k
    requires forall i :: 0 <= i < |b| ==> ContentRank(b[i]) >= k
    ensures Ranked(a + b)
  {
  }

  /* ------------------------------------------------------------ report */

  /** The analyzer's record. The synchronous analyzer reports neither
      `is_thin_content` nor duplicates, so those are absent for it. */
  datatype ContentReport = ContentReport(
    wordCount: nat,
    sentenceCount: nat,
    avgSentenceLength: real,
    readabilityScore: int,
    keywordDensity: seq<(string, real)>,
    structureScore: real,
    isThinContent: Option<bool>,
    duplicates: Option<DuplicateInfo>,
    recommendations: seq<Msg>)

  /** `ContentQualityAnalyzer.analyze` of either generation. Nothing in it
      can raise, so the error record is never produced. */
  function Analyze(soup: Node, gen: Generation): (r: ContentReport)
    ensures r.sentenceCount >= 1 && 0 <= r.readabilityScore <= 100
    ensures 0.0 <= r.structureScore <= 1.0
    ensures |r.keywordDensity| <= 10
    ensures r.isThinContent.Some? <==> gen == Modular
    ensures r.isThinContent == Some(true) <==> gen == Modular && r.wordCount < 300
    ensures ThinContent in r.recommendations <==> r.wordCount < 300
    ensures HardToRead in r.recommendations <==> r.readabilityScore < 50
    ensures DuplicateParagraphs in r.recommendations <==> r.duplicates.Some? && r.duplicates.value.hasDuplicates
  {
    Report(ContentText(MainContent(soup)), Structure(soup), Duplicates(soup), gen)
  }

  /** The report on a main-content text, given the page's structure score
      and duplicate check. */
  function Report(text: string, structure: real, dup: DuplicateInfo, gen: Generation): (r: ContentReport)
    requires 0.0 <= structure <= 1.0
    ensures r.sentenceCount >= 1 && 0 <= r.readabilityScore <= 100
    ensures 0.0 <= r.structureScore <= 1.0
    ensures |r.keywordDensity| <= 10
    ensures r.isThinContent.Some? <==> gen == Modular
    ensures r.isThinContent == Some(true) <==> gen == Modular && r.wordCount < 300
    ensures ThinContent in r.recommendations <==> r.wordCount < 300
    ensures HardToRead in r.recommendations <==> r.readabilityScore < 50
    ensures DuplicateParagraphs in r.recommendations <==> r.duplicates.Some? && r.duplicates.value.hasDuplicates
  {
    var wordCount := |Words(text)|;
    var sentenceCount := SentenceCount(text);
    var avg := AverageSentenceLength(wordCount, sentenceCount);
    var readability := Readability(text);
    var flagged := gen == Modular && dup.hasDuplicates;
    RoundHundredthsBetween(structure);
    ContentReport(
      wordCount, sentenceCount, RoundTenths(avg), readability,
      KeywordDensity(text, StopWords(gen)), RoundHundredths(structure),
      if gen == Modular then Some(wordCount < 300) else None,
      if gen == Modular then Some(dup) else None,
      ContentRecommendations(wordCount, avg, structure, readability, flagged))
  }

  /** The report's figures are those of the main content's text: its
      words, its sentence pieces, its readability and its densest tokens,
      and the duplicate check of the whole page. */
  lemma AnalyzeFields(soup: Node, gen: Generation)
    ensures var r := Analyze(soup, gen);
      var text := ContentText(MainContent(soup));
      && r.wordCount == |Words(GetText(MainContent(soup), " ", true))|
      && r.sentenceCount == RunStarts(text, IsTerminator, false) + 1
      && r.readabilityScore == Readability(text)
      && r.keywordDensity == KeywordDensity(text, StopWords(gen))
      && (gen == Modular ==> r.duplicates == Some(Duplicates(soup)))
  {
  }
}

=== FILE: dom.dfy ===
/** The parsed HTML document as the analyzers see it through BeautifulSoup
    with the `html.parser` builder: a tree of elements and text strings.
    Tag and attribute names arrive lower-cased from the parser; attribute
    values are kept verbatim. */
module Dom {
  import opened Wrappers
  import opened Seqs
  import opened Strings

  datatype Node =
    | Text(text: string)
    | Element(tag: string, attrs: map<string, string>, children: seq<Node>)

  /** The whole document: BeautifulSoup's root object. */
  const DocumentTag: string := "[document]"

  function Document(children: seq<Node>): Node {
    Element(DocumentTag, map[], children)
  }

  /* ------------------------------------------------------- traversal */

  /** Every element strictly below `n`, in document order (the order of
      `find_all`), each paired with the name of its parent. */
  function Below(n: Node): seq<(Node, string)> {
    match n
    case Text(_) => []
    case Element(tag, _, cs) => BelowAll(cs, tag)
  }

  function BelowAll(cs: seq<Node>, parent: string): seq<(Node, string)> {
    if cs == [] then []
    else
      (if cs[0].Element? then [(cs[0], parent)] else [])
      + Below(cs[0]) + BelowAll(cs[1..], parent)
  }

  function Descendants(n: Node): (r: seq<Node>)
    ensures |r| == |Below(n)|
  {
    Map(Below(n), (p: (Node, string)) => p.0)
  }

  lemma {:induction false} BelowAreElements(n: Node)
    ensures forall i :: 0 <= i < |Below(n)| ==> Below(n)[i].0.Element?
    decreases n, 1
  {
    if n.Element? {
      BelowAllAreElements(n.children, n.tag);
    }
  }

  lemma {:induction false} BelowAllAreElements(cs: seq<Node>, parent: string)
    ensures forall i :: 0 <= i < |BelowAll(cs, parent)| ==> BelowAll(cs, parent)[i].0.Element?
    decreases cs, 0
  {
    if cs != [] {
      BelowAreElements(cs[0]);
      BelowAllAreElements(cs[1..], parent);
    }
  }

  /** `tag.find_all(...)` with the filter given as a predicate. */
  function FindAll(n: Node, p: Node -> bool): (r: seq<Node>)
    ensures forall x :: x in r ==> p(x) && x in Descendants(n)
  {
    Filter(Descendants(n), p)
  }

  /** Nothing is found exactly when no descendant matches. */
  lemma FindAllNone(n: Node, p: Node -> bool)
    ensures FindAll(n, p) == [] <==> forall x :: x in Descendants(n) ==> !p(x)
  {
    var r := FindAll(n, p);
    assert r == Filter(Descendants(n), p);
    if r != [] {
      assert r[0] in r;
    }
  }

  /** `tag.find(...)`: the first match, if any. */
  function Find(n: Node, p: Node -> bool): (r: Option<Node>)
    ensures r.Some? <==> FindAll(n, p) != []
    ensures r.Some? ==> p(r.value) && r.value == FindAll(n, p)[0]
  {
    var all := FindAll(n, p);
    if all == [] then None else Some(all[0])
  }

  predicate HasTag(n: Node, tag: string) {
    n.Element? && n.tag == tag
  }

  predicate HasTagIn(n: Node, tags: seq<string>) {
    n.Element? && n.tag in tags
  }

  function FindAllTag(n: Node, tag: string): seq<Node> {
    FindAll(n, (x: Node) => HasTag(x, tag))
  }

  function FindTag(n: Node, tag: string): Option<Node> {
    Find(n, (x: Node) => HasTag(x, tag))
  }

  function FindAllTags(n: Node, tags: seq<string>): seq<Node> {
    FindAll(n, (x: Node) => HasTagIn(x, tags))
  }

  /* ------------------------------------------------------ attributes */

  /** Attributes BeautifulSoup splits into a list of tokens. */
  predicate IsMultiValued(tag: string, name: string) {
    name == "class" || ((name == "rel" || name == "rev") && tag in ["a", "link", "area"])
  }

  /** `tag.get(name)` as the raw attribute text. */
  function Attr(n: Node, name: string): Option<string> {
    if n.Element? && name in n.attrs then Some(n.attrs[name]) else None
  }

  predicate HasAttr(n: Node, name: string) {
    Attr(n, name).Some?
  }

  /** The tokens of a multi-valued attribute (`tag.get('rel', [])`). */
  function AttrTokens(n: Node, name: string): seq<string> {
    match Attr(n, name)
    case None => []
    case Some(v) => Words(v)
  }

  /** The value `tag.get(name)` evaluates to as text: a multi-valued
      attribute's tokens joined by one space (`' '.join(tag.get('rel'))`),
      any other attribute as written. */
  function AttrText(n: Node, name: string): Option<string> {
    match Attr(n, name)
    case None => None
    case Some(v) => if n.Element? && IsMultiValued(n.tag, name) then Some(Join(Words(v), " ")) else Some(v)
  }

  /** The attribute filter `name=value` of `find`/`find_all` with a string
      value: for a multi-valued attribute any single token or the whole
      space-joined list may equal the value. */
  predicate AttrIs(n: Node, name: string, value: string) {
    match Attr(n, name)
    case None => false
    case Some(v) =>
      if n.Element? && IsMultiValued(n.tag, name) then
        value in Words(v) || Join(Words(v), " ") == value
      else v == value
  }

  /** The attribute filter `name=re.compile(...)`, the regular expression
      search given as a predicate; for a multi-valued attribute it is tried
      on every token and on the space-joined list. */
  predicate AttrMatches(n: Node, name: string, search: string -> bool) {
    match Attr(n, name)
    case None => false
    case Some(v) =>
      if n.Element? && IsMultiValued(n.tag, name) then
        (exists t :: t in Words(v) && search(t)) || search(Join(Words(v), " "))
      else search(v)
  }

  /** `find('link', rel=rel)`'s filter. */
  predicate IsLinkRel(x: Node, rel: string) {
    HasTag(x, "link") && AttrIs(x, "rel", rel)
  }

  /** `find('meta', attrs={'name': name})`'s filter. */
  predicate IsMetaNamed(x: Node, name: string) {
    HasTag(x, "meta") && AttrIs(x, "name", name)
  }

  /** `find_all('a', href=True)`'s filter. */
  predicate IsHrefLink(x: Node) {
    HasTag(x, "a") && HasAttr(x, "href")
  }

  /** `a['href']`. */
  function Href(x: Node): string {
    Attr(x, "href").GetOr("")
  }

  /** The `href` of every anchor that has one, in document order. */
  function Hrefs(soup: Node): (r: seq<string>)
    ensures |r| == |FindAll(soup, IsHrefLink)|
    ensures forall i :: 0 <= i < |r| ==> r[i] == Href(FindAll(soup, IsHrefLink)[i])
  {
    Map(FindAll(soup, IsHrefLink), Href)
  }

  /* ------------------------------------------------------------ text */

  /** Elements whose strings `get_text` does not report (BeautifulSoup
      stores them as script, stylesheet and template strings). */
  predicate HidesText(tag: string) {
    tag in ["script", "style", "template"]
  }

  /** The strings `get_text` visits below `n`, in document order. */
  function StringsBelow(n: Node): seq<string> {
    match n
    case Text(t) => [t]
    case Element(tag, _, cs) => StringsAll(cs)
  }

  function StringsAll(cs: seq<Node>): seq<string> {
    if cs == [] then []
    else
      (if cs[0].Element? && HidesText(cs[0].tag) then [] else StringsBelow(cs[0]))
      + StringsAll(cs[1..])
  }

  /** The non-empty stripped strings (`get_text(strip=True)`'s parts). */
  function StrippedStrings(n: Node): (r: seq<string>)
    ensures forall s :: s in r ==> s != [] && !IsSpace(s[0]) && !IsSpace(s[|s| - 1])
  {
    Filter(Map(StringsBelow(n), Strip), (s: string) => s != [])
  }

  /** `tag.get_text(sep, strip)`. */
  function GetText(n: Node, sep: string, strip: bool): string {
    if strip then Join(StrippedStrings(n), sep) else Join(StringsBelow(n), sep)
  }

  /** `tag.string`: the text of a node whose only child is a string, or
      (recursively) whose only child is a tag with a `.string`. */
  function TagString(n: Node): Option<string> {
    match n
    case Text(t) => Some(t)
    case Element(_, _, cs) => if |cs| == 1 then TagString(cs[0]) else None
  }

  /** The `.string` chain reaches its text without passing through a script,
      style or template element, whose strings `get_text` skips. */
  predicate StringShown(n: Node) {
    match n
    case Text(_) => true
    case Element(_, _, cs) =>
      |cs| == 1 && !(cs[0].Element? && HidesText(cs[0].tag)) && StringShown(cs[0])
  }

  /** When a node has a `.string`, `get_text` without stripping yields exactly
      that string if the chain is shown, and nothing otherwise. */
  lemma {:induction false} TagStringText(n: Node)
    requires TagString(n).Some?
    ensures StringsBelow(n) == (if StringShown(n) then [TagString(n).value] else [])
    ensures GetText(n, "", false) == (if StringShown(n) then TagString(n).value else "")
  {
    match n
    case Text(_) =>
    case Element(_, _, cs) =>
      assert StringsAll(cs) == (if cs[0].Element? && HidesText(cs[0].tag) then [] else StringsBelow(cs[0])) + StringsAll(cs[1..]);
      assert cs[1..] == [];
      if !(cs[0].Element? && HidesText(cs[0].tag)) {
        TagStringText(cs[0]);
      }
  }

  /* -------------------------------------------------------- decompose */

  /** The tree after `el.decompose()` for every element whose tag is in
      `tags`. */
  function Without(n: Node, tags: seq<string>): Node {
    match n
    case Text(_) => n
    case Element(tag, attrs, cs) => Element(tag, attrs, WithoutAll(cs, tags))
  }

  function WithoutAll(cs: seq<Node>, tags: seq<string>): seq<Node> {
    if cs == [] then []
    else if cs[0].Element? && cs[0].tag in tags then WithoutAll(cs[1..], tags)
    else [Without(cs[0], tags)] + WithoutAll(cs[1..], tags)
  }

  /** No element with a removed tag survives anywhere below the root. */
  lemma {:induction false} WithoutRemoves(n: Node, tags: seq<string>)
    ensures forall p :: p in Below(Without(n, tags)) ==> !HasTagIn(p.0, tags)
    decreases n, 1
  {
    if n.Element? {
      WithoutAllRemoves(n.children, tags, n.tag);
    }
  }

  lemma {:induction false} WithoutAllRemoves(cs: seq<Node>, tags: seq<string>, parent: string)
    ensures forall p :: p in BelowAll(WithoutAll(cs, tags), parent) ==> !HasTagIn(p.0, tags)
    decreases cs, 0
  {
    if cs != [] {
      WithoutAllRemoves(cs[1..], tags, parent);
      if !(cs[0].Element? && cs[0].tag in tags) {
        WithoutRemoves(cs[0], tags);
        var w := WithoutAll(cs, tags);
        assert w[0] == Without(cs[0], tags);
        assert w[1..] == WithoutAll(cs[1..], tags);
      }
    }
  }

  /** A tree without any element to remove is left as it is. */
  lemma {:induction false} WithoutClean(n: Node, tags: seq<string>)
    requires forall p :: p in Below(n) ==> !HasTagIn(p.0, tags)
    ensures Without(n, tags) == n
    decreases n, 1
  {
    if n.Element? {
      WithoutAllClean(n.children, tags, n.tag);
    }
  }

  lemma {:induction false} WithoutAllClean(cs: seq<Node>, tags: seq<string>, parent: string)
    requires forall p :: p in BelowAll(cs, parent) ==> !HasTagIn(p.0, tags)
    ensures WithoutAll(cs, tags) == cs
    decreases cs, 0
  {
    if cs != [] {
      var head := if cs[0].Element? then [(cs[0], parent)] else [];
      assert BelowAll(cs, parent) == head + Below(cs[0]) + BelowAll(cs[1..], parent);
      if cs[0].Element? {
        assert (cs[0], parent) in BelowAll(cs, parent);
      }
      WithoutClean(cs[0], tags);
      WithoutAllClean(cs[1..], tags, parent);
      assert cs == [cs[0]] + cs[1..];
    }
  }

  /** A child survives the removal unless it is itself removed. */
  predicate Kept(tags: seq<string>, c: Node) {
    !HasTagIn(c, tags)
  }

  function KeptBy(tags: seq<string>): Node -> bool {
    (c: Node) => Kept(tags, c)
  }

  function CleanedBy(tags: seq<string>): Node -> Node {
    (c: Node) => Without(c, tags)
  }

  /** The surviving children are the kept ones, in order, each with the
      removal applied below it. */
  lemma {:induction false} WithoutAllKeeps(cs: seq<Node>, tags: seq<string>)
    ensures WithoutAll(cs, tags) == Map(Filter(cs, KeptBy(tags)), CleanedBy(tags))
  {
    if cs != [] {
      WithoutAllKeeps(cs[1..], tags);
      var rest := Filter(cs[1..], KeptBy(tags));
      if Kept(tags, cs[0]) {
        assert Filter(cs, KeptBy(tags)) == [cs[0]] + rest;
        assert ([cs[0]] + rest)[1..] == rest;
      }
    }
  }
}

=== FILE: extractor.dfy ===
/** The content extractor of the utilities package: the record it builds
    for a fetched page (the page with navigation and scripts removed, its
    text on one cleaned line, its title and meta description) and the
    error record it returns when the fetch raises. The fetch itself is a
    parameter: either the parsed page or the message of the exception. */
module ContentExtractor {
  import opened Wrappers
  import opened Seqs
  import opened Strings
  import opened Dom
  import TextUtils
  import M = MetaAnalysis
  import PageRules

  /** The elements extracted before the text is read. */
  const RemovedTags: seq<string> := ["script", "style", "nav", "footer", "header"]

  /** The record `extract_from_url` returns; the `status` key is
      `"success"` or `"error"` and an error record has empty content. */
  datatype Extraction =
    | Extracted(url: string, title: string, metaDescription: string, content: string)
    | Errored(url: string, message: string)
  {
    function Status(): string {
      if Extracted? then "success" else "error"
    }

    function Content(): string {
      if Extracted? then content else ""
    }
  }

  /* ------------------------------------------------------------ _clean_text */

  predicate IsNewline(c: char) {
    c == '\n'
  }

  /** `re.sub(r'\n+', '\n', s)`: every run of newlines becomes one. */
  function SqueezeNewlines(s: string): string
    decreases |s|
  {
    if s == [] then []
    else if s[0] == '\n' then
      var n := SpanLen(s, IsNewline);
      ['\n'] + SqueezeNewlines(s[n..])
    else [s[0]] + SqueezeNewlines(s[1..])
  }

  /** Squeezing starts with the same character. */
  lemma SqueezeFirst(s: string)
    requires s != []
    ensures SqueezeNewlines(s) != [] && SqueezeNewlines(s)[0] == s[0]
  {
  }

  /** A prefix without newlines passes through squeezing unchanged. */
  lemma {:induction false} SqueezeKeepsPrefix(s: string, m: nat)
    requires m <= |s| && forall k :: 0 <= k < m ==> s[k] != '\n'
    ensures SqueezeNewlines(s) == s[..m] + SqueezeNewlines(s[m..])
  {
    if m > 0 {
      SqueezeKeepsPrefix(s[1..], m - 1);
      assert s[1..][m - 1..] == s[m..];
      assert s[..m] == [s[0]] + s[1..][..m - 1];
    }
  }

  /** Squeezing newlines keeps the words: `str.split()` gives the same list
      before and after. */
  lemma {:induction false} WordsSqueeze(s: string)
    ensures Words(SqueezeNewlines(s)) == Words(s)
    decreases |s|
  {
    if s == [] {
    } else if s[0] == '\n' {
      var n := SpanLen(s, IsNewline);
      var q := SqueezeNewlines(s[n..]);
      WordsSqueeze(s[n..]);
      assert SqueezeNewlines(s) == ['\n'] + q;
      assert (['\n'] + q)[1..] == q;
      RunsSkip(s, NotSpace, n);
    } else if IsSpace(s[0]) {
      var q := SqueezeNewlines(s[1..]);
      WordsSqueeze(s[1..]);
      assert SqueezeNewlines(s) == [s[0]] + q;
      assert ([s[0]] + q)[1..] == q;
    } else {
      var m := SpanLen(s, NotSpace);
      var q := SqueezeNewlines(s[m..]);
      SqueezeKeepsPrefix(s, m);
      WordsSqueeze(s[m..]);
      if m < |s| {
        SqueezeFirst(s[m..]);
      }
      RunsCons(s[..m], q, NotSpace);
    }
  }

  /** Squeezing newlines only drops whitespace. */
  lemma {:induction false} SqueezeKeepsContent(s: string)
    ensures Filter(SqueezeNewlines(s), NotSpace) == Filter(s, NotSpace)
    decreases |s|
  {
    if s != [] {
      var r := SqueezeNewlines(s);
      if s[0] == '\n' {
        var n := SpanLen(s, IsNewline);
        SqueezeKeepsContent(s[n..]);
        assert s == s[..n] + s[n..];
        FilterAppend(s[..n], s[n..], NotSpace);
        FilterNoneKept(s[..n], NotSpace);
        assert r[1..] == SqueezeNewlines(s[n..]);
      } else {
        SqueezeKeepsContent(s[1..]);
        assert r[1..] == SqueezeNewlines(s[1..]);
      }
    }
  }

  predicate IsNonEmpty(line: string) {
    line != []
  }

  /** `'\n'.join(line for line in (l.strip() for l in t.split('\n')) if line)`. */
  function JoinLines(t: string): string {
    Join(Filter(Map(SplitOn(t, "\n"), Strip), IsNonEmpty), "\n")
  }

  /** Text without a newline is one line, and joining it gives that line
      stripped. */
  lemma OneLine(t: string)
    requires forall i :: 0 <= i < |t| ==> t[i] != '\n'
    ensures JoinLines(t) == Strip(t)
  {
    assert !HasChar(t, '\n');
    ContainsChar(t, '\n');
    assert SplitOn(t, "\n") == [t];
    JoinOne(t);
  }

  /** A single line, stripped, kept when non-empty and joined, is that line
      stripped. */
  lemma JoinOne(t: string)
    ensures Join(Filter(Map([t], Strip), IsNonEmpty), "\n") == Strip(t)
  {
    var lines := Map([t], Strip);
    assert lines == [Strip(t)];
    assert Filter(lines, IsNonEmpty) == (if Strip(t) == [] then [] else [Strip(t)]);
  }

  /** `_clean_text(text)`: newline runs squeezed, whitespace runs collapsed
      to one space, the text split into lines, each line stripped, empty
      lines dropped, the rest joined by newlines. The collapse has already
      turned every newline into a space, so the result is a single line:
      no newline, no whitespace at either end, single spaces between the
      pieces, and nothing at all for whitespace-only input. */
  function CleanLines(text: string): (r: string)
    ensures forall i :: 0 <= i < |r| ==> r[i] != '\n'
    ensures r == [] || (!IsSpace(r[0]) && !IsSpace(r[|r| - 1]))
    ensures forall i :: 0 <= i < |r| - 1 ==> !(IsSpace(r[i]) && IsSpace(r[i + 1]))
    ensures r == [] <==> forall i :: 0 <= i < |text| ==> IsSpace(text[i])
    ensures Words(r) == Words(text)
  {
    LinesKeepWords(text);
    SqueezeKeepsContent(text);
    CleanShapeFrom(text, SqueezeNewlines(text));
    JoinLines(CollapseSpaces(SqueezeNewlines(text)))
  }

  /** Cleaning the lines keeps the words: once whitespace is collapsed no
      newline is left, so the joined lines are the collapsed text
      stripped. */
  lemma LinesKeepWords(text: string)
    ensures Words(JoinLines(CollapseSpaces(SqueezeNewlines(text)))) == Words(text)
  {
    var sq := SqueezeNewlines(text);
    var c := CollapseSpaces(sq);
    assert forall i :: 0 <= i < |c| ==> c[i] != '\n' by {
      assert IsSpace('\n');
    }
    OneLine(c);
    WordsStrip(c);
    WordsCollapse(sq);
    WordsSqueeze(text);
  }

  /** A single line with no whitespace at either end and single spaces
      between its pieces. */
  predicate OneCleanLine(r: string) {
    && (forall i :: 0 <= i < |r| ==> r[i] != '\n')
    && (r == [] || (!IsSpace(r[0]) && !IsSpace(r[|r| - 1])))
    && (forall i :: 0 <= i < |r| - 1 ==> !(IsSpace(r[i]) && IsSpace(r[i + 1])))
  }

  /** The shape of the joined lines of any whitespace-collapsed string
      that keeps the non-space characters of `text`. */
  lemma CleanShapeFrom(text: string, sq: string)
    requires Filter(sq, NotSpace) == Filter(text, NotSpace)
    ensures OneCleanLine(JoinLines(CollapseSpaces(sq)))
    ensures JoinLines(CollapseSpaces(sq)) == [] <==> forall i :: 0 <= i < |text| ==> IsSpace(text[i])
  {
    var t := CollapseSpaces(sq);
    var r := JoinLines(t);
    assert r == Strip(t) by {
      assert IsSpace('\n');
      OneLine(t);
    }
    LineShape(sq, r);
    assert r == [] <==> forall i :: 0 <= i < |text| ==> IsSpace(text[i]) by {
      TextUtils.CleanedShape(sq);
      SameContentBlank(text, r);
    }
  }

  /** Strings with the same non-space characters are blank together. */
  lemma SameContentBlank(a: string, b: string)
    requires Filter(a, NotSpace) == Filter(b, NotSpace)
    ensures (forall i :: 0 <= i < |a| ==> IsSpace(a[i])) <==> (forall i :: 0 <= i < |b| ==> IsSpace(b[i]))
  {
    BlankIff(a);
    BlankIff(b);
  }

  /** The stripped, collapsed text holds no newline and no two whitespace
      characters in a row. */
  lemma LineShape(t: string, r: string)
    requires r == Strip(CollapseSpaces(t))
    ensures OneCleanLine(r)
  {
    TextUtils.CleanedShape(t);
    SpacedLine(r);
  }

  /** Text whose only whitespace is single spaces inside it is one clean
      line. */
  lemma SpacedLine(r: string)
    requires TextUtils.SingleSpaced(r)
    ensures OneCleanLine(r)
  {
    forall i | 0 <= i < |r|
      ensures r[i] != '\n'
    {
      if IsSpace(r[i]) {
        assert r[i] == ' ';
      } else {
        assert IsSpace('\n');
      }
    }
  }

  /** Cleaning keeps every non-space character of the text, in order. */
  lemma CleanLinesKeepsContent(text: string)
    ensures Filter(CleanLines(text), NotSpace) == Filter(text, NotSpace)
  {
    var t := CollapseSpaces(SqueezeNewlines(text));
    assert IsSpace('\n');
    OneLine(t);
    TextUtils.CleanedShape(SqueezeNewlines(text));
    SqueezeKeepsContent(text);
  }

  /** A string is all whitespace exactly when it keeps nothing under the
      non-space filter. */
  lemma BlankIff(s: string)
    ensures Filter(s, NotSpace) == [] <==> forall i :: 0 <= i < |s| ==> IsSpace(s[i])
  {
    if forall i :: 0 <= i < |s| ==> IsSpace(s[i]) {
      FilterNoneKept(s, NotSpace);
    } else {
      var i :| 0 <= i < |s| && !IsSpace(s[i]);
      assert s[i] in Filter(s, NotSpace);
    }
  }

  /* --------------------------------------------------- title and description */

  /** `_get_title(soup)`: the text of the first `<title>`, or "". */
  function Title(soup: Node): (r: string)
    ensures FindTag(soup, "title").None? ==> r == ""
    ensures FindTag(soup, "title").Some? ==> r == GetText(FindTag(soup, "title").value, "", false)
  {
    match FindTag(soup, "title")
    case None => ""
    case Some(t) => GetText(t, "", false)
  }

  /** `_get_meta_description(soup)`: the `content` of the first
      `<meta name="description">`, or "" when there is no such tag or it
      has no `content`. */
  function MetaDescription(soup: Node): (r: string)
    ensures M.ContentOf(M.FindMeta(soup, "name", "description")).None? ==> r == ""
    ensures M.ContentOf(M.FindMeta(soup, "name", "description")).Some? ==>
      r == M.ContentOf(M.FindMeta(soup, "name", "description")).value
  {
    M.ContentOf(M.FindMeta(soup, "name", "description")).GetOr("")
  }

  /** The extractor's title agrees with the page-analysis title
      (`soup.title.string`) whenever the latter is a string shown by
      `get_text`; without a title element the extractor has "" where the
      page analysis has its sentinel. */
  lemma TitleAgrees(soup: Node)
    ensures FindTag(soup, "title").None? ==> Title(soup) == "" && PageRules.PageTitle(soup) == Some(PageRules.TitleNotFound)
    ensures FindTag(soup, "title").Some? && PageRules.PageTitle(soup).Some? ==>
      Title(soup) == (if StringShown(FindTag(soup, "title").value) then PageRules.PageTitle(soup).value else "")
  {
    if FindTag(soup, "title").Some? && PageRules.PageTitle(soup).Some? {
      TagStringText(FindTag(soup, "title").value);
    }
  }

  /** A non-empty extracted description is the page analysis's description,
      which falls back to paragraphs only when the meta tag gives no content. */
  lemma MetaDescriptionAgrees(soup: Node)
    ensures MetaDescription(soup) != "" ==> PageRules.PageDescription(soup) == MetaDescription(soup)
    ensures MetaDescription(soup) == "" && FindAllTag(soup, "p") == [] ==> PageRules.PageDescription(soup) == ""
  {
  }

  /* -------------------------------------------------------- extract_from_url */

  /** `extract_from_url(url)` for a fetch that either produced the parsed
      page or raised with the given message. */
  function Extract(url: string, fetched: Result<Node, string>): (r: Extraction)
    ensures r.url == url
    ensures r.Errored? <==> fetched.Failure?
    ensures r.Errored? ==> r.Status() == "error" && r.Content() == "" && r.message == fetched.error
    ensures r.Extracted? ==> r.Status() == "success"
    ensures r.Extracted? ==> forall i :: 0 <= i < |r.content| ==> r.content[i] != '\n'
    ensures fetched.Success? ==>
      (r.Content() == [] <==> forall i :: 0 <= i < |PageText(fetched.value)| ==> IsSpace(PageText(fetched.value)[i]))
  {
    match fetched
    case Failure(message) => Errored(url, message)
    case Success(soup) =>
      var page := Without(soup, RemovedTags);
      Extracted(url, Title(page), MetaDescription(page), CleanLines(PageText(soup)))
  }

  /** `soup.get_text(separator='\n')` of the page after extraction. */
  function PageText(soup: Node): string {
    GetText(Without(soup, RemovedTags), "\n", false)
  }

  /** The extracted title and description are read from the page after
      the navigation, header, footer, script and style elements are gone. */
  lemma ExtractReadsReducedPage(url: string, soup: Node)
    ensures var r := Extract(url, Success(soup));
      && r.Extracted?
      && r.title == Title(Without(soup, RemovedTags))
      && r.metaDescription == MetaDescription(Without(soup, RemovedTags))
      && Filter(r.content, NotSpace) == Filter(PageText(soup), NotSpace)
  {
    CleanLinesKeepsContent(PageText(soup));
  }
}

=== FILE: freq.dfy ===
/** `collections.Counter(ws).most_common(k)`: the `k` most frequent distinct
    elements of `ws` with their counts, most frequent first. Python returns
    `sorted(counts.items(), key=count, reverse=True)[:k]`; the sort is
    stable and the counter remembers first insertion, so elements with
    equal counts keep the order in which they first occur in `ws`. */
module Freq {
  import opened Seqs

  /* Every counter in the analysed code counts words, so elements are strings. */

  /** Occurrences of `x` in `ws`. */
  function Count(ws: seq<string>, x: string): nat {
    multiset(ws)[x]
  }

  /** No element occurs more often than the sequence is long. */
  lemma {:induction false} CountBound(ws: seq<string>, x: string)
    ensures Count(ws, x) <= |ws|
    ensures x in ws <==> Count(ws, x) > 0
  {
    if ws != [] {
      assert ws == [ws[0]] + ws[1..];
      CountBound(ws[1..], x);
    }
  }

  /** An element occurs more than once exactly when it sits at two different
      positions. */
  lemma {:induction false} CountTwice(ws: seq<string>, x: string)
    ensures Count(ws, x) > 1 <==> exists i, j :: 0 <= i < j < |ws| && ws[i] == x && ws[j] == x
  {
    if ws != [] {
      var rest := ws[1..];
      assert ws == [ws[0]] + rest;
      assert Count(ws, x) == (if ws[0] == x then 1 else 0) + Count(rest, x);
      CountTwice(rest, x);
      CountBound(rest, x);
      if Count(ws, x) > 1 {
        if ws[0] == x {
          var j :| 0 <= j < |rest| && rest[j] == x;
          assert ws[0] == x && ws[j + 1] == x;
        } else {
          var i, j :| 0 <= i < j < |rest| && rest[i] == x && rest[j] == x;
          assert ws[i + 1] == x && ws[j + 1] == x;
        }
      }
      if exists i, j :: 0 <= i < j < |ws| && ws[i] == x && ws[j] == x {
        var i, j :| 0 <= i < j < |ws| && ws[i] == x && ws[j] == x;
        if i == 0 {
          assert rest[j - 1] == x;
        } else {
          assert rest[i - 1] == x && rest[j - 1] == x;
        }
      }
    }
  }

  /** Index of the first occurrence of `x` in `ws`, or `|ws|` if absent. */
  function FirstIndex(ws: seq<string>, x: string): (r: nat)
    ensures r <= |ws|
    ensures r < |ws| ==> ws[r] == x
    ensures forall j :: 0 <= j < r ==> ws[j] != x
    ensures r == |ws| <==> x !in ws
  {
    if ws == [] then 0
    else if ws[0] == x then 0
    else 1 + FirstIndex(ws[1..], x)
  }

  /** `a` is listed before `b` by `most_common`: it is more frequent, or
      equally frequent and seen first. */
  predicate Before(ws: seq<string>, a: string, b: string) {
    Count(ws, a) > Count(ws, b)
    || (Count(ws, a) == Count(ws, b) && FirstIndex(ws, a) < FirstIndex(ws, b))
  }

  /** `Before` is a strict total order on the elements of `ws`. */
  lemma BeforeTotal(ws: seq<string>, a: string, b: string)
    requires a in ws && b in ws && a != b
    ensures Before(ws, a, b) != Before(ws, b, a)
  {
    var ia, ib := FirstIndex(ws, a), FirstIndex(ws, b);
    assert ws[ia] == a && ws[ib] == b;
  }

  predicate Sorted(ws: seq<string>, s: seq<string>) {
    forall i, j :: 0 <= i < j < |s| ==> Before(ws, s[i], s[j])
  }

  /** A sorted sequence has no repeated element. */
  lemma SortedDistinct(ws: seq<string>, s: seq<string>)
    requires Sorted(ws, s)
    ensures NoDuplicates(s)
  {
  }

  lemma BeforeTransitive(ws: seq<string>, a: string, b: string, c: string)
    requires Before(ws, a, b) && Before(ws, b, c)
    ensures Before(ws, a, c)
  {
  }

  /** Inserts `x` in front of the first element it ranks before. */
  function Insert(ws: seq<string>, x: string, s: seq<string>): (r: seq<string>)
    ensures multiset(r) == multiset(s) + multiset{x}
  {
    if s == [] then [x]
    else if Before(ws, x, s[0]) then [x] + s
    else
      assert s == [s[0]] + s[1..];
      [s[0]] + Insert(ws, x, s[1..])
  }

  /** Inserting a new element of `ws` into a sorted sequence keeps it sorted. */
  lemma {:induction false} InsertSorted(ws: seq<string>, x: string, s: seq<string>)
    requires x in ws && x !in s
    requires forall i :: 0 <= i < |s| ==> s[i] in ws
    requires Sorted(ws, s)
    ensures Sorted(ws, Insert(ws, x, s))
  {
    if s == [] {
    } else if Before(ws, x, s[0]) {
      var r := Insert(ws, x, s);
      forall j | 1 <= j < |r|
        ensures Before(ws, x, r[j])
      {
        if j > 1 {
          BeforeTransitive(ws, x, s[0], s[j - 1]);
        }
      }
    } else {
      BeforeTotal(ws, x, s[0]);
      var rest := Insert(ws, x, s[1..]);
      InsertSorted(ws, x, s[1..]);
      var r := Insert(ws, x, s);
      assert r == [s[0]] + rest;
      forall j | 0 <= j < |rest|
        ensures Before(ws, s[0], rest[j])
      {
        assert rest[j] in multiset(rest);
        if rest[j] != x {
          assert rest[j] in multiset(s[1..]);
          var m :| 0 <= m < |s[1..]| && s[1..][m] == rest[j];
          assert s[m + 1] == rest[j];
        }
      }
    }
  }

  /** Insertion sort by `Before`. */
  function SortByFreq(ws: seq<string>, xs: seq<string>): (r: seq<string>)
    ensures multiset(r) == multiset(xs)
  {
    if xs == [] then []
    else
      assert xs == [xs[0]] + xs[1..];
      Insert(ws, xs[0], SortByFreq(ws, xs[1..]))
  }

  lemma {:induction false} SortByFreqSorted(ws: seq<string>, xs: seq<string>)
    requires NoDuplicates(xs)
    requires forall i :: 0 <= i < |xs| ==> xs[i] in ws
    ensures Sorted(ws, SortByFreq(ws, xs))
  {
    if xs != [] {
      var rest := SortByFreq(ws, xs[1..]);
      SortByFreqSorted(ws, xs[1..]);
      assert xs == [xs[0]] + xs[1..];
      assert xs[0] !in multiset(xs[1..]);
      forall i | 0 <= i < |rest|
        ensures rest[i] in ws
      {
        assert rest[i] in multiset(xs[1..]);
      }
      InsertSorted(ws, xs[0], rest);
    }
  }

  /** The distinct elements of `ws`. */
  function Distinct(ws: seq<string>): (r: seq<string>)
    ensures NoDuplicates(r)
    ensures forall i :: 0 <= i < |r| ==> r[i] in ws
    ensures forall i :: 0 <= i < |ws| ==> ws[i] in r
  {
    if ws == [] then []
    else
      var d := Distinct(ws[..|ws| - 1]);
      var last := ws[|ws| - 1];
      assert ws == ws[..|ws| - 1] + [last];
      if last in d then d else d + [last]
  }

  /** The elements that `Counter(ws).most_common(k)` lists, in its order. */
  function MostCommonKeys(ws: seq<string>, k: nat): seq<string> {
    Take(SortByFreq(ws, Distinct(ws)), k)
  }

  /** `Counter(ws).most_common(k)`: pairs of element and count. */
  function MostCommon(ws: seq<string>, k: nat): seq<(string, nat)> {
    Map(MostCommonKeys(ws, k), (x: string) => (x, Count(ws, x)))
  }

  /** The listed elements: `min(k, #distinct)` distinct elements of `ws`,
      in `Before` order, each ranked before every element left out. */
  lemma {:induction false} MostCommonKeysSpec(ws: seq<string>, k: nat)
    ensures var keys := MostCommonKeys(ws, k);
      && |keys| == (if k < |Distinct(ws)| then k else |Distinct(ws)|)
      && (forall i :: 0 <= i < |keys| ==> keys[i] in ws)
      && Sorted(ws, keys)
      && (forall i, y :: 0 <= i < |keys| && y in ws && y !in keys ==> Before(ws, keys[i], y))
  {
    var d := Distinct(ws);
    var sorted := SortByFreq(ws, d);
    var keys := MostCommonKeys(ws, k);
    SortByFreqSorted(ws, d);
    assert |sorted| == |d| by {
      assert |multiset(sorted)| == |multiset(d)|;
    }
    forall y | y in sorted
      ensures y in ws
    {
      assert y in multiset(d);
    }
    forall i, y | 0 <= i < |keys| && y in ws && y !in keys
      ensures Before(ws, keys[i], y)
    {
      assert y in multiset(d);
      assert y in multiset(sorted);
      var j :| 0 <= j < |sorted| && sorted[j] == y;
      assert keys[i] == sorted[i];
    }
  }

  /** An element left out of the top `k` ranks after every listed one. */
  lemma MostCommonLeftOut(ws: seq<string>, k: nat, y: string)
    requires y in ws && y !in MostCommonKeys(ws, k)
    ensures forall i :: 0 <= i < |MostCommonKeys(ws, k)| ==> Before(ws, MostCommonKeys(ws, k)[i], y)
  {
    MostCommonKeysSpec(ws, k);
  }

  /** The listed elements are in `Before` order. */
  lemma MostCommonKeysSorted(ws: seq<string>, k: nat)
    ensures Sorted(ws, MostCommonKeys(ws, k))
  {
    var d := Distinct(ws);
    SortByFreqSorted(ws, d);
    var sorted := SortByFreq(ws, d);
    var keys := MostCommonKeys(ws, k);
    assert forall i :: 0 <= i < |keys| ==> keys[i] == sorted[i];
  }

  /** What `most_common(k)` promises: the listed elements of
      `MostCommonKeysSpec`, each paired with its exact count. */
  lemma MostCommonSpec(ws: seq<string>, k: nat)
    ensures var r := MostCommon(ws, k);
      && |r| == (if k < |Distinct(ws)| then k else |Distinct(ws)|)
      && (forall i :: 0 <= i < |r| ==> r[i].0 in ws && r[i].1 == Count(ws, r[i].0))
      && (forall i, j :: 0 <= i < j < |r| ==> Before(ws, r[i].0, r[j].0))
      && (forall i, y :: 0 <= i < |r| && y in ws && y !in MostCommonKeys(ws, k) ==> Before(ws, r[i].0, y))
  {
    MostCommonKeysSpec(ws, k);
  }

  /** The top `k` list without its ranking: its length, and distinct
      elements of `ws`, each with its count. */
  lemma MostCommonShape(ws: seq<string>, k: nat)
    ensures var r := MostCommon(ws, k);
      && |r| == (if k < |Distinct(ws)| then k else |Distinct(ws)|)
      && (forall i :: 0 <= i < |r| ==> r[i].0 in ws && r[i].1 == Count(ws, r[i].0))
      && (forall i, j :: 0 <= i < j < |r| ==> r[i].0 != r[j].0)
  {
    MostCommonSpec(ws, k);
  }

  /** Every element of `ws` occurs in the top `k` list whenever `k` covers
      all distinct elements. */
  lemma MostCommonComplete(ws: seq<string>, k: nat, y: string)
    requires k >= |Distinct(ws)| && y in ws
    ensures y in MostCommonKeys(ws, k)
  {
    var d := Distinct(ws);
    var sorted := SortByFreq(ws, d);
    assert |sorted| == |d| by {
      assert |multiset(sorted)| == |multiset(d)|;
    }
    assert y in multiset(sorted);
  }

  /** The distinct elements of a prefix come first, in the same order,
      among those of the whole sequence. */
  lemma {:induction false} DistinctPrefix(ws: seq<string>, n: nat)
    requires n <= |ws|
    ensures Distinct(ws[..n]) <= Distinct(ws)
    decreases |ws|
  {
    if n == |ws| {
      assert ws[..n] == ws;
    } else {
      var init := ws[..|ws| - 1];
      assert init[..n] == ws[..n];
      DistinctPrefix(init, n);
    }
  }

  /** Among the kept elements in order of first occurrence, the first one
      passing `q` occurs no later than any kept element passing `q`. */
  lemma FirstWhereFiltered(ws: seq<string>, p: string -> bool, q: string -> bool, i: nat)
    requires i < |ws| && p(ws[i]) && q(ws[i])
    ensures var found := FirstWhere(Distinct(Filter(ws, p)), q);
      found.Some? && found.value in ws[..i + 1]
  {
    FilterPrefixLast(ws, p, i);
    var pre := Filter(ws[..i + 1], p);
    var all := Filter(ws, p);
    var m := |pre| - 1;
    assert pre[m] == ws[i];
    assert all[..m + 1] == pre;
    assert all[m] == pre[m];
    FirstWhereDistinct(all, q, m);
    var found := FirstWhere(Distinct(all), q);
    assert found.value in pre;
  }

  /** Searching the distinct elements, in order of first occurrence, for one
      meeting `q` finds an element that occurs no later than any element of
      `ws` meeting `q`. */
  lemma FirstWhereDistinct(ws: seq<string>, q: string -> bool, i: nat)
    requires i < |ws| && q(ws[i])
    ensures FirstWhere(Distinct(ws), q).Some?
    ensures FirstWhere(Distinct(ws), q).value in ws[..i + 1]
  {
    var m := DistinctIndex(ws, i);
    FirstWherePrefix(Distinct(ws), Distinct(ws[..i + 1]), q, m);
  }

  /** The element at `i` has a place among the distinct elements of the
      prefix up to it, which begins the distinct elements of the whole. */
  lemma DistinctIndex(ws: seq<string>, i: nat) returns (m: nat)
    requires i < |ws|
    ensures m < |Distinct(ws[..i + 1])| && Distinct(ws[..i + 1])[m] == ws[i]
    ensures Distinct(ws[..i + 1]) <= Distinct(ws)
  {
    var pre := Distinct(ws[..i + 1]);
    DistinctPrefix(ws, i + 1);
    assert ws[..i + 1][i] == ws[i];
    assert ws[i] in pre;
    m :| 0 <= m < |pre| && pre[m] == ws[i];
  }

  /** There are as many distinct elements as `set(ws)` has members. */
  lemma DistinctCard(ws: seq<string>)
    ensures |Distinct(ws)| == |set x | x in ws|
  {
    var d := Distinct(ws);
    NoDuplicatesCard(d);
    assert (set x | x in d) == (set x | x in ws);
  }
}

=== FILE: generation.dfy ===
/** The two generations of analyzers in the repository: the older
    synchronous classes of `app/services/analyzer.py` and the modular
    asynchronous ones of `app/services/analyzers/`. Where the two share a
    procedure and differ in a few rules, the model writes the procedure once
    and branches on the generation at exactly those rules. */
module Generations {
  datatype Generation = Legacy | Modular
}

=== FILE: keyword.dfy ===
/** The keyword-optimisation analyzer: meta keywords, keywords detected in
    the page text, their placement in the important elements, their
    distribution and density, related terms, the issues and
    recommendations drawn from them, and the keyword score.

    The analyzer removes script, style, noscript, iframe, header, footer
    and nav elements from the page before reading its text and keeps
    working on the reduced page. Here that reduced page is a copy
    (`Stripped`), so the other analyzers are unaffected by it. */
module KeywordAnalysis {
  import opened Wrappers
  import opened Seqs
  import opened Strings
  import opened Numeric
  import opened Freq
  import opened Dom
  import opened Recs
  import MetaAnalysis
  import ContentAnalysis

  /* ------------------------------------------------------ meta keywords */

  /** The stop list applied to the words of the meta description. */
  const DescriptionStopWords: set<string> := {
    "и", "в", "на", "с", "по", "к", "у", "о", "от", "для", "из", "за", "то",
    "что", "как", "это", "этот", "или", "но", "а", "же"}

  datatype MetaKeywords = MetaKeywords(hasMetaKeywords: bool, keywords: seq<string>, count: nat)

  /** A keyword as the comma-separated list yields it: non-empty, without
      surrounding whitespace or commas, in lower case. */
  predicate CleanKeyword(k: string) {
    && k != [] && !IsSpace(k[0]) && !IsSpace(k[|k| - 1])
    && (forall i :: 0 <= i < |k| ==> k[i] != ',' && !IsUpper(k[i]))
  }

  /** `[k.strip().lower() for k in content.split(',') if k.strip()]`. */
  function ListedKeywords(content: string): (r: seq<string>)
    ensures forall k :: k in r ==> CleanKeyword(k)
  {
    var pieces := SplitOn(content, ",");
    SplitOnPiecesFree(content, ",");
    PiecesClean(pieces);
    Map(Filter(Map(pieces, Strip), (k: string) => k != []), Lower)
  }

  /** Comma-free pieces, stripped, kept when non-empty and lower-cased, are
      clean keywords. */
  lemma PiecesClean(pieces: seq<string>)
    requires forall p :: p in pieces ==> !Contains(p, ",")
    ensures forall k :: k in Map(Filter(Map(pieces, Strip), (k: string) => k != []), Lower) ==> CleanKeyword(k)
  {
    var stripped := Filter(Map(pieces, Strip), (k: string) => k != []);
    forall s | s in stripped
      ensures StrippedPiece(s)
    {
      var j :| 0 <= j < |pieces| && Strip(pieces[j]) == s;
      StripCommaFree(pieces[j]);
    }
    LoweredClean(stripped);
  }

  /** Stripping a comma-free piece leaves it comma-free. */
  lemma StripCommaFree(p: string)
    requires !Contains(p, ",")
    ensures forall i :: 0 <= i < |Strip(p)| ==> Strip(p)[i] != ','
  {
    var s := Strip(p);
    StripChars(p);
    ContainsChar(p, ',');
    forall i | 0 <= i < |s|
      ensures s[i] != ','
    {
      assert HasChar(s, s[i]);
    }
  }

  /** A non-empty stripped piece without commas. */
  predicate StrippedPiece(s: string) {
    && s != [] && !IsSpace(s[0]) && !IsSpace(s[|s| - 1])
    && forall i :: 0 <= i < |s| ==> s[i] != ','
  }

  /** Lower-casing stripped pieces gives clean keywords. */
  lemma LoweredClean(ss: seq<string>)
    requires forall s :: s in ss ==> StrippedPiece(s)
    ensures forall k :: k in Map(ss, Lower) ==> CleanKeyword(k)
  {
    forall k | k in Map(ss, Lower)
      ensures CleanKeyword(k)
    {
      var j :| 0 <= j < |ss| && Lower(ss[j]) == k;
      LoweredPiece(ss[j]);
    }
  }

  /** Lower-casing one stripped piece gives a clean keyword. */
  lemma LoweredPiece(s: string)
    requires StrippedPiece(s)
    ensures CleanKeyword(Lower(s))
  {
    var k := Lower(s);
    forall i | 0 <= i < |k|
      ensures k[i] != ','
    {
      LowerCharComma(s[i]);
    }
  }

  /** Lower-casing neither creates nor removes a comma. */
  lemma LowerCharComma(c: char)
    ensures LowerChar(c) == ',' <==> c == ','
  {
  }

  /** A stripped string with non-space ends is left unchanged by `strip`. */
  lemma StripClean(s: string)
    requires s == [] || (!IsSpace(s[0]) && !IsSpace(s[|s| - 1]))
    ensures Strip(s) == s
  {
  }

  /** A single-character separator that does not occur in the first word
      is found right after it. */
  lemma IndexAfterWord(w: string, c: char, rest: string)
    requires forall i :: 0 <= i < |w| ==> w[i] != c
    ensures IndexOf(w + [c] + rest, [c]) == Some(|w|)
  {
    var s := w + [c] + rest;
    assert s[|w|..|w| + 1] == [c];
    assert OccursAt(s, [c], |w|);
    forall j | 0 <= j < |w|
      ensures !OccursAt(s, [c], j)
    {
      assert s[j..j + 1][0] == w[j];
    }
  }

  /** `','.join(ks).split(',') == ks` for comma-free `ks`. */
  lemma {:induction false} SplitJoinComma(ks: seq<string>)
    requires ks != []
    requires forall k :: k in ks ==> forall i :: 0 <= i < |k| ==> k[i] != ','
    ensures SplitOn(Join(ks, ","), ",") == ks
  {
    if |ks| == 1 {
      assert Join(ks, ",") == ks[0];
      SplitCommaFree(ks[0]);
    } else {
      var rest := Join(ks[1..], ",");
      assert Join(ks, ",") == ks[0] + [','] + rest;
      SplitJoinComma(ks[1..]);
      SplitAfterWord(ks[0], rest);
      assert ks == [ks[0]] + ks[1..];
    }
  }

  /** A comma-free string splits into itself. */
  lemma SplitCommaFree(k: string)
    requires forall i :: 0 <= i < |k| ==> k[i] != ','
    ensures SplitOn(k, ",") == [k]
  {
    ContainsChar(k, ',');
  }

  /** Splitting a comma-free word, a comma and a rest gives the word and
      the split of the rest. */
  lemma SplitAfterWord(w: string, rest: string)
    requires forall i :: 0 <= i < |w| ==> w[i] != ','
    ensures SplitOn(w + [','] + rest, ",") == [w] + SplitOn(rest, ",")
  {
    IndexAfterWord(w, ',', rest);
    var s := w + [','] + rest;
    assert s[..|w|] == w;
    assert s[|w| + 1..] == rest;
  }

  /** Clean keywords survive being written back as a comma-separated list
      and read again. */
  lemma {:induction false} ListedKeywordsOfJoin(ks: seq<string>)
    requires forall k :: k in ks ==> CleanKeyword(k)
    ensures ListedKeywords(Join(ks, ",")) == ks
  {
    var pieces := SplitOn(Join(ks, ","), ",");
    var keep := (k: string) => k != [];
    if ks == [] {
      assert pieces == [""];
      assert Map(pieces, Strip) == [""];
      assert Filter([""], keep) == [];
    } else {
      SplitJoinComma(ks);
      CleanPiecesListed(ks);
    }
  }

  /** Clean pieces pass through strip, the emptiness filter and lower-casing
      unchanged. */
  lemma CleanPiecesListed(ks: seq<string>)
    requires forall k :: k in ks ==> CleanKeyword(k)
    ensures Map(Filter(Map(ks, Strip), (k: string) => k != []), Lower) == ks
  {
    assert Map(ks, Strip) == ks by {
      forall i | 0 <= i < |ks|
        ensures Strip(ks[i]) == ks[i]
      {
        assert ks[i] in ks;
        StripClean(ks[i]);
      }
      MapFixed(ks, Strip);
    }
    assert Filter(ks, (k: string) => k != []) == ks by {
      forall i | 0 <= i < |ks|
        ensures ks[i] != []
      {
        assert ks[i] in ks;
      }
      FilterKeepsAllEq(ks, (k: string) => k != []);
    }
    assert Map(ks, Lower) == ks by {
      forall i | 0 <= i < |ks|
        ensures Lower(ks[i]) == ks[i]
      {
        assert ks[i] in ks;
      }
      MapFixed(ks, Lower);
    }
  }

  /** A filter that keeps every element is the identity. */
  lemma {:induction false} FilterKeepsAllEq<T>(s: seq<T>, p: T -> bool)
    requires forall i :: 0 <= i < |s| ==> p(s[i])
    ensures Filter(s, p) == s
  {
    if s != [] {
      assert forall i :: 1 <= i < |s| ==> s[i] == s[1..][i - 1];
      FilterKeepsAllEq(s[1..], p);
    }
  }

  /** Reading the keyword list is idempotent: the list it yields, written
      back with commas, yields itself. */
  lemma ListedKeywordsIdempotent(content: string)
    ensures ListedKeywords(Join(ListedKeywords(content), ",")) == ListedKeywords(content)
  {
    ListedKeywordsOfJoin(ListedKeywords(content));
  }

  /** The words of the description that may become keywords. */
  function DescriptionWords(description: string): (r: seq<string>)
    ensures forall w :: w in r ==> |w| > 3 && w !in DescriptionStopWords && w in WordTokens(Lower(description))
    ensures forall w :: Count(r, w) == (if |w| > 3 && w !in DescriptionStopWords then Count(WordTokens(Lower(description)), w) else 0)
  {
    FilterMultiset(WordTokens(Lower(description)), (w: string) => |w| > 3 && w !in DescriptionStopWords);
    Filter(WordTokens(Lower(description)), (w: string) => |w| > 3 && w !in DescriptionStopWords)
  }

  /** Some collected keyword contains `w` (`any(w in k for k in ks)`). */
  predicate Covered(ks: seq<string>, w: string) {
    exists k :: k in ks && Contains(k, w)
  }

  /** The loop appending description words: a word is appended when it is
      neither one of the keywords collected so far nor contained in one. */
  function AppendWords(ks: seq<string>, words: seq<string>): (r: seq<string>)
    ensures |ks| <= |r|
    decreases |words|
  {
    if words == [] then ks
    else if words[0] !in ks && !Covered(ks, words[0]) then AppendWords(ks + [words[0]], words[1..])
    else AppendWords(ks, words[1..])
  }

  /** A string occurs in itself. */
  lemma ContainsSelf(w: string)
    ensures Contains(w, w)
  {
    ContainsSlice(w, 0, |w|);
    assert w[0..|w|] == w;
  }

  /** The loop keeps the collected keywords in front; each word it appends
      is a description word contained in no keyword before it; and
      afterwards every description word occurs in some keyword. */
  lemma {:induction false} AppendWordsSpec(ks: seq<string>, words: seq<string>)
    ensures var r := AppendWords(ks, words);
      && r[..|ks|] == ks
      && (forall i :: |ks| <= i < |r| ==> r[i] in words)
      && (forall i, j :: 0 <= j < i < |r| && |ks| <= i ==> !Contains(r[j], r[i]))
      && (forall w :: w in words ==> exists j :: 0 <= j < |r| && Contains(r[j], w))
    decreases |words|
  {
    if words != [] {
      var w := words[0];
      assert words == [w] + words[1..];
      if w !in ks && !Covered(ks, w) {
        AppendWordsSpec(ks + [w], words[1..]);
        AppendedStep(ks, w, words[1..], AppendWords(ks + [w], words[1..]));
      } else {
        AppendWordsSpec(ks, words[1..]);
        SkippedStep(ks, w, words[1..], AppendWords(ks, words[1..]));
      }
    }
  }

  /** The step of the loop that appends `w`. */
  lemma AppendedStep(ks: seq<string>, w: string, rest: seq<string>, r: seq<string>)
    requires !Covered(ks, w)
    requires |ks| + 1 <= |r| && r[..|ks| + 1] == ks + [w]
    requires forall i :: |ks| + 1 <= i < |r| ==> r[i] in rest
    requires forall i, j :: 0 <= j < i < |r| && |ks| + 1 <= i ==> !Contains(r[j], r[i])
    requires forall x :: x in rest ==> exists j :: 0 <= j < |r| && Contains(r[j], x)
    ensures r[..|ks|] == ks
    ensures forall i :: |ks| <= i < |r| ==> r[i] in [w] + rest
    ensures forall i, j :: 0 <= j < i < |r| && |ks| <= i ==> !Contains(r[j], r[i])
    ensures forall x :: x in [w] + rest ==> exists j :: 0 <= j < |r| && Contains(r[j], x)
  {
    assert r[..|ks|] == r[..|ks| + 1][..|ks|];
    assert r[|ks|] == w;
    forall j | 0 <= j < |ks|
      ensures !Contains(r[j], w)
    {
      assert r[j] == ks[j];
      assert ks[j] in ks;
    }
    ContainsSelf(w);
  }

  /** The step of the loop that skips `w`, already covered by `ks`. */
  lemma SkippedStep(ks: seq<string>, w: string, rest: seq<string>, r: seq<string>)
    requires w in ks || Covered(ks, w)
    requires |ks| <= |r| && r[..|ks|] == ks
    requires forall i :: |ks| <= i < |r| ==> r[i] in rest
    requires forall x :: x in rest ==> exists j :: 0 <= j < |r| && Contains(r[j], x)
    ensures forall i :: |ks| <= i < |r| ==> r[i] in [w] + rest
    ensures forall x :: x in [w] + rest ==> exists j :: 0 <= j < |r| && Contains(r[j], x)
  {
    ContainsSelf(w);
    var k :| k in ks && Contains(k, w);
    var j :| 0 <= j < |ks| && ks[j] == k;
    assert r[j] == k;
  }

  /** One pass of the source's loop body: `w` is appended when it is
      neither a collected keyword nor contained in one. */
  function Admit(ks: seq<string>, w: string): seq<string> {
    if w !in ks && !Covered(ks, w) then ks + [w] else ks
  }

  /** The loop as the source writes it, walking the description words from
      the first to the last and applying `Admit` after each earlier one. */
  function Looped(ks: seq<string>, words: seq<string>): seq<string>
    decreases |words|
  {
    if words == [] then ks
    else Admit(Looped(ks, words[..|words| - 1]), words[|words| - 1])
  }

  /** Handling one more word after `words` is one more `Admit` step. */
  lemma {:induction false} AppendWordsSnoc(ks: seq<string>, words: seq<string>, w: string)
    ensures AppendWords(ks, words + [w]) == Admit(AppendWords(ks, words), w)
    decreases |words|
  {
    if words == [] {
      assert ([] + [w])[1..] == [];
    } else {
      assert (words + [w])[0] == words[0];
      assert (words + [w])[1..] == words[1..] + [w];
      if words[0] !in ks && !Covered(ks, words[0]) {
        AppendWordsSnoc(ks + [words[0]], words[1..], w);
      } else {
        AppendWordsSnoc(ks, words[1..], w);
      }
    }
  }

  /** The recursive `AppendWords` computes the source's loop: in
      description order, each word no earlier keyword equals or contains is
      appended, and no other. */
  lemma {:induction false} AppendWordsLoop(ks: seq<string>, words: seq<string>)
    ensures AppendWords(ks, words) == Looped(ks, words)
    decreases |words|
  {
    if words != [] {
      var init, last := words[..|words| - 1], words[|words| - 1];
      assert words == init + [last];
      AppendWordsLoop(ks, init);
      AppendWordsSnoc(ks, init, last);
    }
  }

  /** A description word that contains an earlier one is still appended:
      only a word inside an earlier keyword is skipped. */
  lemma LongerWordAppended()
    ensures AppendWords([], ["abcd", "abcde"]) == ["abcd", "abcde"]
  {
    assert !Covered([], "abcd");
    assert !Contains("abcd", "abcde");
    assert !Covered(["abcd"], "abcde");
    assert ["abcd", "abcde"][1..] == ["abcde"];
  }

  /** `_extract_meta_keywords`. */
  function ExtractMetaKeywords(soup: Node): (r: MetaKeywords)
    ensures r.hasMetaKeywords <==> FindAll(soup, (x: Node) => IsMetaNamed(x, "keywords")) != []
    ensures r.count == |r.keywords|
    ensures var listed := ListedKeywords(KeywordsContent(soup));
      && |listed| <= |r.keywords| && r.keywords[..|listed|] == listed
      && (forall i :: |listed| <= i < |r.keywords| ==> r.keywords[i] in DescriptionWords(DescriptionContent(soup)))
      && (forall i, j :: 0 <= j < i < |r.keywords| && |listed| <= i ==> !Contains(r.keywords[j], r.keywords[i]))
      && (forall w :: w in DescriptionWords(DescriptionContent(soup)) ==>
            exists j :: 0 <= j < |r.keywords| && Contains(r.keywords[j], w))
    ensures r.keywords == Looped(ListedKeywords(KeywordsContent(soup)), DescriptionWords(DescriptionContent(soup)))
  {
    var tag := Find(soup, (x: Node) => IsMetaNamed(x, "keywords"));
    var content := KeywordsContent(soup);
    var description := DescriptionContent(soup);
    var listed := if content != [] then ListedKeywords(content) else [];
    var keywords := if description != [] then AppendWords(listed, DescriptionWords(description)) else listed;
    NothingListed();
    AppendWordsSpec(listed, DescriptionWords(description));
    AppendWordsLoop(listed, DescriptionWords(description));
    MetaKeywords(tag.Some?, keywords, |keywords|)
  }

  /** Empty contents yield no keywords and no description words. */
  lemma NothingListed()
    ensures ListedKeywords("") == [] && DescriptionWords("") == []
  {
    assert SplitOn("", ",") == [""];
    assert Map([""], Strip) == [""];
    assert Lower("") == "";
  }

  /** The `content` of the keywords meta tag, or "" without one. */
  function KeywordsContent(soup: Node): string {
    MetaAnalysis.ContentOf(Find(soup, (x: Node) => IsMetaNamed(x, "keywords"))).GetOr("")
  }

  /** The `content` of the description meta tag, or "" without one. */
  function DescriptionContent(soup: Node): string {
    MetaAnalysis.ContentOf(Find(soup, (x: Node) => IsMetaNamed(x, "description"))).GetOr("")
  }

  /* ------------------------------------------------------- page text */

  /** The elements removed before the text is read. */
  const ExtractedTags: seq<string> := ["script", "style", "noscript", "iframe", "header", "footer", "nav"]

  /** The page after those elements are extracted. */
  function Stripped(soup: Node): (r: Node)
    ensures forall p :: p in Below(r) ==> !HasTagIn(p.0, ExtractedTags)
    ensures soup.Text? ==> r == soup
    ensures soup.Element? ==> r.Element? && r.tag == soup.tag && r.attrs == soup.attrs
    ensures soup.Element? ==>
      r.children == Map(Filter(soup.children, KeptBy(ExtractedTags)), CleanedBy(ExtractedTags))
    ensures (forall p :: p in Below(soup) ==> !HasTagIn(p.0, ExtractedTags)) ==> r == soup
  {
    WithoutRemoves(soup, ExtractedTags);
    if soup.Text? then soup
    else
      WithoutAllKeeps(soup.children, ExtractedTags);
      if forall p :: p in Below(soup) ==> !HasTagIn(p.0, ExtractedTags) then
        WithoutClean(soup, ExtractedTags);
        Without(soup, ExtractedTags)
      else Without(soup, ExtractedTags)
  }

  /** `_extract_text_content`: the text of the reduced page, pieces joined
      by one space, whitespace runs collapsed. */
  function PageText(soup: Node): (r: string)
    ensures forall i :: 0 <= i < |r| && IsSpace(r[i]) ==> r[i] == ' '
    ensures forall i :: 0 <= i < |r| - 1 ==> !(r[i] == ' ' && r[i + 1] == ' ')
    ensures Filter(r, NotSpace) == Filter(GetText(Stripped(soup), " ", true), NotSpace)
    ensures Words(r) == Words(GetText(Stripped(soup), " ", true))
  {
    var text := GetText(Stripped(soup), " ", true);
    CollapseKeepsContent(text);
    WordsCollapse(text);
    CollapseSpaces(text)
  }

  /* -------------------------------------------------------- detection */

  datatype Keyword = Keyword(keyword: string, count: nat, density: real)

  datatype Detection = Detection(keywords: seq<Keyword>, totalWords: nat)

  /** The counted tokens: lower-cased word tokens longer than three
      characters that are not stop words. */
  function CountedWords(text: string): seq<string> {
    ContentAnalysis.DensityWords(text, ContentAnalysis.ModularStopWords)
  }

  /** The keyword record of a counted token: its count and its share of
      all counted tokens in percent, rounded to one decimal. */
  function KeywordFor(ws: seq<string>, w: string): Keyword {
    Keyword(w, Count(ws, w), RoundTenths(Percent(Count(ws, w), MaxNat(1, |ws|))))
  }

  /** The records of `Counter(ws).most_common(10)`. */
  function DetectIn(ws: seq<string>): (r: Detection)
    ensures r.totalWords == |ws|
    ensures |r.keywords| <= 10
    ensures |r.keywords| == |MostCommonKeys(ws, 10)|
    ensures forall i :: 0 <= i < |r.keywords| ==> r.keywords[i] == KeywordFor(ws, MostCommonKeys(ws, 10)[i])
  {
    MostCommonKeysSpec(ws, 10);
    Detection(Map(MostCommonKeys(ws, 10), (w: string) => KeywordFor(ws, w)), |ws|)
  }

  /** `_detect_keywords`: the records of `Counter(ws).most_common(10)` for
      the counted tokens `ws`. */
  function Detect(text: string): (r: Detection)
    ensures r == DetectIn(CountedWords(text))
  {
    DetectIn(CountedWords(text))
  }

  /** The detected keywords are counted tokens (longer than three
      characters, not stop words) that occur, each with a density between
      0 and 100. */
  lemma DetectSpec(text: string)
    ensures var ws := CountedWords(text);
      var r := Detect(text).keywords;
      forall i :: 0 <= i < |r| ==>
        && r[i].keyword in ws && |r[i].keyword| > 3 && r[i].keyword !in ContentAnalysis.ModularStopWords
        && r[i].count == Count(ws, r[i].keyword) && r[i].count > 0
        && 0.0 <= r[i].density <= 100.0
  {
    DetectInSpec(CountedWords(text));
  }

  lemma DetectInSpec(ws: seq<string>)
    ensures var r := DetectIn(ws).keywords;
      forall i :: 0 <= i < |r| ==>
        && r[i].keyword in ws
        && r[i].count == Count(ws, r[i].keyword) && r[i].count > 0
        && 0.0 <= r[i].density <= 100.0
  {
    var r := DetectIn(ws).keywords;
    var keys := MostCommonKeys(ws, 10);
    MostCommonKeysSpec(ws, 10);
    forall i | 0 <= i < |r|
      ensures r[i].keyword in ws && r[i].count > 0 && 0.0 <= r[i].density <= 100.0
    {
      assert r[i].keyword == keys[i];
      CountBound(ws, keys[i]);
      RoundTenthsBetween(Percent(Count(ws, keys[i]), MaxNat(1, |ws|)));
    }
  }

  /** The detected keywords are distinct and listed from the most frequent
      down, ties in order of first occurrence. */
  lemma DetectOrder(text: string)
    ensures var ws := CountedWords(text);
      var r := Detect(text).keywords;
      && (forall i, j :: 0 <= i < j < |r| ==> Before(ws, r[i].keyword, r[j].keyword))
      && (forall i, j :: 0 <= i < j < |r| ==> r[i].count >= r[j].count && r[i].keyword != r[j].keyword)
  {
    DetectInOrder(CountedWords(text));
  }

  lemma DetectInOrder(ws: seq<string>)
    ensures var r := DetectIn(ws).keywords;
      && (forall i, j :: 0 <= i < j < |r| ==> Before(ws, r[i].keyword, r[j].keyword))
      && (forall i, j :: 0 <= i < j < |r| ==> r[i].count >= r[j].count && r[i].keyword != r[j].keyword)
  {
    var r := DetectIn(ws).keywords;
    var keys := MostCommonKeys(ws, 10);
    MostCommonKeysSorted(ws, 10);
    forall i, j | 0 <= i < j < |r|
      ensures Before(ws, r[i].keyword, r[j].keyword)
      ensures r[i].count >= r[j].count && r[i].keyword != r[j].keyword
    {
      assert r[i].keyword == keys[i] && r[j].keyword == keys[j];
      assert Before(ws, keys[i], keys[j]);
    }
  }

  /** No counted token left out of the list is more frequent than a listed
      one, and when there are at most ten distinct counted tokens every one
      of them is listed. */
  lemma DetectRanked(text: string, w: string)
    requires w in CountedWords(text)
    ensures var r := Detect(text).keywords;
      && (w !in KeywordNames(r) ==> forall i :: 0 <= i < |r| ==> r[i].count >= Count(CountedWords(text), w))
      && (|Distinct(CountedWords(text))| <= 10 ==> w in KeywordNames(r))
  {
    DetectInRanked(CountedWords(text), w);
  }

  lemma DetectInRanked(ws: seq<string>, w: string)
    requires w in ws
    ensures var r := DetectIn(ws).keywords;
      && (w !in KeywordNames(r) ==> forall i :: 0 <= i < |r| ==> r[i].count >= Count(ws, w))
      && (|Distinct(ws)| <= 10 ==> w in KeywordNames(r))
  {
    var r := DetectIn(ws).keywords;
    var keys := MostCommonKeys(ws, 10);
    MostCommonKeysSpec(ws, 10);
    assert KeywordNames(r) == keys;
    if |Distinct(ws)| <= 10 {
      MostCommonComplete(ws, 10, w);
    }
  }

  /** Densities never increase down the list. */
  lemma DetectDensityOrdered(text: string)
    ensures var r := Detect(text).keywords;
      forall i, j :: 0 <= i < j < |r| ==> r[i].density >= r[j].density
  {
    DetectInDensityOrdered(CountedWords(text));
  }

  lemma DetectInDensityOrdered(ws: seq<string>)
    ensures var r := DetectIn(ws).keywords;
      forall i, j :: 0 <= i < j < |r| ==> r[i].density >= r[j].density
  {
    var r := DetectIn(ws).keywords;
    var whole := MaxNat(1, |ws|);
    DetectInOrder(ws);
    forall i, j | 0 <= i < j < |r|
      ensures r[i].density >= r[j].density
    {
      PercentMonotone(r[j].count, r[i].count, whole);
      RoundTenthsMonotone(Percent(r[j].count, whole), Percent(r[i].count, whole));
    }
  }

  /** The listed keywords. */
  function KeywordNames(ks: seq<Keyword>): (r: seq<string>)
    ensures |r| == |ks| && forall i :: 0 <= i < |ks| ==> r[i] == ks[i].keyword
  {
    Map(ks, (k: Keyword) => k.keyword)
  }

  /** The first `n` detected keywords. */
  function Primary(d: Detection, n: nat): (r: seq<string>)
    ensures |r| == if n < |d.keywords| then n else |d.keywords|
    ensures forall i :: 0 <= i < |r| ==> r[i] == d.keywords[i].keyword
  {
    KeywordNames(Take(d.keywords, n))
  }

  /* -------------------------------------------------------- placement */

  datatype Placement = Placement(
    title: seq<string>,
    h1: seq<string>,
    h2: seq<string>,
    url: seq<string>,
    firstParagraph: seq<string>,
    altText: seq<string>,
    score: int)

  /** The lower-cased `.string` of the first `<title>`, or "". */
  function TitleZone(soup: Node): string {
    match MetaAnalysis.TitleText(soup)
    case None => ""
    case Some(t) => Lower(t)
  }

  /** `get_text(strip=True).lower()` of an element, or "" without it. */
  function ElementZone(e: Option<Node>): string {
    match e
    case None => ""
    case Some(x) => Lower(GetText(x, "", true))
  }

  function H2Zones(soup: Node): seq<string> {
    Map(FindAllTag(soup, "h2"), (h: Node) => Lower(GetText(h, "", true)))
  }

  /** The lower-cased `content` of `<meta property="og:url">`, or "". */
  function UrlZone(soup: Node): string {
    Lower(MetaAnalysis.ContentOf(MetaAnalysis.FindMeta(soup, "property", "og:url")).GetOr(""))
  }

  /** The lower-cased `alt` of every image that has one. */
  function AltZones(soup: Node): seq<string> {
    Map(FindAll(soup, (x: Node) => HasTag(x, "img") && HasAttr(x, "alt")),
        (x: Node) => Lower(Attr(x, "alt").GetOr("")))
  }

  /** The keywords occurring in a zone. */
  function InZone(primary: seq<string>, zone: string): (r: seq<string>)
    ensures forall k :: k in r <==> k in primary && Contains(zone, k)
  {
    Filter(primary, (k: string) => Contains(zone, k))
  }

  /** The keywords occurring in one of several zones. */
  function InSomeZone(primary: seq<string>, zones: seq<string>): (r: seq<string>)
    ensures forall k :: k in r <==> k in primary && exists z :: z in zones && Contains(z, k)
  {
    Filter(primary, (k: string) => exists z :: z in zones && Contains(z, k))
  }

  /** The weighted placement percentages, before rounding. */
  function Weighted(n: nat, title: nat, h1: nat, h2: nat, url: nat, p1: nat, alt: nat): (x: real)
    requires 0 < n && title <= n && h1 <= n && h2 <= n && url <= n && p1 <= n && alt <= n
    ensures 0.0 <= x <= 100.0
  {
    Percent(title, n) * 0.3 + Percent(h1, n) * 0.2 + Percent(h2, n) * 0.15
    + Percent(url, n) * 0.15 + Percent(p1, n) * 0.1 + Percent(alt, n) * 0.1
  }

  /** `placement_score`: 0 without keywords, otherwise the rounded
      weighted sum of the share of keywords found in each zone. */
  function PlacementScore(n: nat, title: nat, h1: nat, h2: nat, url: nat, p1: nat, alt: nat): (r: int)
    requires title <= n && h1 <= n && h2 <= n && url <= n && p1 <= n && alt <= n
    ensures 0 <= r <= 100
    ensures n == 0 ==> r == 0
  {
    if n == 0 then 0
    else
      var x := Weighted(n, title, h1, h2, url, p1, alt);
      RoundHalfEvenBetween(x, 0, 100);
      RoundHalfEven(x)
  }

  /** A zone missing one of at most five keywords has at most 80 percent. */
  lemma ShareBelow(c: nat, n: nat)
    requires c < n <= 5
    ensures Percent(c, n) <= 80.0
  {
    DivCompare(c as real, n as real, 0.8);
  }

  /** A zone holding one of at most five keywords has at least 20 percent. */
  lemma ShareAbove(c: nat, n: nat)
    requires 0 < c <= n <= 5
    ensures Percent(c, n) >= 20.0
  {
    DivCompare(c as real, n as real, 0.2);
  }

  /** With at most five keywords, the score is 100 exactly when every zone
      holds every keyword. */
  lemma PlacementFull(n: nat, title: nat, h1: nat, h2: nat, url: nat, p1: nat, alt: nat)
    requires 0 < n <= 5
    requires title <= n && h1 <= n && h2 <= n && url <= n && p1 <= n && alt <= n
    ensures PlacementScore(n, title, h1, h2, url, p1, alt) == 100
      <==> title == n && h1 == n && h2 == n && url == n && p1 == n && alt == n
  {
    var x := Weighted(n, title, h1, h2, url, p1, alt);
    if title == n && h1 == n && h2 == n && url == n && p1 == n && alt == n {
      assert x == 100.0;
      RoundHalfEvenUnique(100.0, 100);
    } else {
      if title < n { ShareBelow(title, n); }
      if h1 < n { ShareBelow(h1, n); }
      if h2 < n { ShareBelow(h2, n); }
      if url < n { ShareBelow(url, n); }
      if p1 < n { ShareBelow(p1, n); }
      if alt < n { ShareBelow(alt, n); }
      assert x <= 98.0;
      RoundHalfEvenBetween(x, 0, 98);
    }
  }

  /** With at least one keyword (and at most five), the score is 0 exactly
      when no zone holds any keyword. */
  lemma PlacementEmpty(n: nat, title: nat, h1: nat, h2: nat, url: nat, p1: nat, alt: nat)
    requires 0 < n <= 5
    requires title <= n && h1 <= n && h2 <= n && url <= n && p1 <= n && alt <= n
    ensures PlacementScore(n, title, h1, h2, url, p1, alt) == 0
      <==> title == 0 && h1 == 0 && h2 == 0 && url == 0 && p1 == 0 && alt == 0
  {
    var x := Weighted(n, title, h1, h2, url, p1, alt);
    if title == 0 && h1 == 0 && h2 == 0 && url == 0 && p1 == 0 && alt == 0 {
      assert x == 0.0;
      RoundHalfEvenUnique(0.0, 0);
    } else {
      if title > 0 { ShareAbove(title, n); }
      if h1 > 0 { ShareAbove(h1, n); }
      if h2 > 0 { ShareAbove(h2, n); }
      if url > 0 { ShareAbove(url, n); }
      if p1 > 0 { ShareAbove(p1, n); }
      if alt > 0 { ShareAbove(alt, n); }
      assert x >= 2.0;
      RoundHalfEvenUnique(2.0, 2);
      RoundHalfEvenMonotone(2.0, x);
    }
  }

  /** `_analyze_keyword_placement` on the reduced page. */
  function AnalyzePlacement(soup: Node, d: Detection): (r: Placement)
    ensures var primary := Primary(d, 5);
      && (forall k :: k in r.title <==> k in primary && Contains(TitleZone(soup), k))
      && (forall k :: k in r.h1 <==> k in primary && Contains(ElementZone(FindTag(soup, "h1")), k))
      && (forall k :: k in r.h2 <==> k in primary && exists z :: z in H2Zones(soup) && Contains(z, k))
      && (forall k :: k in r.url <==> k in primary && Contains(UrlZone(soup), k))
      && (forall k :: k in r.firstParagraph <==> k in primary && Contains(ElementZone(FindTag(soup, "p")), k))
      && (forall k :: k in r.altText <==> k in primary && exists z :: z in AltZones(soup) && Contains(z, k))
    ensures 0 <= r.score <= 100
    ensures d.keywords == [] ==> r.score == 0
  {
    var primary := Primary(d, 5);
    var title := InZone(primary, TitleZone(soup));
    var h1 := InZone(primary, ElementZone(FindTag(soup, "h1")));
    var h2 := InSomeZone(primary, H2Zones(soup));
    var url := InZone(primary, UrlZone(soup));
    var p1 := InZone(primary, ElementZone(FindTag(soup, "p")));
    var alt := InSomeZone(primary, AltZones(soup));
    var score := PlacementScore(|primary|, |title|, |h1|, |h2|, |url|, |p1|, |alt|);
    Placement(title, h1, h2, url, p1, alt, score)
  }

  /** The placement score is 100 exactly when every top keyword occurs in
      the title, the first H1, some H2, the og:url, the first paragraph and
      some image alt text (and there is at least one keyword). */
  lemma PlacementFullIff(soup: Node, d: Detection)
    ensures var r := AnalyzePlacement(soup, d);
      r.score == 100 <==> d.keywords != [] && |r.title| == |r.h1| == |r.h2| == |r.url| == |r.firstParagraph| == |r.altText| == |Primary(d, 5)|
  {
    var primary := Primary(d, 5);
    var r := AnalyzePlacement(soup, d);
    if d.keywords != [] {
      PlacementFull(|primary|, |r.title|, |r.h1|, |r.h2|, |r.url|, |r.firstParagraph|, |r.altText|);
    }
  }

  /** A zone's list is full exactly when every top keyword occurs in it. */
  lemma ZoneFull(primary: seq<string>, zone: string)
    ensures |InZone(primary, zone)| == |primary| <==> forall i :: 0 <= i < |primary| ==> Contains(zone, primary[i])
  {
    FilterKeepsAll(primary, (k: string) => Contains(zone, k));
  }

  /** With keywords, the placement score is 0 exactly when no zone holds
      any of them. */
  lemma PlacementEmptyIff(soup: Node, d: Detection)
    requires d.keywords != []
    ensures var r := AnalyzePlacement(soup, d);
      r.score == 0 <==> r.title == r.h1 == r.h2 == r.url == r.firstParagraph == r.altText == []
  {
    var primary := Primary(d, 5);
    var r := AnalyzePlacement(soup, d);
    PlacementEmpty(|primary|, |r.title|, |r.h1|, |r.h2|, |r.url|, |r.firstParagraph|, |r.altText|);
  }

  /* ----------------------------------------------------- distribution */

  /** `text[i:i+size]` for `i` in `range(0, len(text), size)`. */
  function Chunks(text: string, size: nat): (r: seq<string>)
    requires size > 0
    ensures Flatten(r) == text
    ensures forall i :: 0 <= i < |r| ==> 0 < |r[i]| <= size
    ensures forall i :: 0 <= i < |r| - 1 ==> |r[i]| == size
    ensures r == [] <==> text == []
    decreases |text|
  {
    if text == [] then []
    else if |text| <= size then
      assert Flatten([text]) == text + Flatten([text][1..]);
      [text]
    else
      var rest := Chunks(text[size..], size);
      var r := [text[..size]] + rest;
      assert r[1..] == rest;
      assert text == text[..size] + text[size..];
      r
  }

  /** The sections counted in: the pieces of `text.split('. ')`, or with
      fewer than three of them, three-ish equal chunks of the text. */
  function Sections(text: string): (r: seq<string>)
    ensures r == [] <==> text == []
    ensures |SplitOn(text, ". ")| >= 3 ==> r == SplitOn(text, ". ")
    ensures |SplitOn(text, ". ")| < 3 ==> r == Chunks(text, MaxNat(1, |text| / 3))
  {
    var parts := SplitOn(text, ". ");
    if |parts| < 3 then Chunks(text, MaxNat(1, |text| / 3)) else parts
  }

  /** Either way the sections put back together are the text. */
  lemma SectionsCoverText(text: string)
    ensures var parts := SplitOn(text, ". ");
      if |parts| >= 3 then Join(Sections(text), ". ") == text else Flatten(Sections(text)) == text
  {
    JoinSplitOn(text, ". ");
  }

  /** Whole-word occurrences of a keyword in a section: a keyword is made
      of word characters, so `\bkeyword\b` matches exactly the word tokens
      equal to it. */
  function Occurrences(section: string, keyword: string): nat {
    Count(WordTokens(Lower(section)), keyword)
  }

  datatype Spread = Spread(keyword: string, counts: seq<nat>, total: nat, isWellDistributed: bool)

  function SectionCounts(sections: seq<string>, keyword: string): (r: seq<nat>)
    ensures |r| == |sections| && forall i :: 0 <= i < |r| ==> r[i] == Occurrences(sections[i], keyword)
  {
    Map(sections, (s: string) => Occurrences(s, keyword))
  }

  /** The counts of pieces put back together with `". "` add up to the
      count in the joined text: the separator holds no word character, so
      no word runs across it. */
  lemma {:induction false} SectionCountsJoin(parts: seq<string>, keyword: string)
    requires parts != []
    ensures Sum(SectionCounts(parts, keyword)) == Occurrences(Join(parts, ". "), keyword)
    decreases |parts|
  {
    var counts := SectionCounts(parts, keyword);
    if |parts| == 1 {
      assert counts[1..] == [];
    } else {
      SectionCountsJoin(parts[1..], keyword);
      var rest := Join(parts[1..], ". ");
      assert Join(parts, ". ") == parts[0] + ". " + rest;
      LowerAppend(parts[0] + ". ", rest);
      LowerAppend(parts[0], ". ");
      assert Lower(". ") == ". ";
      RunsSeparated(Lower(parts[0]), ". ", Lower(rest), IsWordChar);
      assert counts[1..] == SectionCounts(parts[1..], keyword);
    }
  }

  /** When the text splits into at least three sentences, the per-section
      counts add up to the whole-text count of the keyword. */
  lemma SectionCountsTotal(text: string, keyword: string)
    requires |SplitOn(text, ". ")| >= 3
    ensures Sum(SectionCounts(Sections(text), keyword)) == Occurrences(text, keyword)
  {
    JoinSplitOn(text, ". ");
    SectionCountsJoin(SplitOn(text, ". "), keyword);
  }

  /** One keyword's counts per section; `max` of no counts raises. */
  function KeywordSpread(sections: seq<string>, keyword: string): (r: Result<Spread, Fault>)
    ensures r.Failure? <==> sections == []
    ensures r.Success? ==> var s := r.value;
      && s.keyword == keyword && s.counts == SectionCounts(sections, keyword)
      && s.total == Sum(s.counts)
      && (s.total > 0 <==> exists i :: 0 <= i < |sections| && Occurrences(sections[i], keyword) > 0)
      && (s.isWellDistributed <==> (forall i :: 0 <= i < |sections| ==> Occurrences(sections[i], keyword) <= 2) && s.total >= 2)
  {
    var counts := SectionCounts(sections, keyword);
    if counts == [] then Failure(EmptyMaxArgument)
    else
      MaxOfBound(counts, 2);
      SumPositive(counts);
      Success(Spread(keyword, counts, Sum(counts), MaxOf(counts) <= 2 && Sum(counts) >= 2))
  }

  /** The spread of every keyword, in list order. */
  function Spreads(sections: seq<string>, keywords: seq<string>): (r: Result<seq<Spread>, Fault>)
    ensures r.Failure? <==> keywords != [] && sections == []
    ensures r.Success? ==> (|r.value| == |keywords|
      && forall i :: 0 <= i < |keywords| ==> Success(r.value[i]) == KeywordSpread(sections, keywords[i]))
  {
    if keywords == [] then Success([])
    else if sections == [] then Failure(EmptyMaxArgument)
    else
      var first := KeywordSpread(sections, keywords[0]).value;
      var rest := Spreads(sections, keywords[1..]).value;
      Success([first] + rest)
  }

  datatype DensityInfo = DensityInfo(
    totalKeywords: nat,
    distribution: seq<Spread>,
    potentialStuffing: seq<string>,
    hasKeywordStuffing: bool)

  /** The detected keywords denser than five percent, in list order. */
  function Stuffed(d: Detection): (r: seq<string>)
    ensures forall w :: w in r <==> exists i :: 0 <= i < |d.keywords| && d.keywords[i].density > 5.0 && d.keywords[i].keyword == w
    ensures r == [] <==> forall i :: 0 <= i < |d.keywords| ==> d.keywords[i].density <= 5.0
  {
    var dense := Filter(d.keywords, (k: Keyword) => k.density > 5.0);
    FilterKeepsNone(d.keywords, (k: Keyword) => k.density > 5.0);
    NamesOfDense(d.keywords, dense);
    KeywordNames(dense)
  }

  /** The names of the dense keywords are the names of the keywords that
      are dense. */
  lemma NamesOfDense(ks: seq<Keyword>, dense: seq<Keyword>)
    requires dense == Filter(ks, (k: Keyword) => k.density > 5.0)
    ensures forall w :: w in KeywordNames(dense) <==> exists i :: 0 <= i < |ks| && ks[i].density > 5.0 && ks[i].keyword == w
  {
    var r := KeywordNames(dense);
    forall w | w in r
      ensures exists i :: 0 <= i < |ks| && ks[i].density > 5.0 && ks[i].keyword == w
    {
      var j :| 0 <= j < |r| && r[j] == w;
      assert dense[j] in ks;
    }
    forall i | 0 <= i < |ks| && ks[i].density > 5.0
      ensures ks[i].keyword in r
    {
      assert ks[i] in dense;
      var j :| 0 <= j < |dense| && dense[j] == ks[i];
      assert r[j] == ks[i].keyword;
    }
  }

  /** `_analyze_keyword_density`. */
  function AnalyzeDensity(text: string, d: Detection): (r: Result<DensityInfo, Fault>)
    ensures r.Failure? <==> d.keywords != [] && text == []
    ensures r.Success? ==>
      && r.value.totalKeywords == |d.keywords| == |r.value.distribution|
      && r.value.potentialStuffing == Stuffed(d)
      && (r.value.hasKeywordStuffing <==> exists i :: 0 <= i < |d.keywords| && d.keywords[i].density > 5.0)
      && Spreads(Sections(text), KeywordNames(d.keywords)) == Success(r.value.distribution)
  {
    var names := KeywordNames(d.keywords);
    match Spreads(Sections(text), names)
    case Failure(e) => Failure(e)
    case Success(spreads) =>
      var stuffed := Stuffed(d);
      Success(DensityInfo(|spreads|, spreads, stuffed, stuffed != []))
  }

  /** Detected keywords come from the text, so the distribution of the
      text's own keywords never takes `max` of nothing. */
  lemma DensityOfOwnText(text: string)
    ensures AnalyzeDensity(text, Detect(text)).Success?
  {
    if text == [] {
      assert Lower(text) == [];
      assert CountedWords(text) == [];
      assert Distinct([]) == [];
      assert MostCommonKeys([], 10) == [];
    }
  }

  /* -------------------------------------------------- related terms */

  /** The words at most three places before or after position `i`. */
  function Window(words: seq<string>, i: nat): (r: seq<string>)
    requires i < |words|
    ensures |r| <= 7 && words[i] in r
    ensures forall j :: 0 <= j < |words| && i - 3 <= j <= i + 3 ==> words[j] in r
    ensures forall w :: w in r ==> exists j :: 0 <= j < |words| && i - 3 <= j <= i + 3 && words[j] == w
  {
    var start := if i >= 3 then i - 3 else 0;
    var end := if i + 4 <= |words| then i + 4 else |words|;
    assert words[start..end][i - start] == words[i];
    words[start..end]
  }

  /** `t` is the lower-cased form of a word longer than three characters,
      other than the keyword, at most three places from position `i`. */
  predicate NearAt(words: seq<string>, keyword: string, i: int, t: string) {
    exists j :: 0 <= j < |words| && i - 3 <= j <= i + 3 && |words[j]| > 3 && Lower(words[j]) != keyword && t == Lower(words[j])
  }

  /** `t` is near some occurrence of the keyword. */
  predicate NearTerm(words: seq<string>, keyword: string, t: string) {
    exists i :: 0 <= i < |words| && Lower(words[i]) == keyword && NearAt(words, keyword, i, t)
  }

  /** The related-term candidates the window around one position adds. */
  function WindowTerms(words: seq<string>, keyword: string, i: nat): (r: seq<string>)
    requires i < |words|
    ensures forall t :: t in r ==> |t| > 3 && t != keyword
    ensures forall t :: t in r <==> Lower(words[i]) == keyword && NearAt(words, keyword, i, t)
  {
    if Lower(words[i]) == keyword then
      var kept := Filter(Window(words, i), (w: string) => |w| > 3 && Lower(w) != keyword);
      LoweredTerms(kept, keyword);
      WindowTermsNear(words, keyword, i, kept);
      Map(kept, Lower)
    else []
  }

  lemma WindowTermsNear(words: seq<string>, keyword: string, i: nat, kept: seq<string>)
    requires i < |words|
    requires kept == Filter(Window(words, i), (w: string) => |w| > 3 && Lower(w) != keyword)
    ensures forall t :: t in Map(kept, Lower) <==> NearAt(words, keyword, i, t)
  {
    forall t | t in Map(kept, Lower)
      ensures NearAt(words, keyword, i, t)
    {
      var k :| 0 <= k < |kept| && Map(kept, Lower)[k] == t;
      assert kept[k] in Window(words, i);
      var j :| 0 <= j < |words| && i - 3 <= j <= i + 3 && words[j] == kept[k];
    }
    forall t | NearAt(words, keyword, i, t)
      ensures t in Map(kept, Lower)
    {
      var j :| 0 <= j < |words| && i - 3 <= j <= i + 3 && |words[j]| > 3 && Lower(words[j]) != keyword && t == Lower(words[j]);
      assert words[j] in Window(words, i);
      assert words[j] in kept;
      MapMember(kept, Lower, t);
    }
  }

  /** Lower-casing words that are long and differ from the keyword once
      lower-cased gives long terms other than the keyword. */
  lemma LoweredTerms(ws: seq<string>, keyword: string)
    requires forall w :: w in ws ==> |w| > 3 && Lower(w) != keyword
    ensures forall t :: t in Map(ws, Lower) ==> |t| > 3 && t != keyword
  {
    forall t | t in Map(ws, Lower)
      ensures |t| > 3 && t != keyword
    {
      var i :| 0 <= i < |ws| && Map(ws, Lower)[i] == t;
      assert ws[i] in ws;
    }
  }

  /** The candidates from every position from `i` on. */
  function TermsFrom(words: seq<string>, keyword: string, i: nat): (r: seq<string>)
    requires i <= |words|
    ensures forall t :: t in r ==> |t| > 3 && t != keyword
    ensures forall t :: t in r <==> NearFrom(words, keyword, i, t)
    decreases |words| - i
  {
    if i == |words| then []
    else
      var rest := TermsFrom(words, keyword, i + 1);
      var here := WindowTerms(words, keyword, i);
      NearFromStep(words, keyword, i);
      here + rest
  }

  /** `t` is near an occurrence of the keyword at position `i` or later. */
  predicate NearFrom(words: seq<string>, keyword: string, i: nat, t: string) {
    exists k :: i <= k < |words| && Lower(words[k]) == keyword && NearAt(words, keyword, k, t)
  }

  lemma NearFromStep(words: seq<string>, keyword: string, i: nat)
    requires i < |words|
    ensures forall t :: NearFrom(words, keyword, i, t) <==>
      (Lower(words[i]) == keyword && NearAt(words, keyword, i, t)) || NearFrom(words, keyword, i + 1, t)
  {
    forall t | NearFrom(words, keyword, i, t)
      ensures (Lower(words[i]) == keyword && NearAt(words, keyword, i, t)) || NearFrom(words, keyword, i + 1, t)
    {
      var k :| i <= k < |words| && Lower(words[k]) == keyword && NearAt(words, keyword, k, t);
      if k > i {
        assert NearFrom(words, keyword, i + 1, t);
      }
    }
    forall t | NearFrom(words, keyword, i + 1, t)
      ensures NearFrom(words, keyword, i, t)
    {
      var k :| i + 1 <= k < |words| && Lower(words[k]) == keyword && NearAt(words, keyword, k, t);
    }
    forall t | Lower(words[i]) == keyword && NearAt(words, keyword, i, t)
      ensures NearFrom(words, keyword, i, t)
    {
      assert i <= i < |words|;
    }
  }

  /** The candidates from every paragraph text: exactly the words near an
      occurrence of the keyword in some paragraph. */
  function ContextWords(paragraphs: seq<string>, keyword: string): (r: seq<string>)
    ensures forall t :: t in r ==> |t| > 3 && t != keyword
    ensures forall t :: t in r <==> NearInSome(paragraphs, keyword, t)
  {
    if paragraphs == [] then []
    else
      var rest := ContextWords(paragraphs[1..], keyword);
      NearInSomeStep(paragraphs, keyword);
      TermsFrom(WordTokens(paragraphs[0]), keyword, 0) + rest
  }

  /** `t` is near an occurrence of the keyword in one of the paragraphs. */
  predicate NearInSome(paragraphs: seq<string>, keyword: string, t: string) {
    exists p :: 0 <= p < |paragraphs| && NearTerm(WordTokens(paragraphs[p]), keyword, t)
  }

  lemma NearInSomeStep(paragraphs: seq<string>, keyword: string)
    requires paragraphs != []
    ensures forall t :: NearInSome(paragraphs, keyword, t) <==>
      NearFrom(WordTokens(paragraphs[0]), keyword, 0, t) || NearInSome(paragraphs[1..], keyword, t)
  {
    forall t | NearInSome(paragraphs, keyword, t)
      ensures NearFrom(WordTokens(paragraphs[0]), keyword, 0, t) || NearInSome(paragraphs[1..], keyword, t)
    {
      var p :| 0 <= p < |paragraphs| && NearTerm(WordTokens(paragraphs[p]), keyword, t);
      if p == 0 {
        var words := WordTokens(paragraphs[0]);
        var i :| 0 <= i < |words| && Lower(words[i]) == keyword && NearAt(words, keyword, i, t);
        assert NearFrom(words, keyword, 0, t);
      } else {
        assert paragraphs[1..][p - 1] == paragraphs[p];
      }
    }
    forall t | NearFrom(WordTokens(paragraphs[0]), keyword, 0, t)
      ensures NearInSome(paragraphs, keyword, t)
    {
      var words := WordTokens(paragraphs[0]);
      var i :| 0 <= i < |words| && Lower(words[i]) == keyword && NearAt(words, keyword, i, t);
      assert NearTerm(words, keyword, t);
    }
    forall t | NearInSome(paragraphs[1..], keyword, t)
      ensures NearInSome(paragraphs, keyword, t)
    {
      var p :| 0 <= p < |paragraphs[1..]| && NearTerm(WordTokens(paragraphs[1..][p]), keyword, t);
      assert paragraphs[1..][p] == paragraphs[p + 1];
    }
  }

  /** The lower-cased texts of the paragraphs mentioning the keyword. */
  function Mentioning(soup: Node, keyword: string): seq<string> {
    Filter(Map(FindAllTag(soup, "p"), (p: Node) => Lower(GetText(p, "", true))),
           (t: string) => Contains(t, keyword))
  }

  /** `list(set(ctx))[:5]`: at most five distinct candidates. Python
      lists a set in hash order; here it is first-occurrence order. */
  function FirstFive(ctx: seq<string>): (r: seq<string>)
    ensures |r| <= 5 && NoDuplicates(r)
    ensures forall t :: t in r ==> t in ctx
    ensures r == [] <==> ctx == []
    ensures |Distinct(ctx)| <= 5 ==> forall t :: t in ctx ==> t in r
    ensures |r| == if |Distinct(ctx)| < 5 then |Distinct(ctx)| else 5
  {
    var d := Distinct(ctx);
    var r := Take(d, 5);
    assert forall i :: 0 <= i < |r| ==> r[i] == d[i];
    assert ctx != [] ==> ctx[0] in d;
    r
  }

  /** The related terms of one keyword: at most five distinct words longer
      than three characters, other than the keyword, each taken from the
      neighbourhood of the keyword in a paragraph mentioning it. */
  function RelatedTerms(soup: Node, keyword: string): (r: seq<string>)
    ensures |r| <= 5 && NoDuplicates(r)
    ensures forall t :: t in r ==> |t| > 3 && t != keyword && t in ContextWords(Mentioning(soup, keyword), keyword)
    ensures var ctx := ContextWords(Mentioning(soup, keyword), keyword);
      && |r| == (if |Distinct(ctx)| < 5 then |Distinct(ctx)| else 5)
      && (r == [] <==> ctx == [])
      && (|Distinct(ctx)| <= 5 ==> forall t :: t in ctx ==> t in r)
  {
    FirstFive(ContextWords(Mentioning(soup, keyword), keyword))
  }

  /** `_analyze_semantic_relevance`: the related terms of each of the top
      three keywords. */
  function Semantic(soup: Node, d: Detection): (r: seq<(string, seq<string>)>)
    ensures |r| == if 3 < |d.keywords| then 3 else |d.keywords|
    ensures forall i :: 0 <= i < |r| ==> r[i].0 == d.keywords[i].keyword && r[i].1 == RelatedTerms(soup, r[i].0)
  {
    Map(Primary(d, 3), (k: string) => (k, RelatedTerms(soup, k)))
  }

  /* ----------------------------------------------------------- issues */

  /** Some meta keyword is one of the top five detected keywords. */
  predicate MetaMatches(meta: MetaKeywords, d: Detection) {
    exists k :: k in meta.keywords && k in Primary(d, 5)
  }

  /** The top two keywords are both denser than half a percent and one
      contains the other. */
  predicate Cannibalized(d: Detection) {
    |d.keywords| >= 2
    && d.keywords[0].density > 0.5 && d.keywords[1].density > 0.5
    && (Contains(d.keywords[1].keyword, d.keywords[0].keyword) || Contains(d.keywords[0].keyword, d.keywords[1].keyword))
  }

  function When(b: bool, m: Msg): seq<Msg> {
    if b then [m] else []
  }

  /** The meta, title and H1 issues, in the analyzer's order. */
  function PlacementIssues(mismatch: bool, noTitle: bool, noH1: bool): (r: seq<Msg>)
    ensures |r| <= 3
    ensures MetaKeywordsMismatch in r <==> mismatch
    ensures NoKeywordsInTitle in r <==> noTitle
    ensures NoKeywordsInH1 in r <==> noH1
    ensures KeywordCannibalization !in r
    ensures forall i :: 0 <= i < |r| ==> !r[i].KeywordStuffing?
  {
    When(mismatch, MetaKeywordsMismatch) + When(noTitle, NoKeywordsInTitle) + When(noH1, NoKeywordsInH1)
  }

  /** The stuffing and cannibalisation issues, in the analyzer's order. */
  function OveruseIssues(stuffing: bool, potential: seq<string>, cannibalized: bool): (r: seq<Msg>)
    ensures |r| <= 2
    ensures KeywordStuffing(potential) in r <==> stuffing
    ensures (exists i :: 0 <= i < |r| && r[i].KeywordStuffing?) <==> stuffing
    ensures KeywordCannibalization in r <==> cannibalized
    ensures MetaKeywordsMismatch !in r && NoKeywordsInTitle !in r && NoKeywordsInH1 !in r
  {
    When(stuffing, KeywordStuffing(potential)) + When(cannibalized, KeywordCannibalization)
  }

  /** `_check_keyword_issues`. */
  function Issues(meta: MetaKeywords, d: Detection, placement: Placement, density: DensityInfo): (r: seq<Msg>)
    ensures |r| <= 5
    ensures MetaKeywordsMismatch in r <==> meta.hasMetaKeywords && !MetaMatches(meta, d)
    ensures NoKeywordsInTitle in r <==> placement.title == []
    ensures NoKeywordsInH1 in r <==> placement.h1 == []
    ensures KeywordStuffing(density.potentialStuffing) in r <==> density.hasKeywordStuffing
    ensures (exists i :: 0 <= i < |r| && r[i].KeywordStuffing?) <==> density.hasKeywordStuffing
    ensures KeywordCannibalization in r <==> Cannibalized(d)
  {
    IssuesOf(meta.hasMetaKeywords && !MetaMatches(meta, d), placement.title == [], placement.h1 == [],
      density.hasKeywordStuffing, density.potentialStuffing, Cannibalized(d))
  }

  /** The issue list for given answers to each check. */
  function IssuesOf(mismatch: bool, noTitle: bool, noH1: bool, stuffing: bool, potential: seq<string>, cannibalized: bool): (r: seq<Msg>)
    ensures |r| <= 5
    ensures MetaKeywordsMismatch in r <==> mismatch
    ensures NoKeywordsInTitle in r <==> noTitle
    ensures NoKeywordsInH1 in r <==> noH1
    ensures KeywordStuffing(potential) in r <==> stuffing
    ensures (exists i :: 0 <= i < |r| && r[i].KeywordStuffing?) <==> stuffing
    ensures KeywordCannibalization in r <==> cannibalized
  {
    var first := PlacementIssues(mismatch, noTitle, noH1);
    var last := OveruseIssues(stuffing, potential, cannibalized);
    StuffingInConcat(first, last);
    first + last
  }

  lemma StuffingInConcat(first: seq<Msg>, last: seq<Msg>)
    requires forall i :: 0 <= i < |first| ==> !first[i].KeywordStuffing?
    ensures (exists i :: 0 <= i < |first + last| && (first + last)[i].KeywordStuffing?)
      <==> (exists i :: 0 <= i < |last| && last[i].KeywordStuffing?)
  {
    if exists i :: 0 <= i < |first + last| && (first + last)[i].KeywordStuffing? {
      var i :| 0 <= i < |first + last| && (first + last)[i].KeywordStuffing?;
      assert i >= |first|;
      assert last[i - |first|] == (first + last)[i];
    }
    if exists i :: 0 <= i < |last| && last[i].KeywordStuffing? {
      var i :| 0 <= i < |last| && last[i].KeywordStuffing?;
      assert (first + last)[|first| + i] == last[i];
    }
  }

  /* -------------------------------------------------- recommendations */

  /** The recommendation the branch chain attaches to one issue: each issue
      text carries the phrase of exactly its own branch. */
  function AdviceFor(issue: Msg): seq<Msg> {
    match issue
    case MetaKeywordsMismatch => [UpdateMetaKeywords]
    case NoKeywordsInTitle => [AddKeywordsToTitle]
    case NoKeywordsInH1 => [AddKeywordsToH1]
    case KeywordStuffing(_) => [ReduceKeywordDensity]
    case KeywordCannibalization => [ChooseMainKeyword]
    case _ => []
  }

  /** The issue-driven recommendations, one per issue, in issue order. */
  function IssueAdvice(issues: seq<Msg>): (r: seq<Msg>)
    ensures |r| <= |issues|
    ensures forall m :: m in r <==> exists i :: 0 <= i < |issues| && m in AdviceFor(issues[i])
  {
    if issues == [] then []
    else
      var rest := IssueAdvice(issues[1..]);
      assert forall i :: 1 <= i < |issues| ==> issues[i] == issues[1..][i - 1];
      AdviceFor(issues[0]) + rest
  }

  /** Which issue each piece of advice answers. */
  lemma AdviceAnswers(issue: Msg)
    ensures UpdateMetaKeywords in AdviceFor(issue) <==> issue == MetaKeywordsMismatch
    ensures AddKeywordsToTitle in AdviceFor(issue) <==> issue == NoKeywordsInTitle
    ensures AddKeywordsToH1 in AdviceFor(issue) <==> issue == NoKeywordsInH1
    ensures ReduceKeywordDensity in AdviceFor(issue) <==> issue.KeywordStuffing?
    ensures ChooseMainKeyword in AdviceFor(issue) <==> issue == KeywordCannibalization
    ensures ImprovePlacement !in AdviceFor(issue) && AddRelevantContent !in AdviceFor(issue)
    ensures AddKeywordsMetaTag !in AdviceFor(issue) && AddKeywordsToAlt !in AdviceFor(issue)
  {
  }

  /** The issue advice holds one recommendation per kind of issue found, and
      none of the page-wide ones. */
  lemma IssueAdviceAnswers(issues: seq<Msg>)
    ensures UpdateMetaKeywords in IssueAdvice(issues) <==> MetaKeywordsMismatch in issues
    ensures AddKeywordsToTitle in IssueAdvice(issues) <==> NoKeywordsInTitle in issues
    ensures AddKeywordsToH1 in IssueAdvice(issues) <==> NoKeywordsInH1 in issues
    ensures ReduceKeywordDensity in IssueAdvice(issues) <==> exists i :: 0 <= i < |issues| && issues[i].KeywordStuffing?
    ensures ChooseMainKeyword in IssueAdvice(issues) <==> KeywordCannibalization in issues
    ensures ImprovePlacement !in IssueAdvice(issues) && AddRelevantContent !in IssueAdvice(issues)
    ensures AddKeywordsMetaTag !in IssueAdvice(issues) && AddKeywordsToAlt !in IssueAdvice(issues)
  {
    forall i | 0 <= i < |issues| {
      AdviceAnswers(issues[i]);
    }
  }

  /** The page-wide advice, in the analyzer's order. */
  function PageAdvice(weakPlacement: bool, shortText: bool, noMeta: bool, noAlt: bool): (r: seq<Msg>)
    ensures ImprovePlacement in r <==> weakPlacement
    ensures AddRelevantContent in r <==> shortText
    ensures AddKeywordsMetaTag in r <==> noMeta
    ensures AddKeywordsToAlt in r <==> noAlt
    ensures UpdateMetaKeywords !in r && AddKeywordsToTitle !in r && AddKeywordsToH1 !in r
    ensures ReduceKeywordDensity !in r && ChooseMainKeyword !in r
    ensures |r| <= 4
  {
    var front := When(weakPlacement, ImprovePlacement) + When(shortText, AddRelevantContent);
    var back := When(noMeta, AddKeywordsMetaTag) + When(noAlt, AddKeywordsToAlt);
    assert ImprovePlacement in front <==> weakPlacement;
    assert AddRelevantContent in front <==> shortText;
    assert AddKeywordsMetaTag in back <==> noMeta;
    assert AddKeywordsToAlt in back <==> noAlt;
    assert ImprovePlacement !in back && AddRelevantContent !in back;
    assert AddKeywordsMetaTag !in front && AddKeywordsToAlt !in front;
    front + back
  }

  /** `_generate_recommendations`. */
  function KeywordRecommendations(meta: MetaKeywords, d: Detection, placement: Placement, issues: seq<Msg>): (r: seq<Msg>)
    ensures UpdateMetaKeywords in r <==> MetaKeywordsMismatch in issues
    ensures AddKeywordsToTitle in r <==> NoKeywordsInTitle in issues
    ensures AddKeywordsToH1 in r <==> NoKeywordsInH1 in issues
    ensures ReduceKeywordDensity in r <==> exists i :: 0 <= i < |issues| && issues[i].KeywordStuffing?
    ensures ChooseMainKeyword in r <==> KeywordCannibalization in issues
    ensures ImprovePlacement in r <==> placement.score < 50
    ensures AddRelevantContent in r <==> d.totalWords < 300
    ensures AddKeywordsMetaTag in r <==> !meta.hasMetaKeywords
    ensures AddKeywordsToAlt in r <==> placement.altText == []
    ensures |r| <= |issues| + 4
  {
    IssueAdviceAnswers(issues);
    IssueAdvice(issues) + PageAdvice(placement.score < 50, d.totalWords < 300, !meta.hasMetaKeywords, placement.altText == [])
  }

  /* ------------------------------------------------------------ score */

  /** `_calculate_keyword_score`: deductions from 100, clamped to [0, 100]. */
  function KeywordScore(hasMeta: bool, placementScore: int, stuffing: bool, issueCount: nat): (r: int)
    ensures 0 <= r <= 100
    ensures r == 100 <==> hasMeta && placementScore >= 70 && !stuffing && issueCount == 0
    ensures issueCount <= 5 ==> r >= 35
  {
    var placementPenalty := if placementScore < 50 then 20 else if placementScore < 70 then 10 else 0;
    var s := 100 - Points(!hasMeta, 5) - placementPenalty - Points(stuffing, 15) - 5 * issueCount;
    if s > 100 then 100 else if s < 0 then 0 else s
  }

  /* ----------------------------------------------------------- report */

  datatype KeywordReport = KeywordReport(
    metaKeywords: MetaKeywords,
    detected: Detection,
    placement: Placement,
    density: DensityInfo,
    relatedTerms: seq<(string, seq<string>)>,
    issues: seq<Msg>,
    recommendations: seq<Msg>,
    score: int)

  /** The report built from the four analyses: issues, recommendations and
      score follow from them. */
  function Assemble(meta: MetaKeywords, d: Detection, placement: Placement, density: DensityInfo,
    semantic: seq<(string, seq<string>)>): (r: KeywordReport)
    ensures r.issues == Issues(meta, d, placement, density)
    ensures r.recommendations == KeywordRecommendations(meta, d, placement, r.issues)
    ensures 35 <= r.score <= 100
    ensures r.score == 100 <==> r.issues == [] && meta.hasMetaKeywords && placement.score >= 70
  {
    var issues := Issues(meta, d, placement, density);
    var recs := KeywordRecommendations(meta, d, placement, issues);
    var score := KeywordScore(meta.hasMetaKeywords, placement.score, density.hasKeywordStuffing, |issues|);
    KeywordReport(meta, d, placement, density, semantic, issues, recs, score)
  }

  /** `KeywordOptimizationAnalyzer.analyze`. Meta keywords are read from
      the page as given; text, placement and related terms from the reduced
      page. A failure is the error record. */
  function Analyze(soup: Node): (r: Result<KeywordReport, Fault>)
    ensures r.Success? ==> 35 <= r.value.score <= 100
    ensures r.Success? ==> (r.value.score == 100 <==> r.value.issues == [] && r.value.metaKeywords.hasMetaKeywords && r.value.placement.score >= 70)
  {
    var page := Stripped(soup);
    var text := PageText(soup);
    var d := Detect(text);
    match AnalyzeDensity(text, d)
    case Failure(e) => Failure(e)
    case Success(density) =>
      Success(Assemble(ExtractMetaKeywords(soup), d, AnalyzePlacement(page, d), density, Semantic(page, d)))
  }

  /** The analyzer never returns its error record. */
  lemma AnalyzeSucceeds(soup: Node)
    ensures Analyze(soup).Success?
  {
    DensityOfOwnText(PageText(soup));
  }

  /** The report's parts: the page's own meta keywords, the keywords
      detected in the reduced page's text, their placement on the reduced
      page and the related terms of its top three. */
  lemma AnalyzeFields(soup: Node)
    ensures Analyze(soup).Success?
    ensures var r := Analyze(soup).value;
      var d := Detect(PageText(soup));
      && r.metaKeywords == ExtractMetaKeywords(soup)
      && r.detected == d
      && r.placement == AnalyzePlacement(Stripped(soup), d)
      && r.relatedTerms == Semantic(Stripped(soup), d)
      && Success(r.density) == AnalyzeDensity(PageText(soup), d)
  {
    AnalyzeSucceeds(soup);
  }
}

=== FILE: legacy.dfy ===
/** The synchronous layer of `app/services/analyzer.py`: its metadata
    analyzer, the `analyze_seo` entry point that runs the four synchronous
    analyzers and merges their recommendations, and the `legacy_analyze_seo`
    fallback it calls when anything in it raises. The synchronous content,
    technical and mobile analyzers are the `Legacy` generation of their
    modules. */
module LegacyAnalysis {
  import opened Wrappers
  import opened Seqs
  import opened Dom
  import opened Recs
  import opened Generations
  import opened MetaScoring
  import opened PageRules
  import M = MetaAnalysis
  import ContentAnalysis
  import TechnicalAnalysis
  import MobileAnalysis

  /* ---------------------------------------------------- metadata analyzer */

  datatype LegacyMetaReport = LegacyMetaReport(
    title: M.TitleInfo,
    description: M.DescriptionInfo,
    keywords: M.KeywordsInfo,
    openGraph: M.SocialInfo,
    twitterCards: M.SocialInfo,
    author: Option<string>,
    metaScore: nat,
    recommendations: seq<Msg>)

  /** The report assembled from the five field analyses: the field issues
      in order, then the Open Graph and Twitter Cards suggestions (favicon
      and language are not checked here); the subtractive score. */
  function MetaReportOf(title: M.TitleInfo, description: M.DescriptionInfo, keywords: M.KeywordsInfo,
                        og: M.SocialInfo, twitter: M.SocialInfo, author: Option<string>): (r: LegacyMetaReport)
    requires forall m :: m in title.issues + description.issues + keywords.issues ==> IsFieldIssue(m)
    requires |title.issues| <= 1 && |description.issues| <= 1
    ensures r.title == title && r.description == description && r.keywords == keywords
    ensures r.openGraph == og && r.twitterCards == twitter && r.author == author
    ensures 40 <= r.metaScore <= 100
    ensures r.metaScore == 100 <==> title.issues == [] && description.issues == [] && og.hasTags
    ensures var issues := title.issues + description.issues + keywords.issues;
      |r.recommendations| >= |issues| && r.recommendations[..|issues|] == issues
    ensures AddOpenGraph in r.recommendations <==> !og.hasTags
    ensures AddTwitterCards in r.recommendations <==> !twitter.hasTags
    ensures AddFavicon !in r.recommendations && AddLangAttribute !in r.recommendations
  {
    LegacyMetaReport(title, description, keywords, og, twitter, author,
      LegacyMetaScore(|title.issues|, |description.issues|, og.hasTags),
      Recommendations(title.issues + description.issues + keywords.issues, og.hasTags, twitter.hasTags, true, true))
  }

  /** The synchronous title, description and keywords judgements raise only
      field issues, at most one each for title and description. */
  lemma LegacyFieldIssues(titleText: Option<string>, descriptionText: Option<string>, keywordsText: Option<string>)
    ensures var title := M.TitleReport(titleText, Legacy);
      var description := M.DescriptionReport(descriptionText, Legacy);
      var keywords := M.KeywordsReport(keywordsText, Legacy);
      && (forall m :: m in title.issues + description.issues + keywords.issues ==> IsFieldIssue(m))
      && |title.issues| <= 1 && |description.issues| <= 1
  {
    var title := M.TitleReport(titleText, Legacy);
    var description := M.DescriptionReport(descriptionText, Legacy);
    var keywords := M.KeywordsReport(keywordsText, Legacy);
    assert forall m :: m in title.issues ==> IsFieldIssue(m);
    assert forall m :: m in description.issues ==> IsFieldIssue(m);
    assert forall m :: m in keywords.issues ==> IsFieldIssue(m);
  }

  /** The score lies in `[40, 100]` and is 100 exactly when title and
      description have no issue and Open Graph tags exist; the
      recommendations begin with the field issues in order and suggest
      Open Graph and Twitter Cards tags exactly when they are absent, never
      a favicon or a language attribute. */
  predicate ScoredAndAdvised(r: LegacyMetaReport) {
    && 40 <= r.metaScore <= 100
    && (r.metaScore == 100 <==> r.title.issues == [] && r.description.issues == [] && r.openGraph.hasTags)
    && (var issues := r.title.issues + r.description.issues + r.keywords.issues;
        |r.recommendations| >= |issues| && r.recommendations[..|issues|] == issues)
    && (AddOpenGraph in r.recommendations <==> !r.openGraph.hasTags)
    && (AddTwitterCards in r.recommendations <==> !r.twitterCards.hasTags)
    && AddFavicon !in r.recommendations && AddLangAttribute !in r.recommendations
  }

  /** The synchronous `MetaAnalyzer.analyze` on a page. */
  function MetaAnalyze(soup: Node): (r: LegacyMetaReport)
    ensures r.title == M.AnalyzeTitle(soup, Legacy) && r.description == M.AnalyzeDescription(soup, Legacy)
    ensures r.openGraph == M.AnalyzeOpenGraph(soup, Legacy) && r.twitterCards == M.AnalyzeTwitterCards(soup, Legacy)
    ensures ScoredAndAdvised(r)
  {
    MetaFromTexts(M.TitleText(soup), M.DescriptionText(soup), M.ContentOf(M.FindMeta(soup, "name", "keywords")),
      M.AnalyzeOpenGraph(soup, Legacy), M.AnalyzeTwitterCards(soup, Legacy),
      M.ContentOf(M.FindMeta(soup, "name", "author")))
  }

  /** The synchronous report from the page's title, description and
      keywords texts and its two social analyses. */
  function MetaFromTexts(titleText: Option<string>, descriptionText: Option<string>, keywordsText: Option<string>,
                         og: M.SocialInfo, twitter: M.SocialInfo, author: Option<string>): (r: LegacyMetaReport)
    ensures r.title == M.TitleReport(titleText, Legacy) && r.description == M.DescriptionReport(descriptionText, Legacy)
    ensures r.openGraph == og && r.twitterCards == twitter
    ensures ScoredAndAdvised(r)
  {
    LegacyFieldIssues(titleText, descriptionText, keywordsText);
    MetaReportOf(M.TitleReport(titleText, Legacy), M.DescriptionReport(descriptionText, Legacy),
      M.KeywordsReport(keywordsText, Legacy), og, twitter, author)
  }

  /* ----------------------------------------------------------- analyze_seo */

  /** The four synchronous reports; the technical one may be its error
      record. */
  datatype Analyses = Analyses(
    meta: LegacyMetaReport,
    content: ContentAnalysis.ContentReport,
    technical: Result<TechnicalAnalysis.TechnicalReport, Fault>,
    mobile: MobileAnalysis.LegacyMobileReport)

  /** The result record of both entry points; only `analyze_seo` adds the
      four reports. */
  datatype SeoResult = SeoResult(
    description: string,
    keywords: string,
    recommendations: seq<Msg>,
    title: string,
    h1Tags: seq<string>,
    h2Tags: seq<string>,
    imgWithoutAlt: nat,
    internalLinks: nat,
    externalLinks: nat,
    analyses: Option<Analyses>)

  /** A report's recommendations, or nothing for an error record, which has
      no `recommendations` key. */
  function TechnicalRecommendations(t: Result<TechnicalAnalysis.TechnicalReport, Fault>): (r: seq<Msg>)
    ensures t.Failure? ==> r == []
    ensures t.Success? ==> r == t.value.recommendations
  {
    if t.Success? then t.value.recommendations else []
  }

  /** The merged recommendations: metadata, content, technical, mobile,
      then the PageSpeed texts, each report's list whole and in its own
      order. */
  function Merged(a: Analyses, pagespeed: seq<Msg>): (r: seq<Msg>)
    ensures var m, c, t, b := |a.meta.recommendations|, |a.content.recommendations|,
        |TechnicalRecommendations(a.technical)|, |a.mobile.recommendations|;
      && |r| == m + c + t + b + |pagespeed|
      && r[..m] == a.meta.recommendations
      && r[m..m + c] == a.content.recommendations
      && r[m + c..m + c + t] == TechnicalRecommendations(a.technical)
      && r[m + c + t..m + c + t + b] == a.mobile.recommendations
      && r[m + c + t + b..] == pagespeed
  {
    var meta, content, technical, mobile :=
      a.meta.recommendations, a.content.recommendations, TechnicalRecommendations(a.technical), a.mobile.recommendations;
    Concat5(meta, content, technical, mobile, pagespeed);
    meta + content + technical + mobile + pagespeed
  }

  /** The five parts of a concatenation can be cut out of it again. */
  lemma Concat5<T>(a: seq<T>, b: seq<T>, c: seq<T>, d: seq<T>, e: seq<T>)
    ensures var r, m, n, o, q := a + b + c + d + e, |a|, |a| + |b|, |a| + |b| + |c|, |a| + |b| + |c| + |d|;
      r[..m] == a && r[m..n] == b && r[n..o] == c && r[o..q] == d && r[q..] == e
  {
  }

  /** The technical analyzer's error record adds nothing to the merge, and
      otherwise its recommendations sit between the content and the mobile
      ones. */
  lemma MergedTechnical(a: Analyses, pagespeed: seq<Msg>)
    ensures a.technical.Failure? ==>
      Merged(a, pagespeed) == a.meta.recommendations + a.content.recommendations + a.mobile.recommendations + pagespeed
    ensures forall m :: m in Merged(a, pagespeed) <==>
      m in a.meta.recommendations || m in a.content.recommendations || m in TechnicalRecommendations(a.technical)
      || m in a.mobile.recommendations || m in pagespeed
  {
    var r := Merged(a, pagespeed);
    var m, c, t, b := |a.meta.recommendations|, |a.content.recommendations|,
      |TechnicalRecommendations(a.technical)|, |a.mobile.recommendations|;
    assert r == r[..m] + r[m..m + c] + r[m + c..m + c + t] + r[m + c + t..m + c + t + b] + r[m + c + t + b..];
  }

  /** The result record `analyze_seo` builds from the four reports and the
      page facts: the title, description and keywords come from the
      metadata report, with a sentinel title and keywords when they are
      missing or empty. */
  function EnhancedResult(a: Analyses, pagespeed: seq<Msg>, h1Tags: seq<string>, h2Tags: seq<string>,
                          imgWithoutAlt: nat, internalLinks: nat, externalLinks: nat): (r: SeoResult)
    ensures r.analyses == Some(a) && r.recommendations == Merged(a, pagespeed)
    ensures r.title != ""
    ensures M.Truthy(a.meta.title.content) ==> r.title == a.meta.title.content.value
    ensures !M.Truthy(a.meta.title.content) ==> r.title == TitleNotFound
    ensures M.Truthy(a.meta.description.content) ==> r.description == a.meta.description.content.value
    ensures !M.Truthy(a.meta.description.content) ==> r.description == ""
    ensures M.Truthy(a.meta.keywords.content) ==> r.keywords == a.meta.keywords.content.value
    ensures !M.Truthy(a.meta.keywords.content) ==> r.keywords == KeywordsNotFound
    ensures r.internalLinks == internalLinks && r.externalLinks == externalLinks
    ensures r.h1Tags == h1Tags && r.h2Tags == h2Tags && r.imgWithoutAlt == imgWithoutAlt
  {
    var meta := a.meta;
    var title := if M.Truthy(meta.title.content) then meta.title.content.value else TitleNotFound;
    var description := if M.Truthy(meta.description.content) then meta.description.content.value else "";
    var keywords := if M.Truthy(meta.keywords.content) then meta.keywords.content.value else KeywordsNotFound;
    SeoResult(description, keywords, Merged(a, pagespeed), title,
      h1Tags, h2Tags, imgWithoutAlt, internalLinks, externalLinks, Some(a))
  }

  /** The four synchronous analyzers run on the page. */
  function AnalysesOf(soup: Node, url: string, join: (string, string) -> string): Analyses {
    Analyses(MetaAnalyze(soup), ContentAnalysis.Analyze(soup, Legacy),
      TechnicalAnalysis.Analyze(soup, url, Legacy, join), MobileAnalysis.LegacyAnalyze(soup))
  }

  /** The enhanced result over the page's hrefs: it fails exactly when
      `urlparse` rejects one of them while counting external links. */
  function EnhancedOf(hrefs: seq<string>, a: Analyses, pagespeed: seq<Msg>,
                      h1Tags: seq<string>, h2Tags: seq<string>, imgWithoutAlt: nat): (r: Result<SeoResult, Fault>)
    ensures r.Failure? <==> exists i :: 0 <= i < |hrefs| && Unparsable(hrefs[i])
    ensures r.Success? ==> r.value == EnhancedResult(a, pagespeed, h1Tags, h2Tags, imgWithoutAlt,
      InternalCount(hrefs), ExternalCount(hrefs).value)
    ensures r.Success? ==> r.value.internalLinks == InternalCount(hrefs) && r.value.externalLinks == ExternalCount(hrefs).value
    ensures r.Success? ==> r.value.internalLinks + r.value.externalLinks <= |hrefs|
  {
    match ExternalCount(hrefs)
    case Failure(e) => Failure(e)
    case Success(external) =>
      LinkCountsDisjoint(hrefs);
      Success(EnhancedResult(a, pagespeed, h1Tags, h2Tags, imgWithoutAlt, InternalCount(hrefs), external))
  }

  /** The enhanced body of `analyze_seo`, given the four reports. The
      analyzers cannot raise (the technical one turns its failure into its
      error record); the only exception left is `urlparse` rejecting an
      href in the external-link count. */
  function Enhanced(soup: Node, a: Analyses, pagespeed: PageSpeedData): (r: Result<SeoResult, Fault>)
    ensures r.Failure? <==> exists i :: 0 <= i < |Hrefs(soup)| && Unparsable(Hrefs(soup)[i])
    ensures r.Success? ==> r.value.analyses == Some(a) && r.value.title != ""
    ensures r.Success? ==> r.value.recommendations == Merged(a, DefaultedPageSpeed(pagespeed))
    ensures r.Success? ==> (r.value.internalLinks == InternalCount(Hrefs(soup))
      && r.value.externalLinks == ExternalCount(Hrefs(soup)).value)
    ensures r.Success? ==> (r.value.h1Tags == HeadingTexts(soup, "h1") && r.value.h2Tags == HeadingTexts(soup, "h2")
      && r.value.imgWithoutAlt == ImagesWithoutAltCount(soup))
    ensures r.Success? ==> r.value.internalLinks + r.value.externalLinks <= |Hrefs(soup)|
  {
    EnhancedOf(Hrefs(soup), a, DefaultedPageSpeed(pagespeed),
      HeadingTexts(soup, "h1"), HeadingTexts(soup, "h2"), ImagesWithoutAltCount(soup))
  }

  /** The fallback's result once the page facts are known: the five page
      rules with the description rule that also catches short
      descriptions, then the PageSpeed texts. */
  function FallbackOf(f: PageFacts, pagespeed: PageSpeedData): (r: Result<SeoResult, Fault>)
    ensures r.Failure? <==> f.title.None?
    ensures r.Success? ==> r.value.analyses.None? && r.value.title == f.title.value
    ensures r.Success? ==> r.value.description == f.description && r.value.keywords == f.keywords
    ensures r.Success? ==> r.value.h1Tags == f.h1Tags && r.value.h2Tags == f.h2Tags
    ensures r.Success? ==> r.value.imgWithoutAlt == f.imgWithoutAlt
    ensures r.Success? ==> r.value.internalLinks == f.internalLinks && r.value.externalLinks == f.externalLinks
    ensures r.Success? ==> PageRulesHold(r.value)
    ensures r.Success? ==> var ps := DefaultedPageSpeed(pagespeed);
      |r.value.recommendations| >= |ps| && r.value.recommendations[|r.value.recommendations| - |ps|..] == ps
  {
    match PageRecommendations(f, DescriptionMissingRule(f.description))
    case Failure(e) => Failure(e)
    case Success(recs) =>
      var ps := DefaultedPageSpeed(pagespeed);
      assert forall m :: m in recs + ps ==> m in recs || m.PageSpeed?;
      assert (recs + ps)[|recs + ps| - |ps|..] == ps;
      Success(SeoResult(f.description, f.keywords, recs + ps, f.title.value,
        f.h1Tags, f.h2Tags, f.imgWithoutAlt, f.internalLinks, f.externalLinks, None))
  }

  /** The five page rules of the synchronous `legacy_analyze_seo`, each
      stated of the result's own fields. */
  predicate PageRulesHold(v: SeoResult) {
    && (TitleTooLong in v.recommendations <==> |v.title| > 60)
    && (DescriptionMissing in v.recommendations <==> DescriptionMissingRule(v.description))
    && (AddMetaKeywords in v.recommendations <==> v.keywords == KeywordsNotFound)
    && (AddH1 in v.recommendations <==> v.h1Tags == [])
    && (ImagesWithoutAlt(v.imgWithoutAlt) in v.recommendations <==> v.imgWithoutAlt > 0)
  }

  /** The synchronous `legacy_analyze_seo`: the page facts, the five page
      rules with the description rule that also catches short
      descriptions, then the PageSpeed texts. */
  function Fallback(soup: Node, pagespeed: PageSpeedData): (r: Result<SeoResult, Fault>)
    ensures r.Failure? <==> Facts(soup).Failure? || PageTitle(soup).None?
    ensures r.Success? ==> r.value.analyses.None?
    ensures r.Success? ==> PageRulesHold(r.value)
    ensures r.Success? ==> (r.value.internalLinks == InternalCount(Hrefs(soup))
      && r.value.externalLinks == ExternalCount(Hrefs(soup)).value)
    ensures r.Success? ==> (r.value.h1Tags == HeadingTexts(soup, "h1") && r.value.h2Tags == HeadingTexts(soup, "h2")
      && r.value.imgWithoutAlt == ImagesWithoutAltCount(soup) && r.value.keywords == PageKeywords(soup))
    ensures r.Success? ==> var ps := DefaultedPageSpeed(pagespeed);
      |r.value.recommendations| >= |ps| && r.value.recommendations[|r.value.recommendations| - |ps|..] == ps
  {
    match Facts(soup)
    case Failure(e) => Failure(e)
    case Success(f) => FallbackOf(f, pagespeed)
  }

  /** `analyze_seo` given the four reports: the enhanced analysis, or the
      fallback when it raises (the later synchronous `legacy_analyze_seo`
      is the one bound to the name). */
  function AnalyzeSeoWith(soup: Node, a: Analyses, pagespeed: PageSpeedData): (r: Result<SeoResult, Fault>)
    ensures Enhanced(soup, a, pagespeed).Success? ==> r == Enhanced(soup, a, pagespeed)
    ensures Enhanced(soup, a, pagespeed).Failure? ==> r == Fallback(soup, pagespeed)
  {
    match Enhanced(soup, a, pagespeed)
    case Success(v) => Success(v)
    case Failure(_) => Fallback(soup, pagespeed)
  }

  /** `analyze_seo` on a page: the four synchronous analyzers, then the
      merge. */
  function AnalyzeSeo(soup: Node, url: string, pagespeed: PageSpeedData, join: (string, string) -> string): Result<SeoResult, Fault> {
    AnalyzeSeoWith(soup, AnalysesOf(soup, url, join), pagespeed)
  }

  /** The fallback never rescues the enhanced analysis: the href that makes
      the enhanced analysis raise makes the fallback raise too, so
      `analyze_seo` always answers with the enhanced result or raises. */
  lemma FallbackNeverRescues(soup: Node, a: Analyses, pagespeed: PageSpeedData)
    ensures AnalyzeSeoWith(soup, a, pagespeed) == Enhanced(soup, a, pagespeed)
  {
  }
}

=== FILE: meta.dfy ===
/** The metadata analyzer: title, meta description, meta keywords, Open
    Graph and Twitter Cards tags, language, character set and icons, the
    recommendations drawn from them and the metadata score.

    Title, description, keyword and social-tag analyses exist in two
    generations (the synchronous analyzer of the original service module
    and the modular one); they differ only in the checks the modular one
    adds, so they are written once with the generation as a parameter. */
module MetaAnalysis {
  import opened Wrappers
  import opened Seqs
  import opened Strings
  import opened Freq
  import opened Dom
  import opened Recs
  import opened MetaScoring
  import opened Generations

  /* ------------------------------------------------------------ lookups */

  /** `soup.find('meta', attrs={attr: value})`; `property=value` is the same
      filter on the `property` attribute. */
  function FindMeta(soup: Node, attr: string, value: string): Option<Node> {
    Find(soup, (x: Node) => HasTag(x, "meta") && AttrIs(x, attr, value))
  }

  /** `tag['content'] if tag and tag.has_attr('content') else None`. */
  function ContentOf(tag: Option<Node>): (r: Option<string>)
    ensures r.Some? <==> tag.Some? && HasAttr(tag.value, "content")
  {
    if tag.Some? then Attr(tag.value, "content") else None
  }

  /** Python truthiness of an optional string: present and non-empty. */
  predicate Truthy(s: Option<string>) {
    s.Some? && s.value != ""
  }

  /* -------------------------------------------------------------- title */

  datatype Brand = Prefix | Suffix

  datatype TitleInfo = TitleInfo(
    content: Option<string>,
    length: nat,
    isOptimized: bool,
    issues: seq<Msg>,
    brand: Option<Brand>)

  /** `soup.title.string`: the text of the first `<title>`, when it has one. */
  function TitleText(soup: Node): Option<string> {
    match FindTag(soup, "title")
    case None => None
    case Some(t) => TagString(t)
  }

  function TitleLengthIssues(t: string): (r: seq<Msg>)
    ensures |r| <= 1
    ensures r == [] <==> 10 <= |t| <= 60
    ensures TitleTooShort in r <==> |t| < 10
    ensures TitleTooLong in r <==> |t| > 60
    ensures forall m :: m in r ==> m.TitleTooShort? || m.TitleTooLong?
  {
    if |t| < 10 then [TitleTooShort]
    else if |t| > 60 then [TitleTooLong]
    else []
  }

  predicate LongWord(w: string) {
    |w| > 3
  }

  /** More than `minWords` words, and some word longer than three characters
      occurring more than `limit` times. */
  predicate Stuffed(words: seq<string>, limit: nat, minWords: nat) {
    |words| > minWords && exists w :: w in words && LongWord(w) && Count(words, w) > limit
  }

  /** The keyword-stuffing check: among the words longer than three
      characters, taken in order of first occurrence, the first one that
      occurs more than `limit` times, provided the text has more than
      `minWords` words at all. */
  function StuffedWord(words: seq<string>, limit: nat, minWords: nat): (r: Option<string>)
    ensures r.Some? <==> Stuffed(words, limit, minWords)
    ensures r.Some? ==> r.value in words && LongWord(r.value) && Count(words, r.value) > limit
  {
    if |words| <= minWords then None
    else
      var candidates := Distinct(Filter(words, LongWord));
      CandidatesCover(words);
      FirstWhere(candidates, OccursOver(words, limit))
  }

  /** The reported word is the first qualifying one in order of first
      occurrence: it occurs no later than any other qualifying word, which
      fixes it among the qualifying words. */
  lemma StuffedWordFirst(words: seq<string>, limit: nat, minWords: nat)
    ensures StuffedWord(words, limit, minWords).Some? ==> Earliest(words, limit, StuffedWord(words, limit, minWords).value)
  {
    StuffedWordEarliest(words, limit);
  }

  /** `w` occurs no later than any word longer than three characters that
      occurs more than `limit` times. */
  predicate Earliest(words: seq<string>, limit: nat, w: string) {
    forall i :: 0 <= i < |words| && LongWord(words[i]) && Count(words, words[i]) > limit ==> w in words[..i + 1]
  }

  /** The test applied to each counted word: more than `limit`
      occurrences. */
  function OccursOver(words: seq<string>, limit: nat): string -> bool {
    (w: string) => Count(words, w) > limit
  }

  /** Counted words are met in order of first occurrence, so the word found
      first occurs no later than any word that qualifies. */
  lemma StuffedWordEarliest(words: seq<string>, limit: nat)
    ensures forall i :: 0 <= i < |words| && LongWord(words[i]) && Count(words, words[i]) > limit ==>
      var found := FirstWhere(Distinct(Filter(words, LongWord)), OccursOver(words, limit));
      found.Some? && found.value in words[..i + 1]
  {
    forall i | 0 <= i < |words| && LongWord(words[i]) && Count(words, words[i]) > limit {
      StuffedWordEarliestAt(words, limit, i);
    }
  }

  lemma StuffedWordEarliestAt(words: seq<string>, limit: nat, i: nat)
    requires i < |words| && LongWord(words[i]) && Count(words, words[i]) > limit
    ensures var found := FirstWhere(Distinct(Filter(words, LongWord)), OccursOver(words, limit));
      found.Some? && found.value in words[..i + 1]
  {
    FirstWhereFiltered(words, LongWord, OccursOver(words, limit), i);
  }

  /** Every long word of the text is among the candidates. */
  lemma CandidatesCover(words: seq<string>)
    ensures forall w :: w in words && LongWord(w) ==> w in Distinct(Filter(words, LongWord))
  {
    var long := Filter(words, LongWord);
    forall w | w in words && LongWord(w)
      ensures w in Distinct(long)
    {
      assert w in long;
      var k :| 0 <= k < |long| && long[k] == w;
    }
  }

  /** The stuffing issue of a title (`forTitle`) or description: at most
      one, naming the stuffed word, and only in the modular generation. */
  function StuffingIssue(words: seq<string>, limit: nat, minWords: nat, forTitle: bool, gen: Generation): (r: seq<Msg>)
    ensures |r| <= 1
    ensures r != [] <==> gen == Modular && Stuffed(words, limit, minWords)
    ensures forall m :: m in r ==>
      && (if forTitle then m.TitleStuffing? else m.DescriptionStuffing?)
      && m.word in words && LongWord(m.word) && Count(words, m.word) > limit
  {
    var stuffed := StuffedWord(words, limit, minWords);
    if gen == Legacy || stuffed.None? then []
    else
      var w := stuffed.value;
      assert gen == Modular;
      assert Stuffed(words, limit, minWords);
      var m := if forTitle then TitleStuffing(w) else DescriptionStuffing(w);
      assert m.word == w;
      [m]
  }

  const Separators: seq<string> := [" | ", " - ", " – ", " — ", " :: ", " > "]

  predicate HasSeparator(t: string) {
    exists i :: 0 <= i < |Separators| && Contains(t, Separators[i])
  }

  /** The brand check: the first separator of the list that occurs in the
      title decides; the brand is a prefix when fewer than 20 characters
      precede its first occurrence. */
  function BrandOf(t: string): (r: Option<Brand>)
    ensures r.Some? <==> HasSeparator(t)
    ensures r.Some? ==> exists i :: && 0 <= i < |Separators| && Contains(t, Separators[i])
                                    && (forall j :: 0 <= j < i ==> !Contains(t, Separators[j]))
                                    && (r.value == Prefix <==> IndexOf(t, Separators[i]).value < 20)
  {
    match FirstWhere(Separators, (s: string) => Contains(t, s))
    case None => None
    case Some(sep) =>
      assert sep != [];
      SplitOnFirst(t, sep);
      var parts := SplitOn(t, sep);
      var b := if |parts| > 1 && |parts[0]| < 20 then Prefix else Suffix;
      BrandWitness(t, sep, b);
      Some(b)
  }

  /** The separator the search stops at is the first in the list that the
      title contains. */
  lemma BrandWitness(t: string, sep: string, b: Brand)
    requires FirstWhere(Separators, (s: string) => Contains(t, s)) == Some(sep)
    requires sep != [] && Contains(t, sep)
    requires b == Prefix <==> IndexOf(t, sep).value < 20
    ensures exists i :: && 0 <= i < |Separators| && Contains(t, Separators[i])
                        && (forall j :: 0 <= j < i ==> !Contains(t, Separators[j]))
                        && (b == Prefix <==> IndexOf(t, Separators[i]).value < 20)
  {
    var i :| 0 <= i < |Separators| && Separators[i] == sep && Contains(t, Separators[i])
      && forall j :: 0 <= j < i ==> !Contains(t, Separators[j]);
  }

  predicate IsStuffing(m: Msg) {
    m.TitleStuffing? || m.DescriptionStuffing?
  }

  /** `_analyze_title` on the page's `soup.title.string`. */
  function AnalyzeTitle(soup: Node, gen: Generation): TitleInfo {
    TitleReport(TitleText(soup), gen)
  }

  /** The judgement of a title: a missing or empty title gets exactly the
      missing-title issue; any other title gets its length issue followed by
      its stuffing issue. The legacy generation has no stuffing check. */
  function TitleReport(title: Option<string>, gen: Generation): (r: TitleInfo)
    ensures !Truthy(title) ==> r == TitleInfo(None, 0, false, [TitleMissing], None)
    ensures Truthy(title) ==>
      var t := title.value;
      && r.content == Some(t) && r.length == |t|
      && r.issues == TitleLengthIssues(t) + StuffingIssue(Words(Lower(t)), 2, 4, true, gen)
      && r.brand == BrandOf(t)
    ensures r.isOptimized <==> r.issues == []
    ensures forall m :: m in r.issues ==> IsFieldIssue(m)
    ensures |r.issues| <= (if gen == Modular then 2 else 1)
  {
    if !Truthy(title) then TitleInfo(None, 0, false, [TitleMissing], None)
    else
      var t := title.value;
      var issues := TitleLengthIssues(t) + StuffingIssue(Words(Lower(t)), 2, 4, true, gen);
      TitleInfo(Some(t), |t|, issues == [], issues, BrandOf(t))
  }

  /* -------------------------------------------------------- description */

  datatype DescriptionInfo = DescriptionInfo(
    content: Option<string>,
    length: nat,
    isOptimized: bool,
    issues: seq<Msg>,
    hasCta: bool)

  /** The stripped text of a paragraph (`p.get_text(strip=True)`). */
  function ParagraphText(p: Node): string {
    GetText(p, "", true)
  }

  /** The description the analyzer judges: the meta description's content
      when it is non-empty, otherwise the first two paragraphs joined by a
      space, when the page has paragraphs at all. */
  function DescriptionText(soup: Node): (r: Option<string>)
    ensures var meta := ContentOf(FindMeta(soup, "name", "description"));
      && (Truthy(meta) ==> r == meta)
      && (!Truthy(meta) ==> r == ParagraphsText(FindAllTag(soup, "p")))
  {
    var meta := ContentOf(FindMeta(soup, "name", "description"));
    if Truthy(meta) then meta else ParagraphsText(FindAllTag(soup, "p"))
  }

  /** The fallback description: nothing without paragraphs, else the
      stripped text of the first paragraph, joined by one space to that of
      the second when there is one. */
  function ParagraphsText(ps: seq<Node>): (r: Option<string>)
    ensures ps == [] ==> r == None
    ensures |ps| == 1 ==> r == Some(ParagraphText(ps[0]))
    ensures |ps| >= 2 ==> r == Some(ParagraphText(ps[0]) + " " + ParagraphText(ps[1]))
  {
    if ps == [] then None
    else
      var texts := Map(Take(ps, 2), ParagraphText);
      assert |ps| >= 2 ==> texts == [ParagraphText(ps[0]), ParagraphText(ps[1])];
      JoinTwo(ParagraphText(ps[0]), if |ps| >= 2 then ParagraphText(ps[1]) else "", " ");
      Some(Join(texts, " "))
  }

  const CallsToAction: seq<string> :=
    ["узнайте", "смотрите", "читайте", "закажите", "купите", "позвоните", "свяжитесь", "получите"]

  /** The call-to-action search on the lower-cased description. */
  predicate HasCallToAction(d: string) {
    exists i :: 0 <= i < |CallsToAction| && Contains(Lower(d), CallsToAction[i])
  }

  function DescriptionLengthIssues(d: string): (r: seq<Msg>)
    ensures |r| <= 1
    ensures r == [] <==> 50 <= |d| <= 160
    ensures DescriptionTooShort in r <==> |d| < 50
    ensures DescriptionTooLong in r <==> |d| > 160
    ensures forall m :: m in r ==> m.DescriptionTooShort? || m.DescriptionTooLong?
  {
    if |d| < 50 then [DescriptionTooShort]
    else if |d| > 160 then [DescriptionTooLong]
    else []
  }

  /** `_analyze_description` on the page's description text. */
  function AnalyzeDescription(soup: Node, gen: Generation): DescriptionInfo {
    DescriptionReport(DescriptionText(soup), gen)
  }

  /** The judgement of a description: a missing or empty one gets exactly
      the missing-description issue; any other gets its length issue
      followed by its stuffing issue. The legacy generation has no stuffing
      check. */
  function DescriptionReport(desc: Option<string>, gen: Generation): (r: DescriptionInfo)
    ensures !Truthy(desc) ==> r == DescriptionInfo(None, 0, false, [DescriptionMissing], false)
    ensures Truthy(desc) ==>
      var d := desc.value;
      && r.content == Some(d) && r.length == |d|
      && r.issues == DescriptionLengthIssues(d) + StuffingIssue(Words(Lower(d)), 3, 10, false, gen)
      && (r.hasCta <==> HasCallToAction(d))
    ensures r.isOptimized <==> r.issues == []
    ensures forall m :: m in r.issues ==> IsFieldIssue(m)
    ensures |r.issues| <= (if gen == Modular then 2 else 1)
  {
    if !Truthy(desc) then DescriptionInfo(None, 0, false, [DescriptionMissing], false)
    else
      var d := desc.value;
      var issues := DescriptionLengthIssues(d) + StuffingIssue(Words(Lower(d)), 3, 10, false, gen);
      DescriptionInfo(Some(d), |d|, issues == [], issues, HasCallToAction(d))
  }

  /* ------------------------------------------------------ meta keywords */

  datatype KeywordsInfo = KeywordsInfo(
    content: Option<string>,
    keywords: seq<string>,
    count: nat,
    isOptimized: bool,
    issues: seq<Msg>)

  /** `[k.strip() for k in content.split(',')]`: one keyword more than the
      content has commas, empty entries kept, each the stripped text between
      two consecutive commas. */
  function KeywordList(content: string): (r: seq<string>)
    ensures |r| == multiset(content)[','] + 1 == |SplitOn(content, ",")|
    ensures forall k :: k in r ==> k == Strip(k) && !Contains(k, ",")
    ensures forall i :: 0 <= i < |r| ==> r[i] == Strip(SplitOn(content, ",")[i])
  {
    StripIdempotentAll(SplitOn(content, ","));
    SplitOnCharCount(content, ',');
    SplitOnPiecesFree(content, ",");
    StrippedPiecesFree(SplitOn(content, ","));
    Map(SplitOn(content, ","), Strip)
  }

  /** Stripping a piece without a comma leaves it without one. */
  lemma StrippedPiecesFree(pieces: seq<string>)
    requires forall piece :: piece in pieces ==> !Contains(piece, ",")
    ensures forall k :: k in Map(pieces, Strip) ==> !Contains(k, ",")
  {
    forall k | k in Map(pieces, Strip)
      ensures !Contains(k, ",")
    {
      var i :| 0 <= i < |pieces| && Map(pieces, Strip)[i] == k;
      ContainsChar(pieces[i], ',');
      ContainsChar(k, ',');
      StripChars(pieces[i]);
    }
  }

  lemma StripIdempotentAll(pieces: seq<string>)
    ensures forall k :: k in Map(pieces, Strip) ==> k == Strip(k)
  {
    forall k | k in Map(pieces, Strip)
      ensures k == Strip(k)
    {
      var i :| 0 <= i < |pieces| && Map(pieces, Strip)[i] == k;
      StripIdempotent(pieces[i]);
    }
  }

  /** Some keyword longer than five characters occurs inside a keyword at
      another position of the list. */
  predicate HasOverlap(ks: seq<string>) {
    exists i, j :: 0 <= i < |ks| && 0 <= j < |ks| && i != j && |ks[i]| > 5 && Contains(ks[j], ks[i])
  }

  /** A keyword longer than five characters listed twice counts as an
      overlap. */
  lemma DuplicateOverlaps(ks: seq<string>, i: nat, j: nat)
    requires i < |ks| && j < |ks| && i != j && ks[i] == ks[j] && |ks[i]| > 5
    ensures HasOverlap(ks)
  {
    ContainsSlice(ks[j], 0, |ks[j]|);
    assert ks[j][0..|ks[j]|] == ks[j];
  }

  predicate HasLongKeyword(ks: seq<string>) {
    exists k :: k in ks && |k| > 30
  }

  /** `_analyze_keywords` on the page's `<meta name="keywords">` content. */
  function AnalyzeKeywords(soup: Node, gen: Generation): KeywordsInfo {
    KeywordsReport(ContentOf(FindMeta(soup, "name", "keywords")), gen)
  }

  /** The issues of a keyword list, in order: count (too few below 3, too
      many above 10, never both), some keyword over 30 characters, and (in
      the modular generation) an overlap. */
  function KeywordIssues(ks: seq<string>, gen: Generation): (r: seq<Msg>)
    ensures TooFewKeywords in r <==> |ks| < 3
    ensures TooManyKeywords in r <==> |ks| > 10
    ensures KeywordsTooLong in r <==> HasLongKeyword(ks)
    ensures KeywordsOverlap in r <==> gen == Modular && HasOverlap(ks)
    ensures forall m :: m in r ==> m.TooFewKeywords? || m.TooManyKeywords? || m.KeywordsTooLong? || m.KeywordsOverlap?
  {
    var count := if |ks| < 3 then [TooFewKeywords] else if |ks| > 10 then [TooManyKeywords] else [];
    var long := if HasLongKeyword(ks) then [KeywordsTooLong] else [];
    var overlap := if gen == Modular && HasOverlap(ks) then [KeywordsOverlap] else [];
    assert forall m :: m in count + long + overlap <==> m in count || m in long || m in overlap;
    count + long + overlap
  }

  /** The judgement of a meta keywords content: a missing or empty content
      gets exactly the missing-keywords issue. */
  function KeywordsReport(c: Option<string>, gen: Generation): (r: KeywordsInfo)
    ensures !Truthy(c) ==> r == KeywordsInfo(None, [], 0, false, [MetaKeywordsMissing])
    ensures Truthy(c) ==>
      && r.content == c && r.keywords == KeywordList(c.value) && r.count == |r.keywords|
      && r.issues == KeywordIssues(r.keywords, gen)
    ensures r.isOptimized <==> r.issues == []
    ensures forall m :: m in r.issues ==> IsFieldIssue(m)
  {
    if !Truthy(c) then KeywordsInfo(None, [], 0, false, [MetaKeywordsMissing])
    else
      var ks := KeywordList(c.value);
      var issues := KeywordIssues(ks, gen);
      KeywordsInfo(c, ks, |ks|, issues == [], issues)
  }

  /* ------------------------------------------ Open Graph, Twitter Cards */

  const OpenGraphProperties: seq<string> := ["og:title", "og:description", "og:image", "og:url", "og:type"]
  const TwitterNames: seq<string> := ["twitter:card", "twitter:title", "twitter:description", "twitter:image"]

  /** A family of social tags looked up by one attribute. The legacy
      generation reports no completeness issue. */
  datatype SocialInfo = SocialInfo(
    hasTags: bool,
    isComplete: bool,
    contents: seq<Option<string>>,
    missing: seq<string>,
    issues: seq<Msg>)

  predicate Present(soup: Node, attr: string, value: string) {
    FindMeta(soup, attr, value).Some?
  }

  function Social(soup: Node, attr: string, names: seq<string>, gen: Generation, og: bool): (r: SocialInfo)
    requires names != []
    ensures r.hasTags <==> exists i :: 0 <= i < |names| && Present(soup, attr, names[i])
    ensures r.isComplete <==> forall i :: 0 <= i < |names| ==> Present(soup, attr, names[i])
    ensures r.isComplete ==> r.hasTags
    ensures forall n :: n in r.missing <==> n in names && !Present(soup, attr, n)
    ensures r.missing == [] <==> r.isComplete
    ensures |r.contents| == |names|
    ensures forall i :: 0 <= i < |names| ==> r.contents[i] == ContentOf(FindMeta(soup, attr, names[i]))
    ensures r.issues != [] <==> gen == Modular && r.hasTags && !r.isComplete
    ensures r.issues != [] ==> r.issues == [if og then OpenGraphIncomplete(r.missing) else TwitterIncomplete(r.missing)]
  {
    var has := exists i :: 0 <= i < |names| && Present(soup, attr, names[i]);
    var complete := forall i :: 0 <= i < |names| ==> Present(soup, attr, names[i]);
    var missing := MissingNames(soup, attr, names);
    MissingIff(soup, attr, names);
    var contents := Map(names, (n: string) => ContentOf(FindMeta(soup, attr, n)));
    var issues :=
      if gen == Modular && has && !complete then
        [if og then OpenGraphIncomplete(missing) else TwitterIncomplete(missing)]
      else [];
    SocialInfo(has, complete, contents, missing, issues)
  }

  /** The names whose tag is absent, in the order given. */
  function MissingNames(soup: Node, attr: string, names: seq<string>): (r: seq<string>)
    ensures forall n :: n in r <==> n in names && !Present(soup, attr, n)
  {
    Filter(names, (n: string) => !Present(soup, attr, n))
  }

  /** Missing names of a list are those of its head followed by those of
      its tail. */
  lemma MissingNamesCons(soup: Node, attr: string, name: string, rest: seq<string>)
    ensures MissingNames(soup, attr, [name] + rest) == AbsentOne(soup, attr, name) + MissingNames(soup, attr, rest)
  {
    assert ([name] + rest)[1..] == rest;
  }

  lemma MissingIff(soup: Node, attr: string, names: seq<string>)
    ensures MissingNames(soup, attr, names) == [] <==>
      forall i :: 0 <= i < |names| ==> Present(soup, attr, names[i])
  {
    var missing := MissingNames(soup, attr, names);
    if forall i :: 0 <= i < |names| ==> Present(soup, attr, names[i]) {
      FilterNoneKept(names, (n: string) => !Present(soup, attr, n));
    } else {
      var i :| 0 <= i < |names| && !Present(soup, attr, names[i]);
      assert names[i] in missing;
    }
  }

  /** `_analyze_open_graph`: `property` attributes `og:*`. */
  function AnalyzeOpenGraph(soup: Node, gen: Generation): SocialInfo {
    Social(soup, "property", OpenGraphProperties, gen, true)
  }

  /** `_analyze_twitter_cards`: `name` attributes `twitter:*`. */
  function AnalyzeTwitterCards(soup: Node, gen: Generation): SocialInfo {
    Social(soup, "name", TwitterNames, gen, false)
  }

  /** `[name]` when the tag is absent, nothing when it is present. */
  function AbsentOne(soup: Node, attr: string, name: string): (r: seq<string>)
    ensures r == [] <==> Present(soup, attr, name)
    ensures r != [] ==> r == [name]
  {
    if Present(soup, attr, name) then [] else [name]
  }

  /** The missing Open Graph names are the absent properties, each once, in
      the fixed order title, description, image, url, type, whichever
      generation asks. */
  lemma {:induction false} OpenGraphMissingInOrder(soup: Node, gen: Generation)
    ensures AnalyzeOpenGraph(soup, gen).missing ==
      AbsentOne(soup, "property", "og:title") + (AbsentOne(soup, "property", "og:description")
      + (AbsentOne(soup, "property", "og:image") + (AbsentOne(soup, "property", "og:url")
      + AbsentOne(soup, "property", "og:type"))))
  {
    MissingNamesFive(soup, "property", "og:title", "og:description", "og:image", "og:url", "og:type");
  }

  /** The missing Twitter Card names are the absent ones, each once, in the
      fixed order card, title, description, image. */
  lemma {:induction false} TwitterMissingInOrder(soup: Node, gen: Generation)
    ensures AnalyzeTwitterCards(soup, gen).missing ==
      AbsentOne(soup, "name", "twitter:card") + (AbsentOne(soup, "name", "twitter:title")
      + (AbsentOne(soup, "name", "twitter:description") + AbsentOne(soup, "name", "twitter:image")))
  {
    MissingNamesFour(soup, "name", "twitter:card", "twitter:title", "twitter:description", "twitter:image");
  }

  lemma MissingNamesFive(soup: Node, attr: string, a: string, b: string, c: string, d: string, e: string)
    ensures MissingNames(soup, attr, [a, b, c, d, e]) ==
      AbsentOne(soup, attr, a) + (AbsentOne(soup, attr, b) + (AbsentOne(soup, attr, c)
      + (AbsentOne(soup, attr, d) + AbsentOne(soup, attr, e))))
  {
    assert [a, b, c, d, e] == [a] + [b, c, d, e];
    MissingNamesCons(soup, attr, a, [b, c, d, e]);
    MissingNamesFour(soup, attr, b, c, d, e);
  }

  lemma MissingNamesFour(soup: Node, attr: string, a: string, b: string, c: string, d: string)
    ensures MissingNames(soup, attr, [a, b, c, d]) ==
      AbsentOne(soup, attr, a) + (AbsentOne(soup, attr, b) + (AbsentOne(soup, attr, c) + AbsentOne(soup, attr, d)))
  {
    assert [a, b, c, d] == [a] + [b, c, d];
    assert [b, c, d] == [b] + [c, d];
    assert [c, d] == [c] + [d];
    assert [d] == [d] + [];
    MissingNamesCons(soup, attr, a, [b, c, d]);
    MissingNamesCons(soup, attr, b, [c, d]);
    MissingNamesCons(soup, attr, c, [d]);
    MissingNamesCons(soup, attr, d, []);
  }

  /* ------------------------------------------------------------ language */

  datatype LanguageInfo = LanguageInfo(
    hasLang: bool,
    lang: Option<string>,
    contentLanguage: Option<string>,
    isConsistent: bool)

  /** `_analyze_language`: the `lang` of the first `<html>`, the
      `content-language` meta header and whether the two agree. */
  function AnalyzeLanguage(soup: Node): (r: LanguageInfo)
    ensures r.hasLang <==> Truthy(r.lang)
    ensures r.lang == (match FindTag(soup, "html") case None => None case Some(h) => Attr(h, "lang"))
    ensures r.contentLanguage == ContentOf(FindMeta(soup, "http-equiv", "content-language"))
    ensures !r.isConsistent <==> Truthy(r.lang) && Truthy(r.contentLanguage) && r.lang != r.contentLanguage
  {
    var lang := match FindTag(soup, "html") case None => None case Some(h) => Attr(h, "lang");
    var cl := ContentOf(FindMeta(soup, "http-equiv", "content-language"));
    LanguageInfo(Truthy(lang), lang, cl, if Truthy(lang) && Truthy(cl) then lang == cl else true)
  }

  /* ------------------------------------------------------------- charset */

  datatype CharsetInfo = CharsetInfo(hasCharset: bool, charset: Option<string>, isUtf8: bool)

  /** `value.split('charset=')[1].strip()` when the header names a charset:
      the text after the first `charset=`, up to a second one if any,
      stripped. */
  function HeaderCharset(value: Option<string>): (r: Option<string>)
    ensures r.Some? <==> Truthy(value) && Contains(value.value, "charset=")
  {
    if Truthy(value) && Contains(value.value, "charset=") then
      SplitOnFirst(value.value, "charset=");
      Some(Strip(SplitOn(value.value, "charset=")[1]))
    else None
  }

  /** The header charset is the stripped text between the first
      `charset=` and the next one, or the end of the value. */
  lemma HeaderCharsetText(v: string)
    requires v != [] && Contains(v, "charset=")
    ensures var rest := v[IndexOf(v, "charset=").value + 8..];
      HeaderCharset(Some(v)) ==
        Some(Strip(if Contains(rest, "charset=") then rest[..IndexOf(rest, "charset=").value] else rest))
  {
    SplitOnFirst(v, "charset=");
    var rest := v[IndexOf(v, "charset=").value + 8..];
    SplitOnHead(rest, "charset=");
    assert SplitOn(v, "charset=")[1] == SplitOn(rest, "charset=")[0];
  }

  predicate NamesUtf8(s: Option<string>) {
    Truthy(s) && Contains(Lower(s.value), "utf-8")
  }

  /** `_analyze_charset`: the `<meta charset>` value, else the charset of
      the `Content-Type` header. `is_utf8` looks at both sources, so it can
      hold when the reported charset is another one. */
  function AnalyzeCharset(soup: Node): (r: CharsetInfo)
    ensures var declared := match Find(soup, (x: Node) => HasTag(x, "meta") && HasAttr(x, "charset"))
        case None => None case Some(m) => Attr(m, "charset");
      var header := HeaderCharset(ContentOf(FindMeta(soup, "http-equiv", "Content-Type")));
      && (r.hasCharset <==> Truthy(declared) || Truthy(header))
      && (Truthy(declared) ==> r.charset == declared)
      && (!Truthy(declared) ==> r.charset == header)
      && (r.isUtf8 <==> NamesUtf8(declared) || NamesUtf8(header))
    ensures r.hasCharset <==> Truthy(r.charset)
    ensures r.isUtf8 ==> r.hasCharset
  {
    var declared := match Find(soup, (x: Node) => HasTag(x, "meta") && HasAttr(x, "charset"))
      case None => None case Some(m) => Attr(m, "charset");
    var header := HeaderCharset(ContentOf(FindMeta(soup, "http-equiv", "Content-Type")));
    var charset := if Truthy(declared) then declared else header;
    CharsetInfo(Truthy(declared) || Truthy(header), charset, NamesUtf8(declared) || NamesUtf8(header))
  }

  /* --------------------------------------------------------------- icons */

  datatype IconsInfo = IconsInfo(
    hasFavicon: bool,
    hasAppleIcon: bool,
    iconSizes: seq<string>,
    hasMultipleSizes: bool)

  /** A `<link>` whose `rel` filter matches `rel`. */
  predicate LinkRel(x: Node, rel: string) {
    HasTag(x, "link") && AttrIs(x, "rel", rel)
  }

  predicate IsFavicon(x: Node) {
    LinkRel(x, "icon") || LinkRel(x, "shortcut icon")
  }

  /** A `<link>` matched by `rel=re.compile('icon')`. */
  predicate IsIconLink(x: Node) {
    HasTag(x, "link") && AttrMatches(x, "rel", (s: string) => Contains(s, "icon"))
  }

  predicate HasSizes(x: Node) {
    Attr(x, "sizes").Some?
  }

  /** `[link.get('sizes') for link in links if link.has_attr('sizes')]`. */
  function SizesOf(links: seq<Node>): (r: seq<string>)
    ensures |r| == |Filter(links, HasSizes)|
    ensures forall i :: 0 <= i < |r| ==> Attr(Filter(links, HasSizes)[i], "sizes") == Some(r[i])
  {
    if links == [] then []
    else
      var rest := SizesOf(links[1..]);
      assert Filter(links, HasSizes) == (if HasSizes(links[0]) then [links[0]] else []) + Filter(links[1..], HasSizes);
      if HasSizes(links[0]) then [Attr(links[0], "sizes").value] + rest else rest
  }

  /** `_analyze_icons`. */
  function AnalyzeIcons(soup: Node): (r: IconsInfo)
    ensures r.hasFavicon <==> exists x :: x in Descendants(soup) && IsFavicon(x)
    ensures r.hasAppleIcon <==> exists x :: x in Descendants(soup) && LinkRel(x, "apple-touch-icon")
    ensures |r.iconSizes| == |Filter(FindAll(soup, IsIconLink), HasSizes)|
    ensures forall i :: 0 <= i < |r.iconSizes| ==>
      Attr(Filter(FindAll(soup, IsIconLink), HasSizes)[i], "sizes") == Some(r.iconSizes[i])
    ensures r.hasMultipleSizes <==> |r.iconSizes| > 1
  {
    var favicon := Find(soup, (x: Node) => LinkRel(x, "icon")).Some? || Find(soup, (x: Node) => LinkRel(x, "shortcut icon")).Some?;
    var apple := Find(soup, (x: Node) => LinkRel(x, "apple-touch-icon")).Some?;
    FoundIff(soup, (x: Node) => LinkRel(x, "icon"));
    FoundIff(soup, (x: Node) => LinkRel(x, "shortcut icon"));
    FoundIff(soup, (x: Node) => LinkRel(x, "apple-touch-icon"));
    var sizes := SizesOf(FindAll(soup, IsIconLink));
    IconsInfo(favicon, apple, sizes, |sizes| > 1)
  }

  /** `find` succeeds exactly when some descendant matches. */
  lemma FoundIff(n: Node, p: Node -> bool)
    ensures Find(n, p).Some? <==> exists x :: x in Descendants(n) && p(x)
  {
    if exists x :: x in Descendants(n) && p(x) {
      var x :| x in Descendants(n) && p(x);
      assert x in FindAll(n, p);
    }
  }

  /* -------------------------------------------------------------- report */

  datatype MetaReport = MetaReport(
    title: TitleInfo,
    description: DescriptionInfo,
    keywords: KeywordsInfo,
    openGraph: SocialInfo,
    twitterCards: SocialInfo,
    author: Option<string>,
    language: LanguageInfo,
    charset: CharsetInfo,
    icons: IconsInfo,
    metaScore: nat,
    recommendations: seq<Msg>)

  /** The modular `MetaAnalyzer.analyze`. Nothing in it can raise, so its
      error record is never produced. */
  function Analyze(soup: Node): (r: MetaReport) {
    var title := AnalyzeTitle(soup, Modular);
    var description := AnalyzeDescription(soup, Modular);
    var keywords := AnalyzeKeywords(soup, Modular);
    Assemble(title, description, keywords,
      AnalyzeOpenGraph(soup, Modular), AnalyzeTwitterCards(soup, Modular),
      ContentOf(FindMeta(soup, "name", "author")),
      AnalyzeLanguage(soup), AnalyzeCharset(soup), AnalyzeIcons(soup))
  }

  /** The report of the modular analyzer from its parts: the score counts
      a title and a description without issues and the presence of Open
      Graph tags, Twitter tags, a favicon and a `lang` attribute; the
      recommendations are the field issues followed by one suggestion per
      absent family. A perfect score goes with no recommendation other than
      the keyword issues, and the other way round. */
  function Assemble(title: TitleInfo, description: DescriptionInfo, keywords: KeywordsInfo,
                    og: SocialInfo, twitter: SocialInfo, author: Option<string>,
                    language: LanguageInfo, charset: CharsetInfo, icons: IconsInfo): (r: MetaReport)
    requires forall m :: m in title.issues ==> IsFieldIssue(m)
    requires forall m :: m in description.issues ==> IsFieldIssue(m)
    requires forall m :: m in keywords.issues ==> IsFieldIssue(m)
    ensures r.metaScore == MetaScore(title.issues == [], description.issues == [], og.hasTags,
                                     twitter.hasTags, icons.hasFavicon, language.hasLang)
    ensures r.recommendations == Recommendations(title.issues + description.issues + keywords.issues,
                                                 og.hasTags, twitter.hasTags, icons.hasFavicon, language.hasLang)
    ensures r.metaScore == 100 <==> r.recommendations == keywords.issues
  {
    var issues := title.issues + description.issues + keywords.issues;
    assert forall m :: m in issues ==> IsFieldIssue(m);
    var recs := Recommendations(issues, og.hasTags, twitter.hasTags, icons.hasFavicon, language.hasLang);
    var score := MetaScore(title.issues == [], description.issues == [], og.hasTags,
                           twitter.hasTags, icons.hasFavicon, language.hasLang);
    PerfectScoreIff(title.issues, description.issues, keywords.issues,
                    og.hasTags, twitter.hasTags, icons.hasFavicon, language.hasLang);
    MetaReport(title, description, keywords, og, twitter, author, language, charset, icons, score, recs)
  }
}

=== FILE: meta_score.dfy ===
/** The score and the recommendation list of the modular metadata analyzer,
    over the facts the field analyses report. */
module MetaScoring {
  import opened Recs
  import opened Numeric

  /** The metadata score: 25 for a title without issues, 25 for a
      description without issues, 15 for Open Graph tags, 10 for Twitter
      tags, 10 for a favicon and 15 for a `lang` attribute. */
  function MetaScore(titleOk: bool, descriptionOk: bool, og: bool, twitter: bool, favicon: bool, lang: bool): (s: nat)
    ensures s <= 100 && s % 5 == 0
    ensures s == 100 <==> titleOk && descriptionOk && og && twitter && favicon && lang
    ensures s == 0 <==> !titleOk && !descriptionOk && !og && !twitter && !favicon && !lang
  {
    Points(titleOk, 25) + Points(descriptionOk, 25) + Points(og, 15)
    + Points(twitter, 10) + Points(favicon, 10) + Points(lang, 15)
  }

  /** The synchronous layer's metadata score: 100 less 20 for each title
      issue, 20 for each description issue and 20 without Open Graph tags,
      never below 0. */
  function LegacyMetaScore(titleIssues: nat, descriptionIssues: nat, og: bool): (s: nat)
    ensures s <= 100 && s % 20 == 0
    ensures s == 100 <==> titleIssues == 0 && descriptionIssues == 0 && og
    ensures titleIssues <= 1 && descriptionIssues <= 1 ==> s >= 40
    ensures s == 0 <==> titleIssues + descriptionIssues + (if og then 0 else 1) >= 5
  {
    var raw := 100 - 20 * titleIssues - 20 * descriptionIssues - (if og then 0 else 20);
    if raw < 0 then 0 else raw
  }

  /** An issue of the title, description or keyword analysis. */
  predicate IsFieldIssue(m: Msg) {
    || m.TitleMissing? || m.TitleTooShort? || m.TitleTooLong? || m.TitleStuffing?
    || m.DescriptionMissing? || m.DescriptionTooShort? || m.DescriptionTooLong? || m.DescriptionStuffing?
    || m.MetaKeywordsMissing? || m.TooFewKeywords? || m.TooManyKeywords? || m.KeywordsTooLong? || m.KeywordsOverlap?
  }

  /** A message that asks for a whole missing family of tags. */
  predicate IsSuggestion(m: Msg) {
    m == AddOpenGraph || m == AddTwitterCards || m == AddFavicon || m == AddLangAttribute
  }

  /** One suggestion for each absent family, in the order Open Graph,
      Twitter Cards, favicon, `lang`. */
  function Suggestions(og: bool, twitter: bool, favicon: bool, lang: bool): (r: seq<Msg>)
    ensures AddOpenGraph in r <==> !og
    ensures AddTwitterCards in r <==> !twitter
    ensures AddFavicon in r <==> !favicon
    ensures AddLangAttribute in r <==> !lang
    ensures forall m :: m in r ==> IsSuggestion(m)
    ensures r == [] <==> og && twitter && favicon && lang
  {
    (if !og then [AddOpenGraph] else [])
    + (if !twitter then [AddTwitterCards] else [])
    + (if !favicon then [AddFavicon] else [])
    + (if !lang then [AddLangAttribute] else [])
  }

  /** The recommendations of the modular analyzer: the field issues (title,
      description, keywords) in their order, then one suggestion for each
      absent family. Nothing else is recommended: in particular an
      incomplete Open Graph or Twitter set never is. */
  function Recommendations(issues: seq<Msg>, og: bool, twitter: bool, favicon: bool, lang: bool): (r: seq<Msg>)
    requires forall m :: m in issues ==> IsFieldIssue(m)
    ensures |r| >= |issues| && r[..|issues|] == issues
    ensures AddOpenGraph in r <==> !og
    ensures AddTwitterCards in r <==> !twitter
    ensures AddFavicon in r <==> !favicon
    ensures AddLangAttribute in r <==> !lang
    ensures forall m :: m in r ==> IsFieldIssue(m) || IsSuggestion(m)
    ensures og && twitter && favicon && lang <==> r == issues
  {
    var suggestions := Suggestions(og, twitter, favicon, lang);
    Appended(issues, suggestions);
    issues + suggestions
  }

  /** Appending suggestions to field issues: the issues stay a prefix, and a
      suggestion is in the whole list exactly when it is in the suffix. */
  lemma Appended(issues: seq<Msg>, suggestions: seq<Msg>)
    requires forall x :: x in issues ==> IsFieldIssue(x)
    requires forall x :: x in suggestions ==> IsSuggestion(x)
    ensures (issues + suggestions)[..|issues|] == issues
    ensures forall m :: IsSuggestion(m) ==> (m in issues + suggestions <==> m in suggestions)
    ensures forall m :: m in issues + suggestions ==> IsFieldIssue(m) || IsSuggestion(m)
    ensures issues + suggestions == issues <==> suggestions == []
  {
    if issues + suggestions == issues {
      assert |suggestions| == 0;
    }
  }

  /** A perfect score goes with recommendations that are exactly the
      keyword issues, and the other way round: the title and description
      have no issue and no family of tags is absent. */
  lemma PerfectScoreIff(titleIssues: seq<Msg>, descriptionIssues: seq<Msg>, keywordIssues: seq<Msg>,
                        og: bool, twitter: bool, favicon: bool, lang: bool)
    requires forall m :: m in titleIssues + descriptionIssues + keywordIssues ==> IsFieldIssue(m)
    ensures MetaScore(titleIssues == [], descriptionIssues == [], og, twitter, favicon, lang) == 100
        <==> Recommendations(titleIssues + descriptionIssues + keywordIssues, og, twitter, favicon, lang) == keywordIssues
  {
    var issues := titleIssues + descriptionIssues + keywordIssues;
    if Recommendations(issues, og, twitter, favicon, lang) == keywordIssues {
      assert |titleIssues| == 0 && |descriptionIssues| == 0;
      assert issues == keywordIssues;
    }
  }
}

=== FILE: mobile.dfy ===
/** The mobile-friendliness analyzers: `MobileAnalyzer` of the modular
    package and its older synchronous version. Both read the viewport tag,
    touch targets, font sizes and mobile-specific tags; the modular one
    also looks at responsive images and CSS and scores by weights, the
    synchronous one scores by subtraction. */
module MobileAnalysis {
  import opened Wrappers
  import opened Seqs
  import opened Strings
  import opened Numeric
  import opened Dom
  import opened Recs

  /* ----------------------------------------------------------- viewport */

  /** `_check_viewport`. The width, scale and zoom keys and the issues
      exist only when there is a viewport tag. */
  datatype ViewportInfo = ViewportInfo(
    hasViewport: bool,
    content: Option<string>,
    hasWidth: Option<bool>,
    hasInitialScale: Option<bool>,
    preventsZooming: Option<bool>,
    isResponsive: bool,
    issues: Option<seq<Msg>>)

  predicate IsViewportMeta(x: Node) {
    IsMetaNamed(x, "viewport")
  }

  /** The modular `_check_viewport`. */
  function Viewport(soup: Node): (r: ViewportInfo)
    ensures r.hasViewport <==> FindAll(soup, IsViewportMeta) != []
    ensures r.content.Some? <==> r.hasViewport
    ensures !r.hasViewport ==> !r.isResponsive && r.issues.None?
    ensures r.hasViewport ==>
      (r.isResponsive <==> Contains(r.content.value, "width=device-width") && Contains(r.content.value, "initial-scale=1"))
    ensures r.hasViewport ==> r.issues.Some? && (r.issues.value == [] <==> r.isResponsive)
    ensures r.hasViewport ==>
      (r.preventsZooming == Some(Contains(r.content.value, "user-scalable=no") || Contains(r.content.value, "maximum-scale=1")))
  {
    match Find(soup, IsViewportMeta)
    case None => ViewportInfo(false, None, None, None, None, false, None)
    case Some(tag) =>
      var content := Attr(tag, "content").GetOr("");
      var width := Contains(content, "width=device-width");
      var scale := Contains(content, "initial-scale=1");
      var zoom := Contains(content, "user-scalable=no") || Contains(content, "maximum-scale=1");
      ViewportInfo(true, Some(content), Some(width), Some(scale), Some(zoom), width && scale,
        Some(if width && scale then [] else [SuboptimalViewport]))
  }

  /** The synchronous `_check_viewport` reports the same tag, content and
      flags, without the zoom check and the issues. */
  function LegacyViewport(soup: Node): (r: ViewportInfo)
    ensures r.hasViewport == Viewport(soup).hasViewport && r.isResponsive == Viewport(soup).isResponsive
    ensures r.preventsZooming.None? && r.issues.None?
  {
    Viewport(soup).(preventsZooming := None, issues := None)
  }

  /* ------------------------------------------------------- pixel sizes */

  /** The number of `key\s*(\d+)px` when that pattern matches at `i`. */
  function PxAt(s: string, key: string, i: nat): (r: Option<nat>)
    requires i <= |s|
    ensures r.Some? ==> OccursAt(s, key, i)
  {
    if !OccursAt(s, key, i) then None
    else
      var a := i + |key|;
      PxDigits(s, a + SpanLen(s[a..], IsSpace))
  }

  /** The number of `(\d+)px` when that pattern matches at `b`. */
  function PxDigits(s: string, b: nat): Option<nat>
    requires b <= |s|
  {
    var n := SpanLen(s[b..], IsDigit);
    if 0 < n && OccursAt(s, "px", b + n) then Some(DigitsValue(s[b..b + n])) else None
  }

  /** `re.search(key + r'\s*(\d+)px', s)` from position `i`: the number of
      the leftmost match. */
  function FirstPx(s: string, key: string, i: nat): (r: Option<nat>)
    requires i <= |s|
    ensures r.None? <==> forall j :: i <= j <= |s| ==> PxAt(s, key, j).None?
    ensures r.Some? ==> exists j :: i <= j <= |s| && PxAt(s, key, j) == r
    decreases |s| - i
  {
    match PxAt(s, key, i)
    case Some(v) => Some(v)
    case None => if i == |s| then None else FirstPx(s, key, i + 1)
  }

  /** The pixel number of the first `key: Npx` in an inline style. */
  function PxValue(style: string, key: string): Option<nat> {
    FirstPx(style, key, 0)
  }

  /** An inline `key: Npx` with `N` below `limit`. */
  predicate PxBelow(style: string, key: string, limit: nat) {
    PxValue(style, key).Some? && PxValue(style, key).value < limit
  }

  /** A match needs the key itself, so the analyzers' `'width:' in style`
      guard never decides anything on its own. */
  lemma PxNeedsKey(style: string, key: string)
    ensures PxValue(style, key).Some? ==> Contains(style, key)
  {
    if PxValue(style, key).Some? {
      var j :| 0 <= j <= |style| && PxAt(style, key, j) == PxValue(style, key);
      ContainsIff(style, key);
    }
  }

  /** A style that starts with `key`, a space and `N` pixels reads back `N`. */
  lemma PxRoundTrip(key: string, n: nat)
    ensures PxValue(key + " " + NatToString(n) + "px", key) == Some(n)
  {
    var ds := NatToString(n);
    var tail := " " + ds + "px";
    assert key + " " + ds + "px" == key + tail;
    PxTail(ds);
    PxAtOf(key, tail, ds);
    PxAtStart(key + tail, key, n);
  }

  lemma PxAtStart(s: string, key: string, v: nat)
    requires PxAt(s, key, 0) == Some(v)
    ensures PxValue(s, key) == Some(v)
  {
  }

  /** The text after the key: one space, the digits, `px`. */
  lemma PxTail(ds: string)
    requires ds != [] && forall i :: 0 <= i < |ds| ==> IsDigit(ds[i])
    ensures var tail := " " + ds + "px";
      && SpanLen(tail, IsSpace) == 1
      && SpanLen(tail[1..], IsDigit) == |ds|
      && tail[1..1 + |ds|] == ds
      && tail[1 + |ds|..] == "px"
  {
    var tail := " " + ds + "px";
    assert tail[1..] == ds + "px";
    assert !IsSpace(tail[1..][0]);
    DigitSpan(ds, "px");
  }

  /** The match at the start: the key, then a text of one space, the digits
      and `px`. */
  lemma PxAtOf(key: string, tail: string, ds: string)
    requires ds != [] && |tail| == |ds| + 3
    requires SpanLen(tail, IsSpace) == 1 && SpanLen(tail[1..], IsDigit) == |ds|
    requires tail[1..1 + |ds|] == ds && tail[1 + |ds|..] == "px"
    ensures PxAt(key + tail, key, 0) == Some(DigitsValue(ds))
  {
    PxShift(key, tail, ds);
    PxAtShape(key + tail, key, ds);
  }

  /** The facts about the text after the key, read in the whole style. */
  lemma PxShift(key: string, tail: string, ds: string)
    requires |tail| == |ds| + 3
    ensures var s := key + tail;
      && s[..|key|] == key
      && s[|key|..] == tail
      && s[|key| + 1..] == tail[1..]
      && s[|key| + 1..|key| + 1 + |ds|] == tail[1..1 + |ds|]
      && s[|key| + 1 + |ds|..|key| + 1 + |ds| + 2] == tail[1 + |ds|..]
  {
  }

  lemma PxAtShape(s: string, key: string, ds: string)
    requires OccursAt(s, key, 0)
    requires SpanLen(s[|key|..], IsSpace) == 1
    requires ds != [] && SpanLen(s[|key| + 1..], IsDigit) == |ds|
    requires |key| + 1 + |ds| <= |s| && s[|key| + 1..|key| + 1 + |ds|] == ds
    requires OccursAt(s, "px", |key| + 1 + |ds|)
    ensures PxAt(s, key, 0) == Some(DigitsValue(ds))
  {
    var b := |key| + 1;
    assert PxAt(s, key, 0) == PxDigits(s, b);
    assert b + |ds| == |key| + 1 + |ds|;
    PxDigitsOf(s, b, ds);
  }

  lemma PxDigitsOf(s: string, b: nat, ds: string)
    requires ds != [] && b <= |s| && SpanLen(s[b..], IsDigit) == |ds|
    requires b + |ds| <= |s| && s[b..b + |ds|] == ds
    requires OccursAt(s, "px", b + |ds|)
    ensures PxDigits(s, b) == Some(DigitsValue(ds))
  {
  }

  /** The digits of a number followed by a non-digit span exactly the
      number. */
  lemma {:induction false} DigitSpan(ds: string, rest: string)
    requires forall i :: 0 <= i < |ds| ==> IsDigit(ds[i])
    requires rest != [] && !IsDigit(rest[0])
    ensures SpanLen(ds + rest, IsDigit) == |ds|
  {
    if ds != [] {
      assert (ds + rest)[1..] == ds[1..] + rest;
      DigitSpan(ds[1..], rest);
    } else {
      assert ds + rest == rest;
    }
  }

  /* ------------------------------------------------------ touch targets */

  predicate IsTouchInput(x: Node) {
    HasTag(x, "input") && Attr(x, "type").Some? && Attr(x, "type").value in ["button", "submit", "checkbox", "radio"]
  }

  /** `links + buttons + inputs`. */
  function Targets(soup: Node): seq<Node> {
    FindAllTag(soup, "a") + FindAllTag(soup, "button") + FindAll(soup, IsTouchInput)
  }

  /** `element.get('style', '')`. */
  function Style(x: Node): string {
    Attr(x, "style").GetOr("")
  }

  predicate HasSmallClass(x: Node) {
    "btn-sm" in AttrTokens(x, "class") || "small" in AttrTokens(x, "class")
  }

  /** A small target of the modular analyzer: a small class, or an inline
      width or height under 40 pixels. */
  predicate IsSmallTarget(x: Node) {
    HasSmallClass(x) || PxBelow(Style(x), "width:", 40) || PxBelow(Style(x), "height:", 40)
  }

  /** The synchronous analyzer does not look at the height. */
  predicate IsSmallTargetLegacy(x: Node) {
    HasSmallClass(x) || PxBelow(Style(x), "width:", 40)
  }

  datatype TouchInfo = TouchInfo(total: nat, small: nat, adequate: bool)

  /** `small == 0 or small / max(1, total) < 0.1`. */
  function Adequate(small: nat, total: nat): (b: bool)
    ensures b <==> small == 0 || 10 * small < MaxNat(1, total)
  {
    DivCompare(small as real, MaxNat(1, total) as real, 0.1);
    small == 0 || (small as real) / (MaxNat(1, total) as real) < 0.1
  }

  /** The modular `_analyze_touch_targets`: sizing is adequate when under a
      tenth of the targets are small. */
  function TouchTargets(soup: Node): (r: TouchInfo)
    ensures r.total == |Targets(soup)| && r.small <= r.total
    ensures r.small == |Positions(Targets(soup), IsSmallTarget)|
    ensures r.small == 0 <==> forall x :: x in Targets(soup) ==> !IsSmallTarget(x)
    ensures r.adequate <==> r.small == 0 || 10 * r.small < MaxNat(1, r.total)
  {
    var targets := Targets(soup);
    var small := CountWhere(targets, IsSmallTarget);
    TouchInfo(|targets|, small, Adequate(small, |targets|))
  }

  /** The synchronous `_analyze_touch_targets`: any small target makes the
      sizing inadequate. */
  function LegacyTouchTargets(soup: Node): (r: TouchInfo)
    ensures r.total == |Targets(soup)| && r.small <= r.total
    ensures r.small == |Positions(Targets(soup), IsSmallTargetLegacy)|
    ensures r.small == 0 <==> forall x :: x in Targets(soup) ==> !IsSmallTargetLegacy(x)
    ensures r.adequate <==> r.small == 0
  {
    var targets := Targets(soup);
    var small := CountWhere(targets, IsSmallTargetLegacy);
    TouchInfo(|targets|, small, small == 0)
  }

  /** The synchronous analyzer never finds more small targets than the
      modular one. */
  lemma LegacyFindsFewerSmallTargets(soup: Node)
    ensures LegacyTouchTargets(soup).small <= TouchTargets(soup).small
    ensures LegacyTouchTargets(soup).total == TouchTargets(soup).total
  {
    FilterWeaker(Targets(soup), IsSmallTargetLegacy, IsSmallTarget);
  }

  /* --------------------------------------------------------- font sizes */

  predicate MentionsFontSize(style: string) {
    Contains(style, "font-size")
  }

  /** `find_all(style=re.compile(r'font-size'))`'s filter. */
  predicate HasFontSizeStyle(x: Node) {
    AttrMatches(x, "style", MentionsFontSize)
  }

  predicate HasSmallFont(x: Node) {
    PxBelow(Style(x), "font-size:", 12)
  }

  function FontStyled(soup: Node): seq<Node> {
    FindAll(soup, HasFontSizeStyle)
  }

  const SmallTextClasses: seq<string> := ["small", "text-xs", "text-sm", "fine-print"]

  /** `find_all(class_=re.compile(cls))`'s filter: some class token, or the
      whole class list, contains `cls`. */
  predicate ClassMentions(x: Node, cls: string) {
    AttrMatches(x, "class", (t: string) => Contains(t, cls))
  }

  function ClassMatches(soup: Node, cls: string): seq<Node> {
    FindAll(soup, (x: Node) => ClassMentions(x, cls))
  }

  /** The modular count: the matches of every pattern, added up, so an
      element matching two patterns counts twice. */
  function ClassCount(soup: Node, classes: seq<string>): (r: nat)
    ensures r == Sum(Map(classes, (c: string) => MatchCount(soup, c)))
    ensures r > 0 <==> exists i :: 0 <= i < |classes| && ClassMatches(soup, classes[i]) != []
  {
    if classes == [] then 0
    else
      var rest := ClassCount(soup, classes[1..]);
      assert forall i :: 1 <= i < |classes| ==> classes[i] == classes[1..][i - 1];
      assert Map(classes, (c: string) => MatchCount(soup, c))[1..] == Map(classes[1..], (c: string) => MatchCount(soup, c));
      |ClassMatches(soup, classes[0])| + rest
  }

  /** The number of elements one class pattern matches. */
  function MatchCount(soup: Node, cls: string): nat {
    |ClassMatches(soup, cls)|
  }

  /** `find_all(class_=[...])`'s filter: a class token, or the whole class
      list, equals one of the small-text classes. */
  predicate HasSmallTextClass(x: Node) {
    AttrIs(x, "class", "small") || AttrIs(x, "class", "text-xs")
    || AttrIs(x, "class", "text-sm") || AttrIs(x, "class", "fine-print")
  }

  datatype FontInfo = FontInfo(smallInline: nat, smallClass: nat, issues: bool)

  /** The modular `_analyze_font_sizes`. */
  function Fonts(soup: Node): (r: FontInfo)
    ensures r.issues <==> r.smallInline > 0 || r.smallClass > 0
    ensures r.smallInline == |Positions(FontStyled(soup), HasSmallFont)|
    ensures r.smallInline <= |FontStyled(soup)|
    ensures r.smallInline == 0 <==> forall x :: x in FontStyled(soup) ==> !HasSmallFont(x)
    ensures r.smallClass > 0 <==> exists i :: 0 <= i < |SmallTextClasses| && ClassMatches(soup, SmallTextClasses[i]) != []
  {
    var small := CountWhere(FontStyled(soup), HasSmallFont);
    var classes := ClassCount(soup, SmallTextClasses);
    FontInfo(small, classes, small > 0 || classes > 0)
  }

  /** The synchronous `_analyze_font_sizes`: each element with a small-text
      class counts once. */
  function LegacyFonts(soup: Node): (r: FontInfo)
    ensures r.issues <==> r.smallInline > 0 || r.smallClass > 0
    ensures r.smallInline == Fonts(soup).smallInline
    ensures r.smallClass == |FindAll(soup, HasSmallTextClass)|
    ensures r.smallClass == 0 <==> forall x :: x in Descendants(soup) ==> !HasSmallTextClass(x)
  {
    var small := CountWhere(FontStyled(soup), HasSmallFont);
    var classes := FindAll(soup, HasSmallTextClass);
    FindAllNone(soup, HasSmallTextClass);
    FontInfo(small, |classes|, small > 0 || |classes| > 0)
  }

  /* ---------------------------------------------- mobile-specific tags */

  datatype ElementsInfo = ElementsInfo(themeColor: bool, appleIcon: bool, manifest: bool, amp: bool, score: nat)

  /** The modular `_check_mobile_elements`: 25 points per tag present. */
  function MobileElements(soup: Node): (r: ElementsInfo)
    ensures r.themeColor <==> FindAll(soup, (x: Node) => IsMetaNamed(x, "theme-color")) != []
    ensures r.appleIcon <==> FindAll(soup, (x: Node) => IsLinkRel(x, "apple-touch-icon")) != []
    ensures r.manifest <==> FindAll(soup, (x: Node) => IsLinkRel(x, "manifest")) != []
    ensures r.amp <==> FindAll(soup, (x: Node) => IsLinkRel(x, "amphtml")) != []
    ensures r.score % 25 == 0 && r.score <= 100
    ensures r.score == 100 <==> r.themeColor && r.appleIcon && r.manifest && r.amp
    ensures r.score == 0 <==> !r.themeColor && !r.appleIcon && !r.manifest && !r.amp
  {
    var theme := Find(soup, (x: Node) => IsMetaNamed(x, "theme-color")).Some?;
    var apple := Find(soup, (x: Node) => IsLinkRel(x, "apple-touch-icon")).Some?;
    var manifest := Find(soup, (x: Node) => IsLinkRel(x, "manifest")).Some?;
    var amp := Find(soup, (x: Node) => IsLinkRel(x, "amphtml")).Some?;
    ElementsInfo(theme, apple, manifest, amp, ElementsScore(theme, apple, manifest, amp))
  }

  /** `sum([...]) * 25` over the four presence flags. */
  function ElementsScore(theme: bool, apple: bool, manifest: bool, amp: bool): (r: nat)
    ensures r % 25 == 0 && r <= 100
    ensures r == 100 <==> theme && apple && manifest && amp
    ensures r == 0 <==> !theme && !apple && !manifest && !amp
  {
    (Points(theme, 1) + Points(apple, 1) + Points(manifest, 1) + Points(amp, 1)) * 25
  }

  datatype LegacyElementsInfo = LegacyElementsInfo(themeColor: bool, appleIcon: bool)

  /** The synchronous `_check_mobile_elements` looks for two of the four
      tags and gives no score. */
  function LegacyMobileElements(soup: Node): (r: LegacyElementsInfo)
    ensures r.themeColor == MobileElements(soup).themeColor && r.appleIcon == MobileElements(soup).appleIcon
  {
    LegacyElementsInfo(
      Find(soup, (x: Node) => IsMetaNamed(x, "theme-color")).Some?,
      Find(soup, (x: Node) => IsLinkRel(x, "apple-touch-icon")).Some?)
  }

  /* -------------------------------------------------- responsive images */

  predicate IsImage(p: (Node, string)) {
    HasTag(p.0, "img")
  }

  /** The images with the names of their parents. */
  function Images(soup: Node): seq<(Node, string)> {
    Filter(Below(soup), IsImage)
  }

  /** These are exactly `find_all('img')`. */
  lemma ImagesAreFound(soup: Node)
    ensures Map(Images(soup), (p: (Node, string)) => p.0) == FindAllTag(soup, "img")
  {
    FilterMap(Below(soup), (p: (Node, string)) => p.0, (x: Node) => HasTag(x, "img"), IsImage);
  }

  /** `srcset`, `sizes` or a `<picture>` parent. */
  predicate IsResponsiveImage(p: (Node, string)) {
    HasAttr(p.0, "srcset") || HasAttr(p.0, "sizes") || p.1 == "picture"
  }

  /** `style.string`, when it is a non-empty string. */
  function StyleText(x: Node): Option<string> {
    if HasTag(x, "style") && TagString(x).Some? && TagString(x).value != [] then TagString(x) else None
  }

  predicate HasResponsiveBackground(x: Node) {
    StyleText(x).Some? && Contains(StyleText(x).value, "@media") && Contains(StyleText(x).value, "background")
  }

  datatype ImagesInfo = ImagesInfo(total: nat, responsive: nat, hasResponsive: bool, percentage: real)

  /** `round(part / max(1, total) * 100, 1)`: ten times the result is the
      integer nearest to `part * 1000 / max(1, total)`. */
  function RoundedShare(part: nat, total: nat): (r: real)
    requires part <= total
    ensures r * 10.0 == RoundHalfEven(part as real * 1000.0 / MaxNat(1, total) as real) as real
    ensures 0.0 <= r <= 100.0
    ensures part == 0 ==> r == 0.0
    ensures 0 < total && part == total ==> r == 100.0
  {
    var share := Percent(part, MaxNat(1, total));
    PercentTimesTen(part, MaxNat(1, total));
    RoundTenthsBetween(share);
    RoundTenthsWhole(0);
    RoundTenthsWhole(100);
    RoundTenths(share)
  }

  /** `_check_responsive_images`. */
  function ResponsiveImages(soup: Node): (r: ImagesInfo)
    ensures r.total == |Images(soup)| && r.responsive <= r.total
    ensures r.responsive == |Positions(Images(soup), IsResponsiveImage)|
    ensures r.percentage == RoundedShare(r.responsive, r.total)
    ensures r.responsive == 0 <==> forall p :: p in Images(soup) ==> !IsResponsiveImage(p)
    ensures r.hasResponsive <==> r.responsive > 0 || exists x :: x in Descendants(soup) && HasResponsiveBackground(x)
    ensures 0.0 <= r.percentage <= 100.0
    ensures r.responsive == 0 ==> r.percentage == 0.0
    ensures 0 < r.total && r.responsive == r.total ==> r.percentage == 100.0
  {
    var images := Images(soup);
    var responsive := CountWhere(images, IsResponsiveImage);
    var background := FindAll(soup, HasResponsiveBackground) != [];
    FindAllNone(soup, HasResponsiveBackground);
    ImagesInfo(|images|, responsive, responsive > 0 || background, RoundedShare(responsive, |images|))
  }

  /* ----------------------------------------------------- responsive CSS */

  /** `@media\s+([^{]+)` matches at `i`: after `@media` a white-space
      character and then a character other than `{`. */
  predicate MediaAt(s: string, i: nat) {
    i + 8 <= |s| && MediaWindow(s[i..i + 8])
  }

  /** The eight characters a match starts with: `@media`, a white-space
      character, a character other than `{`. */
  predicate MediaWindow(w: string)
    requires |w| == 8
  {
    w[..6] == "@media" && IsSpace(w[6]) && w[7] != '{'
  }

  predicate NotOpenBrace(c: char) {
    c != '{'
  }

  /** `len(re.findall(r'@media\s+([^{]+)', s[i:]))`: each match runs to the
      next `{`, and the search goes on from there. */
  function MediaCount(s: string, i: nat): (r: nat)
    requires i <= |s|
    decreases |s| - i
  {
    if i == |s| then 0
    else if MediaAt(s, i) then 1 + MediaCount(s, MediaEnd(s, i))
    else MediaCount(s, i + 1)
  }

  /** Some match is counted exactly when a match starts at or after `i`. */
  lemma {:induction false} MediaCountPositive(s: string, i: nat)
    requires i <= |s|
    ensures MediaCount(s, i) > 0 <==> exists j :: i <= j < |s| && MediaAt(s, j)
    decreases |s| - i
  {
    if i < |s| && !MediaAt(s, i) {
      MediaCountPositive(s, i + 1);
      if exists j :: i <= j < |s| && MediaAt(s, j) {
        var j :| i <= j < |s| && MediaAt(s, j);
        assert i + 1 <= j;
      }
    }
  }

  /** Where a match starting at `i` ends: at the next `{` or the end. */
  function MediaEnd(s: string, i: nat): (e: nat)
    requires MediaAt(s, i)
    ensures i + 7 <= e <= |s|
  {
    i + 7 + SpanLen(s[i + 7..], NotOpenBrace)
  }

  /** Some `@media` match starts inside `t`. */
  predicate HasMedia(t: string) {
    exists j :: 0 <= j < |t| && MediaAt(t, j)
  }

  /** A match never spans a `{`: the pieces of the text between braces
      each hold at most one counted match, and every piece holding a match
      start contributes exactly one. */
  lemma {:induction false} MediaCountPieces(s: string)
    ensures MediaCount(s, 0) == |Filter(SplitOn(s, "{"), HasMedia)|
    decreases |s|
  {
    var k := BraceFree(s);
    if k == |s| {
      MediaCountSegment(s, 0, |s|);
      assert SplitOn(s, "{") == [s];
      assert Filter([s], HasMedia) == (if HasMedia(s) then [s] else []);
    } else {
      MediaCountPieces(s[k + 1..]);
      MediaCountFirstPiece(s, k);
    }
  }

  /** The count over the first piece, then over the text after its brace. */
  lemma MediaCountFirstPiece(s: string, k: nat)
    requires k < |s| && s[k] == '{' && IndexOf(s, "{") == Some(k)
    requires forall j :: 0 <= j < k ==> s[j] != '{'
    requires MediaCount(s[k + 1..], 0) == |Filter(SplitOn(s[k + 1..], "{"), HasMedia)|
    ensures MediaCount(s, 0) == |Filter(SplitOn(s, "{"), HasMedia)|
  {
    var pieces := SplitOn(s[k + 1..], "{");
    MediaCountSegment(s, 0, k);
    MediaPrefix(s, k);
    MediaCountShift(s, k + 1, 0);
    assert SplitOn(s, "{") == [s[..k]] + pieces;
    FilterAppend([s[..k]], pieces, HasMedia);
    assert Filter([s[..k]], HasMedia) == (if HasMedia(s[..k]) then [s[..k]] else []);
  }

  /** The first brace of `s`, or `|s|` when there is none, and what
      `IndexOf` reports for it. */
  lemma BraceFree(s: string) returns (k: nat)
    ensures k <= |s| && forall j :: 0 <= j < k ==> s[j] != '{'
    ensures k < |s| ==> s[k] == '{' && IndexOf(s, "{") == Some(k)
    ensures k == |s| ==> IndexOf(s, "{").None?
  {
    match IndexOf(s, "{")
    case None =>
      k := |s|;
      forall j | 0 <= j < |s|
        ensures s[j] != '{'
      {
        assert !OccursAt(s, "{", j);
        assert s[j..j + 1] == [s[j]];
      }
    case Some(i) =>
      k := i;
      assert s[k..k + 1] == "{";
      forall j | 0 <= j < k
        ensures s[j] != '{'
      {
        assert !OccursAt(s, "{", j);
        assert s[j..j + 1] == [s[j]];
      }
  }

  /** Counting from position `i + m` of `s` is counting from `m` in the
      suffix starting at `i`. */
  lemma {:induction false} MediaCountShift(s: string, i: nat, m: nat)
    requires i + m <= |s|
    ensures MediaCount(s, i + m) == MediaCount(s[i..], m)
    decreases |s| - (i + m)
  {
    var t := s[i..];
    if i + m < |s| {
      MediaAtShift(s, i, m);
      if MediaAt(s, i + m) {
        assert s[i + m + 7..] == t[m + 7..];
        assert MediaEnd(s, i + m) == i + MediaEnd(t, m);
        MediaCountShift(s, i, MediaEnd(t, m));
        MediaCountAt(s, i + m);
        MediaCountAt(t, m);
      } else {
        MediaCountShift(s, i, m + 1);
        MediaCountSkip(s, i + m);
        MediaCountSkip(t, m);
      }
    }
  }

  lemma MediaCountAt(s: string, i: nat)
    requires i < |s| && MediaAt(s, i)
    ensures MediaCount(s, i) == 1 + MediaCount(s, MediaEnd(s, i))
  {
  }

  lemma MediaCountSkip(s: string, i: nat)
    requires i < |s| && !MediaAt(s, i)
    ensures MediaCount(s, i) == MediaCount(s, i + 1)
  {
  }

  lemma MediaAtShift(s: string, i: nat, m: nat)
    requires i + m < |s|
    ensures MediaAt(s, i + m) <==> MediaAt(s[i..], m)
  {
    if i + m + 8 <= |s| {
      assert s[i + m..i + m + 8] == s[i..][m..m + 8];
    }
  }

  /** The characters of a match start are never braces. */
  lemma MediaAtNoBrace(s: string, j: nat, q: nat)
    requires MediaAt(s, j) && j <= q <= j + 7
    ensures s[q] != '{'
  {
    var w := s[j..j + 8];
    assert w[q - j] == s[q];
    if q < j + 6 {
      assert w[..6][q - j] == w[q - j];
    }
  }

  /** From a position inside a brace-free stretch ending at `k` (a brace or
      the end), the scan counts one match if a match starts in the stretch
      and then goes on after the brace. */
  lemma {:induction false} MediaCountSegment(s: string, i: nat, k: nat)
    requires i <= k <= |s|
    requires forall j :: i <= j < k ==> s[j] != '{'
    requires k < |s| ==> s[k] == '{'
    ensures MediaCount(s, i) ==
      (if exists j :: i <= j < k && MediaAt(s, j) then 1 else 0) + (if k < |s| then MediaCount(s, k + 1) else 0)
    decreases k - i
  {
    if i == |s| {
    } else if i == k {
      assert !MediaAt(s, i) by {
        if MediaAt(s, i) {
          MediaAtNoBrace(s, i, i);
        }
      }
    } else if MediaAt(s, i) {
      MediaCountAt(s, i);
      if k <= i + 7 {
        MediaAtNoBrace(s, i, k);
      }
      var tail := s[i + 7..];
      assert forall q :: 0 <= q < k - (i + 7) ==> NotOpenBrace(tail[q]);
      SpanLenExact(tail, NotOpenBrace, k - (i + 7));
      assert !(k < |s|) || !NotOpenBrace(s[k]);
      if k < |s| {
        assert !MediaAt(s, k) by {
          if MediaAt(s, k) {
            MediaAtNoBrace(s, k, k);
          }
        }
      }
    } else {
      MediaCountSkip(s, i);
      MediaCountSegment(s, i + 1, k);
    }
  }

  /** A match start before the first brace lies wholly before it. */
  lemma MediaPrefix(s: string, k: nat)
    requires k < |s| && s[k] == '{'
    ensures HasMedia(s[..k]) <==> exists j :: 0 <= j < k && MediaAt(s, j)
  {
    if exists j :: 0 <= j < k && MediaAt(s, j) {
      var j :| 0 <= j < k && MediaAt(s, j);
      if k <= j + 7 {
        MediaAtNoBrace(s, j, k);
      }
      assert s[..k][j..j + 8] == s[j..j + 8];
      assert MediaAt(s[..k], j);
    }
    if HasMedia(s[..k]) {
      var j :| 0 <= j < k && MediaAt(s[..k], j);
      assert s[..k][j..j + 8] == s[j..j + 8];
      assert MediaAt(s, j);
    }
  }

  /** The texts of the `<style>` blocks with a non-empty string. */
  function StyleTexts(soup: Node): (r: seq<string>)
    ensures forall t :: t in r ==> t != []
  {
    Map(FindAll(soup, (x: Node) => StyleText(x).Some?), (x: Node) => StyleText(x).GetOr(" "))
  }

  function QueryCounts(texts: seq<string>): (r: seq<nat>)
    ensures |r| == |texts|
    ensures forall i :: 0 <= i < |texts| ==> r[i] == MediaCount(texts[i], 0)
  {
    Map(texts, (t: string) => MediaCount(t, 0))
  }

  /** `col-\w+-\d+`. */
  predicate BootstrapClass(t: string) {
    exists j :: 0 <= j < |t| && OccursAt(t, "col-", j) && BootstrapRestAt(t, j + 4)
  }

  /** `\w+-\d+` at `k`: the word run must be followed by `-` and a digit. */
  predicate BootstrapRestAt(t: string, k: nat) {
    k <= |t| &&
    var n := SpanLen(t[k..], IsWordChar);
    0 < n && k + n + 1 < |t| && t[k + n] == '-' && IsDigit(t[k + n + 1])
  }

  /** `name-\d+` somewhere in `t`. */
  predicate NumberedAt(t: string, name: string, j: int) {
    OccursAt(t, name + "-", j) && j + |name| + 1 < |t| && IsDigit(t[j + |name| + 1])
  }

  /** `small-\d+|medium-\d+|large-\d+`. */
  predicate FoundationClass(t: string) {
    exists j :: 0 <= j < |t| && (NumberedAt(t, "small", j) || NumberedAt(t, "medium", j) || NumberedAt(t, "large", j))
  }

  /** `sm:|md:|lg:|xl:|2xl:`. */
  predicate TailwindClass(t: string) {
    Contains(t, "sm:") || Contains(t, "md:") || Contains(t, "lg:") || Contains(t, "xl:") || Contains(t, "2xl:")
  }

  datatype Framework = Bootstrap | Foundation | Tailwind

  function UsesFramework(soup: Node, f: Framework): bool {
    match f
    case Bootstrap => FindAll(soup, (x: Node) => AttrMatches(x, "class", BootstrapClass)) != []
    case Foundation => FindAll(soup, (x: Node) => AttrMatches(x, "class", FoundationClass)) != []
    case Tailwind => FindAll(soup, (x: Node) => AttrMatches(x, "class", TailwindClass)) != []
  }

  datatype CssInfo = CssInfo(hasMediaQueries: bool, mediaQueries: nat, hasFramework: bool, frameworks: seq<Framework>)

  /** The media queries of all style texts together. */
  function MediaQueries(texts: seq<string>): (r: nat)
    ensures r > 0 <==> exists t, j :: t in texts && 0 <= j < |t| && MediaAt(t, j)
  {
    var counts := QueryCounts(texts);
    SumPositive(counts);
    forall k | 0 <= k < |texts| {
      MediaCountPositive(texts[k], 0);
    }
    assert Sum(counts) > 0 ==> exists t, j :: t in texts && 0 <= j < |t| && MediaAt(t, j) by {
      if Sum(counts) > 0 {
        var i :| 0 <= i < |counts| && counts[i] > 0;
        assert texts[i] in texts;
      }
    }
    assert (exists t, j :: t in texts && 0 <= j < |t| && MediaAt(t, j)) ==> Sum(counts) > 0 by {
      if exists t, j :: t in texts && 0 <= j < |t| && MediaAt(t, j) {
        var t, j :| t in texts && 0 <= j < |t| && MediaAt(t, j);
        var i :| 0 <= i < |texts| && texts[i] == t;
        assert counts[i] > 0;
      }
    }
    Sum(counts)
  }

  /** The total adds, text by text, the pieces between braces that hold a
      match. */
  lemma MediaQueriesCons(t: string, rest: seq<string>)
    ensures MediaQueries([t] + rest) == |Filter(SplitOn(t, "{"), HasMedia)| + MediaQueries(rest)
  {
    var texts := [t] + rest;
    assert texts[1..] == rest;
    assert QueryCounts(texts)[1..] == QueryCounts(rest);
    MediaCountPieces(t);
  }

  /** The detected frameworks in the order bootstrap, foundation, tailwind. */
  function Frameworks(soup: Node): (r: seq<Framework>)
    ensures Bootstrap in r <==> UsesFramework(soup, Bootstrap)
    ensures Foundation in r <==> UsesFramework(soup, Foundation)
    ensures Tailwind in r <==> UsesFramework(soup, Tailwind)
    ensures NoDuplicates(r)
  {
    var all := [Bootstrap, Foundation, Tailwind];
    FilterNoDuplicates(all, (f: Framework) => UsesFramework(soup, f));
    Filter(all, (f: Framework) => UsesFramework(soup, f))
  }

  /** `_check_responsive_css`. */
  function ResponsiveCss(soup: Node): (r: CssInfo)
    ensures r.hasMediaQueries <==> r.mediaQueries > 0 || r.hasFramework
    ensures r.mediaQueries == MediaQueries(StyleTexts(soup))
    ensures r.mediaQueries > 0 <==> exists t, j :: t in StyleTexts(soup) && 0 <= j < |t| && MediaAt(t, j)
    ensures r.hasFramework <==> r.frameworks != []
    ensures Bootstrap in r.frameworks <==> UsesFramework(soup, Bootstrap)
    ensures Foundation in r.frameworks <==> UsesFramework(soup, Foundation)
    ensures Tailwind in r.frameworks <==> UsesFramework(soup, Tailwind)
    ensures NoDuplicates(r.frameworks)
  {
    var count := MediaQueries(StyleTexts(soup));
    var frameworks := Frameworks(soup);
    CssInfo(count > 0 || frameworks != [], count, frameworks != [], frameworks)
  }

  /* ----------------------------------------------------------- analysis */

  /** The viewport and touch advice, in the analyzer's order. */
  function LayoutAdvice(viewport: bool, responsive: bool, adequate: bool): (r: seq<Msg>)
    ensures AddViewport in r <==> !viewport
    ensures MakeViewportResponsive in r <==> !responsive
    ensures EnlargeTouchTargets in r <==> !adequate
    ensures CheckFontSizes !in r && UseResponsiveImages !in r && AddMediaQueries !in r
    ensures !viewport && !responsive ==> |r| >= 2 && r[0] == AddViewport && r[1] == MakeViewportResponsive
  {
    (if !viewport then [AddViewport] else [])
    + (if !responsive then [MakeViewportResponsive] else [])
    + (if !adequate then [EnlargeTouchTargets] else [])
  }

  /** The font, image and CSS advice, in the analyzer's order. */
  function StyleAdvice(fontIssues: bool, responsiveImages: bool, images: nat, mediaQueries: bool): (r: seq<Msg>)
    ensures CheckFontSizes in r <==> fontIssues
    ensures UseResponsiveImages in r <==> !responsiveImages && images > 0
    ensures AddMediaQueries in r <==> !mediaQueries
    ensures AddViewport !in r && MakeViewportResponsive !in r && EnlargeTouchTargets !in r
  {
    (if fontIssues then [CheckFontSizes] else [])
    + (if !responsiveImages && images > 0 then [UseResponsiveImages] else [])
    + (if !mediaQueries then [AddMediaQueries] else [])
  }

  /** The modular recommendations: the layout advice, then the style
      advice. */
  function MobileRecommendations(viewport: bool, responsive: bool, adequate: bool, fontIssues: bool,
    responsiveImages: bool, images: nat, mediaQueries: bool): (r: seq<Msg>)
    ensures AddViewport in r <==> !viewport
    ensures MakeViewportResponsive in r <==> !responsive
    ensures EnlargeTouchTargets in r <==> !adequate
    ensures CheckFontSizes in r <==> fontIssues
    ensures UseResponsiveImages in r <==> !responsiveImages && images > 0
    ensures AddMediaQueries in r <==> !mediaQueries
  {
    LayoutAdvice(viewport, responsive, adequate) + StyleAdvice(fontIssues, responsiveImages, images, mediaQueries)
  }

  /** The weighted modular score. */
  function MobileScore(responsive: bool, adequate: bool, fontIssues: bool, responsiveImages: bool, mediaQueries: bool): (r: nat)
    ensures r <= 100
    ensures r == 100 <==> responsive && adequate && !fontIssues && responsiveImages && mediaQueries
    ensures r == 0 <==> !responsive && !adequate && fontIssues && !responsiveImages && !mediaQueries
  {
    Points(responsive, 30) + Points(adequate, 20) + Points(!fontIssues, 15) + Points(responsiveImages, 15) + Points(mediaQueries, 20)
  }

  datatype MobileReport = MobileReport(
    viewport: ViewportInfo,
    touchTargets: TouchInfo,
    fonts: FontInfo,
    elements: ElementsInfo,
    images: ImagesInfo,
    css: CssInfo,
    mobileScore: nat,
    recommendations: seq<Msg>)

  /** `MobileAnalyzer.analyze` of the modular package. */
  function Analyze(soup: Node): (r: MobileReport)
    ensures r.mobileScore <= 100
    ensures r.recommendations == [] <==> r.mobileScore == 100 || (r.mobileScore == 85 && !r.images.hasResponsive && r.images.total == 0)
  {
    var viewport := Viewport(soup);
    var touch := TouchTargets(soup);
    var fonts := Fonts(soup);
    var images := ResponsiveImages(soup);
    var css := ResponsiveCss(soup);
    MobileReport(viewport, touch, fonts, MobileElements(soup), images, css,
      MobileScore(viewport.isResponsive, touch.adequate, fonts.issues, images.hasResponsive, css.hasMediaQueries),
      MobileRecommendations(viewport.hasViewport, viewport.isResponsive, touch.adequate, fonts.issues,
        images.hasResponsive, images.total, css.hasMediaQueries))
  }

  /** The report's parts are the page's checks, and its score is 100 exactly
      when the viewport is responsive, the touch targets are adequate, no
      font is too small, some image is responsive and the styles or a
      framework react to the screen size. */
  lemma AnalyzeFields(soup: Node)
    ensures var r := Analyze(soup);
      && r.viewport == Viewport(soup) && r.touchTargets == TouchTargets(soup) && r.fonts == Fonts(soup)
      && r.elements == MobileElements(soup) && r.images == ResponsiveImages(soup) && r.css == ResponsiveCss(soup)
      && (r.mobileScore == 100 <==> (r.viewport.isResponsive && r.touchTargets.adequate && !r.fonts.issues && r.images.hasResponsive && r.css.hasMediaQueries))
  {
    var viewport := Viewport(soup);
    var touch := TouchTargets(soup);
    var fonts := Fonts(soup);
    var images := ResponsiveImages(soup);
    var css := ResponsiveCss(soup);
    var score := MobileScore(viewport.isResponsive, touch.adequate, fonts.issues, images.hasResponsive, css.hasMediaQueries);
    assert Analyze(soup).mobileScore == score;
  }

  /** A page without a viewport tag is told both to add one and to make it
      responsive, in that order, before anything else. */
  lemma MissingViewportRecommendations(soup: Node)
    requires FindAll(soup, IsViewportMeta) == []
    ensures var r := Analyze(soup).recommendations;
      |r| >= 2 && r[0] == AddViewport && r[1] == MakeViewportResponsive
  {
    var layout := LayoutAdvice(false, false, TouchTargets(soup).adequate);
    var style := StyleAdvice(Fonts(soup).issues, ResponsiveImages(soup).hasResponsive, ResponsiveImages(soup).total,
      ResponsiveCss(soup).hasMediaQueries);
    assert Analyze(soup).recommendations == layout + style;
  }

  /** The responsive-image advice needs at least one image. */
  lemma ResponsiveImagesAdviceNeedsImages(soup: Node)
    ensures UseResponsiveImages in Analyze(soup).recommendations ==> |FindAllTag(soup, "img")| > 0
  {
    ImagesAreFound(soup);
  }

  /* -------------------------------------------- the synchronous analyzer */

  /** The synchronous recommendations, in its order. */
  function LegacyMobileRecommendations(viewport: bool, adequate: bool, fontIssues: bool): (r: seq<Msg>)
    ensures |r| <= 3
    ensures AddViewport in r <==> !viewport
    ensures EnlargeTouchTargets in r <==> !adequate
    ensures CheckFontSizes in r <==> fontIssues
  {
    (if !viewport then [AddViewport] else [])
    + (if !adequate then [EnlargeTouchTargets] else [])
    + (if fontIssues then [CheckFontSizes] else [])
  }

  /** The subtractive synchronous score. */
  function LegacyMobileScore(viewport: bool, adequate: bool, fontIssues: bool): (r: int)
    ensures 0 <= r <= 100
    ensures r == 100 <==> viewport && adequate && !fontIssues
    ensures r == 0 <==> !viewport && !adequate && fontIssues
  {
    100 - Points(!viewport, 40) - Points(!adequate, 30) - Points(fontIssues, 30)
  }

  datatype LegacyMobileReport = LegacyMobileReport(
    viewport: ViewportInfo,
    touchTargets: TouchInfo,
    fonts: FontInfo,
    elements: LegacyElementsInfo,
    mobileScore: int,
    recommendations: seq<Msg>)

  /** `MobileAnalyzer.analyze` of the synchronous layer. */
  function LegacyAnalyze(soup: Node): (r: LegacyMobileReport)
    ensures 0 <= r.mobileScore <= 100
    ensures r.mobileScore == 100 <==> r.recommendations == []
  {
    var viewport := LegacyViewport(soup);
    var touch := LegacyTouchTargets(soup);
    var fonts := LegacyFonts(soup);
    LegacyMobileReport(viewport, touch, fonts, LegacyMobileElements(soup),
      LegacyMobileScore(viewport.hasViewport, touch.adequate, fonts.issues),
      LegacyMobileRecommendations(viewport.hasViewport, touch.adequate, fonts.issues))
  }

  /** Each synchronous recommendation costs a fixed share of the score:
      40 for the viewport, 30 for touch targets, 30 for fonts. */
  lemma LegacyScoreDeductions(soup: Node)
    ensures var r := LegacyAnalyze(soup);
      r.mobileScore == 100 - (if AddViewport in r.recommendations then 40 else 0)
        - (if EnlargeTouchTargets in r.recommendations then 30 else 0)
        - (if CheckFontSizes in r.recommendations then 30 else 0)
  {
  }
}

=== FILE: numeric.dfy ===
/** Python's built-in `round` on exact reals: `round(x)` rounds half to even,
    `round(x, 1)` does the same at one decimal. Binary floating-point
    representation error is not modelled. */
module Numeric {

  /** `round(x)`: the nearest integer, ties going to the even one. */
  function RoundHalfEven(x: real): (r: int)
    ensures x - 0.5 <= r as real <= x + 0.5
    ensures (r as real == x - 0.5 || r as real == x + 0.5) ==> r % 2 == 0
  {
    var f := x.Floor;
    var d := x - f as real;
    if d < 0.5 then f
    else if d > 0.5 then f + 1
    else if f % 2 == 0 then f
    else f + 1
  }

  /** The two conditions above pin the result down: any integer within half
      of `x` that is even on a tie is the rounded value. */
  lemma RoundHalfEvenUnique(x: real, n: int)
    requires x - 0.5 <= n as real <= x + 0.5
    requires (n as real == x - 0.5 || n as real == x + 0.5) ==> n % 2 == 0
    ensures RoundHalfEven(x) == n
  {
  }

  lemma RoundHalfEvenMonotone(x: real, y: real)
    requires x <= y
    ensures RoundHalfEven(x) <= RoundHalfEven(y)
  {
  }

  /** `round(x, 1)`: ten times the result is the integer nearest to ten
      times `x`, ties going to the even one. */
  function RoundTenths(x: real): (r: real)
    ensures r * 10.0 == RoundHalfEven(x * 10.0) as real
    ensures x - 0.05 <= r <= x + 0.05
  {
    RoundHalfEven(x * 10.0) as real / 10.0
  }

  /** A whole number keeps its value under `round(x, 1)`. */
  lemma RoundTenthsWhole(k: int)
    ensures RoundTenths(k as real) == k as real
  {
    RoundHalfEvenUnique(k as real * 10.0, k * 10);
  }

  /** `round(x, 2)`: a hundred times the result is the integer nearest to a
      hundred times `x`, ties going to the even one. */
  function RoundHundredths(x: real): (r: real)
    ensures r * 100.0 == RoundHalfEven(x * 100.0) as real
    ensures x - 0.005 <= r <= x + 0.005
  {
    RoundHalfEven(x * 100.0) as real / 100.0
  }

  /** Rounding keeps a value between two integers between them. */
  lemma RoundHalfEvenBetween(x: real, lo: int, hi: int)
    requires lo as real <= x <= hi as real
    ensures lo <= RoundHalfEven(x) <= hi
  {
    RoundHalfEvenMonotone(lo as real, x);
    RoundHalfEvenMonotone(x, hi as real);
    RoundHalfEvenUnique(lo as real, lo);
    RoundHalfEvenUnique(hi as real, hi);
  }

  /** An integer bound below or above a value bounds its rounding too. */
  lemma RoundBounds(x: real, k: int)
    ensures k as real <= x ==> k <= RoundHalfEven(x)
    ensures x <= k as real ==> RoundHalfEven(x) <= k
  {
    RoundHalfEvenUnique(k as real, k);
    if k as real <= x {
      RoundHalfEvenMonotone(k as real, x);
    }
    if x <= k as real {
      RoundHalfEvenMonotone(x, k as real);
    }
  }

  /** A value rounds below an even integer `k` exactly when it lies below
      `k - 0.5`: the tie at `k - 0.5` goes up to the even `k`. */
  lemma RoundBelowEven(x: real, k: int)
    requires k % 2 == 0
    ensures RoundHalfEven(x) < k <==> x < k as real - 0.5
  {
  }

  /** `round(x, 1)` of a value in `[0, 100]` stays in `[0, 100]`. */
  lemma RoundTenthsBetween(x: real)
    requires 0.0 <= x <= 100.0
    ensures 0.0 <= RoundTenths(x) <= 100.0
  {
    RoundHalfEvenBetween(x * 10.0, 0, 1000);
  }

  /** `round(x, 1)` never reverses an order. */
  lemma RoundTenthsMonotone(x: real, y: real)
    requires x <= y
    ensures RoundTenths(x) <= RoundTenths(y)
  {
    RoundHalfEvenMonotone(x * 10.0, y * 10.0);
  }

  /** `round(x, 2)` of a value in `[0, 1]` stays in `[0, 1]`. */
  lemma RoundHundredthsBetween(x: real)
    requires 0.0 <= x <= 1.0
    ensures 0.0 <= RoundHundredths(x) <= 1.0
  {
    RoundHalfEvenBetween(x * 100.0, 0, 100);
  }

  /** A percentage `part / whole * 100` for a non-zero whole. */
  function Percent(part: nat, whole: nat): (r: real)
    requires whole > 0
    ensures r * whole as real == part as real * 100.0
    ensures r >= 0.0
    ensures part <= whole ==> r <= 100.0
    ensures part == 0 ==> r == 0.0
    ensures part == whole ==> r == 100.0
  {
    DivCompare(part as real, whole as real, 1.0);
    part as real / whole as real * 100.0
  }

  /** Comparing a quotient with a bound is comparing the dividend with the
      bound times the (positive) divisor. */
  lemma DivCompare(a: real, d: real, k: real)
    requires d > 0.0
    ensures a / d >= k <==> a >= k * d
    ensures a / d > k <==> a > k * d
    ensures a / d * d == a
  {
    var q := a / d;
    assert q * d == a;
    if q >= k {
      ProductAtLeast(q, k, d, a);
    } else {
      ProductBelow(q, k, d, a);
    }
    if q > k {
      ProductAbove(q, k, d, a);
    } else {
      ProductAtMost(q, k, d, a);
    }
  }

  /** The quotient is the one value that multiplies back to the dividend. */
  lemma DivUnique(x: real, a: real, d: real)
    requires d > 0.0 && x * d == a
    ensures x == a / d
  {
  }

  /** Ten times a percentage is the part times 1000 over the whole. */
  lemma PercentTimesTen(part: nat, whole: nat)
    requires whole > 0
    ensures Percent(part, whole) * 10.0 == part as real * 1000.0 / whole as real
  {
    var q, w := Percent(part, whole), whole as real;
    assert (q * 10.0) * w == (q * w) * 10.0;
    DivUnique(q * 10.0, part as real * 1000.0, w);
  }

  /* The four ways a product `q * d` compares with `k * d`. */
  lemma ProductBelow(q: real, k: real, d: real, a: real)
    requires q < k && d > 0.0 && q * d == a
    ensures a < k * d
  {
  }
  lemma ProductAtLeast(q: real, k: real, d: real, a: real)
    requires k <= q && d >= 0.0 && q * d == a
    ensures k * d <= a
  {
  }
  lemma ProductAbove(q: real, k: real, d: real, a: real)
    requires k < q && d > 0.0 && q * d == a
    ensures k * d < a
  {
  }
  lemma ProductAtMost(q: real, k: real, d: real, a: real)
    requires q <= k && d >= 0.0 && q * d == a
    ensures a <= k * d
  {
  }

  /** A larger part is a larger percentage of the same whole. */
  lemma PercentMonotone(a: nat, b: nat, whole: nat)
    requires whole > 0 && a <= b
    ensures Percent(a, whole) <= Percent(b, whole)
  {
    var qa, qb := a as real / whole as real, b as real / whole as real;
    DivCompare(b as real, whole as real, qa);
    ProductAtMost(qa, qb, 100.0, qa * 100.0);
    ProductAtLeast(qb, qa, 100.0, qb * 100.0);
  }

  /** `True * w` in a Python sum. */
  function Points(b: bool, w: nat): nat {
    if b then w else 0
  }

  function MinReal(a: real, b: real): real {
    if a <= b then a else b
  }

  function MaxNat(a: nat, b: nat): nat {
    if a >= b then a else b
  }
}

=== FILE: page_rules.dfy ===
/** The page-level facts and rules shared by the request handler of
    `app.py` and the synchronous `legacy_analyze_seo` of
    `app/services/analyzer.py`: title, description and keywords with their
    sentinels, the heading texts, images without `alt`, the internal and
    external link counts, the five recommendation rules, and the reading of
    a PageSpeed result. */
module PageRules {
  import opened Wrappers
  import opened Seqs
  import opened Strings
  import opened Dom
  import opened Recs
  import Urls
  import MetaAnalysis

  /** The title used when the page has no `<title>`. */
  const TitleNotFound: string := "Заголовок не найден"

  /** The keywords used when the page has no keywords meta tag. */
  const KeywordsNotFound: string := "Ключевые слова не найдены"

  /* ------------------------------------------------------------ fields */

  /** `soup.title.string if soup.title else "Заголовок не найден"`: `None`
      stands for a title element without a single string. */
  function PageTitle(soup: Node): (r: Option<string>)
    ensures FindTag(soup, "title").None? ==> r == Some(TitleNotFound)
    ensures FindTag(soup, "title").Some? ==> r == TagString(FindTag(soup, "title").value)
  {
    match FindTag(soup, "title")
    case None => Some(TitleNotFound)
    case Some(t) => TagString(t)
  }

  /** The meta description's `content` when the tag has one (even empty),
      otherwise the stripped texts of the first two paragraphs joined by one
      space (empty without paragraphs). */
  function PageDescription(soup: Node): (r: string)
    ensures MetaAnalysis.ContentOf(MetaAnalysis.FindMeta(soup, "name", "description")).Some? ==>
      r == MetaAnalysis.ContentOf(MetaAnalysis.FindMeta(soup, "name", "description")).value
    ensures MetaAnalysis.ContentOf(MetaAnalysis.FindMeta(soup, "name", "description")).None? && FindAllTag(soup, "p") == [] ==>
      r == ""
    ensures MetaAnalysis.ContentOf(MetaAnalysis.FindMeta(soup, "name", "description")).None? && |FindAllTag(soup, "p")| == 1 ==>
      r == MetaAnalysis.ParagraphText(FindAllTag(soup, "p")[0])
    ensures MetaAnalysis.ContentOf(MetaAnalysis.FindMeta(soup, "name", "description")).None? && |FindAllTag(soup, "p")| >= 2 ==>
      r == MetaAnalysis.ParagraphText(FindAllTag(soup, "p")[0]) + " " + MetaAnalysis.ParagraphText(FindAllTag(soup, "p")[1])
  {
    match MetaAnalysis.ContentOf(MetaAnalysis.FindMeta(soup, "name", "description"))
    case Some(c) => c
    case None => MetaAnalysis.ParagraphsText(FindAllTag(soup, "p")).GetOr("")
  }

  /** The keywords meta tag's `content`, or the sentinel. */
  function PageKeywords(soup: Node): (r: string)
    ensures MetaAnalysis.ContentOf(MetaAnalysis.FindMeta(soup, "name", "keywords")).None? ==> r == KeywordsNotFound
    ensures MetaAnalysis.ContentOf(MetaAnalysis.FindMeta(soup, "name", "keywords")).Some? ==>
      r == MetaAnalysis.ContentOf(MetaAnalysis.FindMeta(soup, "name", "keywords")).value
  {
    MetaAnalysis.ContentOf(MetaAnalysis.FindMeta(soup, "name", "keywords")).GetOr(KeywordsNotFound)
  }

  /** `[h.get_text(strip=True) for h in soup.find_all(tag)]`. */
  function HeadingTexts(soup: Node, tag: string): (r: seq<string>)
    ensures |r| == |FindAllTag(soup, tag)|
    ensures forall i :: 0 <= i < |r| ==> r[i] == GetText(FindAllTag(soup, tag)[i], "", true)
  {
    Map(FindAllTag(soup, tag), (h: Node) => GetText(h, "", true))
  }

  /** `not img.get('alt')`: no `alt`, or an empty one. */
  predicate LacksAlt(img: Node) {
    Attr(img, "alt").GetOr("") == ""
  }

  /** The number of images without a usable `alt`. */
  function ImagesWithoutAltCount(soup: Node): (r: nat)
    ensures r == |Positions(FindAllTag(soup, "img"), LacksAlt)|
    ensures r <= |FindAllTag(soup, "img")|
    ensures r == 0 <==> forall x :: x in FindAllTag(soup, "img") ==> !LacksAlt(x)
  {
    CountWhere(FindAllTag(soup, "img"), LacksAlt)
  }

  /* ------------------------------------------------------------- links */

  predicate IsRootRelative(href: string) {
    StartsWith(href, "/")
  }

  /** An href not starting with '/' whose `urlparse(...).netloc` is
      non-empty. */
  predicate IsExternalHref(href: string) {
    !IsRootRelative(href) && Urls.Netloc(href).Success? && Urls.Netloc(href).value != ""
  }

  /** An href the external-link test reaches and `urlparse` rejects. */
  predicate Unparsable(href: string) {
    !IsRootRelative(href) && Urls.Netloc(href).Failure?
  }

  /** The number of hrefs starting with '/'. */
  function InternalCount(hrefs: seq<string>): (r: nat)
    ensures r == |Positions(hrefs, IsRootRelative)|
    ensures r <= |hrefs|
  {
    CountWhere(hrefs, IsRootRelative)
  }

  /** The number of elements meeting `counts`, computed in order, or
      `fault` at the first element meeting `fails`. */
  function CountUnlessFails<T>(s: seq<T>, fails: T -> bool, counts: T -> bool, fault: Fault): (r: Result<nat, Fault>)
    ensures r.Failure? <==> exists i :: 0 <= i < |s| && fails(s[i])
    ensures r.Failure? ==> r.error == fault
    ensures r.Success? ==> r.value == |Filter(s, counts)| == |Positions(s, counts)|
  {
    FilterCard(s, counts);
    if s == [] then Success(0)
    else if fails(s[0]) then Failure(fault)
    else
      var rest := CountUnlessFails(s[1..], fails, counts, fault);
      assert forall i :: 1 <= i < |s| ==> s[i] == s[1..][i - 1];
      match rest
      case Failure(e) => Failure(e)
      case Success(n) => Success(n + (if counts(s[0]) then 1 else 0))
  }

  /** The number of external hrefs, or the failure of the first href
      `urlparse` rejects (an unbalanced IPv6 bracket). */
  function ExternalCount(hrefs: seq<string>): (r: Result<nat, Fault>)
    ensures r.Failure? <==> exists i :: 0 <= i < |hrefs| && Unparsable(hrefs[i])
    ensures r.Success? ==> r.value == |Filter(hrefs, IsExternalHref)| == |Positions(hrefs, IsExternalHref)|
  {
    CountUnlessFails(hrefs, Unparsable, IsExternalHref, InvalidIPv6Url)
  }

  /** No href is both internal and external, so the two counts never
      exceed the number of links together; a bare relative href (neither
      starting with '/' nor naming a host) is in neither. */
  lemma LinkCountsDisjoint(hrefs: seq<string>)
    requires ExternalCount(hrefs).Success?
    ensures InternalCount(hrefs) + ExternalCount(hrefs).value <= |hrefs|
  {
    FilterDisjoint(hrefs, IsRootRelative, IsExternalHref);
  }

  /** Neither internal nor external: a relative href without a host. */
  predicate IsBareHref(href: string) {
    !IsRootRelative(href) && !IsExternalHref(href)
  }

  /** Every href the page's links carry is counted as internal, counted as
      external, or is a bare relative href, and only one of these. */
  lemma LinkCountsPartition(hrefs: seq<string>)
    requires ExternalCount(hrefs).Success?
    ensures InternalCount(hrefs) + ExternalCount(hrefs).value + CountWhere(hrefs, IsBareHref) == |hrefs|
  {
    PositionsSplit3(hrefs, IsRootRelative, IsExternalHref, IsBareHref);
  }

  /* ------------------------------------------------------------- facts */

  datatype PageFacts = PageFacts(
    title: Option<string>,
    description: string,
    keywords: string,
    h1Tags: seq<string>,
    h2Tags: seq<string>,
    imgWithoutAlt: nat,
    internalLinks: nat,
    externalLinks: nat)

  /** The facts both handlers gather, in their order; the external-link
      count fails on an href `urlparse` rejects. */
  function Facts(soup: Node): (r: Result<PageFacts, Fault>)
    ensures r.Failure? <==> exists i :: 0 <= i < |Hrefs(soup)| && Unparsable(Hrefs(soup)[i])
    ensures r.Success? ==> r.value.internalLinks + r.value.externalLinks <= |FindAll(soup, IsHrefLink)|
    ensures r.Success? ==> r.value.title == PageTitle(soup) && r.value.description == PageDescription(soup)
    ensures r.Success? ==> r.value.keywords == PageKeywords(soup)
    ensures r.Success? ==> r.value.h1Tags == HeadingTexts(soup, "h1") && r.value.h2Tags == HeadingTexts(soup, "h2")
    ensures r.Success? ==> r.value.imgWithoutAlt == ImagesWithoutAltCount(soup)
    ensures r.Success? ==> r.value.internalLinks == InternalCount(Hrefs(soup))
    ensures r.Success? ==> r.value.externalLinks == ExternalCount(Hrefs(soup)).value
    ensures r.Success? ==> (r.value.h1Tags == [] <==> FindAllTag(soup, "h1") == [])
  {
    var hrefs := Hrefs(soup);
    match ExternalCount(hrefs)
    case Failure(e) => Failure(e)
    case Success(external) =>
      LinkCountsDisjoint(hrefs);
      Success(PageFacts(PageTitle(soup), PageDescription(soup), PageKeywords(soup),
        HeadingTexts(soup, "h1"), HeadingTexts(soup, "h2"), ImagesWithoutAltCount(soup),
        InternalCount(hrefs), external))
  }

  /* ------------------------------------------------------------- rules */

  /** The description rule of the synchronous `legacy_analyze_seo`: the
      description equals the title sentinel or is shorter than 10
      characters. */
  predicate DescriptionMissingRule(description: string) {
    description == TitleNotFound || |description| < 10
  }

  /** The title, description and keywords rules, in order. */
  function HeadRules(titleTooLong: bool, descriptionMissing: bool, keywordsMissing: bool): (r: seq<Msg>)
    ensures |r| <= 3
    ensures TitleTooLong in r <==> titleTooLong
    ensures DescriptionMissing in r <==> descriptionMissing
    ensures AddMetaKeywords in r <==> keywordsMissing
    ensures AddH1 !in r && forall i :: 0 <= i < |r| ==> !r[i].ImagesWithoutAlt?
  {
    (if titleTooLong then [TitleTooLong] else [])
    + (if descriptionMissing then [DescriptionMissing] else [])
    + (if keywordsMissing then [AddMetaKeywords] else [])
  }

  /** The H1 and image rules, in order. */
  function BodyRules(noH1: bool, imgWithoutAlt: nat): (r: seq<Msg>)
    ensures |r| <= 2
    ensures AddH1 in r <==> noH1
    ensures ImagesWithoutAlt(imgWithoutAlt) in r <==> imgWithoutAlt > 0
    ensures forall n :: ImagesWithoutAlt(n) in r ==> n == imgWithoutAlt
    ensures TitleTooLong !in r && DescriptionMissing !in r && AddMetaKeywords !in r
  {
    (if noH1 then [AddH1] else []) + (if imgWithoutAlt > 0 then [ImagesWithoutAlt(imgWithoutAlt)] else [])
  }

  /** The five page rules, in order, given whether the description rule
      fires. `len(title)` of a missing title string raises. */
  function PageRecommendations(f: PageFacts, descriptionMissing: bool): (r: Result<seq<Msg>, Fault>)
    ensures r.Failure? <==> f.title.None?
    ensures r.Failure? ==> r.error == NoneTitleString
    ensures r.Success? ==> |r.value| <= 5
    ensures r.Success? ==> (TitleTooLong in r.value <==> |f.title.value| > 60)
    ensures r.Success? ==> (DescriptionMissing in r.value <==> descriptionMissing)
    ensures r.Success? ==> (AddMetaKeywords in r.value <==> f.keywords == KeywordsNotFound)
    ensures r.Success? ==> (AddH1 in r.value <==> f.h1Tags == [])
    ensures r.Success? ==> (ImagesWithoutAlt(f.imgWithoutAlt) in r.value <==> f.imgWithoutAlt > 0)
  {
    match f.title
    case None => Failure(NoneTitleString)
    case Some(t) =>
      Success(HeadRules(|t| > 60, descriptionMissing, f.keywords == KeywordsNotFound)
        + BodyRules(f.h1Tags == [], f.imgWithoutAlt))
  }

  /** A page without a title element is judged on the sentinel, which is
      never too long. */
  lemma SentinelTitleShort(soup: Node, descriptionMissing: bool)
    requires FindTag(soup, "title").None? && Facts(soup).Success?
    ensures PageRecommendations(Facts(soup).value, descriptionMissing).Success?
    ensures TitleTooLong !in PageRecommendations(Facts(soup).value, descriptionMissing).value
  {
  }

  /* --------------------------------------------------------- PageSpeed */

  /** The `recommendations` value of a PageSpeed result: a list of texts or
      a single value. */
  datatype PageSpeedValue = Listed(items: seq<string>) | Single(text: string)

  /** The part of a PageSpeed result the handlers read: its `error` text
      and its `recommendations`, each possibly absent. */
  datatype PageSpeedData = PageSpeedData(error: Option<string>, recommendations: Option<PageSpeedValue>)

  /** `v if isinstance(v, list) else [v]`. */
  function AsList(v: PageSpeedValue): (r: seq<string>)
    ensures v.Listed? ==> r == v.items
    ensures v.Single? ==> r == [v.text]
  {
    match v
    case Listed(items) => items
    case Single(t) => [t]
  }

  /** The PageSpeed texts as recommendations. */
  function PageSpeedMsgs(texts: seq<string>): (r: seq<Msg>)
    ensures |r| == |texts|
    ensures forall i :: 0 <= i < |texts| ==> r[i] == PageSpeed(texts[i])
    ensures forall m :: m in r ==> m.PageSpeed?
  {
    Map(texts, (t: string) => PageSpeed(t))
  }

  /** `data.get('recommendations', [])` made a list: an absent entry adds
      nothing. */
  function DefaultedPageSpeed(d: PageSpeedData): (r: seq<Msg>)
    ensures d.recommendations.None? ==> r == []
    ensures d.recommendations.Some? ==> r == PageSpeedMsgs(AsList(d.recommendations.value))
  {
    match d.recommendations
    case None => []
    case Some(v) => PageSpeedMsgs(AsList(v))
  }

  /** `[data['error']] if 'error' in data else data['recommendations']`, made
      a list: the error text alone when there is one; otherwise an absent
      `recommendations` entry raises. */
  function ErrorFirstPageSpeed(d: PageSpeedData): (r: Result<seq<Msg>, Fault>)
    ensures d.error.Some? ==> r == Success([PageSpeed(d.error.value)])
    ensures r.Failure? <==> d.error.None? && d.recommendations.None?
    ensures r.Failure? ==> r.error == MissingRecommendations
    ensures d.error.None? && d.recommendations.Some? ==> r == Success(DefaultedPageSpeed(d))
    ensures r.Success? ==> forall m :: m in r.value ==> m.PageSpeed?
  {
    match d.error
    case Some(e) => Success([PageSpeed(e)])
    case None =>
      match d.recommendations
      case None => Failure(MissingRecommendations)
      case Some(v) => Success(PageSpeedMsgs(AsList(v)))
  }
}

=== FILE: recs.dfy ===
/** The fixed messages the analyzers emit as issues and recommendations.
    Each message is one constructor; the few that interpolate a value carry
    it. `Text` gives the exact wording. */
module Recs {
  import opened Strings

  /** The URL hygiene problems of the technical analyzers. */
  datatype UrlIssue = HasUppercase | HasSpecialChars | HasDoubleHyphen | TooLong | HasQuery

  function UrlIssueText(i: UrlIssue): string {
    match i
    case HasUppercase => "URL содержит заглавные буквы"
    case HasSpecialChars => "URL содержит специальные символы"
    case HasDoubleHyphen => "URL содержит двойные дефисы"
    case TooLong => "URL слишком длинный"
    case HasQuery => "URL содержит параметры запроса"
  }

  datatype Msg =
    /* titles, descriptions and meta keywords */
    | TitleMissing
    | TitleTooShort
    | TitleTooLong
    | TitleStuffing(word: string)
    | DescriptionMissing
    | DescriptionTooShort
    | DescriptionTooLong
    | DescriptionStuffing(word: string)
    | MetaKeywordsMissing
    | TooFewKeywords
    | TooManyKeywords
    | KeywordsTooLong
    | KeywordsOverlap
    | OpenGraphIncomplete(missing: seq<string>)
    | TwitterIncomplete(missing: seq<string>)
    | AddOpenGraph
    | AddTwitterCards
    | AddFavicon
    | AddLangAttribute
    /* content quality */
    | ThinContent
    | LongSentences
    | ImproveStructure
    | HardToRead
    | DuplicateParagraphs
    /* technical SEO */
    | AddCanonical
    | AddRobots
    | UrlProblems(issues: seq<UrlIssue>)
    | AddSchema
    | AddResourceHints
    | UseHttps
    | LinkHeadings
    | NoSelfHreflang
    /* mobile */
    | SuboptimalViewport
    | AddViewport
    | MakeViewportResponsive
    | EnlargeTouchTargets
    | CheckFontSizes
    | UseResponsiveImages
    | AddMediaQueries
    /* keyword optimisation: issues */
    | MetaKeywordsMismatch
    | NoKeywordsInTitle
    | NoKeywordsInH1
    | KeywordStuffing(keywords: seq<string>)
    | KeywordCannibalization
    /* keyword optimisation: recommendations */
    | UpdateMetaKeywords
    | AddKeywordsToTitle
    | AddKeywordsToH1
    | ReduceKeywordDensity
    | ChooseMainKeyword
    | ImprovePlacement
    | AddRelevantContent
    | AddKeywordsMetaTag
    | AddKeywordsToAlt
    /* competitive */
    | ExpandContent
    | AddHeadings
    | AddImages
    | ApiIntegrationNote
    /* the page-level rules of the request handlers */
    | AddMetaKeywords
    | AddH1
    | ImagesWithoutAlt(count: nat)
    /* a message passed through from the PageSpeed client */
    | PageSpeed(text: string)

  function Text(m: Msg): string {
    match m
    case TitleMissing => "Отсутствует title. Добавьте заголовок страницы."
    case TitleTooShort => "Заголовок слишком короткий (менее 10 символов)."
    case TitleTooLong => "Заголовок слишком длинный (более 60 символов). Сократите его для лучшего SEO."
    case TitleStuffing(w) => "Возможный спам ключевых слов в заголовке (повторение '" + w + "')."
    case DescriptionMissing => "Отсутствует мета-описание. Добавьте краткое описание (150-160 символов)."
    case DescriptionTooShort => "Мета-описание слишком короткое (менее 50 символов)."
    case DescriptionTooLong => "Мета-описание слишком длинное (более 160 символов). Сократите его для лучшего отображения в поиске."
    case DescriptionStuffing(w) => "Возможный спам ключевых слов в описании (повторение '" + w + "')."
    case MetaKeywordsMissing => "Отсутствуют мета-ключевые слова. Хотя они имеют ограниченное значение для SEO, рекомендуется добавить релевантные ключевые слова."
    case TooFewKeywords => "Слишком мало ключевых слов. Добавьте больше релевантных ключевых слов."
    case TooManyKeywords => "Слишком много ключевых слов. Сократите список до наиболее релевантных."
    case KeywordsTooLong => "Некоторые ключевые слова слишком длинные. Используйте более короткие и точные термины."
    case KeywordsOverlap => "Обнаружены похожие или перекрывающиеся ключевые слова."
    case OpenGraphIncomplete(ms) => "Неполные метаданные Open Graph. Отсутствуют: " + Join(ms, ", ") + "."
    case TwitterIncomplete(ms) => "Неполные метаданные Twitter Cards. Отсутствуют: " + Join(ms, ", ") + "."
    case AddOpenGraph => "Добавьте метаданные Open Graph для лучшего отображения при шаринге в социальных сетях."
    case AddTwitterCards => "Добавьте метаданные Twitter Cards для улучшения отображения в Twitter."
    case AddFavicon => "Добавьте favicon для узнаваемости вашего сайта."
    case AddLangAttribute => "Укажите атрибут lang в теге html для правильного определения языка страницы."
    case ThinContent => "Контент слишком короткий. Рекомендуется иметь не менее 300 слов для важных страниц."
    case LongSentences => "Средняя длина предложений слишком велика. Для лучшей читаемости сократите предложения."
    case ImproveStructure => "Улучшите структуру контента, используя подзаголовки (H2, H3) для разделения текста на логические части."
    case HardToRead => "Текст слишком сложный для чтения. Упростите язык и используйте более короткие предложения."
    case DuplicateParagraphs => "Обнаружены повторяющиеся параграфы. Устраните дублирование контента."
    case AddCanonical => "Добавьте канонический URL для предотвращения проблем с дублированным контентом."
    case AddRobots => "Добавьте мета-тег robots для управления индексацией страницы."
    case UrlProblems(issues) => "Проблемы с URL: " + Join(UrlIssueTexts(issues), ", ") + "."
    case AddSchema => "Добавьте структурированные данные (Schema.org) для улучшения отображения в результатах поиска."
    case AddResourceHints => "Используйте подсказки ресурсов (preload, prefetch) для ускорения загрузки важных элементов."
    case UseHttps => "Переведите сайт на HTTPS для повышения безопасности и улучшения SEO."
    case LinkHeadings => "Некоторые заголовки не имеют якорных ссылок. Добавьте внутреннюю перелинковку."
    case NoSelfHreflang => "Отсутствует самореферентная hreflang-ссылка"
    case SuboptimalViewport => "Неоптимальные настройки viewport"
    case AddViewport => "Добавьте мета-тег viewport для правильного отображения на мобильных устройствах."
    case MakeViewportResponsive => "Настройте viewport для адаптивного дизайна: width=device-width, initial-scale=1."
    case EnlargeTouchTargets => "Увеличьте размер элементов интерфейса для удобного нажатия на мобильных устройствах."
    case CheckFontSizes => "Проверьте размеры шрифтов для лучшей читаемости на мобильных устройствах."
    case UseResponsiveImages => "Используйте адаптивные изображения с атрибутами srcset или picture для мобильных устройств."
    case AddMediaQueries => "Добавьте медиа-запросы (media queries) для адаптации дизайна под разные размеры экранов."
    case MetaKeywordsMismatch => "Мета-ключевые слова не соответствуют контенту страницы."
    case NoKeywordsInTitle => "Ключевые слова отсутствуют в заголовке страницы (title)."
    case NoKeywordsInH1 => "Ключевые слова отсутствуют в основном заголовке (H1)."
    case KeywordStuffing(ks) => "Обнаружено переоптимизированное использование ключевых слов: " + Join(ks, ", ") + "."
    case KeywordCannibalization => "Возможная каннибализация ключевых слов: присутствуют похожие основные ключевые слова."
    case UpdateMetaKeywords => "Обновите мета-ключевые слова, чтобы они соответствовали фактическому содержимому страницы."
    case AddKeywordsToTitle => "Добавьте основные ключевые слова в заголовок страницы (title)."
    case AddKeywordsToH1 => "Включите основные ключевые слова в тег H1."
    case ReduceKeywordDensity => "Уменьшите плотность ключевых слов, сделайте текст более естественным."
    case ChooseMainKeyword => "Выберите одно основное ключевое слово для страницы и оптимизируйте для него."
    case ImprovePlacement => "Улучшите размещение ключевых слов в важных элементах страницы (заголовок, H1, H2, первый абзац)."
    case AddRelevantContent => "Добавьте больше содержимого с соответствующими ключевыми словами для улучшения релевантности."
    case AddKeywordsMetaTag => "Добавьте мета-тег keywords с релевантными ключевыми словами."
    case AddKeywordsToAlt => "Включите ключевые слова в атрибуты alt изображений, где это уместно."
    case ExpandContent => "Расширьте содержание страницы. Конкурирующие страницы обычно имеют более развернутый контент."
    case AddHeadings => "Добавьте больше заголовков для улучшения структуры и улучшения SEO."
    case AddImages => "Добавьте больше изображений для повышения привлекательности контента."
    case ApiIntegrationNote => "Для полного конкурентного анализа рекомендуется интеграция с API SemRush, Ahrefs или аналогичными сервисами."
    case AddMetaKeywords => "Отсутствуют мета-ключевые слова. Добавьте релевантные ключевые слова."
    case AddH1 => "Отсутствует тег H1. Добавьте один тег H1 с основной темой."
    case ImagesWithoutAlt(n) => NatToString(n) + " изображений без атрибута alt. Добавьте описательные атрибуты alt."
    case PageSpeed(t) => t
  }

  function UrlIssueTexts(issues: seq<UrlIssue>): seq<string> {
    if issues == [] then [] else [UrlIssueText(issues[0])] + UrlIssueTexts(issues[1..])
  }
}

=== FILE: seqs.dfy ===
/** Sequence helpers: list comprehensions with a condition, Python slicing
    `s[:n]`, and small counting facts. */
module Seqs {
  import opened Wrappers

  /** `[x for x in s if p(x)]`, order preserved. */
  function Filter<T>(s: seq<T>, p: T -> bool): (r: seq<T>)
    ensures |r| <= |s|
    ensures forall x :: x in r ==> x in s && p(x)
    ensures forall x :: x in s && p(x) ==> x in r
  {
    if s == [] then []
    else if p(s[0]) then [s[0]] + Filter(s[1..], p)
    else Filter(s[1..], p)
  }

  lemma {:induction false} FilterAppend<T>(a: seq<T>, b: seq<T>, p: T -> bool)
    ensures Filter(a + b, p) == Filter(a, p) + Filter(b, p)
  {
    if a == [] {
      assert a + b == b;
    } else {
      assert (a + b)[1..] == a[1..] + b;
      FilterAppend(a[1..], b, p);
    }
  }

  /** Leading elements that `p` rejects do not change the filtered result. */
  lemma {:induction false} FilterDropFront<T>(s: seq<T>, p: T -> bool, k: nat)
    requires k <= |s| && forall i :: 0 <= i < k ==> !p(s[i])
    ensures Filter(s, p) == Filter(s[k..], p)
  {
    if k > 0 {
      FilterDropFront(s[1..], p, k - 1);
      assert s[1..][k - 1..] == s[k..];
    }
  }

  /** Trailing elements that `p` rejects do not change the filtered result. */
  lemma FilterDropBack<T>(s: seq<T>, p: T -> bool, k: nat)
    requires k <= |s| && forall i :: k <= i < |s| ==> !p(s[i])
    ensures Filter(s, p) == Filter(s[..k], p)
  {
    assert s == s[..k] + s[k..];
    FilterAppend(s[..k], s[k..], p);
    FilterDropFront(s[k..], p, |s| - k);
    assert s[k..][|s| - k..] == [];
  }

  /** Filtering a prefix that ends in a kept element gives a prefix of the
      filtered sequence ending in that element. */
  lemma FilterPrefixLast<T>(s: seq<T>, p: T -> bool, i: nat)
    requires i < |s| && p(s[i])
    ensures var pre := Filter(s[..i + 1], p);
      |pre| >= 1 && pre <= Filter(s, p) && pre[|pre| - 1] == s[i]
  {
    var head := s[..i + 1];
    assert s == head + s[i + 1..];
    FilterAppend(head, s[i + 1..], p);
    assert head == s[..i] + [s[i]];
    FilterAppend(s[..i], [s[i]], p);
  }

  /** Filtering keeps every occurrence of a kept element and none of the
      others. */
  lemma {:induction false} FilterMultiset<T>(s: seq<T>, p: T -> bool)
    ensures forall x :: multiset(Filter(s, p))[x] == if p(x) then multiset(s)[x] else 0
  {
    if s != [] {
      FilterMultiset(s[1..], p);
      assert s == [s[0]] + s[1..];
    }
  }

  /** The first element satisfying `p` heads the filtered sequence. */
  lemma {:induction false} FirstWhereFilter<T>(s: seq<T>, p: T -> bool)
    ensures FirstWhere(s, p).Some? <==> Filter(s, p) != []
    ensures FirstWhere(s, p).Some? ==> Filter(s, p)[0] == FirstWhere(s, p).value
  {
    if s != [] && !p(s[0]) {
      FirstWhereFilter(s[1..], p);
    }
  }

  /** The first element of `s` satisfying `p`, as a `for ... break` loop
      finds it. */
  function FirstWhere<T>(s: seq<T>, p: T -> bool): (r: Option<T>)
    ensures r.None? <==> forall i :: 0 <= i < |s| ==> !p(s[i])
    ensures r.Some? ==> exists i :: 0 <= i < |s| && s[i] == r.value && p(s[i]) && forall j :: 0 <= j < i ==> !p(s[j])
  {
    if s == [] then None
    else if p(s[0]) then Some(s[0])
    else
      var r := FirstWhere(s[1..], p);
      assert forall i :: 1 <= i < |s| ==> s[i] == s[1..][i - 1];
      r
  }

  /** A search that a prefix already satisfies ends inside that prefix. */
  lemma FirstWherePrefix<T>(d: seq<T>, pre: seq<T>, q: T -> bool, m: nat)
    requires pre <= d && m < |pre| && q(pre[m])
    ensures FirstWhere(d, q).Some? && FirstWhere(d, q).value in pre
  {
    assert d[..|pre|] == pre;
    assert d[m] == d[..|pre|][m];
    var x := FirstWhere(d, q).value;
    var k :| 0 <= k < |d| && d[k] == x && q(d[k]) && forall j :: 0 <= j < k ==> !q(d[j]);
    assert k <= m;
    assert d[k] == d[..|pre|][k] == pre[k];
  }

  /** `[f(x) for x in s]`. */
  function Map<T, U>(s: seq<T>, f: T -> U): (r: seq<U>)
    ensures |r| == |s|
    ensures forall i :: 0 <= i < |s| ==> r[i] == f(s[i])
  {
    if s == [] then [] else [f(s[0])] + Map(s[1..], f)
  }

  /** A map that fixes every element is the identity. */
  lemma MapFixed<T>(s: seq<T>, f: T -> T)
    requires forall i :: 0 <= i < |s| ==> f(s[i]) == s[i]
    ensures Map(s, f) == s
  {
  }

  /** `y` is in the image exactly when some element maps to it. */
  lemma MapMember<T, U>(s: seq<T>, f: T -> U, y: U)
    ensures y in Map(s, f) <==> exists i :: 0 <= i < |s| && f(s[i]) == y
  {
    var r := Map(s, f);
    if y in r {
      var i :| 0 <= i < |r| && r[i] == y;
      assert f(s[i]) == y;
    }
  }

  /** The image of a map holds exactly the values some element maps to. */
  lemma MapImage<T, U>(s: seq<T>, f: T -> U)
    ensures forall y :: y in Map(s, f) <==> exists i :: 0 <= i < |s| && f(s[i]) == y
  {
    forall y ensures y in Map(s, f) <==> exists i :: 0 <= i < |s| && f(s[i]) == y {
      MapMember(s, f, y);
    }
  }

  /** `[y for y in map(f, s) if q(y)]` holds exactly the values passing `q`
      that some element maps to. */
  lemma FilterImage<T, U>(s: seq<T>, f: T -> U, q: U -> bool)
    ensures forall y :: y in Filter(Map(s, f), q) <==> q(y) && exists i :: 0 <= i < |s| && f(s[i]) == y
  {
    MapImage(s, f);
  }

  /** The length Python keeps for `s[:n]`: a negative `n` counts from the end. */
  function PyPrefixLength(n: int, len: nat): (k: nat)
    ensures k <= len
    ensures 0 <= n ==> k == if n < len then n else len
    ensures n < 0 ==> k == if len + n < 0 then 0 else len + n
  {
    if n >= 0 then (if n < len then n else len)
    else if len + n < 0 then 0 else len + n
  }

  /** Python's `s[:n]` for any integer `n`. */
  function PyPrefix<T>(s: seq<T>, n: int): seq<T> {
    s[..PyPrefixLength(n, |s|)]
  }

  /** Python's `s[:n]` for a non-negative `n`. */
  function Take<T>(s: seq<T>, n: nat): (r: seq<T>)
    ensures |r| == if n < |s| then n else |s|
    ensures r == s[..|r|]
  {
    if n < |s| then s[..n] else s
  }

  function Flatten<T>(ss: seq<seq<T>>): seq<T> {
    if ss == [] then [] else ss[0] + Flatten(ss[1..])
  }

  predicate NoDuplicates<T(==)>(s: seq<T>) {
    forall i, j :: 0 <= i < j < |s| ==> s[i] != s[j]
  }

  /** Keeping some elements of a sequence without repetition keeps it
      without repetition. */
  lemma {:induction false} FilterNoDuplicates<T>(s: seq<T>, p: T -> bool)
    requires NoDuplicates(s)
    ensures NoDuplicates(Filter(s, p))
  {
    if s != [] {
      FilterNoDuplicates(s[1..], p);
      assert s[0] !in s[1..];
    }
  }

  /** A sequence without repetition has as many elements as its set. */
  lemma {:induction false} NoDuplicatesCard<T>(s: seq<T>)
    requires NoDuplicates(s)
    ensures |set x | x in s| == |s|
  {
    if s != [] {
      NoDuplicatesCard(s[1..]);
      assert s[0] !in s[1..];
      assert (set x | x in s) == (set x | x in s[1..]) + {s[0]};
    }
  }

  function Sum(s: seq<nat>): nat {
    if s == [] then 0 else s[0] + Sum(s[1..])
  }

  function MaxOf(s: seq<nat>): nat {
    if s == [] then 0
    else var m := MaxOf(s[1..]); if s[0] > m then s[0] else m
  }

  lemma {:induction false} MaxOfBound(s: seq<nat>, b: nat)
    ensures MaxOf(s) <= b <==> forall i :: 0 <= i < |s| ==> s[i] <= b
  {
    if s != [] {
      MaxOfBound(s[1..], b);
      assert forall i :: 1 <= i < |s| ==> s[i] == s[1..][i - 1];
    }
  }

  /** A positive sum has a positive term, and a positive term makes the
      sum positive. */
  lemma {:induction false} SumPositive(s: seq<nat>)
    ensures Sum(s) > 0 <==> exists i :: 0 <= i < |s| && s[i] > 0
  {
    if s != [] {
      SumPositive(s[1..]);
      if exists i :: 0 <= i < |s[1..]| && s[1..][i] > 0 {
        var i :| 0 <= i < |s[1..]| && s[1..][i] > 0;
        assert s[i + 1] > 0;
      }
      if exists i :: 0 <= i < |s| && s[i] > 0 {
        var i :| 0 <= i < |s| && s[i] > 0;
        if i > 0 {
          assert s[1..][i - 1] > 0;
        }
      }
    }
  }

  /** The elements a filter keeps from position `lo` on are as many as the
      positions from `lo` on whose element passes. */
  lemma {:induction false} FilterCardFrom<T>(s: seq<T>, p: T -> bool, lo: nat)
    requires lo <= |s|
    ensures |Filter(s[lo..], p)| == |set i | lo <= i < |s| && p(s[i])|
    decreases |s| - lo
  {
    var here := set i | lo <= i < |s| && p(s[i]);
    if lo == |s| {
      assert here == {};
    } else {
      FilterCardFrom(s, p, lo + 1);
      assert s[lo..][1..] == s[lo + 1..];
      var later := set i | lo + 1 <= i < |s| && p(s[i]);
      if p(s[lo]) {
        assert here == later + {lo};
        assert lo !in later;
      } else {
        assert here == later;
      }
    }
  }

  /** The positions of `s` whose element satisfies `p`. */
  function Positions<T>(s: seq<T>, p: T -> bool): set<nat> {
    set i | 0 <= i < |s| && p(s[i])
  }

  /** A filter keeps as many elements as there are positions whose element
      passes. */
  lemma FilterCard<T>(s: seq<T>, p: T -> bool)
    ensures |Filter(s, p)| == |Positions(s, p)|
  {
    FilterCardFrom(s, p, 0);
    assert s[0..] == s;
  }

  /** Conditions that sort every element into exactly one of three classes
      split the positions of `s` between them. */
  lemma PositionsSplit3<T>(s: seq<T>, p: T -> bool, q: T -> bool, r: T -> bool)
    requires forall x :: x in s ==> (p(x) || q(x) || r(x)) && !(p(x) && q(x)) && !(p(x) && r(x)) && !(q(x) && r(x))
    ensures |Positions(s, p)| + |Positions(s, q)| + |Positions(s, r)| == |s|
  {
    var a, b, c := Positions(s, p), Positions(s, q), Positions(s, r);
    var any := (x: T) => true;
    FilterCard(s, any);
    FilterAll(s, any);
    var all := Positions(s, any);
    assert forall i :: 0 <= i < |s| ==> s[i] in s;
    assert a + b + c == all;
    assert a * b == {};
    assert (a + b) * c == {};
  }

  /** Two conditions that together cover every element select at least
      all positions between them (an element meeting both counts twice). */
  lemma PositionsCover<T>(s: seq<T>, p: T -> bool, q: T -> bool)
    requires forall x :: x in s ==> p(x) || q(x)
    ensures |Positions(s, p)| + |Positions(s, q)| >= |s|
  {
    var any := (x: T) => true;
    FilterCard(s, any);
    FilterAll(s, any);
    assert forall i :: 0 <= i < |s| ==> s[i] in s;
    assert Positions(s, p) + Positions(s, q) == Positions(s, any);
  }

  /** Testing each element through `f` selects the same positions as
      testing the mapped sequence. */
  lemma PositionsMap<T, U>(s: seq<T>, f: T -> U, p: U -> bool, q: T -> bool)
    requires forall x :: q(x) == p(f(x))
    ensures Positions(s, q) == Positions(Map(s, f), p)
  {
  }

  /** How many elements of `s` satisfy `p`. */
  function CountWhere<T>(s: seq<T>, p: T -> bool): (r: nat)
    ensures r == |Positions(s, p)|
    ensures r <= |s|
    ensures r == 0 <==> forall x :: x in s ==> !p(x)
  {
    var f := Filter(s, p);
    FilterCard(s, p);
    if f != [] then assert f[0] in f; |f| else |f|
  }

  /** Filtering with a weaker condition keeps at least as many elements. */
  lemma {:induction false} FilterWeaker<T>(s: seq<T>, p: T -> bool, q: T -> bool)
    requires forall x :: x in s && p(x) ==> q(x)
    ensures |Filter(s, p)| <= |Filter(s, q)|
  {
    if s != [] {
      assert forall x :: x in s[1..] ==> x in s;
      FilterWeaker(s[1..], p, q);
    }
  }

  /** Filtering by a condition on the image, then mapping, is mapping,
      then filtering. */
  lemma {:induction false} FilterMap<T, U>(s: seq<T>, f: T -> U, p: U -> bool, pf: T -> bool)
    requires forall x :: pf(x) == p(f(x))
    ensures Map(Filter(s, pf), f) == Filter(Map(s, f), p)
  {
    if s != [] {
      FilterMap(s[1..], f, p, pf);
      var m := Map(s, f);
      assert m == [f(s[0])] + Map(s[1..], f);
      assert m[1..] == Map(s[1..], f);
    }
  }

  /** A filter keeps every element exactly when every element passes. */
  lemma {:induction false} FilterKeepsAll<T>(s: seq<T>, p: T -> bool)
    ensures |Filter(s, p)| == |s| <==> forall i :: 0 <= i < |s| ==> p(s[i])
  {
    if s != [] {
      FilterKeepsAll(s[1..], p);
      assert forall i :: 1 <= i < |s| ==> s[i] == s[1..][i - 1];
    }
  }

  /** A filter every element passes changes nothing. */
  lemma {:induction false} FilterAll<T>(s: seq<T>, p: T -> bool)
    requires forall i :: 0 <= i < |s| ==> p(s[i])
    ensures Filter(s, p) == s
  {
    if s != [] {
      FilterAll(s[1..], p);
    }
  }

  /** Elements in front that all fail the filter do not show in it. */
  lemma FilterSkipNone<T>(a: seq<T>, b: seq<T>, p: T -> bool)
    requires forall i :: 0 <= i < |a| ==> !p(a[i])
    ensures Filter(a + b, p) == Filter(b, p)
  {
    FilterAppend(a, b, p);
    FilterKeepsNone(a, p);
    assert [] + Filter(b, p) == Filter(b, p);
  }

  /** Elements in front that all pass, followed by elements that all fail,
      filter to the front part. */
  lemma FilterFrontOnly<T>(a: seq<T>, b: seq<T>, p: T -> bool)
    requires forall i :: 0 <= i < |a| ==> p(a[i])
    requires forall i :: 0 <= i < |b| ==> !p(b[i])
    ensures Filter(a + b, p) == a
  {
    FilterAppend(a, b, p);
    FilterAll(a, p);
    FilterKeepsNone(b, p);
    assert a + [] == a;
  }

  /** A filter keeps nothing exactly when no element passes. */
  lemma FilterKeepsNone<T>(s: seq<T>, p: T -> bool)
    ensures Filter(s, p) == [] <==> forall i :: 0 <= i < |s| ==> !p(s[i])
  {
    var r := Filter(s, p);
    if r != [] {
      assert r[0] in r;
    }
    if exists i :: 0 <= i < |s| && p(s[i]) {
      var i :| 0 <= i < |s| && p(s[i]);
      assert s[i] in s;
    }
  }

  /** Two conditions no element meets together select at most all
      elements between them. */
  lemma {:induction false} FilterDisjoint<T>(s: seq<T>, p: T -> bool, q: T -> bool)
    requires forall x :: x in s ==> !(p(x) && q(x))
    ensures |Filter(s, p)| + |Filter(s, q)| <= |s|
  {
    if s != [] {
      assert forall x :: x in s[1..] ==> x in s;
      FilterDisjoint(s[1..], p, q);
    }
  }

  /** A condition and its opposite split the elements between them. */
  lemma {:induction false} FilterSplit<T>(s: seq<T>, p: T -> bool, q: T -> bool)
    requires forall x :: x in s ==> (p(x) <==> !q(x))
    ensures |Filter(s, p)| + |Filter(s, q)| == |s|
  {
    if s != [] {
      assert forall x :: x in s[1..] ==> x in s;
      FilterSplit(s[1..], p, q);
    }
  }
}

=== FILE: strings.dfy ===
/** Python string operations the analyzers rely on, modelled on `seq<char>`:
    the `\s` and `\w` character classes, `str.lower`, `str.split()`,
    `str.strip()`, `re.sub(r'\s+', ' ', s)`, `in`, `str.split(sep)`,
    `str.join`, `str.replace` and `re.sub(r'<[^>]+>', ' ', s)`.

    Characters outside ASCII and the basic Cyrillic block are treated as
    ordinary non-letter symbols. */
module Strings {
  import opened Wrappers
  import opened Seqs

  /** Python's `str.isspace()`, which is also what `\s` matches in a `str`
      pattern. */
  predicate IsSpace(c: char) {
    c == ' ' || ('\t' <= c <= '\r') || ('\U{1C}' <= c <= '\U{1F}')
    || c == '\U{85}' || c == '\U{A0}' || c == '\U{1680}'
    || ('\U{2000}' <= c <= '\U{200A}') || c == '\U{2028}' || c == '\U{2029}'
    || c == '\U{202F}' || c == '\U{205F}' || c == '\U{3000}'
  }

  predicate NotSpace(c: char) {
    !IsSpace(c)
  }

  predicate IsAsciiLetter(c: char) {
    ('a' <= c <= 'z') || ('A' <= c <= 'Z')
  }

  predicate IsDigit(c: char) {
    '0' <= c <= '9'
  }

  /** Letters of the basic Cyrillic block, U+0400 to U+045F. */
  predicate IsCyrillicLetter(c: char) {
    'Ѐ' <= c <= 'џ'
  }

  /** Python's `\w`: letters, digits and the underscore. */
  predicate IsWordChar(c: char) {
    IsAsciiLetter(c) || IsDigit(c) || c == '_' || IsCyrillicLetter(c)
  }

  predicate IsUpper(c: char) {
    ('A' <= c <= 'Z') || ('Ѐ' <= c <= 'Я')
  }

  /** `str.lower()` on one character. */
  function LowerChar(c: char): (r: char)
    ensures !IsUpper(r)
    ensures !IsUpper(c) ==> r == c
    ensures IsWordChar(r) <==> IsWordChar(c)
    ensures IsSpace(r) <==> IsSpace(c)
  {
    if 'A' <= c <= 'Z' then (c as int + 32) as char
    else if 'А' <= c <= 'Я' then (c as int + 32) as char
    else if 'Ѐ' <= c <= 'Џ' then (c as int + 80) as char
    else c
  }

  function Lower(s: string): (r: string)
    ensures |r| == |s|
    ensures forall i :: 0 <= i < |s| ==> r[i] == LowerChar(s[i])
  {
    Map(s, LowerChar)
  }

  lemma LowerIdempotent(s: string)
    ensures Lower(Lower(s)) == Lower(s)
  {
  }

  /* ---------------------------------------------------------------- runs */

  /** Length of the longest prefix of `s` whose characters all satisfy `p`. */
  function SpanLen(s: string, p: char -> bool): (n: nat)
    ensures n <= |s|
    ensures forall i :: 0 <= i < n ==> p(s[i])
    ensures n < |s| ==> !p(s[n])
  {
    if s == [] || !p(s[0]) then 0 else 1 + SpanLen(s[1..], p)
  }

  /** The span ends at the first character failing `p`. */
  lemma {:induction false} SpanLenExact(s: string, p: char -> bool, m: nat)
    requires m <= |s| && (forall k :: 0 <= k < m ==> p(s[k])) && (m < |s| ==> !p(s[m]))
    ensures SpanLen(s, p) == m
  {
    if m > 0 {
      SpanLenExact(s[1..], p, m - 1);
    }
  }

  /** The maximal runs of characters satisfying `p`, left to right. With
      `NotSpace` this is `str.split()`; with `IsWordChar` it is
      `re.findall(r'\b\w+\b', s)`. */
  function Runs(s: string, p: char -> bool): (r: seq<string>)
    ensures forall w :: w in r ==> w != [] && forall c :: c in w ==> p(c)
    decreases |s|
  {
    if s == [] then []
    else if !p(s[0]) then Runs(s[1..], p)
    else
      var n := SpanLen(s, p);
      [s[..n]] + Runs(s[n..], p)
  }

  /** Every character of a run comes from `s`. */
  lemma {:induction false} RunsChars(s: string, p: char -> bool)
    ensures forall w, c :: w in Runs(s, p) && c in w ==> c in s
    decreases |s|
  {
    if s != [] {
      if !p(s[0]) {
        RunsChars(s[1..], p);
      } else {
        var n := SpanLen(s, p);
        RunsChars(s[n..], p);
        assert Runs(s, p) == [s[..n]] + Runs(s[n..], p);
      }
    }
  }

  /** `str.split()` with no argument. */
  function Words(s: string): seq<string> {
    Runs(s, NotSpace)
  }

  /** `re.findall(r'\b\w+\b', s)`. */
  function WordTokens(s: string): seq<string> {
    Runs(s, IsWordChar)
  }

  lemma {:induction false} FilterAllKept<T>(s: seq<T>, p: T -> bool)
    requires forall i :: 0 <= i < |s| ==> p(s[i])
    ensures Filter(s, p) == s
    decreases |s|
  {
    if s != [] {
      FilterAllKept(s[1..], p);
    }
  }

  lemma {:induction false} FilterNoneKept<T>(s: seq<T>, p: T -> bool)
    requires forall i :: 0 <= i < |s| ==> !p(s[i])
    ensures Filter(s, p) == []
    decreases |s|
  {
    if s != [] {
      FilterNoneKept(s[1..], p);
    }
  }

  /** Concatenating the runs gives back exactly the characters of `s` that
      satisfy `p`, in order: no character is lost, invented or reordered. */
  lemma {:induction false} RunsFlatten(s: string, p: char -> bool)
    ensures Flatten(Runs(s, p)) == Filter(s, p)
    decreases |s|
  {
    if s == [] {
    } else if !p(s[0]) {
      RunsFlatten(s[1..], p);
    } else {
      var n := SpanLen(s, p);
      RunsFlatten(s[n..], p);
      assert s == s[..n] + s[n..];
      FilterAppend(s[..n], s[n..], p);
      FilterAllKept(s[..n], p);
      var r := Runs(s, p);
      assert r == [s[..n]] + Runs(s[n..], p);
      assert r[1..] == Runs(s[n..], p);
    }
  }

  lemma {:induction false} RunsEmptyIff(s: string, p: char -> bool)
    ensures Runs(s, p) == [] <==> forall i :: 0 <= i < |s| ==> !p(s[i])
    decreases |s|
  {
    if s != [] && !p(s[0]) {
      RunsEmptyIff(s[1..], p);
      assert forall i :: 1 <= i < |s| ==> s[i] == s[1..][i - 1];
    }
  }

  /** A run followed by a separator (or by nothing) is split off whole. */
  lemma RunsCons(w: string, t: string, p: char -> bool)
    requires w != [] && forall i :: 0 <= i < |w| ==> p(w[i])
    requires t == [] || !p(t[0])
    ensures Runs(w + t, p) == [w] + Runs(t, p)
  {
    var s := w + t;
    assert s[..|w|] == w;
    assert s[|w|..] == t;
  }

  /** `sep.join(ss)`. */
  function Join(ss: seq<string>, sep: string): string {
    if ss == [] then []
    else if |ss| == 1 then ss[0]
    else ss[0] + sep + Join(ss[1..], sep)
  }

  lemma JoinTwo(a: string, b: string, sep: string)
    ensures Join([a, b], sep) == a + sep + b
  {
    assert [a, b][1..] == [b];
  }

  /** `str.split()` undoes `' '.join(ws)` whenever every word is non-empty and
      free of whitespace. */
  lemma {:induction false} WordsOfJoin(ws: seq<string>)
    requires forall i :: 0 <= i < |ws| ==> ws[i] != [] && forall j :: 0 <= j < |ws[i]| ==> NotSpace(ws[i][j])
    ensures Words(Join(ws, " ")) == ws
  {
    if ws == [] {
    } else if |ws| == 1 {
      RunsCons(ws[0], [], NotSpace);
      assert ws[0] + [] == ws[0];
    } else {
      var rest := Join(ws[1..], " ");
      WordsOfJoin(ws[1..]);
      assert Join(ws, " ") == ws[0] + (" " + rest);
      RunsCons(ws[0], " " + rest, NotSpace);
      RunsSkip(" " + rest, NotSpace, 1);
      assert (" " + rest)[1..] == rest;
      assert [ws[0]] + ws[1..] == ws;
    }
  }

  /* -------------------------------------------------------------- strip */

  function TrimLeft(s: string): (r: string)
    ensures |r| <= |s| && r == s[|s| - |r|..]
    ensures forall i :: 0 <= i < |s| - |r| ==> IsSpace(s[i])
    ensures r == [] || !IsSpace(r[0])
  {
    if s == [] || !IsSpace(s[0]) then s else TrimLeft(s[1..])
  }

  function TrimRight(s: string): (r: string)
    ensures |r| <= |s| && r == s[..|r|]
    ensures forall i :: |r| <= i < |s| ==> IsSpace(s[i])
    ensures r == [] || !IsSpace(r[|r| - 1])
  {
    if s == [] || !IsSpace(s[|s| - 1]) then s else TrimRight(s[..|s| - 1])
  }

  /** `str.strip()`. */
  function Strip(s: string): (r: string)
    ensures r == [] || (!IsSpace(r[0]) && !IsSpace(r[|r| - 1]))
    ensures r == [] <==> forall i :: 0 <= i < |s| ==> IsSpace(s[i])
  {
    var l := TrimLeft(s);
    var r := TrimRight(l);
    assert r == [] <==> Blank(s) by {
      if l == [] {
        assert Blank(s);
      } else {
        assert l[0] == s[|s| - |l|] && !IsSpace(l[0]);
        assert !Blank(s);
        assert !Blank(l);
      }
    }
    r
  }

  /** Whitespace only (or nothing). */
  predicate Blank(s: string) {
    forall i :: 0 <= i < |s| ==> IsSpace(s[i])
  }

  /** Every character of `s.strip()` is a character of `s`. */
  lemma StripChars(s: string)
    ensures forall c :: HasChar(Strip(s), c) ==> HasChar(s, c)
  {
    var l := TrimLeft(s);
    var r := Strip(s);
    forall c | HasChar(r, c)
      ensures HasChar(s, c)
    {
      var i :| 0 <= i < |r| && r[i] == c;
      assert l[i] == c;
      assert s[|s| - |l| + i] == c;
    }
  }

  lemma TrimLeftKeepsContent(s: string)
    ensures Filter(TrimLeft(s), NotSpace) == Filter(s, NotSpace)
  {
    FilterDropFront(s, NotSpace, |s| - |TrimLeft(s)|);
  }

  lemma TrimRightKeepsContent(s: string)
    ensures Filter(TrimRight(s), NotSpace) == Filter(s, NotSpace)
  {
    FilterDropBack(s, NotSpace, |TrimRight(s)|);
  }

  /** Stripping keeps every non-space character of `s`, in order. */
  lemma StripKeepsContent(s: string)
    ensures Filter(Strip(s), NotSpace) == Filter(s, NotSpace)
  {
    TrimLeftKeepsContent(s);
    TrimRightKeepsContent(TrimLeft(s));
  }

  /** Stripping keeps the words: `s.strip().split() == s.split()`. */
  lemma WordsStrip(s: string)
    ensures Words(Strip(s)) == Words(s)
  {
    WordsTrimLeft(s);
    WordsTrimRight(TrimLeft(s));
  }

  lemma WordsTrimLeft(s: string)
    ensures Words(TrimLeft(s)) == Words(s)
  {
    var k := |s| - |TrimLeft(s)|;
    assert forall i :: 0 <= i < k ==> !NotSpace(s[i]);
    RunsSkip(s, NotSpace, k);
  }

  lemma WordsTrimRight(s: string)
    ensures Words(TrimRight(s)) == Words(s)
  {
    var r := TrimRight(s);
    if |r| < |s| {
      var tail := s[|r|..];
      assert s == r + tail;
      assert forall i :: 0 <= i < |tail| ==> !NotSpace(tail[i]);
      RunsBefore(r, tail, NotSpace);
      RunsEmptyIff(tail, NotSpace);
    }
  }

  lemma StripIdempotent(s: string)
    ensures Strip(Strip(s)) == Strip(s)
  {
    var r := Strip(s);
    if r != [] {
      assert TrimLeft(r) == r;
      assert TrimRight(r) == r;
    }
  }

  /** `s.strip(c)` for a single character `c`. */
  function StripChar(s: string, c: char): (r: string)
    ensures |r| <= |s|
    ensures r == [] || (r[0] != c && r[|r| - 1] != c)
    ensures (forall i :: 0 <= i < |s| ==> s[i] != c) ==> r == s
  {
    if s == [] then []
    else if s[0] == c then StripChar(s[1..], c)
    else if s[|s| - 1] == c then StripChar(s[..|s| - 1], c)
    else s
  }

  /* ------------------------------------------------- collapse whitespace */

  /** `re.sub(r'\s+', ' ', s)`: every run of whitespace becomes one space. */
  function CollapseSpaces(s: string): (r: string)
    ensures r == [] <==> s == []
    ensures r != [] ==> (r[0] == ' ' <==> IsSpace(s[0]))
    ensures forall i :: 0 <= i < |r| && IsSpace(r[i]) ==> r[i] == ' '
    ensures forall i :: 0 <= i < |r| - 1 ==> !(r[i] == ' ' && r[i + 1] == ' ')
    decreases |s|
  {
    if s == [] then []
    else if IsSpace(s[0]) then
      var n := SpanLen(s, IsSpace);
      [' '] + CollapseSpaces(s[n..])
    else [s[0]] + CollapseSpaces(s[1..])
  }

  /** Collapsing whitespace keeps every other character, in order. */
  lemma {:induction false} CollapseKeepsContent(s: string)
    ensures Filter(CollapseSpaces(s), NotSpace) == Filter(s, NotSpace)
    decreases |s|
  {
    if s == [] {
    } else if IsSpace(s[0]) {
      var n := SpanLen(s, IsSpace);
      CollapseKeepsContent(s[n..]);
      CollapseSpaceRun(s, n);
    } else {
      CollapseKeepsContent(s[1..]);
      var r := CollapseSpaces(s);
      assert r == [s[0]] + CollapseSpaces(s[1..]);
      assert Filter(r, NotSpace) == [s[0]] + Filter(CollapseSpaces(s[1..]), NotSpace);
    }
  }

  /** The whitespace step of `CollapseKeepsContent`: neither the run nor
      the single space that replaces it keeps a character. */
  lemma CollapseSpaceRun(s: string, n: nat)
    requires s != [] && IsSpace(s[0]) && n == SpanLen(s, IsSpace)
    ensures Filter(CollapseSpaces(s), NotSpace) == Filter(CollapseSpaces(s[n..]), NotSpace)
    ensures Filter(s, NotSpace) == Filter(s[n..], NotSpace)
  {
    var r := CollapseSpaces(s);
    assert r == [' '] + CollapseSpaces(s[n..]);
    assert r[1..] == CollapseSpaces(s[n..]);
    FilterDropFront(r, NotSpace, 1);
    FilterDropFront(s, NotSpace, n);
  }

  /** A prefix without whitespace passes through collapsing unchanged. */
  lemma {:induction false} CollapseKeepsPrefix(s: string, m: nat)
    requires m <= |s| && forall k :: 0 <= k < m ==> !IsSpace(s[k])
    ensures CollapseSpaces(s) == s[..m] + CollapseSpaces(s[m..])
  {
    if m > 0 {
      CollapseKeepsPrefix(s[1..], m - 1);
      assert s[1..][m - 1..] == s[m..];
      assert s[..m] == [s[0]] + s[1..][..m - 1];
    }
  }

  /** Leading characters that are not in a run do not change the runs. */
  lemma {:induction false} RunsSkip(s: string, p: char -> bool, n: nat)
    requires n <= |s| && forall k :: 0 <= k < n ==> !p(s[k])
    ensures Runs(s, p) == Runs(s[n..], p)
  {
    if n > 0 {
      RunsSkip(s[1..], p, n - 1);
      assert s[1..][n - 1..] == s[n..];
    }
  }

  /** Collapsing whitespace keeps the words: `str.split()` gives the same
      list before and after. */
  lemma {:induction false} WordsCollapse(s: string)
    ensures Words(CollapseSpaces(s)) == Words(s)
    decreases |s|
  {
    if s == [] {
    } else if IsSpace(s[0]) {
      var n := SpanLen(s, IsSpace);
      var c := CollapseSpaces(s[n..]);
      WordsCollapse(s[n..]);
      assert CollapseSpaces(s) == [' '] + c;
      assert ([' '] + c)[1..] == c;
      RunsSkip(s, NotSpace, n);
    } else {
      var m := SpanLen(s, NotSpace);
      var c := CollapseSpaces(s[m..]);
      CollapseKeepsPrefix(s, m);
      WordsCollapse(s[m..]);
      RunsCons(s[..m], c, NotSpace);
    }
  }

  /** The number of positions where a run of `p` characters begins: a
      character satisfying `p` whose predecessor does not (`prev` says
      whether the character before `s` did). */
  function RunStarts(s: string, p: char -> bool, prev: bool): nat {
    if s == [] then 0
    else (if p(s[0]) && !prev then 1 else 0) + RunStarts(s[1..], p, p(s[0]))
  }

  /** Inside a run no new run begins until the run ends. */
  lemma {:induction false} RunStartsSpan(s: string, p: char -> bool)
    requires s != [] && p(s[0])
    ensures RunStarts(s, p, true) == RunStarts(s[SpanLen(s, p)..], p, false)
    decreases |s|
  {
    var t := s[1..];
    if t == [] || !p(t[0]) {
      assert SpanLen(s, p) == 1;
    } else {
      RunStartsSpan(t, p);
      assert s[SpanLen(s, p)..] == t[SpanLen(t, p)..];
    }
  }

  /** A separator none of whose characters satisfies `p` keeps the runs on
      either side apart. */
  lemma RunsSeparated(a: string, sep: string, b: string, p: char -> bool)
    requires sep != [] && forall i :: 0 <= i < |sep| ==> !p(sep[i])
    ensures Runs(a + sep + b, p) == Runs(a, p) + Runs(b, p)
  {
    var t := sep + b;
    RunsBefore(a, t, p);
    RunsSkip(t, p, |sep|);
    assert t[|sep|..] == b;
    assert a + sep + b == a + t;
  }

  /** Text opening with a character outside every run starts a fresh run
      list. */
  lemma {:induction false} RunsBefore(a: string, t: string, p: char -> bool)
    requires t != [] && !p(t[0])
    ensures Runs(a + t, p) == Runs(a, p) + Runs(t, p)
    decreases |a|
  {
    if a == [] {
      assert a + t == t;
    } else if !p(a[0]) {
      RunsBefore(a[1..], t, p);
      RunsSeparatedSkip(a, t, p);
    } else {
      RunsBefore(a[SpanLen(a, p)..], t, p);
      RunsSeparatedSpan(a, t, p);
    }
  }

  /** The skipping step of `RunsBefore`: a leading character outside
      every run is dropped on both sides. */
  lemma RunsSeparatedSkip(a: string, t: string, p: char -> bool)
    requires a != [] && !p(a[0])
    ensures Runs(a + t, p) == Runs(a[1..] + t, p)
    ensures Runs(a, p) == Runs(a[1..], p)
  {
    assert (a + t)[1..] == a[1..] + t;
  }

  /** The run-taking step of `RunsBefore`: a leading run of `a` ends
      inside `a` even once `t` is appended, provided `t` opens with a
      character outside every run. */
  lemma RunsSeparatedSpan(a: string, t: string, p: char -> bool)
    requires a != [] && p(a[0]) && t != [] && !p(t[0])
    ensures Runs(a + t, p) == [a[..SpanLen(a, p)]] + Runs(a[SpanLen(a, p)..] + t, p)
    ensures Runs(a, p) == [a[..SpanLen(a, p)]] + Runs(a[SpanLen(a, p)..], p)
  {
    var n := SpanLen(a, p);
    var w := a[..n];
    var rest := a[n..];
    assert a == w + rest;
    assert a + t == w + (rest + t);
    RunsCons(w, rest, p);
    RunsCons(w, rest + t, p);
  }

  lemma LowerAppend(a: string, b: string)
    ensures Lower(a + b) == Lower(a) + Lower(b)
  {
  }

  /** There are as many runs as positions where one begins. */
  lemma {:induction false} RunsCount(s: string, p: char -> bool)
    ensures |Runs(s, p)| == RunStarts(s, p, false)
    decreases |s|
  {
    if s == [] {
    } else if !p(s[0]) {
      RunsCount(s[1..], p);
    } else {
      var n := SpanLen(s, p);
      RunsCount(s[n..], p);
      RunStartsSpan(s, p);
      if |s| > 1 && p(s[1]) {
      } else {
        assert n == 1;
      }
    }
  }

  /* ------------------------------------------------------ substrings */

  predicate StartsWith(s: string, prefix: string) {
    |prefix| <= |s| && s[..|prefix|] == prefix
  }

  /** A text whose first character differs from the prefix's does not
      start with it. */
  lemma FirstCharDiffers(s: string, prefix: string)
    requires s != [] && prefix != [] && s[0] != prefix[0]
    ensures !StartsWith(s, prefix)
  {
    if |prefix| <= |s| {
      assert s[..|prefix|][0] == s[0];
    }
  }

  predicate EndsWith(s: string, suffix: string) {
    |suffix| <= |s| && s[|s| - |suffix|..] == suffix
  }

  predicate OccursAt(s: string, pat: string, j: int) {
    0 <= j && j + |pat| <= |s| && s[j..j + |pat|] == pat
  }

  /** `s.find(pat)`, as an option: the leftmost position of `pat` in `s`. */
  function IndexOf(s: string, pat: string): (r: Option<nat>)
    ensures r.Some? ==> OccursAt(s, pat, r.value)
    ensures r.Some? ==> forall j :: 0 <= j < r.value ==> !OccursAt(s, pat, j)
    ensures r.None? ==> forall j :: !OccursAt(s, pat, j)
  {
    if StartsWith(s, pat) then Some(0)
    else if s == [] then None
    else
      var rest := IndexOf(s[1..], pat);
      assert forall j :: 1 <= j ==> (OccursAt(s, pat, j) <==> OccursAt(s[1..], pat, j - 1)) by {
        forall j | 1 <= j
          ensures OccursAt(s, pat, j) <==> OccursAt(s[1..], pat, j - 1)
        {
          if j + |pat| <= |s| {
            assert s[1..][j - 1..j - 1 + |pat|] == s[j..j + |pat|];
          }
        }
      }
      if rest.Some? then Some(rest.value + 1) else None
  }

  /** Python's `pat in s`. */
  predicate Contains(s: string, pat: string) {
    IndexOf(s, pat).Some?
  }

  /** `c in s` for a single character. */
  predicate HasChar(s: string, c: char) {
    exists i :: 0 <= i < |s| && s[i] == c
  }

  /** Searching for a one-character string is a membership test. */
  lemma ContainsChar(s: string, c: char)
    ensures Contains(s, [c]) <==> HasChar(s, c)
  {
    if HasChar(s, c) {
      var i :| 0 <= i < |s| && s[i] == c;
      assert OccursAt(s, [c], i);
    }
    if Contains(s, [c]) {
      var j := IndexOf(s, [c]).value;
      assert s[j..j + 1][0] == s[j];
    }
  }

  lemma ContainsIff(s: string, pat: string)
    ensures Contains(s, pat) <==> exists j :: OccursAt(s, pat, j)
  {
  }

  /** A string contains each of its own slices. */
  lemma ContainsSlice(s: string, i: nat, j: nat)
    requires i <= j <= |s|
    ensures Contains(s, s[i..j])
  {
    assert OccursAt(s, s[i..j], i);
  }

  /** `s.split(sep)` for a non-empty separator. */
  function SplitOn(s: string, sep: string): (r: seq<string>)
    requires sep != []
    ensures |r| >= 1
    decreases |s|
  {
    match IndexOf(s, sep)
    case None => [s]
    case Some(i) => [s[..i]] + SplitOn(s[i + |sep|..], sep)
  }

  /** When `sep` occurs, `s.split(sep)` has at least two pieces and the first
      is the text before the leftmost occurrence. */
  lemma SplitOnFirst(s: string, sep: string)
    requires sep != [] && Contains(s, sep)
    ensures |SplitOn(s, sep)| >= 2
    ensures SplitOn(s, sep)[0] == s[..IndexOf(s, sep).value]
    ensures SplitOn(s, sep)[1..] == SplitOn(s[IndexOf(s, sep).value + |sep|..], sep)
  {
    var i := IndexOf(s, sep).value;
    var tail := SplitOn(s[i + |sep|..], sep);
    assert SplitOn(s, sep) == [s[..i]] + tail;
    assert ([s[..i]] + tail)[1..] == tail;
  }

  /** The first piece of `s.split(sep)`: the text before the leftmost
      occurrence, or all of `s` when `sep` does not occur. */
  lemma SplitOnHead(s: string, sep: string)
    requires sep != []
    ensures SplitOn(s, sep)[0] == if Contains(s, sep) then s[..IndexOf(s, sep).value] else s
  {
  }

  /** `sep.join(s.split(sep)) == s`. */
  lemma {:induction false} JoinSplitOn(s: string, sep: string)
    requires sep != []
    ensures Join(SplitOn(s, sep), sep) == s
    decreases |s|
  {
    match IndexOf(s, sep)
    case None =>
    case Some(i) =>
      JoinSplitOn(s[i + |sep|..], sep);
      JoinAround(s, sep, i, SplitOn(s[i + |sep|..], sep));
  }

  /** The text before an occurrence of `sep`, joined by `sep` to pieces
      that join back to the text after it, gives the whole text. */
  lemma JoinAround(s: string, sep: string, i: nat, tail: seq<string>)
    requires OccursAt(s, sep, i)
    requires tail != [] && Join(tail, sep) == s[i + |sep|..]
    ensures Join([s[..i]] + tail, sep) == s
  {
    assert ([s[..i]] + tail)[1..] == tail;
    assert s == s[..i] + sep + s[i + |sep|..];
  }

  /** No piece of `s.split(sep)` contains the separator. */
  lemma {:induction false} SplitOnPiecesFree(s: string, sep: string)
    requires sep != []
    ensures forall piece :: piece in SplitOn(s, sep) ==> !Contains(piece, sep)
    decreases |s|
  {
    match IndexOf(s, sep)
    case None =>
    case Some(i) =>
      var rest := s[i + |sep|..];
      SplitOnPiecesFree(rest, sep);
      BeforeFirstFree(s, sep, i);
      assert SplitOn(s, sep) == [s[..i]] + SplitOn(rest, sep);
  }

  /** The text before the first occurrence of `sep` does not contain it. */
  lemma BeforeFirstFree(s: string, sep: string, i: nat)
    requires sep != [] && i <= |s| && forall j :: 0 <= j < i ==> !OccursAt(s, sep, j)
    ensures !Contains(s[..i], sep)
  {
    forall j | OccursAt(s[..i], sep, j)
      ensures false
    {
      assert s[..i][j..j + |sep|] == s[j..j + |sep|];
      assert OccursAt(s, sep, j);
    }
  }

  /** Splitting on one character gives one piece more than the character
      occurs. */
  lemma {:induction false} SplitOnCharCount(s: string, c: char)
    ensures |SplitOn(s, [c])| == multiset(s)[c] + 1
    decreases |s|
  {
    match IndexOf(s, [c])
    case None =>
      forall j | 0 <= j < |s|
        ensures s[j] != c
      {
        assert !OccursAt(s, [c], j);
        assert s[j..j + 1] == [s[j]];
      }
      assert c !in multiset(s);
    case Some(i) =>
      SplitOnCharCount(s[i + 1..], c);
      assert s[i..i + 1] == [c];
      assert s == s[..i] + [c] + s[i + 1..];
      forall j | 0 <= j < i
        ensures s[..i][j] != c
      {
        assert !OccursAt(s, [c], j);
        assert s[j..j + 1] == [s[j]];
      }
      assert c !in multiset(s[..i]);
      assert multiset(s) == multiset(s[..i]) + multiset([c]) + multiset(s[i + 1..]);
  }

  /** `s.replace(pat, repl)` for a non-empty `pat`. */
  function ReplaceAll(s: string, pat: string, repl: string): string
    requires pat != []
  {
    Join(SplitOn(s, pat), repl)
  }

  /** Replacing a pattern that does not occur leaves the string unchanged. */
  lemma ReplaceAbsent(s: string, pat: string, repl: string)
    requires pat != [] && !Contains(s, pat)
    ensures ReplaceAll(s, pat, repl) == s
  {
  }

  /* ----------------------------------------------------------- tags */

  /** `re.sub(r'<[^>]+>', ' ', s)`: a `<` starts a match when the next `>`
      after it is not immediately next to it; the match ends at that `>`. */
  function StripTags(s: string): (r: string)
    ensures (forall i :: 0 <= i < |s| ==> s[i] != '<') ==> r == s
    decreases |s|
  {
    if s == [] then []
    else if s[0] == '<' then
      match IndexOf(s[1..], ">")
      case Some(k) =>
        if k > 0 then " " + StripTags(s[k + 2..]) else [s[0]] + StripTags(s[1..])
      case None => [s[0]] + StripTags(s[1..])
    else [s[0]] + StripTags(s[1..])
  }

  /* --------------------------------------------------------- numbers */

  /** Decimal value of a digit string. */
  function DigitsValue(ds: string): nat
    decreases |ds|
  {
    if ds == [] then 0
    else
      var last := ds[|ds| - 1];
      var d := if IsDigit(last) then last as int - '0' as int else 0;
      10 * DigitsValue(ds[..|ds| - 1]) + d
  }

  /** The characters of a number rendered by `str(n)`. */
  function NatToString(n: nat): (r: string)
    ensures r != [] && forall i :: 0 <= i < |r| ==> IsDigit(r[i])
    ensures DigitsValue(r) == n
  {
    var d := ['0' + (n % 10) as char];
    if n < 10 then d
    else
      var prefix := NatToString(n / 10);
      assert (prefix + d)[..|prefix + d| - 1] == prefix;
      prefix + d
  }
}

=== FILE: technical.dfy ===
/** The technical SEO analyzer in both generations: canonical link, robots
    directives, URL hygiene, hreflang alternates, Schema.org markup and the
    sitemap link. The modular analyzer adds loading optimisation, the HTTPS
    check, internal linking and a weighted score; the synchronous one scores
    by counting its recommendations. */
module TechnicalAnalysis {
  import opened Wrappers
  import opened Seqs
  import opened Strings
  import opened Numeric
  import opened Dom
  import opened Recs
  import opened Urls
  import opened Generations
  import Freq

  /* ---------------------------------------------------------- canonical */

  datatype CanonicalInfo = CanonicalInfo(hasCanonical: bool, canonicalUrl: Option<string>, isSelfCanonical: bool)

  /** `soup.find('link', rel='canonical')`'s filter. */
  predicate IsCanonicalLink(x: Node) {
    HasTag(x, "link") && AttrIs(x, "rel", "canonical")
  }

  /** `_check_canonical`: the first canonical link's `href` (empty when the
      attribute is missing) and whether it is exactly the analysed URL. */
  function Canonical(soup: Node, url: string): (r: CanonicalInfo)
    ensures r.hasCanonical <==> FindAll(soup, IsCanonicalLink) != []
    ensures r.canonicalUrl.Some? <==> r.hasCanonical
    ensures r.isSelfCanonical <==> r.hasCanonical && r.canonicalUrl == Some(url)
  {
    match Find(soup, IsCanonicalLink)
    case None => CanonicalInfo(false, None, false)
    case Some(tag) =>
      var href := Attr(tag, "href").GetOr("");
      CanonicalInfo(true, Some(href), href == url)
  }

  /** The page is self-canonical exactly when its first canonical link
      points, character for character, at the analysed URL. */
  lemma SelfCanonicalIff(soup: Node, url: string)
    ensures Canonical(soup, url).isSelfCanonical <==>
      var links := FindAll(soup, IsCanonicalLink);
      links != [] && Attr(links[0], "href").GetOr("") == url
  {
  }

  /* ------------------------------------------------------------- robots */

  /** `has_robots_tag`, the directives and the two flags; the flags are
      absent from the record when there is no robots tag. */
  datatype RobotsInfo = RobotsInfo(
    hasRobotsTag: bool,
    directives: Option<seq<string>>,
    isNoindex: Option<bool>,
    isNofollow: Option<bool>)

  /** `[d.strip() for d in content.split(',')]`. */
  function Directives(content: string): (r: seq<string>)
    ensures |r| == |SplitOn(content, ",")| >= 1
    ensures forall i :: 0 <= i < |r| ==> r[i] == Strip(SplitOn(content, ",")[i])
  {
    StripAll(SplitOn(content, ","))
  }

  /** Every piece stripped. */
  function StripAll(pieces: seq<string>): (r: seq<string>)
    ensures |r| == |pieces|
    ensures forall i :: 0 <= i < |r| ==> r[i] == Strip(pieces[i])
  {
    Map(pieces, Strip)
  }

  /** No directive holds a comma or starts or ends with white space. */
  lemma DirectivesClean(content: string)
    ensures forall d :: d in Directives(content) ==>
      !HasChar(d, ',') && (d == [] || (!IsSpace(d[0]) && !IsSpace(d[|d| - 1])))
  {
    SplitOnPiecesFree(content, ",");
    StrippedPiecesClean(SplitOn(content, ","));
  }

  /** Stripping comma-free pieces gives clean directives. */
  lemma StrippedPiecesClean(pieces: seq<string>)
    requires forall p :: p in pieces ==> !Contains(p, ",")
    ensures forall d :: d in Map(pieces, Strip) ==> !HasChar(d, ',')
  {
    var ds := Map(pieces, Strip);
    forall d | d in ds
      ensures !HasChar(d, ',')
    {
      var i :| 0 <= i < |ds| && ds[i] == d;
      assert pieces[i] in pieces;
      PieceStripped(pieces[i], d);
    }
  }

  /** Stripping a piece without a comma leaves no comma. */
  lemma PieceStripped(piece: string, d: string)
    requires !Contains(piece, ",") && d == Strip(piece)
    ensures !HasChar(d, ',')
  {
    ContainsChar(piece, ',');
    StripChars(piece);
  }

  predicate IsRobotsMeta(x: Node) {
    IsMetaNamed(x, "robots")
  }

  /** `_check_robots`. */
  function Robots(soup: Node): (r: RobotsInfo)
    ensures r.hasRobotsTag <==> FindAll(soup, IsRobotsMeta) != []
    ensures r.directives.Some? <==> r.hasRobotsTag
    ensures r.isNoindex.Some? <==> r.hasRobotsTag
    ensures r.isNoindex == Some(true) <==> r.hasRobotsTag && "noindex" in r.directives.value
    ensures r.isNofollow == Some(true) <==> r.hasRobotsTag && "nofollow" in r.directives.value
  {
    match Find(soup, IsRobotsMeta)
    case None => RobotsInfo(false, None, None, None)
    case Some(tag) =>
      var ds := Directives(Attr(tag, "content").GetOr(""));
      RobotsInfo(true, Some(ds), Some("noindex" in ds), Some("nofollow" in ds))
  }

  /** A directive such as `noindex` is among the directives exactly when
      one comma-separated piece of the content is that directive up to
      surrounding white space. */
  lemma DirectiveIff(content: string, w: string)
    ensures w in Directives(content) ==>
      exists i :: 0 <= i < |SplitOn(content, ",")| && Strip(SplitOn(content, ",")[i]) == w
    ensures (exists i :: 0 <= i < |SplitOn(content, ",")| && Strip(SplitOn(content, ",")[i]) == w) ==>
      w in Directives(content)
  {
    if exists i :: 0 <= i < |SplitOn(content, ",")| && Strip(SplitOn(content, ",")[i]) == w {
      var i :| 0 <= i < |SplitOn(content, ",")| && Strip(SplitOn(content, ",")[i]) == w;
      assert Directives(content)[i] == w;
    }
  }

  /* ---------------------------------------------------------------- URL */

  /** A character of the class `[a-zA-Z0-9/-]`. */
  predicate IsPlainPathChar(c: char) {
    IsAsciiLetter(c) || IsDigit(c) || c == '/' || c == '-'
  }

  /** `any(c.isupper() for c in path)`. */
  predicate HasUpperChar(path: string) {
    exists i :: 0 <= i < |path| && IsUpper(path[i])
  }

  /** `re.search(r'[^a-zA-Z0-9/-]', path)`. */
  predicate HasSpecialChar(path: string) {
    exists i :: 0 <= i < |path| && !IsPlainPathChar(path[i])
  }

  /** `_analyze_url`'s issues, each added independently, in the order
      uppercase, special characters, double hyphen, length, query; only the
      modular analyzer checks the query. */
  function UrlIssues(path: string, query: string, gen: Generation): (r: seq<UrlIssue>)
    ensures HasUppercase in r <==> HasUpperChar(path)
    ensures HasSpecialChars in r <==> HasSpecialChar(path)
    ensures HasDoubleHyphen in r <==> Contains(path, "--")
    ensures TooLong in r <==> |path| > 100
    ensures HasQuery in r <==> gen == Modular && query != ""
  {
    IssueList(HasUpperChar(path), HasSpecialChar(path), Contains(path, "--"), |path| > 100,
      gen == Modular && query != "")
  }

  /** The issues whose checks came out true, in the order of the checks. */
  function IssueList(upper: bool, special: bool, doubleHyphen: bool, long: bool, hasQuery: bool): (r: seq<UrlIssue>)
    ensures HasUppercase in r <==> upper
    ensures HasSpecialChars in r <==> special
    ensures HasDoubleHyphen in r <==> doubleHyphen
    ensures TooLong in r <==> long
    ensures HasQuery in r <==> hasQuery
  {
    (if upper then [HasUppercase] else [])
    + (if special then [HasSpecialChars] else [])
    + (if doubleHyphen then [HasDoubleHyphen] else [])
    + (if long then [TooLong] else [])
    + (if hasQuery then [HasQuery] else [])
  }

  /** The two generations agree on the path; the modular one appends the
      query issue. */
  lemma UrlIssuesGenerations(path: string, query: string)
    ensures UrlIssues(path, query, Modular) == UrlIssues(path, query, Legacy) + (if query != "" then [HasQuery] else [])
  {
  }

  /** A path of lower-case ASCII letters, digits, `/` and single `-`, at
      most 100 long, is clean in the synchronous analyzer. */
  lemma PlainPathIsClean(path: string)
    requires forall i :: 0 <= i < |path| ==> ('a' <= path[i] <= 'z') || IsDigit(path[i]) || path[i] == '/' || path[i] == '-'
    requires !Contains(path, "--") && |path| <= 100
    ensures UrlIssues(path, "", Legacy) == []
  {
  }

  datatype UrlInfo = UrlInfo(path: string, query: Option<string>, issues: seq<UrlIssue>, isOptimized: bool)

  function AnalyzeUrl(u: Url, gen: Generation): (r: UrlInfo)
    ensures r.isOptimized <==> r.issues == []
    ensures r.query.Some? <==> gen == Modular
  {
    var issues := UrlIssues(u.path, u.query, gen);
    UrlInfo(u.path, if gen == Modular then Some(u.query) else None, issues, issues == [])
  }

  /* ----------------------------------------------------------- hreflang */

  /** The hreflang languages and, in the modular analyzer, the missing
      self-reference issue. */
  datatype HreflangInfo = HreflangInfo(hasHreflang: bool, languages: seq<string>, issues: seq<Msg>)

  /** `find_all('link', rel='alternate', href=True)` kept when
      `tag.get('hreflang')` is a non-empty string. */
  predicate IsHreflangLink(x: Node) {
    HasTag(x, "link") && AttrIs(x, "rel", "alternate") && HasAttr(x, "href") && Attr(x, "hreflang").GetOr("") != ""
  }

  function HreflangOf(x: Node): string {
    Attr(x, "hreflang").GetOr("")
  }

  /** Every language read off an hreflang link is non-empty. */
  lemma HreflangsNonEmpty(tags: seq<Node>)
    requires forall t :: t in tags ==> IsHreflangLink(t)
    ensures forall l :: l in Map(tags, HreflangOf) ==> l != ""
  {
    var languages := Map(tags, HreflangOf);
    forall l | l in languages
      ensures l != ""
    {
      var i :| 0 <= i < |languages| && languages[i] == l;
      assert tags[i] in tags;
    }
  }

  /** `_check_hreflang`. The modular analyzer reads `soup.html.get('lang')`
      once some hreflang link exists, which raises on a document without an
      `<html>` element. */
  function Hreflang(soup: Node, gen: Generation): (r: Result<HreflangInfo, Fault>)
    ensures r.Failure? <==> gen == Modular && FindAll(soup, IsHreflangLink) != [] && FindTag(soup, "html").None?
    ensures r.Success? ==> (r.value.hasHreflang <==> FindAll(soup, IsHreflangLink) != [])
    ensures r.Success? ==> |r.value.languages| == |FindAll(soup, IsHreflangLink)|
    ensures r.Success? ==> forall l :: l in r.value.languages ==> l != ""
  {
    var tags := FindAll(soup, IsHreflangLink);
    if tags == [] then Success(HreflangInfo(false, [], []))
    else
      var languages := Map(tags, HreflangOf);
      HreflangsNonEmpty(tags);
      var html := FindTag(soup, "html");
      if gen == Legacy then Success(HreflangInfo(true, languages, []))
      else if html.None? then assert gen == Modular; Failure(NoHtmlElement)
      else
        var lang := Attr(html.value, "lang").GetOr("");
        Success(HreflangInfo(true, languages, if lang != "" && lang !in languages then [NoSelfHreflang] else []))
  }

  /** The self-reference issue fires exactly when the page's `lang` is
      non-empty and no hreflang link names it. */
  lemma SelfReferenceIff(soup: Node)
    requires Hreflang(soup, Modular).Success?
    ensures var info := Hreflang(soup, Modular).value;
      NoSelfHreflang in info.issues <==>
        info.hasHreflang
        && var lang := Attr(FindTag(soup, "html").value, "lang").GetOr("");
        lang != "" && lang !in info.languages
  {
  }

  /** The synchronous analyzer never reads `soup.html` and never fails. */
  lemma LegacyHreflangSucceeds(soup: Node)
    ensures Hreflang(soup, Legacy).Success?
    ensures Hreflang(soup, Legacy).value.issues == []
  {
  }

  /* ------------------------------------------------------------- schema */

  datatype SchemaInfo = SchemaInfo(hasSchema: bool, jsonLdCount: nat, microdataCount: nat, detectedTypes: seq<string>)

  predicate IsJsonLd(x: Node) {
    HasTag(x, "script") && AttrIs(x, "type", "application/ld+json")
  }

  /** The pattern `schema.org` matches at `i`: its dot is any character
      but a newline. */
  predicate SchemaOrgAt(s: string, i: int) {
    0 <= i && i + 10 <= |s| && s[i..i + 6] == "schema" && s[i + 6] != '\n' && s[i + 7..i + 10] == "org"
  }

  predicate MentionsSchemaOrg(s: string) {
    exists i :: 0 <= i < |s| && SchemaOrgAt(s, i)
  }

  /** `find_all(attrs={"itemtype": re.compile(r'schema.org')})`'s filter. */
  predicate IsMicrodata(x: Node) {
    AttrMatches(x, "itemtype", MentionsSchemaOrg)
  }

  predicate NotQuote(c: char) {
    c != '"'
  }

  /** The group of `"@type"\s*:\s*"([^"]+)"` when the pattern matches at
      position `i`. */
  function TypeAt(s: string, i: nat): (r: Option<string>)
    requires i <= |s|
    ensures r.Some? ==> r.value != [] && forall k :: 0 <= k < |r.value| ==> NotQuote(r.value[k])
  {
    if !OccursAt(s, "\"@type\"", i) then None
    else
      var a := i + 7;
      var b := a + SpanLen(s[a..], IsSpace);
      if b < |s| && s[b] == ':' then
        var c := b + 1 + SpanLen(s[b + 1..], IsSpace);
        if c < |s| && s[c] == '"' then
          var n := SpanLen(s[c + 1..], NotQuote);
          if 0 < n && c + 1 + n < |s| then Some(SpanOf(s, c + 1, n)) else None
        else None
      else None
  }

  /** The quote-free span of `n` characters at `i`. */
  function SpanOf(s: string, i: nat, n: nat): (r: string)
    requires i + n <= |s| && n <= |s[i..]| && n == SpanLen(s[i..], NotQuote)
    ensures r == s[i..i + n]
    ensures forall k :: 0 <= k < |r| ==> NotQuote(r[k])
  {
    assert forall k :: 0 <= k < n ==> s[i..][k] == s[i + k];
    s[i..i + n]
  }

  /** `re.search(...)` from position `i`: the leftmost match's group. */
  function FirstTypeFrom(s: string, i: nat): (r: Option<string>)
    requires i <= |s|
    ensures r.Some? ==> r.value != [] && forall k :: 0 <= k < |r.value| ==> NotQuote(r.value[k])
    ensures r.None? <==> forall j :: i <= j <= |s| ==> TypeAt(s, j).None?
    decreases |s| - i
  {
    match TypeAt(s, i)
    case Some(t) => Some(t)
    case None => if i == |s| then None else FirstTypeFrom(s, i + 1)
  }

  /** The `@type` a JSON-LD script declares first, if any. */
  function JsonLdType(s: string): (r: Option<string>)
    ensures r.Some? ==> r.value != [] && forall k :: 0 <= k < |r.value| ==> NotQuote(r.value[k])
    ensures r.None? <==> forall j :: 0 <= j <= |s| ==> TypeAt(s, j).None?
  {
    FirstTypeFrom(s, 0)
  }

  /** A script that opens with a declaration `"@type":"t"` declares `t`,
      whatever follows. */
  lemma JsonLdTypeLeading(t: string, rest: string)
    requires t != [] && forall k :: 0 <= k < |t| ==> NotQuote(t[k])
    ensures JsonLdType("\"@type\":\"" + t + "\"" + rest) == Some(t)
  {
    var s := "\"@type\":\"" + t + "\"" + rest;
    assert s[..7] == "\"@type\"";
    assert OccursAt(s, "\"@type\"", 0);
    assert s[7] == ':' && s[8] == '"';
    SpanLenExact(s[7..], IsSpace, 0);
    SpanLenExact(s[8..], IsSpace, 0);
    assert s[9..9 + |t|] == t;
    assert s[9 + |t|] == '"';
    SpanLenExact(s[9..], NotQuote, |t|);
    assert TypeAt(s, 0) == Some(t);
  }

  /** `element.get('itemtype', '')`. */
  function ItemType(x: Node): string {
    Attr(x, "itemtype").GetOr("")
  }

  /** The text after the first `schema.org/`, up to the next one or the
      end. */
  function AfterSchemaOrg(it: string): string
    requires Contains(it, "schema.org/")
  {
    var rest := it[IndexOf(it, "schema.org/").value + 11..];
    if Contains(rest, "schema.org/") then rest[..IndexOf(rest, "schema.org/").value] else rest
  }

  /** `itemtype.split('schema.org/')[1].strip()` when the attribute holds
      `schema.org/` and that piece is not empty. */
  function MicrodataType(x: Node): (r: Option<string>)
    ensures r.Some? ==> r.value != []
    ensures r.Some? <==> Contains(ItemType(x), "schema.org/") && Strip(AfterSchemaOrg(ItemType(x))) != ""
    ensures r.Some? ==> r.value == Strip(AfterSchemaOrg(ItemType(x)))
  {
    var it := ItemType(x);
    if it != "" && Contains(it, "schema.org/") then
      SplitOnFirst(it, "schema.org/");
      SplitOnHead(it[IndexOf(it, "schema.org/").value + 11..], "schema.org/");
      var t := Strip(SplitOn(it, "schema.org/")[1]);
      if t != "" then Some(t) else None
    else None
  }

  /** The present values, in order. */
  function Present(s: seq<Option<string>>): (r: seq<string>)
    ensures |r| <= |s|
    ensures forall x :: x in r <==> Some(x) in s
  {
    if s == [] then []
    else (if s[0].Some? then [s[0].value] else []) + Present(s[1..])
  }

  function ScriptType(x: Node): Option<string> {
    match TagString(x)
    case Some(t) => if t != "" then JsonLdType(t) else None
    case None => None
  }

  /** `_check_schema_markup`; only the modular analyzer extracts types. */
  function Schema(soup: Node, gen: Generation): (r: SchemaInfo)
    ensures r.hasSchema <==> r.jsonLdCount > 0 || r.microdataCount > 0
    ensures r.jsonLdCount == |FindAll(soup, IsJsonLd)| && r.microdataCount == |FindAll(soup, IsMicrodata)|
    ensures |r.detectedTypes| <= r.jsonLdCount + r.microdataCount
    ensures forall t :: t in r.detectedTypes ==> t != []
    ensures gen == Legacy ==> r.detectedTypes == []
  {
    var jsonLd := FindAll(soup, IsJsonLd);
    var microdata := FindAll(soup, IsMicrodata);
    var types :=
      if gen == Legacy then []
      else Present(Map(jsonLd, ScriptType)) + Present(Map(microdata, MicrodataType));
    PresentNonEmpty(jsonLd, ScriptType);
    PresentNonEmpty(microdata, MicrodataType);
    SchemaInfo(jsonLd != [] || microdata != [], |jsonLd|, |microdata|, types)
  }

  /** Reading values that are never empty gives no empty value. */
  lemma PresentNonEmpty(xs: seq<Node>, f: Node -> Option<string>)
    requires forall x :: f(x).Some? ==> f(x).value != []
    ensures forall t :: t in Present(Map(xs, f)) ==> t != []
  {
    forall t | t in Present(Map(xs, f))
      ensures t != []
    {
      assert Some(t) in Map(xs, f);
    }
  }

  /** Detected types never decide `has_schema`: a page with a type has
      schema markup, and whether it has markup depends on the markup
      alone. */
  lemma TypesNeedMarkup(soup: Node)
    ensures Schema(soup, Modular).detectedTypes != [] ==> Schema(soup, Modular).hasSchema
    ensures Schema(soup, Modular).hasSchema == Schema(soup, Legacy).hasSchema
  {
  }

  /* ------------------------------------------------------------ sitemap */

  predicate MentionsSitemap(s: string) {
    Contains(s, "sitemap.xml")
  }

  predicate IsSitemapLink(x: Node) {
    HasTag(x, "a") && AttrMatches(x, "href", MentionsSitemap)
  }

  /** `_check_sitemap_reference`: an `<a>` whose `href` mentions
      `sitemap.xml`. */
  function HasSitemapLink(soup: Node): (r: bool)
    ensures r <==> exists x :: x in FindAll(soup, IsSitemapLink)
  {
    var found := Find(soup, IsSitemapLink);
    assert found.Some? ==> found.value in FindAll(soup, IsSitemapLink);
    found.Some?
  }

  /* ------------------------------------------------------------ loading */

  /** The `script_optimization` entry. */
  datatype ScriptInfo = ScriptInfo(total: nat, async: nat, defer: nat, score: int)

  datatype LoadingInfo = LoadingInfo(
    hasResourceHints: bool,
    preloadCount: nat,
    prefetchCount: nat,
    dnsPrefetchCount: nat,
    scripts: ScriptInfo,
    hasLazyLoading: bool,
    lazyLoadingCount: nat,
    optimizationScore: int)

  /** `min(100, optimized / max(1, total) * 100)`: a script with both
      `async` and `defer` counts twice, hence the cap. */
  function ScriptScore(optimized: nat, total: nat): (r: real)
    ensures 0.0 <= r <= 100.0
    ensures r == 100.0 <==> optimized >= MaxNat(1, total)
    ensures r == 0.0 <==> optimized == 0
  {
    var whole := MaxNat(1, total);
    DivCompare(optimized as real, whole as real, 1.0);
    DivCompare(optimized as real, whole as real, 0.0);
    MinReal(100.0, Percent(optimized, whole))
  }

  /** `40 * hints + 0.4 * script_score + 20 * lazy`, rounded. */
  function OptimizationScore(hints: bool, scriptScore: real, lazy: bool): (r: int)
    ensures 0.0 <= scriptScore <= 100.0 ==> 0 <= r <= 100
    ensures hints && lazy && scriptScore == 100.0 ==> r == 100
    ensures 0.0 <= scriptScore && hints ==> r >= 40
    ensures scriptScore <= 100.0 && !hints && !lazy ==> r <= 40
  {
    var x := Points(hints, 40) as real + scriptScore * 0.4 + Points(lazy, 20) as real;
    RoundBounds(x, 0);
    RoundBounds(x, 40);
    RoundBounds(x, 100);
    RoundHalfEven(x)
  }

  predicate IsExternalScript(x: Node) {
    HasTag(x, "script") && HasAttr(x, "src")
  }

  predicate IsLazy(x: Node) {
    AttrIs(x, "loading", "lazy")
  }

  predicate HasAsync(x: Node) {
    HasAttr(x, "async")
  }

  predicate HasDefer(x: Node) {
    HasAttr(x, "defer")
  }

  /** `soup.find_all('link', rel=kind)`. */
  function HintLinks(soup: Node, kind: string): seq<Node> {
    FindAll(soup, (x: Node) => IsLinkRel(x, kind))
  }

  /** `soup.find_all('script', src=True)`. */
  function ExternalScripts(soup: Node): seq<Node> {
    FindAll(soup, IsExternalScript)
  }

  /** `round(script_score)`, an integer percentage. */
  function RoundedScriptScore(optimized: nat, total: nat): (r: int)
    ensures 0 <= r <= 100
    ensures optimized >= MaxNat(1, total) ==> r == 100
    ensures optimized == 0 ==> r == 0
  {
    var score := ScriptScore(optimized, total);
    RoundHalfEvenBetween(score, 0, 100);
    RoundHalfEvenUnique(100.0, 100);
    RoundHalfEvenUnique(0.0, 0);
    RoundHalfEven(score)
  }

  /** The number of scripts, of those with `async` and of those with
      `defer`, and the rounded share of optimised ones; a script with both
      attributes is optimised twice. */
  function ScriptInfoOf(scripts: seq<Node>): (r: ScriptInfo)
    ensures r.total == |scripts|
    ensures r.async == |Positions(scripts, HasAsync)| && r.defer == |Positions(scripts, HasDefer)|
    ensures r.async <= r.total && r.defer <= r.total
    ensures r.score == RoundedScriptScore(r.async + r.defer, r.total)
  {
    var async := CountWhere(scripts, HasAsync);
    var defer := CountWhere(scripts, HasDefer);
    ScriptInfo(|scripts|, async, defer, RoundedScriptScore(async + defer, |scripts|))
  }

  /** The loading report from the hint links of each kind, the external
      scripts and the lazy elements: hints exist when any hint link does,
      and the overall score weighs hints 40, the script share 0.4 and lazy
      loading 20. */
  function LoadingOf(preload: seq<Node>, prefetch: seq<Node>, dnsPrefetch: seq<Node>, scripts: seq<Node>, lazy: seq<Node>)
    : (r: LoadingInfo)
    ensures r.preloadCount == |preload| && r.prefetchCount == |prefetch| && r.dnsPrefetchCount == |dnsPrefetch|
    ensures r.hasResourceHints <==> r.preloadCount + r.prefetchCount + r.dnsPrefetchCount > 0
    ensures r.scripts == ScriptInfoOf(scripts)
    ensures r.lazyLoadingCount == |lazy|
    ensures r.hasLazyLoading <==> r.lazyLoadingCount > 0
    ensures r.optimizationScore
      == OptimizationScore(r.hasResourceHints, ScriptScore(r.scripts.async + r.scripts.defer, r.scripts.total), r.hasLazyLoading)
    ensures 0 <= r.optimizationScore <= 100
    ensures r.hasResourceHints ==> r.optimizationScore >= 40
  {
    var info := ScriptInfoOf(scripts);
    var hints := preload != [] || prefetch != [] || dnsPrefetch != [];
    var score := ScriptScore(info.async + info.defer, info.total);
    LoadingInfo(hints, |preload|, |prefetch|, |dnsPrefetch|, info, lazy != [], |lazy|,
      OptimizationScore(hints, score, lazy != []))
  }

  /** `_check_loading_optimization`: the report on the page's preload,
      prefetch and dns-prefetch links, its external scripts and its lazy
      elements. */
  function Loading(soup: Node): (r: LoadingInfo)
    ensures r == LoadingOf(HintLinks(soup, "preload"), HintLinks(soup, "prefetch"), HintLinks(soup, "dns-prefetch"),
                           ExternalScripts(soup), FindAll(soup, IsLazy))
    ensures r.preloadCount == |HintLinks(soup, "preload")| && r.prefetchCount == |HintLinks(soup, "prefetch")|
    ensures r.dnsPrefetchCount == |HintLinks(soup, "dns-prefetch")|
    ensures r.scripts.total == |ExternalScripts(soup)|
    ensures r.scripts.async == |Positions(ExternalScripts(soup), HasAsync)|
    ensures r.scripts.defer == |Positions(ExternalScripts(soup), HasDefer)|
    ensures r.lazyLoadingCount == |FindAll(soup, IsLazy)|
    ensures 0 <= r.scripts.score <= 100 && 0 <= r.optimizationScore <= 100
    ensures r.hasResourceHints ==> r.optimizationScore >= 40
  {
    LoadingOf(HintLinks(soup, "preload"), HintLinks(soup, "prefetch"), HintLinks(soup, "dns-prefetch"),
      ExternalScripts(soup), FindAll(soup, IsLazy))
  }

  /** A page whose external scripts all carry `async` or `defer` gets the
      full script score. */
  lemma LoadingAllOptimized(soup: Node)
    requires ExternalScripts(soup) != []
    requires forall x :: x in ExternalScripts(soup) ==> HasAsync(x) || HasDefer(x)
    ensures Loading(soup).scripts.score == 100
  {
    PositionsCover(ExternalScripts(soup), HasAsync, HasDefer);
    RoundHalfEvenUnique(100.0, 100);
  }

  /** A page whose external scripts carry neither attribute gets a script
      score of 0. */
  lemma LoadingNoneOptimized(soup: Node)
    requires forall x :: x in ExternalScripts(soup) ==> !HasAsync(x) && !HasDefer(x)
    ensures Loading(soup).scripts.score == 0
  {
    RoundHalfEvenUnique(0.0, 0);
  }

  /* ------------------------------------------------------ internal links */

  predicate SkippedHref(href: string) {
    StartsWith(href, "#") || StartsWith(href, "javascript:")
  }

  predicate AbsoluteHref(href: string) {
    StartsWith(href, "http://") || StartsWith(href, "https://")
  }

  /** Where one link leads; internal targets are full URLs. */
  datatype LinkTarget = Skip | Internal(target: string) | External(target: string)

  /** Neither skipped, root-relative nor absolute: resolved with `urljoin`. */
  predicate RelativeHref(href: string) {
    !SkippedHref(href) && !StartsWith(href, "/") && !AbsoluteHref(href)
  }

  /** The classification of one `href` on the page at `url` (parsed as
      `page`). `join` is the resolution step of `urllib.parse.urljoin`; the
      parse that precedes it raises on an href `urlparse` rejects. */
  function Classify(href: string, url: string, page: Url, join: (string, string) -> string): (r: Result<LinkTarget, Fault>)
    ensures r.Failure? <==>
      || (!SkippedHref(href) && AbsoluteHref(href) && Netloc(href).Failure?)
      || (RelativeHref(href) && UrlJoin(url, href, join).Failure?)
    ensures RelativeHref(href) ==>
      (r.Failure? <==> url != "" && href != "" && (Parse(url).Failure? || Parse(href).Failure?))
    ensures r.Success? ==> (r.value.Skip? <==> SkippedHref(href))
    ensures r.Success? && r.value.External? ==> AbsoluteHref(href) && Netloc(href).value != page.netloc
    ensures r.Success? && !SkippedHref(href) && !AbsoluteHref(href) ==> r.value.Internal?
    ensures r.Success? ==> (r.value.External? <==> ExternalHref(page, href))
    ensures r.Success? ==> (r.value.Internal? <==> InternalHref(page, href))
    ensures r.Success? && r.value.Internal? ==> r.value.target == InternalTarget(href, url, page, join)
  {
    if SkippedHref(href) then Success(Skip)
    else if StartsWith(href, "/") then Success(Internal(page.scheme + "://" + page.netloc + href))
    else if AbsoluteHref(href) then
      match Netloc(href)
      case Failure(e) => Failure(e)
      case Success(n) => if n == page.netloc then Success(Internal(href)) else Success(External(href))
    else
      match UrlJoin(url, href, join)
      case Failure(e) => Failure(e)
      case Success(t) => Success(Internal(t))
  }

  /** An `ftp` href with an unbalanced bracket (`ftp://[x`) is resolved
      with `urljoin`, whose `urlparse` rejects it: the classification
      raises. */
  lemma RelativeHrefRaises(page: Url, join: (string, string) -> string)
    ensures Classify("ftp" + "://" + "[x", "http://a.com/", page, join).Failure?
  {
    var h := "ftp" + "://" + "[x";
    assert RelativeHref(h) by {
      FirstCharDiffers(h, "#");
      FirstCharDiffers(h, "/");
      FirstCharDiffers(h, "http://");
      FirstCharDiffers(h, "https://");
      FirstCharDiffers(h, "javascript:");
    }
    assert "[x"[0] == '[';
    UnbalancedRejected("ftp", "[x");
  }

  /** An href counted as external: absolute, parsable, on another host. */
  predicate ExternalHref(page: Url, href: string) {
    !SkippedHref(href) && AbsoluteHref(href) && Netloc(href).Success? && Netloc(href).value != page.netloc
  }

  /** An href counted as internal: neither skipped nor external. */
  predicate InternalHref(page: Url, href: string) {
    !SkippedHref(href) && !ExternalHref(page, href)
  }

  function ExternalOn(page: Url): string -> bool {
    (h: string) => ExternalHref(page, h)
  }

  function InternalOn(page: Url): string -> bool {
    (h: string) => InternalHref(page, h)
  }

  /** The full URL recorded for an internal href: scheme and host of the
      page before a root-relative path, an absolute href as it is, and any
      other href resolved against the page. */
  function InternalTarget(href: string, url: string, page: Url, join: (string, string) -> string): string {
    if StartsWith(href, "/") then page.scheme + "://" + page.netloc + href
    else if AbsoluteHref(href) then href
    else Resolved(url, href, join)
  }

  function TargetOn(url: string, page: Url, join: (string, string) -> string): string -> string {
    (h: string) => InternalTarget(h, url, page, join)
  }

  /** The internal and the external targets of `hrefs`, in order; the
      first `href` whose network location cannot be parsed aborts. */
  function ClassifyAll(hrefs: seq<string>, url: string, page: Url, join: (string, string) -> string)
    : (r: Result<(seq<string>, seq<string>), Fault>)
    ensures r.Failure? <==> exists h :: h in hrefs && Classify(h, url, page, join).Failure?
    ensures r.Success? ==> |r.value.0| + |r.value.1| == |Filter(hrefs, (h: string) => !SkippedHref(h))|
    ensures r.Success? ==> forall t :: t in r.value.1 ==> t in hrefs && AbsoluteHref(t)
    ensures r.Success? ==> r.value.1 == Filter(hrefs, ExternalOn(page))
    ensures r.Success? ==> r.value.0 == Map(Filter(hrefs, InternalOn(page)), TargetOn(url, page, join))
  {
    if hrefs == [] then Success(([], []))
    else
      match Classify(hrefs[0], url, page, join)
      case Failure(e) => Failure(e)
      case Success(first) =>
        match ClassifyAll(hrefs[1..], url, page, join)
        case Failure(e) =>
          assert hrefs == [hrefs[0]] + hrefs[1..];
          Failure(e)
        case Success(rest) =>
          assert hrefs == [hrefs[0]] + hrefs[1..];
          assert ExternalOn(page)(hrefs[0]) == ExternalHref(page, hrefs[0]);
          assert InternalOn(page)(hrefs[0]) == InternalHref(page, hrefs[0]);
          assert TargetOn(url, page, join)(hrefs[0]) == InternalTarget(hrefs[0], url, page, join);
          match first
          case Skip => Success(rest)
          case Internal(t) => Success(([t] + rest.0, rest.1))
          case External(t) => Success((rest.0, [t] + rest.1))
  }

  /** `heading.get_text(strip=True) in link.get_text(strip=True)` for some
      link. BeautifulSoup compares tags by name, attributes and contents,
      so equal headings are linked or orphaned together. */
  predicate Linked(heading: Node, links: seq<Node>) {
    exists l :: l in links && Contains(GetText(l, "", true), GetText(heading, "", true))
  }

  function Orphans(headings: seq<Node>, links: seq<Node>): (r: seq<Node>)
    ensures forall h :: h in r <==> h in headings && !Linked(h, links)
  {
    Filter(headings, (h: Node) => !Linked(h, links))
  }

  /** `60 * [>= 3 unique internal] + 20 * [any external] + 20 * [no orphans]`. */
  function LinkScore(uniqueInternal: nat, external: nat, orphans: nat): (r: nat)
    ensures r <= 100 && r % 20 == 0
    ensures r == 100 <==> uniqueInternal >= 3 && external > 0 && orphans == 0
    ensures r >= 60 <==> uniqueInternal >= 3
  {
    Points(uniqueInternal >= 3, 60) + Points(external > 0, 20) + Points(orphans == 0, 20)
  }

  datatype LinkInfo = LinkInfo(
    internalCount: nat,
    uniqueInternal: nat,
    externalCount: nat,
    orphanedHeadings: nat,
    hasSufficientInternal: bool,
    linkScore: nat)

  /** `len(set(s))`: as many as the distinct elements listed in order of
      first occurrence. */
  function DistinctCount(s: seq<string>): (r: nat)
    ensures r <= |s|
    ensures s != [] ==> r >= 1
    ensures r == |Freq.Distinct(s)|
  {
    var set_ := set x | x in s;
    SetBound(s);
    Freq.DistinctCard(s);
    |set_|
  }

  lemma {:induction false} SetBound(s: seq<string>)
    ensures |set x | x in s| <= |s|
    ensures s != [] ==> |set x | x in s| >= 1
  {
    if s != [] {
      assert s[0] in (set x | x in s);
      SetBound(s[1..]);
      assert (set x | x in s) == (set x | x in s[1..]) + {s[0]};
    }
  }

  /** The link analysis of the classified targets and the orphaned
      headings. */
  function LinkStats(internal: seq<string>, external: seq<string>, orphans: nat): (r: LinkInfo)
    ensures r.internalCount == |internal| && r.externalCount == |external|
    ensures 1 <= r.uniqueInternal <= r.internalCount || r.internalCount == r.uniqueInternal == 0
    ensures r.hasSufficientInternal <==> r.uniqueInternal >= 3
    ensures r.uniqueInternal == |Freq.Distinct(internal)| && r.orphanedHeadings == orphans
    ensures r.linkScore <= 100
    ensures r.linkScore == 100 <==> |Freq.Distinct(internal)| >= 3 && external != [] && orphans == 0
  {
    var unique := DistinctCount(internal);
    LinkInfo(|internal|, unique, |external|, orphans, unique >= 3, LinkScore(unique, |external|, orphans))
  }

  /** `_analyze_internal_links`. */
  function InternalLinks(soup: Node, url: string, page: Url, join: (string, string) -> string): (r: Result<LinkInfo, Fault>)
    ensures r.Failure? <==> exists h :: h in Hrefs(soup) && Classify(h, url, page, join).Failure?
    ensures r.Success? ==> r.value.linkScore <= 100 && r.value.uniqueInternal <= r.value.internalCount
    ensures r.Success? ==> r.value.internalCount == |Filter(Hrefs(soup), InternalOn(page))|
    ensures r.Success? ==> r.value.externalCount == |Filter(Hrefs(soup), ExternalOn(page))|
    ensures r.Success? ==>
      r.value.uniqueInternal == |Freq.Distinct(Map(Filter(Hrefs(soup), InternalOn(page)), TargetOn(url, page, join)))|
    ensures r.Success? ==> r.value.orphanedHeadings == |Orphans(FindAllTags(soup, ["h2", "h3"]), FindAll(soup, IsHrefLink))|
  {
    var links := FindAll(soup, IsHrefLink);
    var split :- ClassifyAll(Hrefs(soup), url, page, join);
    Success(LinkStats(split.0, split.1, |Orphans(FindAllTags(soup, ["h2", "h3"]), links)|))
  }

  /** Every link that is not skipped is counted once, as internal or as
      external. */
  lemma LinksPartition(soup: Node, url: string, page: Url, join: (string, string) -> string)
    requires InternalLinks(soup, url, page, join).Success?
    ensures var info := InternalLinks(soup, url, page, join).value;
      info.internalCount + info.externalCount
        == |Filter(Map(FindAll(soup, IsHrefLink), Href), (h: string) => !SkippedHref(h))|
  {
  }

  /* -------------------------------------------------------------- score */

  function TechnicalTotal(canonical: bool, robots: bool, urlOk: bool, schema: bool, optimization: int, https: bool, links: int): real {
    (Points(canonical, 15) + Points(robots, 10) + Points(urlOk, 15) + Points(schema, 15) + Points(https, 15)) as real
      + optimization as real / 5.0 + links as real / 10.0
  }

  /** The modular weighted sum: 15 canonical, 10 robots, 15 clean URL, 15
      schema, 20 per cent of the optimisation score, 15 HTTPS and 10 per
      cent of the link score, rounded. */
  function TechnicalScore(canonical: bool, robots: bool, urlOk: bool, schema: bool, optimization: int, https: bool, links: int): (r: int)
    ensures 0 <= optimization <= 100 && 0 <= links <= 100 ==> 0 <= r <= 100
    ensures canonical && robots && urlOk && schema && https && optimization == 100 && links == 100 ==> r == 100
    ensures !canonical && !robots && !urlOk && !schema && !https && optimization == 0 && links == 0 ==> r == 0
  {
    var total := TechnicalTotal(canonical, robots, urlOk, schema, optimization, https, links);
    RoundBounds(total, 0);
    RoundBounds(total, 100);
    RoundHalfEven(total)
  }

  /** Passing one more check, or scoring higher on loading or links, never
      lowers the technical score. */
  lemma TechnicalScoreMonotone(
    c1: bool, r1: bool, u1: bool, s1: bool, o1: int, h1: bool, l1: int,
    c2: bool, r2: bool, u2: bool, s2: bool, o2: int, h2: bool, l2: int)
    requires (c1 ==> c2) && (r1 ==> r2) && (u1 ==> u2) && (s1 ==> s2) && (h1 ==> h2)
    requires o1 <= o2 && l1 <= l2
    ensures TechnicalScore(c1, r1, u1, s1, o1, h1, l1) <= TechnicalScore(c2, r2, u2, s2, o2, h2, l2)
  {
    RoundHalfEvenMonotone(TechnicalTotal(c1, r1, u1, s1, o1, h1, l1), TechnicalTotal(c2, r2, u2, s2, o2, h2, l2));
  }

  /** The synchronous score: 25 off per recommendation. */
  function LegacyTechnicalScore(count: nat): (r: int)
    ensures count <= 4 ==> 0 <= r <= 100
    ensures r == 100 <==> count == 0
  {
    100 - 25 * count
  }

  /* ---------------------------------------------------- recommendations */

  /** The four recommendations both generations give, in order. */
  function BaseRecommendations(canonical: bool, robots: bool, issues: seq<UrlIssue>, schema: bool): (r: seq<Msg>)
    ensures |r| <= 4
    ensures AddCanonical in r <==> !canonical
    ensures AddRobots in r <==> !robots
    ensures UrlProblems(issues) in r <==> issues != []
    ensures AddSchema in r <==> !schema
    ensures forall m :: m in r ==> m == AddCanonical || m == AddRobots || m.UrlProblems? || m == AddSchema
  {
    (if !canonical then [AddCanonical] else [])
    + (if !robots then [AddRobots] else [])
    + (if issues != [] then [UrlProblems(issues)] else [])
    + (if !schema then [AddSchema] else [])
  }

  /** The three the modular analyzer adds after them. */
  function ExtraRecommendations(hints: bool, https: bool, orphans: nat): (r: seq<Msg>)
    ensures AddResourceHints in r <==> !hints
    ensures UseHttps in r <==> !https
    ensures LinkHeadings in r <==> orphans > 0
  {
    (if !hints then [AddResourceHints] else [])
    + (if !https then [UseHttps] else [])
    + (if orphans > 0 then [LinkHeadings] else [])
  }

  /** Nothing of the four base kinds is among the additions. */
  lemma ExtrasAreNew(hints: bool, https: bool, orphans: nat, m: Msg)
    requires m in ExtraRecommendations(hints, https, orphans)
    ensures m == AddResourceHints || m == UseHttps || m == LinkHeadings
  {
  }

  /* ------------------------------------------------------------- report */

  /** The analyzer's record; loading, security and link analyses exist in
      the modular generation only. */
  datatype TechnicalReport = TechnicalReport(
    canonical: CanonicalInfo,
    robots: RobotsInfo,
    url: UrlInfo,
    hreflang: HreflangInfo,
    schema: SchemaInfo,
    hasSitemapLink: bool,
    loading: Option<LoadingInfo>,
    isHttps: Option<bool>,
    links: Option<LinkInfo>,
    technicalScore: int,
    recommendations: seq<Msg>)

  /** The record assembled from the analyses; `modular` holds the
      loading, HTTPS and link analyses of the modular generation. */
  function Assemble(canonical: CanonicalInfo, robots: RobotsInfo, url: UrlInfo, hreflang: HreflangInfo,
    schema: SchemaInfo, sitemap: bool, modular: Option<(LoadingInfo, bool, LinkInfo)>): (r: TechnicalReport)
    requires modular.Some? ==> 0 <= modular.value.0.optimizationScore <= 100 && modular.value.2.linkScore <= 100
    ensures 0 <= r.technicalScore <= 100
    ensures modular.None? ==> (r.technicalScore == 100 <==> r.recommendations == [])
    ensures var base := BaseRecommendations(canonical.hasCanonical, robots.hasRobotsTag, url.issues, schema.hasSchema);
      |base| <= |r.recommendations| && r.recommendations[..|base|] == base
      && (modular.None? ==> r.recommendations == base)
  {
    var base := BaseRecommendations(canonical.hasCanonical, robots.hasRobotsTag, url.issues, schema.hasSchema);
    TechnicalReport(canonical, robots, url, hreflang, schema, sitemap,
      if modular.None? then None else Some(modular.value.0),
      if modular.None? then None else Some(modular.value.1),
      if modular.None? then None else Some(modular.value.2),
      ReportScore(canonical, robots, url, schema, |base|, modular),
      ReportRecommendations(base, modular))
  }

  /** The synchronous score from the number of base recommendations, or
      the modular weighted score. */
  function ReportScore(canonical: CanonicalInfo, robots: RobotsInfo, url: UrlInfo, schema: SchemaInfo,
    baseCount: nat, modular: Option<(LoadingInfo, bool, LinkInfo)>): (r: int)
    requires baseCount <= 4
    requires modular.Some? ==> 0 <= modular.value.0.optimizationScore <= 100 && modular.value.2.linkScore <= 100
    ensures 0 <= r <= 100
    ensures modular.None? ==> (r == 100 <==> baseCount == 0)
  {
    if modular.None? then LegacyTechnicalScore(baseCount)
    else
      TechnicalScore(canonical.hasCanonical, robots.hasRobotsTag, url.isOptimized, schema.hasSchema,
        modular.value.0.optimizationScore, modular.value.1, modular.value.2.linkScore)
  }

  /** The base recommendations, followed in the modular generation by its
      additions. */
  function ReportRecommendations(base: seq<Msg>, modular: Option<(LoadingInfo, bool, LinkInfo)>): (r: seq<Msg>)
    ensures |base| <= |r| && r[..|base|] == base
    ensures modular.None? ==> r == base
    ensures UseHttps in r <==> UseHttps in base || (modular.Some? && !modular.value.1)
  {
    if modular.None? then base
    else WithExtras(base, modular.value.0.hasResourceHints, modular.value.1, modular.value.2.orphanedHeadings)
  }

  /** The base recommendations followed by the modular additions. */
  function WithExtras(base: seq<Msg>, hints: bool, https: bool, orphans: nat): (r: seq<Msg>)
    ensures |base| <= |r| && r[..|base|] == base
    ensures UseHttps in r <==> UseHttps in base || !https
  {
    var extra := ExtraRecommendations(hints, https, orphans);
    assert (base + extra)[..|base|] == base;
    base + extra
  }

  /** The modular report asks for HTTPS exactly when the page is not
      served over it; the synchronous one never does. */
  lemma AssembleHttps(canonical: CanonicalInfo, robots: RobotsInfo, url: UrlInfo, hreflang: HreflangInfo,
    schema: SchemaInfo, sitemap: bool, modular: Option<(LoadingInfo, bool, LinkInfo)>)
    requires modular.Some? ==> 0 <= modular.value.0.optimizationScore <= 100 && modular.value.2.linkScore <= 100
    ensures UseHttps in Assemble(canonical, robots, url, hreflang, schema, sitemap, modular).recommendations
      <==> modular.Some? && !modular.value.1
  {
  }

  /** `TechnicalSEOAnalyzer.analyze` of either generation on the page at
      `url`. Every exception becomes the error record, here the failure. */
  function Analyze(soup: Node, url: string, gen: Generation, join: (string, string) -> string): (r: Result<TechnicalReport, Fault>) {
    match Parse(url)
    case Failure(e) => Failure(e)
    case Success(page) =>
      match Hreflang(soup, gen)
      case Failure(e) => Failure(e)
      case Success(hreflang) =>
        if gen == Legacy then
          Success(Assemble(Canonical(soup, url), Robots(soup), AnalyzeUrl(page, gen), hreflang, Schema(soup, gen),
            HasSitemapLink(soup), None))
        else
          match InternalLinks(soup, url, page, join)
          case Failure(e) => Failure(e)
          case Success(links) =>
            Success(Assemble(Canonical(soup, url), Robots(soup), AnalyzeUrl(page, gen), hreflang, Schema(soup, gen),
              HasSitemapLink(soup), Some((Loading(soup), page.scheme == "https", links))))
  }

  /** The analysis fails exactly when the URL does not parse, or, in the
      modular analyzer, when hreflang links need a missing `<html>` or a
      link's network location does not parse. */
  lemma AnalyzeFailsIff(soup: Node, url: string, gen: Generation, join: (string, string) -> string)
    ensures Analyze(soup, url, gen, join).Failure? <==>
      Parse(url).Failure?
      || Hreflang(soup, gen).Failure?
      || (gen == Modular && InternalLinks(soup, url, Parse(url).value, join).Failure?)
  {
    if Parse(url).Success? && Hreflang(soup, gen).Success? && gen == Modular {
      var page := Parse(url).value;
      assert Analyze(soup, url, gen, join).Failure? <==> InternalLinks(soup, url, page, join).Failure?;
    }
  }

  /** Both scores lie in `[0, 100]`; the synchronous one is 100 exactly
      when it recommends nothing. */
  lemma AnalyzeScoreBounds(soup: Node, url: string, gen: Generation, join: (string, string) -> string)
    requires Analyze(soup, url, gen, join).Success?
    ensures var r := Analyze(soup, url, gen, join).value;
      && 0 <= r.technicalScore <= 100
      && (gen == Legacy ==> (r.technicalScore == 100 <==> r.recommendations == []))
  {
  }

  /** A successful analysis is the assembly of the individual checks. */
  lemma AnalyzeParts(soup: Node, url: string, gen: Generation, join: (string, string) -> string)
    requires Analyze(soup, url, gen, join).Success?
    ensures Parse(url).Success? && Hreflang(soup, gen).Success?
    ensures gen == Modular ==> InternalLinks(soup, url, Parse(url).value, join).Success?
    ensures Analyze(soup, url, gen, join).value ==
      Assemble(Canonical(soup, url), Robots(soup), AnalyzeUrl(Parse(url).value, gen), Hreflang(soup, gen).value,
        Schema(soup, gen), HasSitemapLink(soup),
        if gen == Legacy then None
        else Some((Loading(soup), Parse(url).value.scheme == "https", InternalLinks(soup, url, Parse(url).value, join).value)))
  {
  }

  /** The modular analyzer asks for HTTPS exactly when the scheme is not
      `https`, and the synchronous one never does. */
  lemma HttpsRecommendationIff(soup: Node, url: string, gen: Generation, join: (string, string) -> string)
    requires Analyze(soup, url, gen, join).Success?
    ensures UseHttps in Analyze(soup, url, gen, join).value.recommendations <==> gen == Modular && Parse(url).value.scheme != "https"
  {
    AnalyzeParts(soup, url, gen, join);
    var page := Parse(url).value;
    AssembleHttps(Canonical(soup, url), Robots(soup), AnalyzeUrl(page, gen), Hreflang(soup, gen).value,
      Schema(soup, gen), HasSitemapLink(soup),
      if gen == Legacy then None else Some((Loading(soup), page.scheme == "https", InternalLinks(soup, url, page, join).value)));
  }

  /** The synchronous recommendations are the first ones of the modular
      analyzer on a URL without a query: the modular analyzer only
      appends. */
  lemma LegacyRecommendationsPrefix(soup: Node, url: string, join: (string, string) -> string)
    requires Analyze(soup, url, Modular, join).Success?
    requires Parse(url).value.query == ""
    ensures Analyze(soup, url, Legacy, join).Success?
    ensures var legacy := Analyze(soup, url, Legacy, join).value.recommendations;
      var modular := Analyze(soup, url, Modular, join).value.recommendations;
      |legacy| <= |modular| && modular[..|legacy|] == legacy
  {
    var page := Parse(url).value;
    AnalyzeParts(soup, url, Modular, join);
    UrlIssuesGenerations(page.path, "");
    LegacyHreflangSucceeds(soup);
    TypesNeedMarkup(soup);
    AnalyzeFailsIff(soup, url, Legacy, join);
    AnalyzeParts(soup, url, Legacy, join);
  }
}

=== FILE: text_utils.dfy ===
/** The shared text helpers of the application package: whitespace and
    tag cleaning, truncation, frequency-based keyword extraction, the
    package-level URL normaliser and the cache key built on top of it. */
module TextUtils {
  import opened Wrappers
  import opened Seqs
  import opened Strings
  import opened Freq
  import opened Urls
  import opened UrlValidator

  /* ------------------------------------------------------------ clean_text */

  /** Where `Strip` cuts its input: the length of the leading whitespace. */
  function StripOffset(s: string): (k: nat)
    ensures k + |Strip(s)| <= |s|
  {
    |s| - |TrimLeft(s)|
  }

  /** `s.strip()` is a contiguous piece of `s`. */
  lemma StripIsSlice(s: string)
    ensures Strip(s) == s[StripOffset(s)..StripOffset(s) + |Strip(s)|]
  {
    var l := TrimLeft(s);
    var r := TrimRight(l);
    assert l == s[|s| - |l|..];
    assert r == l[..|r|];
  }

  /** A piece of a string whose whitespace is single spaces, never two in
      a row, keeps both properties. */
  lemma SpacedSlice(c: string, r: string, k: nat)
    requires k + |r| <= |c| && r == c[k..k + |r|]
    requires forall i :: 0 <= i < |c| && IsSpace(c[i]) ==> c[i] == ' '
    requires forall i :: 0 <= i < |c| - 1 ==> !(c[i] == ' ' && c[i + 1] == ' ')
    ensures forall i :: 0 <= i < |r| && IsSpace(r[i]) ==> r[i] == ' '
    ensures forall i :: 0 <= i < |r| - 1 ==> !(IsSpace(r[i]) && IsSpace(r[i + 1]))
  {
    forall i | 0 <= i < |r|
      ensures r[i] == c[k + i]
    {
    }
  }

  /** Stripping a string whose whitespace is single spaces, never two in a
      row, leaves such a string with no whitespace at either end. */
  lemma SpacedStrip(c: string)
    requires forall i :: 0 <= i < |c| && IsSpace(c[i]) ==> c[i] == ' '
    requires forall i :: 0 <= i < |c| - 1 ==> !(c[i] == ' ' && c[i + 1] == ' ')
    ensures var r := Strip(c);
      && (forall i :: 0 <= i < |r| && IsSpace(r[i]) ==> r[i] == ' ')
      && (forall i :: 0 <= i < |r| - 1 ==> !(IsSpace(r[i]) && IsSpace(r[i + 1])))
  {
    StripIsSlice(c);
    SpacedSlice(c, Strip(c), StripOffset(c));
  }

  /** No whitespace at either end, and inside only single spaces. */
  predicate SingleSpaced(r: string) {
    && (r == [] || (!IsSpace(r[0]) && !IsSpace(r[|r| - 1])))
    && (forall i :: 0 <= i < |r| && IsSpace(r[i]) ==> r[i] == ' ')
    && (forall i :: 0 <= i < |r| - 1 ==> !(IsSpace(r[i]) && IsSpace(r[i + 1])))
  }

  /** Collapsing whitespace and stripping the ends leaves single spaces
      between non-space characters and keeps every other character. */
  lemma CleanedShape(t: string)
    ensures SingleSpaced(Strip(CollapseSpaces(t)))
    ensures Filter(Strip(CollapseSpaces(t)), NotSpace) == Filter(t, NotSpace)
  {
    var c := CollapseSpaces(t);
    assert Filter(Strip(c), NotSpace) == Filter(t, NotSpace) by {
      CollapseKeepsContent(t);
      StripKeepsContent(c);
    }
    SpacedStrip(c);
  }

  /** `clean_text(text)`: every tag becomes a space, every whitespace run
      one space, and the ends are stripped. */
  function CleanText(text: string): (r: string)
    ensures text == [] ==> r == []
    ensures r == [] || (!IsSpace(r[0]) && !IsSpace(r[|r| - 1]))
    ensures forall i :: 0 <= i < |r| && IsSpace(r[i]) ==> r[i] == ' '
    ensures forall i :: 0 <= i < |r| - 1 ==> !(IsSpace(r[i]) && IsSpace(r[i + 1]))
    ensures Words(r) == Words(StripTags(text))
  {
    if text == [] then []
    else
      CleanedShape(StripTags(text));
      WordsStrip(CollapseSpaces(StripTags(text)));
      WordsCollapse(StripTags(text));
      Strip(CollapseSpaces(StripTags(text)))
  }

  /** Cleaning only replaces tags and whitespace: the other characters
      come out in order. */
  lemma CleanTextKeepsContent(text: string)
    ensures Filter(CleanText(text), NotSpace) == Filter(StripTags(text), NotSpace)
  {
    if text != [] {
      CleanedShape(StripTags(text));
    }
  }

  /** Cleaning is idempotent on text without `<`: a cleaned string is
      already stripped and collapsed. */
  lemma {:induction false} CleanTextIdempotent(text: string)
    requires forall i :: 0 <= i < |text| ==> text[i] != '<'
    ensures CleanText(CleanText(text)) == CleanText(text)
  {
    var r := CleanText(text);
    if r != [] {
      assert forall i :: 0 <= i < |r| ==> r[i] != '<' by {
        assert StripTags(text) == text;
        CleanTextKeepsContent(text);
        NoAngleKept(text, r);
      }
      CleanFixed(r);
    }
  }

  /** Text already in cleaned form and free of `<` is its own cleaning. */
  lemma CleanFixed(r: string)
    requires r != [] && !IsSpace(r[0]) && !IsSpace(r[|r| - 1])
    requires forall i :: 0 <= i < |r| && IsSpace(r[i]) ==> r[i] == ' '
    requires forall i :: 0 <= i < |r| - 1 ==> !(IsSpace(r[i]) && IsSpace(r[i + 1]))
    requires forall i :: 0 <= i < |r| ==> r[i] != '<'
    ensures CleanText(r) == r
  {
    assert StripTags(r) == r;
    CollapsedFixed(r);
  }

  /** Characters kept from a string without `<` are not `<`. */
  lemma NoAngleKept(text: string, r: string)
    requires forall i :: 0 <= i < |text| ==> text[i] != '<'
    requires Filter(r, NotSpace) == Filter(text, NotSpace)
    ensures forall i :: 0 <= i < |r| ==> r[i] != '<'
  {
    forall i | 0 <= i < |r|
      ensures r[i] != '<'
    {
      if !IsSpace(r[i]) {
        assert r[i] in Filter(r, NotSpace);
      }
    }
  }

  /** A string of single spaces between non-space characters is unchanged
      by collapsing and stripping. */
  lemma CollapsedFixed(r: string)
    requires r != [] && !IsSpace(r[0]) && !IsSpace(r[|r| - 1])
    requires forall i :: 0 <= i < |r| && IsSpace(r[i]) ==> r[i] == ' '
    requires forall i :: 0 <= i < |r| - 1 ==> !(IsSpace(r[i]) && IsSpace(r[i + 1]))
    ensures Strip(CollapseSpaces(r)) == r
  {
    CollapseFixed(r);
    StripFixed(r);
  }

  lemma {:induction false} CollapseFixed(r: string)
    requires forall i :: 0 <= i < |r| && IsSpace(r[i]) ==> r[i] == ' '
    requires forall i :: 0 <= i < |r| - 1 ==> !(IsSpace(r[i]) && IsSpace(r[i + 1]))
    ensures CollapseSpaces(r) == r
    decreases |r|
  {
    if r != [] {
      CollapseFixed(r[1..]);
      if IsSpace(r[0]) {
        assert r[1..] == [] || !IsSpace(r[1]);
        SpaceRunOne(r);
      }
    }
  }

  /** A lone space at the head of `r` is a whitespace run of length one. */
  lemma SpaceRunOne(r: string)
    requires r != [] && IsSpace(r[0]) && r[0] == ' '
    requires |r| == 1 || !IsSpace(r[1])
    requires CollapseSpaces(r[1..]) == r[1..]
    ensures CollapseSpaces(r) == r
  {
    SpanLenIs(r, IsSpace, 1);
    assert r == [r[0]] + r[1..];
  }

  lemma StripFixed(r: string)
    requires r != [] && !IsSpace(r[0]) && !IsSpace(r[|r| - 1])
    ensures Strip(r) == r
  {
  }

  /* ---------------------------------------------------------- validate_url */

  /** `validate_url(url)` of the utilities package: the `https://` prefix
      for a scheme-less address, then `urlparse(url).geturl()`. The only
      failure is the one `urlparse` raises. */
  function ValidateUrl(url: string): (r: Result<string, Fault>)
    ensures r.Failure? <==> Parse(WithScheme(url)).Failure?
    ensures !HasWebScheme(url) && r.Success? ==> StartsWith(r.value, "https:")
  {
    HttpsPrefixScheme(url);
    GetUrl(Parse(WithScheme(url)))
  }

  /** `parsed.geturl()` of a parse that may have raised. */
  function GetUrl(parsed: Result<Url, Fault>): (r: Result<string, Fault>)
    ensures r.Failure? <==> parsed.Failure?
    ensures parsed.Success? && parsed.value.scheme == "https" ==> StartsWith(r.value, "https:")
  {
    match parsed
    case Failure(f) => Failure(f)
    case Success(p) =>
      assert p.scheme == "https" ==> p.scheme + ":" == "https:";
      Success(Unparse(p))
  }

  /** The prefix is added exactly when the input has no web scheme. */
  lemma ValidateUrlPrefix(url: string)
    ensures HasWebScheme(url) ==> Parse(WithScheme(url)) == Parse(url)
    ensures !HasWebScheme(url) ==> Parse(WithScheme(url)) == Parse("https://" + url)
  {
  }

  /** Normalising a normalised address changes nothing, whenever the parsed
      components are well formed. */
  lemma ValidateUrlIdempotent(url: string)
    requires Parse(WithScheme(url)).Success?
    requires WellFormed(Parse(WithScheme(url)).value)
    ensures ValidateUrl(url).Success?
    ensures ValidateUrl(ValidateUrl(url).value) == ValidateUrl(url)
  {
    var p := Parse(WithScheme(url)).value;
    ParseUnparse(p);
    UnparseIsWeb(p);
  }

  /* --------------------------------------------------------- truncate_text */

  /** `core` is `p` with whitespace, and only whitespace, removed at either
      end: a contiguous piece of `p` that neither starts nor ends with
      whitespace, with nothing but whitespace around it. */
  predicate StrippedPiece(p: string, core: string) {
    && (core == [] || (!IsSpace(core[0]) && !IsSpace(core[|core| - 1])))
    && exists i :: 0 <= i <= |p| - |core| && core == p[i..i + |core|]
         && Blank(p[..i]) && Blank(p[i + |core|..])
  }

  /** `s.strip()` is `s` with the whitespace at either end removed. */
  lemma StripPiece(s: string)
    ensures StrippedPiece(s, Strip(s))
  {
    var k := StripOffset(s);
    var r := Strip(s);
    StripIsSlice(s);
    var l := TrimLeft(s);
    assert Blank(s[..k]);
    assert l[|r|..] == s[k + |r|..];
    assert Blank(s[k + |r|..]);
  }

  /** The stripped piece with the optional ellipsis: no longer than the
      piece plus three, ending in the ellipsis when asked, and keeping
      every non-space character of the piece. */
  lemma TruncatedShape(p: string, ellipsis: bool)
    ensures var r := Strip(p) + (if ellipsis then "..." else "");
      && |r| <= |p| + (if ellipsis then 3 else 0)
      && (ellipsis ==> EndsWith(r, "..."))
      && Filter(r[..|r| - (if ellipsis then 3 else 0)], NotSpace) == Filter(p, NotSpace)
      && StrippedPiece(p, r[..|r| - (if ellipsis then 3 else 0)])
  {
    StripPiece(p);
    var core := Strip(p);
    StripIsSlice(p);
    StripKeepsContent(p);
    var r := core + (if ellipsis then "..." else "");
    assert r[..|r| - (if ellipsis then 3 else 0)] == core;
    if ellipsis {
      assert r[|r| - 3..] == "...";
    }
  }

  /** `truncate_text(text, max_length, append_ellipsis)`; a negative
      `max_length` cuts from the end as Python's slice does. */
  function TruncateText(text: string, maxLength: int, ellipsis: bool): (r: string)
    ensures text == [] ==> r == []
    ensures |text| <= maxLength ==> r == text
    ensures |text| > maxLength ==>
      |r| <= PyPrefixLength(maxLength, |text|) + (if ellipsis then 3 else 0)
    ensures 0 <= maxLength < |text| ==> |r| <= maxLength + (if ellipsis then 3 else 0)
    ensures text != [] && |text| > maxLength && ellipsis ==> EndsWith(r, "...")
    ensures text != [] && |text| > maxLength ==>
      Filter(r[..|r| - (if ellipsis then 3 else 0)], NotSpace) == Filter(PyPrefix(text, maxLength), NotSpace)
    ensures text != [] && |text| > maxLength ==>
      StrippedPiece(PyPrefix(text, maxLength), r[..|r| - (if ellipsis then 3 else 0)])
  {
    if text == [] then []
    else if |text| <= maxLength then text
    else
      TruncatedShape(PyPrefix(text, maxLength), ellipsis);
      Strip(PyPrefix(text, maxLength)) + (if ellipsis then "..." else "")
  }

  /** Truncation cuts the text and strips the cut; it never removes
      whitespace inside the kept part, so a cut that neither starts nor
      ends with whitespace is kept whole. */
  lemma TruncateKeepsInnerSpace(text: string, maxLength: nat, ellipsis: bool)
    requires maxLength < |text|
    requires var cut := text[..maxLength]; cut == [] || (!IsSpace(cut[0]) && !IsSpace(cut[|cut| - 1]))
    ensures TruncateText(text, maxLength, ellipsis) == text[..maxLength] + (if ellipsis then "..." else "")
  {
    var cut := text[..maxLength];
    assert PyPrefix(text, maxLength) == cut;
    assert TrimLeft(cut) == cut;
    assert TrimRight(cut) == cut;
  }

  /** Without the ellipsis, truncating twice is truncating once: the
      result already fits. */
  lemma TruncateIdempotent(text: string, maxLength: nat)
    ensures TruncateText(TruncateText(text, maxLength, false), maxLength, false) == TruncateText(text, maxLength, false)
  {
  }

  /* ------------------------------------------------------ extract_keywords */

  /** The stop words `extract_keywords` ignores. */
  const UtilStopWords: set<string> := {
    "a", "an", "the", "and", "or", "but", "if", "then", "else", "when",
    "at", "from", "by", "with", "about", "against", "between", "into",
    "through", "during", "before", "after", "above", "below", "to",
    "up", "down", "in", "out", "on", "off", "over", "under", "again",
    "further", "once", "here", "there", "all", "any", "both",
    "each", "few", "more", "most", "other", "some", "such", "no", "nor",
    "not", "only", "own", "same", "so", "than", "too", "very", "s", "t",
    "can", "will", "just", "don", "should", "now", "d", "ll", "m", "o",
    "re", "ve", "y", "ain", "aren", "couldn", "didn", "doesn", "hadn",
    "hasn", "haven", "isn", "ma", "mightn", "mustn", "needn", "shan",
    "shouldn", "wasn", "weren", "won", "wouldn", "для", "как", "что", "это"
  }

  /** The character class `[a-zA-Zа-яА-Я0-9]`. */
  predicate IsKeywordChar(c: char) {
    IsAsciiLetter(c) || IsDigit(c) || ('а' <= c <= 'я') || ('А' <= c <= 'Я')
  }

  /** A word-character run that lies wholly inside the class: the only
      runs the pattern `\b[a-zA-Zа-яА-Я0-9]+\b` matches. */
  predicate IsKeywordToken(w: string) {
    forall i :: 0 <= i < |w| ==> IsKeywordChar(w[i])
  }

  /** The words of the lowered, cleaned text. */
  function KeywordWords(text: string): seq<string> {
    Filter(Runs(CleanText(Lower(text)), IsWordChar), IsKeywordToken)
  }

  predicate IsCandidate(w: string, minWordLength: int) {
    |w| >= minWordLength && w !in UtilStopWords
  }

  /** The words that survive the length and stop-word filter, in text
      order with repetitions: the words whose frequencies are counted. */
  function Candidates(text: string, minWordLength: int): (r: seq<string>)
    ensures forall w :: w in r ==> IsCandidate(w, minWordLength) && w in KeywordWords(text)
    ensures forall w :: Count(r, w) == (if IsCandidate(w, minWordLength) then Count(KeywordWords(text), w) else 0)
  {
    FilterMultiset(KeywordWords(text), (w: string) => IsCandidate(w, minWordLength));
    Filter(KeywordWords(text), (w: string) => IsCandidate(w, minWordLength))
  }

  /** The distinct words of `ws` ranked by frequency, cut at `k` as
      Python's `[:k]` cuts. */
  function TopRanked(ws: seq<string>, k: int): (r: seq<string>)
    ensures 0 <= k ==> |r| == (if k < |Distinct(ws)| then k else |Distinct(ws)|)
    ensures k < 0 ==> |r| == (if |Distinct(ws)| + k < 0 then 0 else |Distinct(ws)| + k)
    ensures NoDuplicates(r)
    ensures forall i :: 0 <= i < |r| ==> r[i] in ws
    ensures Sorted(ws, r)
  {
    var ranked := SortByFreq(ws, Distinct(ws));
    SortByFreqSorted(ws, Distinct(ws));
    assert |ranked| == |Distinct(ws)| by {
      assert |multiset(ranked)| == |multiset(Distinct(ws))|;
    }
    var r := PyPrefix(ranked, k);
    assert forall i :: 0 <= i < |r| ==> r[i] == ranked[i];
    assert forall i :: 0 <= i < |r| ==> r[i] in multiset(Distinct(ws));
    SortedDistinct(ws, r);
    r
  }

  /** `extract_keywords(text, max_keywords, min_word_length)`: the distinct
      candidates ranked by frequency, equal counts kept in order of first
      occurrence (the sort is stable), cut at `max_keywords` (a negative
      bound cuts from the end). */
  function ExtractKeywords(text: string, maxKeywords: int, minWordLength: int): (r: seq<string>)
    ensures text == [] ==> r == []
    ensures 0 <= maxKeywords ==> |r| <= maxKeywords
    ensures text != [] && 0 <= maxKeywords ==>
      |r| == (if maxKeywords < |Distinct(Candidates(text, minWordLength))| then maxKeywords else |Distinct(Candidates(text, minWordLength))|)
    ensures NoDuplicates(r)
    ensures forall i :: 0 <= i < |r| ==> IsCandidate(r[i], minWordLength) && r[i] in KeywordWords(text)
    ensures Sorted(Candidates(text, minWordLength), r)
  {
    if text == [] then [] else TopRanked(Candidates(text, minWordLength), maxKeywords)
  }

  /** With a non-negative bound the result is the `max_keywords` most
      frequent candidates: every candidate left out ranks after every
      keyword returned, and a bound at least the number of distinct
      candidates returns them all. */
  lemma {:induction false} ExtractKeywordsTop(text: string, maxKeywords: nat, minWordLength: int)
    requires text != []
    ensures var r := ExtractKeywords(text, maxKeywords, minWordLength);
      var ws := Candidates(text, minWordLength);
      && (forall i, y :: 0 <= i < |r| && y in ws && y !in r ==> Before(ws, r[i], y))
      && (maxKeywords >= |Distinct(ws)| ==> forall y :: y in ws ==> y in r)
  {
    var ws := Candidates(text, minWordLength);
    var r := ExtractKeywords(text, maxKeywords, minWordLength);
    assert r == TopRanked(ws, maxKeywords);
    assert r == MostCommonKeys(ws, maxKeywords);
    MostCommonKeysSpec(ws, maxKeywords);
    if maxKeywords >= |Distinct(ws)| {
      forall y | y in ws
        ensures y in r
      {
        MostCommonComplete(ws, maxKeywords, y);
      }
    }
  }

  /* ------------------------------------------------------------- cache_key */

  /** Python's string order: code point by code point, a proper prefix
      first. */
  predicate LexLess(a: string, b: string)
    decreases |a|
  {
    if a == [] then b != []
    else if b == [] then false
    else if a[0] != b[0] then a[0] < b[0]
    else LexLess(a[1..], b[1..])
  }

  lemma {:induction false} LexIrreflexive(a: string)
    ensures !LexLess(a, a)
    decreases |a|
  {
    if a != [] {
      LexIrreflexive(a[1..]);
    }
  }

  lemma {:induction false} LexAsymmetric(a: string, b: string)
    ensures LexLess(a, b) ==> !LexLess(b, a)
    decreases |a|
  {
    if a != [] && b != [] && a[0] == b[0] {
      LexAsymmetric(a[1..], b[1..]);
    }
  }

  lemma {:induction false} LexTotal(a: string, b: string)
    ensures a != b ==> LexLess(a, b) || LexLess(b, a)
    decreases |a|
  {
    if a != [] && b != [] && a[0] == b[0] {
      LexTotal(a[1..], b[1..]);
      assert a == [a[0]] + a[1..] && b == [b[0]] + b[1..];
    }
  }

  lemma {:induction false} LexTransitive(a: string, b: string, c: string)
    ensures LexLess(a, b) && LexLess(b, c) ==> LexLess(a, c)
    decreases |a|
  {
    if a != [] && b != [] && c != [] && a[0] == b[0] && b[0] == c[0] {
      LexTransitive(a[1..], b[1..], c[1..]);
    }
  }

  /** The keys of a dictionary are distinct. */
  predicate DistinctKeys(items: seq<(string, string)>) {
    forall i, j :: 0 <= i < j < |items| ==> items[i].0 != items[j].0
  }

  /** Strictly increasing keys. */
  predicate KeysSorted(items: seq<(string, string)>) {
    forall i, j :: 0 <= i < j < |items| ==> LexLess(items[i].0, items[j].0)
  }

  /** Inserts one pair in front of the first pair with a larger key. */
  function InsertPair(x: (string, string), items: seq<(string, string)>): (r: seq<(string, string)>)
    ensures multiset(r) == multiset(items) + multiset{x}
  {
    if items == [] then [x]
    else if LexLess(x.0, items[0].0) then [x] + items
    else
      assert items == [items[0]] + items[1..];
      [items[0]] + InsertPair(x, items[1..])
  }

  lemma {:induction false} InsertPairSorted(x: (string, string), items: seq<(string, string)>)
    requires KeysSorted(items)
    requires forall i :: 0 <= i < |items| ==> items[i].0 != x.0
    ensures KeysSorted(InsertPair(x, items))
  {
    if items == [] {
    } else if LexLess(x.0, items[0].0) {
      forall j | 0 < j < |items|
        ensures LexLess(x.0, items[j].0)
      {
        LexTransitive(x.0, items[0].0, items[j].0);
      }
    } else {
      var rest := items[1..];
      InsertPairSorted(x, rest);
      LexTotal(x.0, items[0].0);
      var r := InsertPair(x, rest);
      assert forall k :: 0 <= k < |r| ==> r[k] in multiset(rest) + multiset{x};
      forall k | 0 <= k < |r|
        ensures LexLess(items[0].0, r[k].0)
      {
        assert r[k] in multiset(rest) + multiset{x};
        if r[k] != x {
          assert r[k] in rest;
        }
      }
    }
  }

  /** `sorted(params.items())`: with distinct keys the pairs are ordered by
      key alone. */
  function SortPairs(items: seq<(string, string)>): (r: seq<(string, string)>)
    ensures multiset(r) == multiset(items)
  {
    if items == [] then []
    else
      assert items == [items[0]] + items[1..];
      InsertPair(items[0], SortPairs(items[1..]))
  }

  lemma {:induction false} SortPairsSorted(items: seq<(string, string)>)
    requires DistinctKeys(items)
    ensures KeysSorted(SortPairs(items))
  {
    if items != [] {
      var rest := SortPairs(items[1..]);
      SortPairsSorted(items[1..]);
      forall i | 0 <= i < |rest|
        ensures rest[i].0 != items[0].0
      {
        assert rest[i] in multiset(items[1..]);
        var j :| 0 <= j < |items[1..]| && items[1..][j] == rest[i];
        assert items[j + 1] == rest[i];
      }
      InsertPairSorted(items[0], rest);
    }
  }

  /** Two key-sorted arrangements of the same pairs are the same sequence. */
  lemma {:induction false} SortedUnique(a: seq<(string, string)>, b: seq<(string, string)>)
    requires KeysSorted(a) && KeysSorted(b)
    requires multiset(a) == multiset(b)
    ensures a == b
    decreases |a|
  {
    if a == [] {
      assert |multiset(b)| == 0;
    } else {
      SortedHeads(a, b);
      TailMultisets(a, b);
      SortedUnique(a[1..], b[1..]);
      assert a == [a[0]] + a[1..] && b == [b[0]] + b[1..];
    }
  }

  /** The least pair of two key-sorted arrangements is the same pair. */
  lemma SortedHeads(a: seq<(string, string)>, b: seq<(string, string)>)
    requires KeysSorted(a) && KeysSorted(b)
    requires multiset(a) == multiset(b) && a != []
    ensures b != [] && a[0] == b[0]
  {
    assert a[0] in multiset(b);
    if a[0] != b[0] {
      assert b[0] in multiset(a);
      var i :| 0 <= i < |a| && a[i] == b[0];
      var j :| 0 <= j < |b| && b[j] == a[0];
      LexAsymmetric(a[0].0, a[i].0);
      assert false;
    }
  }

  lemma TailMultisets(a: seq<(string, string)>, b: seq<(string, string)>)
    requires a != [] && b != [] && a[0] == b[0]
    requires multiset(a) == multiset(b)
    ensures multiset(a[1..]) == multiset(b[1..])
  {
    assert a == [a[0]] + a[1..] && b == [b[0]] + b[1..];
    assert multiset(a[1..]) == multiset(a) - multiset{a[0]};
    assert multiset(b[1..]) == multiset(b) - multiset{b[0]};
  }

  /** `f"{k}={v}"` joined by `&`. */
  function ParamString(items: seq<(string, string)>): string {
    Join(Map(items, (kv: (string, string)) => kv.0 + "=" + kv.1), "&")
  }

  /** `cache_key(url, params)`: the lowered, normalised address, followed
      by the parameters in key order when there are any. A missing and an
      empty dictionary are both the empty sequence. */
  function CacheKey(url: string, params: seq<(string, string)>): (r: Result<string, Fault>)
    requires DistinctKeys(params)
    ensures r.Failure? <==> ValidateUrl(Lower(url)).Failure?
    ensures r.Success? && params == [] ==> r.value == "url:" + ValidateUrl(Lower(url)).value
    ensures r.Success? && params != [] ==>
      exists sorted :: KeysSorted(sorted) && multiset(sorted) == multiset(params)
        && r.value == "url:" + ValidateUrl(Lower(url)).value + "|params:" + ParamString(sorted)
  {
    var normalized :- ValidateUrl(Lower(url));
    if params == [] then Success("url:" + normalized)
    else
      SortPairsSorted(params);
      Success("url:" + normalized + "|params:" + ParamString(SortPairs(params)))
  }

  /** The key does not depend on the order the parameters were inserted
      in. */
  lemma CacheKeyOrderFree(url: string, p: seq<(string, string)>, q: seq<(string, string)>)
    requires DistinctKeys(p) && DistinctKeys(q)
    requires multiset(p) == multiset(q)
    ensures CacheKey(url, p) == CacheKey(url, q)
  {
    SortPairsSorted(p);
    SortPairsSorted(q);
    SortedUnique(SortPairs(p), SortPairs(q));
    assert p == [] <==> q == [] by {
      assert |multiset(p)| == |p| && |multiset(q)| == |q|;
    }
  }
}

=== FILE: url_validator.dfy ===
/** URL validation helpers: the validity check with its IPv4, label and
    top-level-domain rules, normalisation to a canonical https address,
    and domain extraction. None of them raises: a parse failure gives
    `false` or the (scheme-prefixed) input back. */
module UrlValidator {
  import opened Wrappers
  import opened Seqs
  import opened Strings
  import opened Urls

  const CommonTlds: set<string> := {
    "com", "org", "net", "int", "edu", "gov", "mil", "biz", "info", "name",
    "pro", "aero", "coop", "museum", "app", "dev", "io", "co", "me", "online",
    "store", "xyz", "site", "shop", "blog", "tech", "ai",
    "ru", "us", "uk", "ca", "au", "de", "fr", "es", "it", "cn", "jp", "br",
    "mx", "in", "kr", "nl", "se", "no", "fi", "dk", "pl", "cz", "at", "ch",
    "be", "ie", "nz", "sg", "ae", "za"}

  predicate IsCommonTld(t: string) {
    t in CommonTlds
  }


  predicate HasWebScheme(url: string) {
    StartsWith(url, "http://") || StartsWith(url, "https://")
  }

  /** The `https://` prefix every helper adds to a scheme-less input. */
  function WithScheme(url: string): (r: string)
    ensures HasWebScheme(r)
    ensures HasWebScheme(url) <==> r == url
    ensures !HasWebScheme(url) <==> r == "https://" + url
  {
    if HasWebScheme(url) then url
    else
      assert ("https://" + url)[..8] == "https://";
      "https://" + url
  }

  /* --------------------------------------------------------- is_valid_url */

  predicate IsAlnum(c: char) {
    IsAsciiLetter(c) || IsDigit(c)
  }

  predicate IsLabelChar(c: char) {
    IsAlnum(c) || c == '-'
  }

  /** `^[a-zA-Z0-9]([a-zA-Z0-9-]{0,61}[a-zA-Z0-9])?$`, read off the pattern:
      one alphanumeric, optionally followed by up to 61 label characters and
      a final alphanumeric. */
  predicate LabelMatches(l: string) {
    |l| >= 1 && IsAlnum(l[0])
    && (|l| == 1
        || (|l| - 2 <= 61 && IsAlnum(l[|l| - 1]) && forall i :: 1 <= i < |l| - 1 ==> IsLabelChar(l[i])))
  }

  /** The label rule in words: 1 to 63 letters, digits or hyphens, neither
      starting nor ending with a hyphen. */
  lemma LabelMatchesIff(l: string)
    ensures LabelMatches(l) <==>
      1 <= |l| <= 63 && (forall i :: 0 <= i < |l| ==> IsLabelChar(l[i])) && l[0] != '-' && l[|l| - 1] != '-'
  {
  }

  /** A decimal octet as `ipaddress` accepts it: one to three ASCII digits,
      no leading zero, at most 255. */
  predicate IsOctet(o: string) {
    1 <= |o| <= 3 && (forall i :: 0 <= i < |o| ==> IsDigit(o[i]))
    && (o == "0" || o[0] != '0') && DigitsValue(o) <= 255
  }

  /** `ipaddress.ip_address(host)` succeeds. The host is cut at the first
      `:`, so only the dotted IPv4 form can succeed. */
  predicate IsIPv4(host: string) {
    var parts := SplitOn(host, ".");
    |parts| == 4 && forall i :: 0 <= i < 4 ==> IsOctet(parts[i])
  }

  /** `netloc.split(':')[0]`. */
  function HostOf(netloc: string): (r: string)
    ensures !HasChar(r, ':')
    ensures !HasChar(netloc, ':') ==> r == netloc
    ensures r <= netloc
    ensures HasChar(netloc, ':') ==> |r| < |netloc| && netloc[|r|] == ':'
  {
    FirstPiece(netloc);
    SplitOnPiecesFree(netloc, ":");
    ContainsChar(SplitOn(netloc, ":")[0], ':');
    ContainsChar(netloc, ':');
    SplitOn(netloc, ":")[0]
  }

  /** The first `:`-piece is a prefix, followed by the `:` when there is one. */
  lemma FirstPiece(netloc: string)
    ensures SplitOn(netloc, ":")[0] <= netloc
    ensures Contains(netloc, ":") ==>
      |SplitOn(netloc, ":")[0]| < |netloc| && netloc[|SplitOn(netloc, ":")[0]|] == ':'
  {
    SplitOnHead(netloc, ":");
    if Contains(netloc, ":") {
      assert OccursAt(netloc, ":", IndexOf(netloc, ":").value);
    }
  }

  /** The verdict for a parsed address. */
  function ValidParsed(p: Url): bool {
    if p.scheme == "" || p.netloc == "" then false
    else if p.scheme != "http" && p.scheme != "https" then false
    else
      var host := HostOf(p.netloc);
      if IsIPv4(host) then true
      else
        var labels := SplitOn(host, ".");
        if |labels| < 2 then false
        else
          var tld := Lower(labels[|labels| - 1]);
          if |tld| < 2 then false
          else if |labels| == 2 && !IsCommonTld(tld) then false
          else forall i :: 0 <= i < |labels| ==> LabelMatches(labels[i])
  }

  /** `is_valid_url(url)`. */
  function IsValidUrl(url: string): (r: bool)
    ensures r ==> Parse(WithScheme(url)).Success?
  {
    match Parse(WithScheme(url))
    case Failure(_) => false
    case Success(p) => ValidParsed(p)
  }

  /** A host that is not an IP literal needs at least two labels, a
      top-level domain of two or more characters, a common top-level domain
      when there are exactly two labels, and well-formed labels. */
  lemma IsValidUrlRules(url: string)
    requires Parse(WithScheme(url)).Success?
    ensures var p := Parse(WithScheme(url)).value;
      var host := HostOf(p.netloc);
      var labels := SplitOn(host, ".");
      IsValidUrl(url) && !IsIPv4(host) ==>
        && |labels| >= 2
        && |labels[|labels| - 1]| >= 2
        && (|labels| == 2 ==> IsCommonTld(Lower(labels[1])))
        && (forall i :: 0 <= i < |labels| ==> LabelMatches(labels[i]))
  {
    var p := Parse(WithScheme(url)).value;
    assert IsValidUrl(url) == ValidParsed(p);
    ValidParsedRules(p);
  }

  lemma ValidParsedRules(p: Url)
    ensures var host := HostOf(p.netloc);
      var labels := SplitOn(host, ".");
      ValidParsed(p) && !IsIPv4(host) ==>
        && |labels| >= 2
        && |labels[|labels| - 1]| >= 2
        && (|labels| == 2 ==> IsCommonTld(Lower(labels[1])))
        && (forall i :: 0 <= i < |labels| ==> LabelMatches(labels[i]))
  {
    var host := HostOf(p.netloc);
    if ValidParsed(p) && !IsIPv4(host) {
      var labels := SplitOn(host, ".");
      assert |Lower(labels[|labels| - 1])| == |labels[|labels| - 1]|;
    }
  }

  /** Every accepted address has an http or https scheme and a network
      location; an IPv4 host with such a scheme is accepted. */
  lemma IsValidUrlIPv4(url: string)
    requires Parse(WithScheme(url)).Success?
    ensures var p := Parse(WithScheme(url)).value;
      IsValidUrl(url) ==> (p.scheme == "http" || p.scheme == "https") && p.netloc != ""
    ensures var p := Parse(WithScheme(url)).value;
      (p.scheme == "http" || p.scheme == "https") && p.netloc != "" && IsIPv4(HostOf(p.netloc)) ==> IsValidUrl(url)
  {
  }

  /** The acceptance rule for a host name written after `https://`: an
      IPv4 literal, or at least two well-formed labels with a top-level
      domain of two or more characters that is a common one when there are
      only two labels. */
  predicate AcceptedHost(host: string) {
    var labels := SplitOn(host, ".");
    IsIPv4(host)
    || (&& |labels| >= 2
        && |labels[|labels| - 1]| >= 2
        && (|labels| == 2 ==> IsCommonTld(Lower(labels[1])))
        && (forall i :: 0 <= i < |labels| ==> LabelMatches(labels[i])))
  }

  /** For a host of letters, digits, hyphens and dots, `is_valid_url`
      accepts `https://host` exactly when the host meets the rule. */
  lemma IsValidUrlIff(host: string)
    requires host != [] && All(host, IsHostChar)
    ensures IsValidUrl("https://" + host) <==> AcceptedHost(host)
  {
    var u := ParsesAsHttps(host);
    assert IsValidUrl("https://" + host) == ValidParsed(u);
    ValidParsedHost(u);
  }

  /** For an https record whose network location has no port, the verdict
      is the host rule. */
  lemma ValidParsedHost(u: Url)
    requires u.scheme == "https" && u.netloc != "" && !HasChar(u.netloc, ':')
    ensures ValidParsed(u) <==> AcceptedHost(u.netloc)
  {
    var host := HostOf(u.netloc);
    assert host == u.netloc;
    var labels := SplitOn(host, ".");
    if |labels| >= 2 {
      assert |Lower(labels[|labels| - 1])| == |labels[|labels| - 1]|;
    }
  }

  /** `https://` followed by a host of label characters and dots parses as
      that host with an https scheme. */
  lemma ParsesAsHttps(host: string) returns (u: Url)
    requires host != [] && All(host, IsHostChar)
    ensures u == Url("https", host, "", "", "", "")
    ensures Parse(WithScheme("https://" + host)) == Success(u)
    ensures !HasChar(host, ':')
  {
    u := Url("https", host, "", "", "", "");
    HostIsWellFormed(host);
    ParseUnparse(u);
    UnparseHost(host, u);
  }

  /** The host-only https URL prints as `https://` and the host. */
  lemma UnparseHost(host: string, u: Url)
    requires u == Url("https", host, "", "", "", "") && WellFormed(u)
    ensures Unparse(u) == "https://" + host
  {
    UnparseLayout(u);
    assert PathPart(u) + QueryPart(u) + FragmentPart(u) == "";
  }

  lemma HostIsWellFormed(host: string)
    requires host != [] && All(host, IsHostChar)
    ensures WellFormed(Url("https", host, "", "", "", ""))
    ensures !HasChar(host, ':')
  {
    assert !HasChar(host, '[') && !HasChar(host, ']');
  }

  predicate IsHostChar(c: char) {
    IsLabelChar(c) || c == '.'
  }

  /* -------------------------------------------------------- normalize_url */

  /** The components `normalize_url` reassembles: https scheme, a leading
      `www.` dropped when present, a bare `/` path emptied or else one
      trailing `/` dropped when present,
      the fragment dropped, parameters and query kept. */
  function NormalizeParts(p: Url): (r: Url)
    ensures r.scheme == "https" && r.fragment == ""
    ensures r.params == p.params && r.query == p.query
    ensures p.netloc == r.netloc || p.netloc == "www." + r.netloc
    ensures p.path == r.path || p.path == r.path + "/"
    ensures p.path == "/" ==> r.path == ""
    ensures StartsWith(p.netloc, "www.") ==> p.netloc == "www." + r.netloc
    ensures !StartsWith(p.netloc, "www.") ==> r.netloc == p.netloc
    ensures p.path != "/" && EndsWith(p.path, "/") ==> p.path == r.path + "/"
    ensures !EndsWith(p.path, "/") ==> r.path == p.path
  {
    var netloc := if StartsWith(p.netloc, "www.") then p.netloc[4..] else p.netloc;
    assert StartsWith(p.netloc, "www.") ==> p.netloc == "www." + netloc;
    var path :=
      if p.path == "/" then ""
      else if EndsWith(p.path, "/") then p.path[..|p.path| - 1]
      else p.path;
    assert EndsWith(p.path, "/") ==> p.path == p.path[..|p.path| - 1] + "/";
    Url("https", netloc, path, p.params, p.query, "")
  }

  /** `normalize_url(url)`. */
  function NormalizeUrl(url: string): (r: string)
    ensures Parse(WithScheme(url)).Failure? ==> r == WithScheme(url)
    ensures Parse(WithScheme(url)).Success? ==> StartsWith(r, "https://")
  {
    match Parse(WithScheme(url))
    case Failure(_) => WithScheme(url)
    case Success(p) =>
      var r := Unparse(NormalizeParts(p));
      NormalizedHasSlashes(NormalizeParts(p));
      r
  }

  /** `urlunparse` of an https record always writes `https://`: either the
      `//` it adds itself or a path that already begins with `//`. */
  lemma NormalizedHasSlashes(u: Url)
    requires u.scheme == "https"
    ensures StartsWith(Unparse(u), "https://")
  {
    LocatedSlashes(u);
    var rest := Located(u) + QueryPart(u) + FragmentPart(u);
    assert rest[..2] == "//";
    assert Unparse(u) == "https" + ":" + rest;
    assert ("https" + ":" + rest)[..8] == "https:" + rest[..2];
  }

  /** For a scheme that expects a network location, the located part
      begins with `//`. */
  lemma LocatedSlashes(u: Url)
    requires u.scheme == "https"
    ensures StartsWith(Located(u), "//")
  {
    assert "https" in UsesNetloc;
  }

  /** The normalised address reads back as the normalised components: no
      fragment, the parameters and query of the input. */
  lemma NormalizeUrlReadsBack(url: string)
    requires Parse(WithScheme(url)).Success?
    requires WellFormed(NormalizeParts(Parse(WithScheme(url)).value))
    ensures Parse(NormalizeUrl(url)) == Success(NormalizeParts(Parse(WithScheme(url)).value))
  {
    ParseUnparse(NormalizeParts(Parse(WithScheme(url)).value));
  }

  /* ------------------------------------------------------- extract_domain */

  /** `extract_domain(url)`. */
  function ExtractDomain(url: string): (r: string)
    ensures Parse(WithScheme(url)).Failure? ==> r == WithScheme(url)
    ensures Parse(WithScheme(url)).Success? ==> !HasChar(r, ':')
  {
    match Parse(WithScheme(url))
    case Failure(_) => WithScheme(url)
    case Success(p) => DomainOf(p.netloc)
  }

  /** The domain of a network location: the port dropped, then one
      leading `www.` dropped. */
  function DomainOf(netloc: string): (r: string)
    ensures !HasChar(r, ':')
    ensures !HasChar(netloc, ':') && !StartsWith(netloc, "www.") ==> r == netloc
  {
    var host := if HasChar(netloc, ':') then HostOf(netloc) else netloc;
    if StartsWith(host, "www.") then
      var d := host[4..];
      assert forall i :: 0 <= i < |d| ==> d[i] == host[i + 4];
      d
    else host
  }

  /** The port is cut at the first `:` and then one leading `www.` is
      dropped: a bare host, the host behind `www.`, and either of those with a
      port all give the bare host. */
  lemma DomainOfForms(h: string, port: string)
    requires !HasChar(h, ':') && !StartsWith(h, "www.")
    ensures DomainOf(h) == h
    ensures DomainOf("www." + h) == h
    ensures DomainOf(h + ":" + port) == h
    ensures DomainOf("www." + h + ":" + port) == h
  {
    HostCut(h, port);
    HostCut("www." + h, port);
    assert ("www." + h)[..4] == "www.";
    assert ("www." + h)[4..] == h;
    assert !HasChar("www." + h, ':') by {
      forall i | 0 <= i < |"www." + h| ensures ("www." + h)[i] != ':' {
        if i >= 4 { assert ("www." + h)[i] == h[i - 4]; }
      }
    }
  }

  /** The host of a network location with a port is what precedes the `:`. */
  lemma HostCut(h: string, port: string)
    requires !HasChar(h, ':')
    ensures HostOf(h + ":" + port) == h
  {
    var n := h + ":" + port;
    assert n[|h|] == ':';
    var r := HostOf(n);
    assert r <= n;
    assert r == n[..|h|];
  }

  /** Extracting the domain of a well-formed address reads the domain of its
      network location. */
  lemma ExtractDomainReadsNetloc(u: Url)
    requires WellFormed(u)
    ensures ExtractDomain(Unparse(u)) == DomainOf(u.netloc)
  {
    ParseUnparse(u);
    UnparseIsWeb(u);
  }

  /** Extracting the domain of a well-formed address whose network location
      has no port and no `www.` gives that network location back. */
  lemma ExtractDomainOfWellFormed(u: Url)
    requires WellFormed(u)
    requires !HasChar(u.netloc, ':') && !StartsWith(u.netloc, "www.")
    ensures ExtractDomain(Unparse(u)) == u.netloc
  {
    ParseUnparse(u);
    UnparseIsWeb(u);
  }

  /** A well-formed address needs no scheme prefix. */
  lemma UnparseIsWeb(u: Url)
    requires WellFormed(u)
    ensures WithScheme(Unparse(u)) == Unparse(u)
  {
    UnparseLayout(u);
    var s := Unparse(u);
    if u.scheme == "http" {
      assert s[..7] == "http://";
    } else {
      assert s[..8] == "https://";
    }
  }
}

=== FILE: urls.dfy ===
/** `urllib.parse.urlparse` and `urlunparse` as the analyzers use them
    (Python 3.11): the URL is split into scheme, network location, path,
    parameters, query and fragment. Parsing fails here exactly when the
    network location has a `[` without a `]` or the reverse. Two further
    rejections of `urlsplit` are not modelled: a non-ASCII network location
    whose NFKC normal form gains one of `/?#@:`, and a bracketed host that is
    not a valid IPv6 or IPvFuture address. */
module Urls {
  import opened Wrappers
  import opened Seqs
  import opened Strings

  datatype Url = Url(scheme: string, netloc: string, path: string, params: string, query: string, fragment: string)

  /** Schemes for which `urlunparse` writes `//` even without a network
      location. */
  const UsesNetloc: seq<string> := ["", "ftp", "http", "gopher", "nntp", "telnet", "imap", "wais", "file",
    "mms", "https", "shttp", "snews", "prospero", "rtsp", "rtspu", "rsync", "svn", "svn+ssh", "sftp",
    "nfs", "git", "git+ssh", "ws", "wss"]

  /** Schemes whose last path segment may carry `;parameters`. */
  const UsesParams: seq<string> := ["", "ftp", "hdl", "prospero", "http", "imap", "https", "shttp", "rtsp",
    "rtspu", "sip", "sips", "mms", "sftp", "tel"]

  predicate IsSchemeChar(c: char) {
    IsAsciiLetter(c) || IsDigit(c) || c == '+' || c == '-' || c == '.'
  }

  /** Characters stripped from the front of a URL (C0 controls and space). */
  predicate IsLeadingJunk(c: char) {
    c <= ' '
  }

  /** Tab, carriage return and line feed, removed from the whole URL. */
  predicate IsUnsafe(c: char) {
    c == '\t' || c == '\r' || c == '\n'
  }

  predicate KeepChar(c: char) {
    !IsUnsafe(c)
  }

  predicate NotColon(c: char) {
    c != ':'
  }

  predicate NotNetlocEnd(c: char) {
    c != '/' && c != '?' && c != '#'
  }

  predicate NotHash(c: char) {
    c != '#'
  }

  predicate NotQuestion(c: char) {
    c != '?'
  }

  predicate NotSemicolon(c: char) {
    c != ';'
  }

  /** The longest prefix of `s` whose characters all satisfy `p`. */
  function PrefixWhile(s: string, p: char -> bool): (r: string)
    ensures |r| <= |s| && r == s[..|r|]
  {
    s[..SpanLen(s, p)]
  }

  /** `SpanLen` is pinned down by its two defining facts. */
  lemma SpanLenIs(s: string, p: char -> bool, k: nat)
    requires k <= |s|
    requires forall i :: 0 <= i < k ==> p(s[i])
    requires k < |s| ==> !p(s[k])
    ensures SpanLen(s, p) == k
  {
  }

  /* ---------------------------------------------------------- stages */

  /** Leading junk stripped, then every tab and newline removed. */
  function Sanitize(s: string): (r: string)
    ensures forall c :: c in r ==> !IsUnsafe(c)
  {
    Filter(s[SpanLen(s, IsLeadingJunk)..], KeepChar)
  }

  /** A scheme is taken when the text before the first `:` is non-empty,
      starts with an ASCII letter and consists of scheme characters. */
  function SplitScheme(s: string): (r: (string, string))
    ensures r.0 == [] ==> r.1 == s
    ensures forall i :: 0 <= i < |r.0| ==> IsSchemeChar(r.0[i]) && !IsUpper(r.0[i])
  {
    var i := SpanLen(s, NotColon);
    if 0 < i < |s| && IsAsciiLetter(s[0]) && forall k :: 0 <= k < i ==> IsSchemeChar(s[k]) then
      (Lower(s[..i]), s[i + 1..])
    else ("", s)
  }

  predicate BracketsUnbalanced(netloc: string) {
    (HasChar(netloc, '[') && !HasChar(netloc, ']')) || (HasChar(netloc, ']') && !HasChar(netloc, '['))
  }

  /** After `//`, the network location runs to the first `/`, `?` or `#`. */
  function SplitNetloc(s: string): (r: Result<(string, string), Fault>)
    ensures r.Success? && StartsWith(s, "//") ==> r.value.0 + r.value.1 == s[2..]
    ensures r.Success? ==> forall i :: 0 <= i < |r.value.0| ==> NotNetlocEnd(r.value.0[i])
    ensures r.Failure? <==> StartsWith(s, "//") && BracketsUnbalanced(PrefixWhile(s[2..], NotNetlocEnd))
  {
    if StartsWith(s, "//") then
      var t := s[2..];
      var d := SpanLen(t, NotNetlocEnd);
      if BracketsUnbalanced(t[..d]) then Failure(InvalidIPv6Url)
      else
        assert t[..d] + t[d..] == t;
        Success((t[..d], t[d..]))
    else Success(("", s))
  }

  /** `s.split(c, 1)` when `c` occurs, else `(s, "")`. */
  function Cut(s: string, p: char -> bool): (r: (string, string))
    ensures forall i :: 0 <= i < |r.0| ==> p(r.0[i])
    ensures |r.0| == |s| ==> r == (s, "")
    ensures |r.0| < |s| ==> s == r.0 + [s[|r.0|]] + r.1 && !p(s[|r.0|])
  {
    var i := SpanLen(s, p);
    if i < |s| then
      assert s == s[..i] + [s[i]] + s[i + 1..];
      (s[..i], s[i + 1..])
    else (s, "")
  }

  /** Index of the last `/` in `s`, or `-1`. */
  function LastSlash(s: string): (r: int)
    ensures -1 <= r < |s|
    ensures r >= 0 ==> s[r] == '/'
    ensures forall i :: r < i < |s| ==> s[i] != '/'
  {
    if s == [] then -1
    else if s[|s| - 1] == '/' then |s| - 1
    else LastSlash(s[..|s| - 1])
  }

  /** `_splitparams`: the `;` that starts the parameters is the first one
      after the last `/` of the path (or the first one at all). */
  function SplitParams(url: string): (r: (string, string))
    requires HasChar(url, ';')
  {
    var from := if LastSlash(url) >= 0 then LastSlash(url) else 0;
    var j := SpanLen(url[from..], NotSemicolon);
    if from + j < |url| then (url[..from + j], url[from + j + 1..])
    else (url, "")
  }

  /** `urllib.parse.urlparse(s)`. */
  function Parse(s: string): (r: Result<Url, Fault>)
    ensures r.Success? ==> forall i :: 0 <= i < |r.value.netloc| ==> NotNetlocEnd(r.value.netloc[i])
    ensures r.Success? ==> forall i :: 0 <= i < |r.value.query| ==> r.value.query[i] != '#'
    ensures r.Success? ==> forall i :: 0 <= i < |r.value.scheme| ==> !IsUpper(r.value.scheme[i])
    ensures r.Success? ==> !BracketsUnbalanced(r.value.netloc)
  {
    var clean := Sanitize(s);
    var (scheme, afterScheme) := SplitScheme(clean);
    var split :- SplitNetloc(afterScheme);
    Success(Components(scheme, split.0, split.1))
  }

  /** The URL of the given scheme and network location whose fragment,
      query, parameters and path are read from what follows them. */
  function Components(scheme: string, netloc: string, rest: string): (u: Url)
    ensures u.scheme == scheme && u.netloc == netloc
    ensures forall i :: 0 <= i < |u.query| ==> u.query[i] != '#'
  {
    var (beforeHash, fragment) := Cut(rest, NotHash);
    var (url, query) := Cut(beforeHash, NotQuestion);
    var (path, params) := if scheme in UsesParams && HasChar(url, ';') then SplitParams(url) else (url, "");
    Url(scheme, netloc, path, params, query, fragment)
  }

  /** The network location of `urlparse(s)`, or the failure. */
  function Netloc(s: string): Result<string, Fault> {
    var u :- Parse(s);
    Success(u.netloc)
  }

  /** What `urljoin(base, href)` returns when it does not raise: the href
      for an empty base, the base for an empty href, and otherwise the
      resolution `resolve` computes from the two parsed addresses (the
      resolution itself is not modelled). */
  function Resolved(base: string, href: string, resolve: (string, string) -> string): string {
    if base == "" then href
    else if href == "" then base
    else resolve(base, href)
  }

  /** `urllib.parse.urljoin(base, href)`: with an empty base or an empty
      href nothing is parsed; otherwise the base and then the href go
      through `urlparse`, so an href it rejects makes `urljoin` raise. */
  function UrlJoin(base: string, href: string, resolve: (string, string) -> string): (r: Result<string, Fault>)
    ensures r.Failure? <==> base != "" && href != "" && (Parse(base).Failure? || Parse(href).Failure?)
    ensures r.Failure? ==> r.error == InvalidIPv6Url
    ensures r.Success? ==> r.value == Resolved(base, href, resolve)
    ensures base == "" ==> r == Success(href)
    ensures base != "" && href == "" ==> r == Success(base)
  {
    if base == "" then Success(href)
    else if href == "" then Success(base)
    else if Parse(base).Failure? || Parse(href).Failure? then Failure(InvalidIPv6Url)
    else Success(resolve(base, href))
  }

  /** An address `scheme://netloc` whose network location opens a bracket
      it never closes is rejected by `urlparse`. */
  lemma UnbalancedRejected(scheme: string, netloc: string)
    requires scheme != [] && IsAsciiLetter(scheme[0])
    requires forall i :: 0 <= i < |scheme| ==> IsSchemeChar(scheme[i]) && !IsUpper(scheme[i])
    requires All(netloc, NotNetlocEnd) && All(netloc, KeepChar)
    requires HasChar(netloc, '[') && !HasChar(netloc, ']')
    ensures Parse(scheme + "://" + netloc).Failure?
  {
    var h := scheme + "://" + netloc;
    SanitizeAddress(scheme, netloc);
    SplitSchemeOf(scheme, "//" + netloc);
    UnbalancedNetloc(netloc);
    ParseFailsOnNetloc(h);
  }

  /** An address made of a scheme, `://` and a network location without
      junk is left alone by the sanitising step. */
  lemma SanitizeAddress(scheme: string, netloc: string)
    requires scheme != [] && IsAsciiLetter(scheme[0])
    requires forall i :: 0 <= i < |scheme| ==> IsSchemeChar(scheme[i])
    requires All(netloc, KeepChar)
    ensures Sanitize(scheme + "://" + netloc) == scheme + ":" + ("//" + netloc)
  {
    var h := scheme + "://" + netloc;
    assert h == scheme + ":" + ("//" + netloc);
    assert forall i :: 0 <= i < |h| ==> h[i] in scheme || h[i] in "://" || h[i] in netloc;
    SanitizeClean(h);
  }

  /** A network location with `[` but no `]` defeats the split after `//`. */
  lemma UnbalancedNetloc(netloc: string)
    requires All(netloc, NotNetlocEnd)
    requires HasChar(netloc, '[') && !HasChar(netloc, ']')
    ensures SplitNetloc("//" + netloc).Failure?
  {
    var rest := "//" + netloc;
    assert rest[2..] == netloc;
    SpanLenExact(netloc, NotNetlocEnd, |netloc|);
    assert StartsWith(rest, "//");
  }

  /** `urlparse` raises whenever splitting off the network location does. */
  lemma ParseFailsOnNetloc(s: string)
    requires SplitNetloc(SplitScheme(Sanitize(s)).1).Failure?
    ensures Parse(s).Failure?
  {
  }

  /** `urllib.parse.urlunparse(u)` (also `ParseResult.geturl()`). */
  function Unparse(u: Url): (r: string)
    ensures u.scheme != [] ==> StartsWith(r, u.scheme + ":")
  {
    var rest := Located(u) + QueryPart(u) + FragmentPart(u);
    if u.scheme != "" then
      PrefixStarts(u.scheme + ":", rest, u.scheme + ":" + rest);
      u.scheme + ":" + rest
    else rest
  }

  /** The path and parameters, behind `//` and the network location when
      there is one or the scheme expects one. */
  function Located(u: Url): string {
    var url := PathPart(u);
    if u.netloc != "" || (u.scheme != "" && u.scheme in UsesNetloc && !StartsWith(url, "//")) then
      "//" + u.netloc + (if url != "" && url[0] != '/' then "/" + url else url)
    else url
  }

  /** A string made of a prefix and a tail starts with that prefix. */
  lemma PrefixStarts(p: string, t: string, r: string)
    requires r == p + t
    ensures StartsWith(r, p)
  {
    assert r[..|p|] == p;
  }

  /* ------------------------------------------------------ round trip */

  predicate All(s: string, p: char -> bool) {
    forall i :: 0 <= i < |s| ==> p(s[i])
  }

  lemma AllConcat(a: string, b: string, p: char -> bool)
    requires All(a, p) && All(b, p)
    ensures All(a + b, p)
  {
    forall i | 0 <= i < |a + b|
      ensures p((a + b)[i])
    {
      if i >= |a| {
        assert (a + b)[i] == b[i - |a|];
      }
    }
  }

  predicate NotParamsEnd(c: char) {
    c != '?' && c != '#' && c != '/'
  }

  predicate NotPathEnd(c: char) {
    c != '?' && c != '#' && c != ';'
  }

  /** A web address in the shape `urlunparse` writes and `urlparse` reads
      back unchanged. */
  predicate WellFormed(u: Url) {
    && (u.scheme == "http" || u.scheme == "https")
    && u.netloc != ""
    && All(u.netloc, NotNetlocEnd) && All(u.netloc, KeepChar)
    && !BracketsUnbalanced(u.netloc)
    && (u.path == "" || u.path[0] == '/')
    && All(u.path, NotPathEnd) && All(u.path, KeepChar)
    && (u.params != "" ==> u.path != "")
    && All(u.params, NotParamsEnd) && All(u.params, KeepChar)
    && All(u.query, NotHash) && All(u.query, KeepChar)
    && All(u.fragment, KeepChar)
  }

  function PathPart(u: Url): string {
    if u.params != "" then u.path + ";" + u.params else u.path
  }

  function QueryPart(u: Url): string {
    if u.query != "" then "?" + u.query else ""
  }

  function FragmentPart(u: Url): string {
    if u.fragment != "" then "#" + u.fragment else ""
  }

  /** The layout of `urlunparse` for a well-formed address. */
  lemma UnparseLayout(u: Url)
    requires WellFormed(u)
    ensures Unparse(u) == u.scheme + ":" + ("//" + u.netloc + (PathPart(u) + QueryPart(u) + FragmentPart(u)))
  {
    var url := PathPart(u);
    assert url != "" ==> url[0] == '/' by {
      if u.params != "" {
        assert url[0] == u.path[0];
      }
    }
    assert Located(u) == "//" + u.netloc + url;
    var a, b, c := QueryPart(u), FragmentPart(u), "//" + u.netloc;
    assert c + url + a + b == c + (url + a + b);
  }

  /** `urlparse` as the composition of its stages. */
  lemma ParseOf(s: string, scheme: string, afterScheme: string, netloc: string, rest: string,
                beforeHash: string, fragment: string, url: string, query: string, path: string, params: string)
    requires Sanitize(s) == s
    requires SplitScheme(s) == (scheme, afterScheme)
    requires SplitNetloc(afterScheme) == Success((netloc, rest))
    requires Cut(rest, NotHash) == (beforeHash, fragment)
    requires Cut(beforeHash, NotQuestion) == (url, query)
    requires (if scheme in UsesParams && HasChar(url, ';') then SplitParams(url) else (url, "")) == (path, params)
    ensures Parse(s) == Success(Url(scheme, netloc, path, params, query, fragment))
  {
  }

  lemma SanitizeClean(s: string)
    requires s != [] && !IsLeadingJunk(s[0])
    requires All(s, KeepChar)
    ensures Sanitize(s) == s
  {
    SpanLenIs(s, IsLeadingJunk, 0);
    FilterAllKept(s, KeepChar);
  }

  lemma SplitSchemeOf(scheme: string, rest: string)
    requires scheme != [] && IsAsciiLetter(scheme[0])
    requires forall i :: 0 <= i < |scheme| ==> IsSchemeChar(scheme[i]) && !IsUpper(scheme[i])
    ensures SplitScheme(scheme + ":" + rest) == (scheme, rest)
  {
    var s := scheme + ":" + rest;
    SpanLenIs(s, NotColon, |scheme|);
    assert s[..|scheme|] == scheme;
    assert s[|scheme| + 1..] == rest;
    assert Lower(scheme) == scheme;
  }

  lemma SplitNetlocOf(netloc: string, rest: string)
    requires All(netloc, NotNetlocEnd)
    requires !BracketsUnbalanced(netloc)
    requires rest == [] || !NotNetlocEnd(rest[0])
    ensures SplitNetloc("//" + netloc + rest) == Success((netloc, rest))
  {
    var s := "//" + netloc + rest;
    var t := s[2..];
    assert t == netloc + rest;
    SpanLenIs(t, NotNetlocEnd, |netloc|);
    assert t[..|netloc|] == netloc;
    assert t[|netloc|..] == rest;
  }

  lemma CutOf(before: string, sep: char, after: string, p: char -> bool)
    requires All(before, p)
    requires !p(sep)
    ensures Cut(before + [sep] + after, p) == (before, after)
  {
    var s := before + [sep] + after;
    SpanLenIs(s, p, |before|);
    assert s[..|before|] == before;
    assert s[|before| + 1..] == after;
  }

  lemma CutNone(s: string, p: char -> bool)
    requires All(s, p)
    ensures Cut(s, p) == (s, "")
  {
    SpanLenIs(s, p, |s|);
  }

  lemma SplitParamsOf(path: string, params: string)
    requires path != [] && path[0] == '/'
    requires All(path, NotSemicolon)
    requires All(params, NotParamsEnd)
    ensures HasChar(path + ";" + params, ';')
    ensures SplitParams(path + ";" + params) == (path, params)
  {
    var url := path + ";" + params;
    assert url[|path|] == ';';
    assert url[0] == '/';
    assert forall k :: |path| <= k < |url| ==> url[k] != '/' by {
      forall k | |path| < k < |url|
        ensures url[k] != '/'
      {
        assert url[k] == params[k - |path| - 1];
      }
    }
    var last := LastSlash(url);
    SpanLenIs(url[last..], NotSemicolon, |path| - last);
    assert url[..|path|] == path;
    assert url[|path| + 1..] == params;
  }

  /** The pieces of a well-formed address keep their separators apart. */
  lemma WellFormedPieces(u: Url)
    requires WellFormed(u)
    ensures All(PathPart(u), NotQuestion) && All(PathPart(u), NotHash) && All(PathPart(u), KeepChar)
    ensures All(PathPart(u) + QueryPart(u), NotHash) && All(PathPart(u) + QueryPart(u), KeepChar)
    ensures All(PathPart(u) + QueryPart(u) + FragmentPart(u), KeepChar)
    ensures u.scheme in UsesParams
    ensures HasChar(PathPart(u), ';') <==> u.params != ""
  {
    var pp := PathPart(u);
    if u.params != "" {
      assert pp[|u.path|] == ';';
      forall i | 0 <= i < |pp|
        ensures NotQuestion(pp[i]) && NotHash(pp[i]) && KeepChar(pp[i])
      {
        if i > |u.path| {
          assert pp[i] == u.params[i - |u.path| - 1];
        }
      }
    } else {
      forall i | 0 <= i < |pp|
        ensures pp[i] != ';'
      {
        assert pp[i] == u.path[i];
      }
    }
    assert All(QueryPart(u), NotHash) && All(QueryPart(u), KeepChar) by {
      if u.query != "" {
        AllConcat("?", u.query, NotHash);
        AllConcat("?", u.query, KeepChar);
      }
    }
    AllConcat(pp, QueryPart(u), NotHash);
    AllConcat(pp, QueryPart(u), KeepChar);
    assert All(FragmentPart(u), KeepChar) by {
      if u.fragment != "" {
        AllConcat("#", u.fragment, KeepChar);
      }
    }
    AllConcat(pp + QueryPart(u), FragmentPart(u), KeepChar);
  }

  /** The text after the network location splits back into path,
      parameters, query and fragment. */
  lemma SplitRestOf(u: Url)
    requires WellFormed(u)
    ensures Cut(PathPart(u) + QueryPart(u) + FragmentPart(u), NotHash) == (PathPart(u) + QueryPart(u), u.fragment)
    ensures Cut(PathPart(u) + QueryPart(u), NotQuestion) == (PathPart(u), u.query)
    ensures (if u.scheme in UsesParams && HasChar(PathPart(u), ';') then SplitParams(PathPart(u)) else (PathPart(u), "")) == (u.path, u.params)
  {
    WellFormedPieces(u);
    var pp := PathPart(u);
    var beforeHash := pp + QueryPart(u);
    var rest := beforeHash + FragmentPart(u);
    if u.fragment != "" {
      assert rest == beforeHash + ['#'] + u.fragment;
      CutOf(beforeHash, '#', u.fragment, NotHash);
    } else {
      assert rest == beforeHash;
      CutNone(rest, NotHash);
    }
    if u.query != "" {
      assert beforeHash == pp + ['?'] + u.query;
      CutOf(pp, '?', u.query, NotQuestion);
    } else {
      assert beforeHash == pp;
      CutNone(pp, NotQuestion);
    }
    if u.params != "" {
      assert All(u.path, NotSemicolon);
      SplitParamsOf(u.path, u.params);
    }
  }

  /** The text up to the network location splits back into scheme and
      network location. */
  lemma SplitHeadOf(u: Url, rest: string)
    requires WellFormed(u)
    requires All(rest, KeepChar)
    requires rest == [] || !NotNetlocEnd(rest[0])
    ensures Sanitize(u.scheme + ":" + ("//" + u.netloc + rest)) == u.scheme + ":" + ("//" + u.netloc + rest)
    ensures SplitScheme(u.scheme + ":" + ("//" + u.netloc + rest)) == (u.scheme, "//" + u.netloc + rest)
    ensures SplitNetloc("//" + u.netloc + rest) == Success((u.netloc, rest))
  {
    HeadClean(u.scheme, u.netloc, rest);
    SplitSchemeOf(u.scheme, "//" + u.netloc + rest);
    SplitNetlocOf(u.netloc, rest);
  }

  /** A web scheme, `//`, a clean network location and clean text after it
      need no sanitising. */
  lemma HeadClean(scheme: string, netloc: string, rest: string)
    requires scheme == "http" || scheme == "https"
    requires All(netloc, KeepChar) && All(rest, KeepChar)
    ensures Sanitize(scheme + ":" + ("//" + netloc + rest)) == scheme + ":" + ("//" + netloc + rest)
  {
    var afterScheme := "//" + netloc + rest;
    AllConcat("//", netloc, KeepChar);
    AllConcat("//" + netloc, rest, KeepChar);
    AllConcat(scheme + ":", afterScheme, KeepChar);
    SanitizeClean(scheme + ":" + afterScheme);
  }

  /** `urlparse(urlunparse(u)) == u` for every well-formed address. */
  lemma {:induction false} ParseUnparse(u: Url)
    requires WellFormed(u)
    ensures Parse(Unparse(u)) == Success(u)
  {
    UnparseLayout(u);
    WellFormedPieces(u);
    var pp := PathPart(u);
    var beforeHash := pp + QueryPart(u);
    var rest := beforeHash + FragmentPart(u);
    assert rest == [] || !NotNetlocEnd(rest[0]);
    SplitHeadOf(u, rest);
    SplitRestOf(u);
    ParseOf(Unparse(u), u.scheme, "//" + u.netloc + rest, u.netloc, rest, beforeHash, u.fragment, pp, u.query, u.path, u.params);
  }

  /** Sanitising an address that starts with `https://` keeps that prefix
      and only drops the unsafe characters of the rest. */
  lemma SanitizeHttps(w: string)
    ensures Sanitize("https://" + w) == "https" + ":" + ("//" + Filter(w, KeepChar))
  {
    var pre := "https://";
    var s := pre + w;
    assert pre == ['h', 't', 't', 'p', 's', ':', '/', '/'];
    assert !IsLeadingJunk(s[0]);
    SpanLenIs(s, IsLeadingJunk, 0);
    assert Sanitize(s) == Filter(pre + w, KeepChar) by {
      assert s[0..] == s;
    }
    assert Filter(pre, KeepChar) == pre by {
      forall i | 0 <= i < |pre|
        ensures KeepChar(pre[i])
      {
      }
      FilterAllKept(pre, KeepChar);
    }
    FilterAppend(pre, w, KeepChar);
    HttpsPieces(Filter(w, KeepChar));
  }

  lemma HttpsPieces(rest: string)
    ensures "https" + ":" + ("//" + rest) == "https://" + rest
  {
    assert "https" + ":" + "//" == "https://";
  }

  /** Whatever follows `https://`, a successful parse reads the scheme
      `https`, so the scheme half of the verdict always holds after a
      rewrite. */
  lemma HttpsPrefixScheme(w: string)
    ensures Parse("https://" + w).Success? ==> Parse("https://" + w).value.scheme == "https"
  {
    SanitizeHttps(w);
    SplitSchemeOf("https", "//" + Filter(w, KeepChar));
  }
}

=== FILE: wrappers.dfy ===
/** Failure-compatible wrappers shared by every module of the model, and the
    catalogue of exceptions the analysed code can raise. */
module Wrappers {

  datatype Option<+T> = None | Some(value: T) {
    function GetOr(default: T): T {
      match this
      case Some(v) => v
      case None => default
    }
  }

  datatype Result<+R, +E> = Success(value: R) | Failure(error: E) {
    predicate IsFailure() {
      Failure?
    }

    function PropagateFailure<U>(): Result<U, E>
      requires Failure?
    {
      Failure(error)
    }

    function Extract(): R
      requires Success?
    {
      value
    }
  }

  /** The exceptions the Python code can raise on some input, named by cause. */
  datatype Fault =
    | InvalidIPv6Url        // urlparse: '[' without ']' (or the reverse) in the netloc
    | NoHtmlElement         // `soup.html.get(...)` on a document without <html>
    | UnboundUrlName        // the free name `url` in the competitive analyzer
    | NoneTitleString       // `.string` of a <title> is None and is then used as text
    | MissingRecommendations // `pagespeed_data['recommendations']` on a dict without that key
    | EmptyMaxArgument      // `max(...)` of an empty list
}
